=== FILE: README.md ===
# Wireless sensor network node: memory codec and firmware core in Dafny

This project models the core of a small wireless sensor network: battery
powered nodes that measure temperature and humidity and report to a main
unit that keeps statistics and shows them on a display. Two layers are
modelled.

**The host memory tool** (`scripts/memory/nvm.py`). It reads and writes the
configuration record and the error log in a device's EEPROM image:
- the CRC-16 that seals the record (`Crc16`, `Crc16Table`);
- the record's field setters and validation, and its fixed byte layout with
  the CRC appended (`NvmConfig`);
- the 10-byte error log slots, scanned at a fixed stride over a fixed
  address window (`NvmErrorLog`);
- the EEPROM image as an address-to-byte map (`HexImage`);
- the hexadecimal and ASCII helpers for the network id and the AES key
  (`Text`, `Bytes`).

**The firmware utilities** (`firmware/src/utility`, `firmware/src/common`):
- the bitwise CRC-16 (`Crc16`), shown equal to the host's table-driven
  form (`Crc16Table`), and the configuration record in EEPROM (`DeviceConfig`);
- the byte FIFO over a fixed buffer (`Fifo`);
- BCD conversion (`Bcd`) and bit manipulation (`Bit`, `RegisterBits`);
- the millisecond timer with its 32-bit wrap (`Timer`);
- calendar time in the 2000..2099 range (`Time`): validity, days in a
  month, leap years, day of the week, daylight saving from the last Sunday of March to the last Sunday of October,
  timestamps, and the Add* operations;
- the circular error log in EEPROM (`ErrorHandler`);
- the moving average filter (`Filter`);
- the singly linked list (`LinkedList`).

**The firmware modules and drivers**:
- the node's power state machine (`Power`);
- the main unit's per-sensor statistics, sealed with a CRC (`Sensor`);
- the display frame buffer (`Display`);
- the MCP79510 real-time clock of the node (`Mcp79510`);
- the DS3234 real-time clock of the main unit (`Ds3234`);
- the DHT22 temperature and humidity sensor: the request, the
  input-capture of its 43 edges, and the decoding of its 5-byte frame (`Dht22`).

Registers of the two clock chips are a map from register address to byte.
SPI transfers become reads and writes of that map. Hardware state that the
firmware reads is passed in as parameters: the millisecond counter, the
charger's pins, the captured timer values.

Integers are unbounded in Dafny. Every fixed width the C code relies on is
written out: `uint8_t`, `uint16_t` and `uint32_t` arithmetic wraps
explicitly, and truncating casts are explicit remainders. The
`Wrappers.Result` type carries the error paths. Each `sc_assert` becomes
a precondition where it checks what a caller passes in. Where the module's
own state or data can fail it, it becomes an `Err(AssertionFailed)` result
(the error log, the calendar arithmetic, the power and sensor modules).

The host tool and the firmware use two different layouts for the
configuration record:
- the host record `'H6sI17sBBB'` + `'H'` uses native `struct` alignment, so
  the 32-bit report interval starts at offset 8. Its payload is 32 bytes,
  ending with three address bytes, and the whole record is 34 bytes, with
  the CRC at offset 32;
- the firmware `config_t` is 32 bytes: after the key comes a single
  `node_id` byte, and the CRC sits at offset 30.

The host reads the error log from the slots of `range(0x22, 0x340, 10)`,
which are 80.

## Model

| member | source | states |
|---|---|---|
| NvmConfig.FitBytes | scripts/memory/nvm.py:99-123 | a string field of `N` bytes is truncated or zero-padded to exactly `N` bytes, byte for byte |
| NvmConfig.Payload | scripts/memory/nvm.py:114-123 | the packed `'H6sI17sBBB'` fields are 32 bytes |
| NvmConfig.CrcOf | scripts/memory/nvm.py:215-219 | the CRC property exists exactly when the fields pack and is a 16-bit value |
| NvmConfig.ToBytes | scripts/memory/nvm.py:99-123 | packing fails exactly when a numeric field does not fit its format code, at the first such field (the model records which); otherwise 32 bytes, or 34 with the CRC of the first 32 appended little-endian |
| NvmConfig.Decode | scripts/memory/nvm.py:72-85 | a 34-byte record decodes exactly when its stored CRC equals the CRC of its first 32 bytes, and fails with a CRC mismatch exactly when they differ |
| NvmConfig.FromEepImage | scripts/memory/nvm.py:66-85 | reading fails, naming a missing address of the 34-byte range, exactly when the image lacks one of those bytes; otherwise the result is the decode of those 34 bytes, CRC check included |
| NvmConfig.ToEepImage | scripts/memory/nvm.py:87-97 | writing succeeds exactly when the fields pack; it then puts the 34 bytes of `to_bytes(crc=True)` at addresses 0 to 33, keeps every other address of the image and adds none |
| NvmConfig.UnpackPayload | scripts/memory/nvm.py:99-123 | unpacking the packed payload returns every field, the byte strings fitted to their widths |
| NvmConfig.PayloadUnpack | scripts/memory/nvm.py:72-73 | packing the fields `struct.unpack` reads from any 32 bytes gives those bytes back |
| NvmConfig.DecodeToBytes | scripts/memory/nvm.py:72-112 | decoding what `to_bytes(crc=True)` produced succeeds and returns the same seven fields |
| NvmConfig.ToBytesDecode | scripts/memory/nvm.py:72-112 | a record that decodes is exactly the bytes `to_bytes(crc=True)` produces for its fields |
| NvmConfig.EepRoundTrip | scripts/memory/nvm.py:67-97 | saving to an image and loading it back returns the saved fields, whatever the image held |
| NvmConfig.SetVersion | scripts/memory/nvm.py:130-136 | the version is accepted exactly when it is nonzero and at most 0xffff; an accepted value changes only the version |
| NvmConfig.SetNetworkId | scripts/memory/nvm.py:143-149 | the network id is accepted exactly when the text is hex for exactly six bytes, which are stored; nothing else changes |
| NvmConfig.SetAesKey | scripts/memory/nvm.py:156-161 | the key is accepted exactly when it has 16 characters, and is stored UTF-8 encoded; nothing else changes |
| NvmConfig.AesKey | scripts/memory/nvm.py:151-154 | the getter decodes all 17 stored bytes, terminator included; when it succeeds the text encodes back to exactly those bytes, and it succeeds whenever some text encodes to them |
| NvmConfig.SetReportInterval | scripts/memory/nvm.py:168-174 | the interval is accepted exactly when it lies in 10..0xffffffff; nothing else changes |
| NvmConfig.SetMasterAddress | scripts/memory/nvm.py:181-187 | as written, an accepted value replaces only the master address |
| NvmConfig.SetAddress | scripts/memory/nvm.py:194-200 | as written, an accepted value replaces only the address |
| NvmConfig.SetBroadcastAddress | scripts/memory/nvm.py:207-213 | as written, an accepted value replaces only the broadcast address |
| NvmConfig.AddressSettersNeverRaise | scripts/memory/nvm.py:181-213 | as written, the guard `value == 0 and value > 255` accepts every value; an address above 255 fails only later, when packed |
| NvmConfig.SetAddressChecked | scripts/memory/nvm.py:194-200 | with the guard corrected, an address is accepted exactly when it lies in 1..255, and then replaces only the address |
| NvmConfig.CheckedAddressPacks | scripts/memory/nvm.py:99-123 | an address the corrected guard accepts, 1 to 255, always packs |
| NvmConfig.SetNetworkIdFromHex | scripts/memory/nvm.py:143-149 | setting the hex text of six bytes stores those six bytes |
| NvmConfig.AesKeyRoundTrip | scripts/memory/nvm.py:151-161 | the key getter returns what the setter was given |
| NvmConfig.LoadedAesKeyKeepsTerminator | scripts/memory/nvm.py:151-154 | a 16-character ASCII key saved to an EEPROM image and loaded back reads with a NUL appended: the getter decodes all 17 stored bytes, the padding byte included |
| NvmConfig.AsciiAesKeyLayout | scripts/memory/nvm.py:156-161 | an ASCII key fills the 17-byte field with its character codes and a zero terminator |
| Crc16.CalculateCrc16 | firmware/src/utility/CRC/CRC.c:63-92 | the byte loop computes the CRC-16 with polynomial 0x8005 and initial value 0, feeding each byte into the high byte and shifting it out MSB first; the empty input gives 0 |
| Crc16.ShiftByte | firmware/src/utility/CRC/CRC.c:76-88 | the inner loop applies the conditional shift-and-XOR exactly eight times |
| Crc16.CrcValue | firmware/src/utility/CRC/CRC.c:63-92 | the CRC is a 16-bit unsigned value |
| Crc16.CrcAppend | firmware/src/utility/CRC/CRC.c:71-89 | the CRC of a sequence with one more byte is one more step applied to the CRC of the prefix |
| Crc16.CrcOfZeros | firmware/src/utility/CRC/CRC.c:67-89 | the CRC of any number of zero bytes is 0, since the initial value is 0 and there is no final XOR |
| Crc16.CrcChain | firmware/src/utility/CRC/CRC.c:67-91 | a register trace that starts at the initial value and follows one step per byte ends at the CRC |
| Crc16.StepInjectiveInRegister | firmware/src/utility/CRC/CRC.c:73-88 | two different registers stay different after the same byte |
| Crc16.StepInjectiveInByte | firmware/src/utility/CRC/CRC.c:73-88 | the same register becomes different after two different bytes |
| Crc16.CrcKeepsDifference | firmware/src/utility/CRC/CRC.c:71-89 | inputs whose CRCs differ still differ after the same bytes are appended to both |
| Crc16.CrcDetectsByteChange | firmware/src/utility/CRC/CRC.c:63-92 | changing any one byte of the input changes the CRC |
| Crc16.CrcValueDetectsByteChange | firmware/src/common/Config.c:168-173 | changing any one byte of a record changes the stored CRC value |
| Crc16Table.TableStepIsStep | scripts/memory/nvm.py:61-64 | the table-driven step of the host tool's non-reflected CRC (table index = high byte XOR input byte) equals the firmware's eight-shift step on every register and byte |
| Crc16Table.LowByteShiftsUp | firmware/src/utility/CRC/CRC.c:77-88 | eight shifts of a register below 0x100 never meet the top bit, so they only move the low byte up |
| Crc16Table.ShiftBitsLinear | firmware/src/utility/CRC/CRC.c:77-88 | the eight conditional shifts are linear over XOR |
| Crc16Table.TableCrcIsCrc | scripts/memory/nvm.py:61-64 | the host tool's CRC (polynomial 0x18005, not reflected, initial value 0) and the firmware's CRC_16 agree on every input |
| HexImage.Gets | scripts/memory/nvm.py:335 | reading `n` bytes succeeds exactly when every address of the range holds data, returning them in order; otherwise it names an address of the range that holds none |
| HexImage.Puts | scripts/memory/nvm.py:87-97 | writing bytes sets exactly the written range and keeps every other address |
| HexImage.GetsPuts | scripts/memory/nvm.py:67-97 | reading back a range just written gives the written bytes |
| HexImage.GetsPutsDisjoint | scripts/memory/nvm.py:67-97 | writing a range does not change reads of a range that does not overlap it |
| NvmErrorLog.ToBytes | scripts/memory/nvm.py:246-254 | packing `'IIBB'` succeeds exactly when index and timestamp fit 32 bits and code and information fit a byte, and gives 10 bytes |
| NvmErrorLog.FromBytes | scripts/memory/nvm.py:256-265 | unpacking needs exactly 10 bytes; it gives nothing exactly when the stored index is 0, and otherwise a message with a nonzero index |
| NvmErrorLog.FromBytesToBytes | scripts/memory/nvm.py:246-265 | unpacking a packed message gives it back, or nothing when its index is the unused marker 0 |
| NvmErrorLog.ToBytesFromBytes | scripts/memory/nvm.py:246-265 | packing an unpacked message gives back the original 10 bytes |
| NvmErrorLog.Description | scripts/memory/nvm.py:272-279 | codes 1 to 5 give their names from the table; every other code gives `UNKNOWN(` followed by digits that parse back as the code and `)` |
| NvmErrorLog.SlotsOfRange | scripts/memory/nvm.py:302-334 | the scan visits the 80 addresses 0x22 + 10k for k < 80; the last read ends two bytes past 0x340 |
| NvmErrorLog.ReadSlot | scripts/memory/nvm.py:335-337 | reading slot `k` succeeds exactly when the image holds all 10 bytes, and gives the unpacked message or nothing; a failure names an address in the slot |
| NvmErrorLog.UsedSlots | scripts/memory/nvm.py:333-339 | the kept entries are used, packable messages, at most one per slot |
| NvmErrorLog.UsedSlotsNext | scripts/memory/nvm.py:334-339 | scanning one more slot appends its message exactly when the slot is used |
| NvmErrorLog.ReadErrorLog | scripts/memory/nvm.py:327-341 | the scan succeeds exactly when all 80 slots are readable and then returns the used ones in address order; otherwise it fails at an address of the first unreadable slot, all slots before it being readable |
| Text.FromHex | scripts/memory/nvm.py:143-149 | a successful hex decode has at most half as many bytes as the text has characters; what the bytes are and when decoding fails is stated by the lemmas after it |
| Text.FromHexText | scripts/memory/nvm.py:146 | text `bytes.fromhex` accepts holds only whitespace and hex digits |
| Text.FromHexReadsPairs | scripts/memory/nvm.py:146 | the bytes decoded are the values of the text's hex digits, whitespace removed, read two at a time, high digit first |
| Text.FromHexOddDigits | scripts/memory/nvm.py:146 | text with an odd number of non-whitespace characters is rejected |
| Text.FromHexEvenDigits | scripts/memory/nvm.py:146 | text of hex digits alone, of even length, is always accepted |
| Text.FromHexSpaceInsideByte | scripts/memory/nvm.py:146 | whitespace between the two digits of one byte is rejected |
| Text.ToHex | scripts/memory/nvm.py:141 | the hex text has two hex digits per byte |
| Text.HexRoundTrip | scripts/memory/nvm.py:139-149 | decoding the hex text of any bytes gives those bytes back |
| Text.FromHexSkipsLeadingSpace | scripts/memory/nvm.py:146 | whitespace in front of hex text does not change what it decodes to |
| Text.EncodeCharWellFormed | scripts/memory/nvm.py:161 | each character's UTF-8 form has a lead byte announcing its length, continuation bytes after it, the character's code point, and no overlong form |
| Text.Utf8RoundTrip | scripts/memory/nvm.py:151-161 | decoding the UTF-8 encoding of any text gives that text back |
| Text.Utf8Decode | scripts/memory/nvm.py:151-154 | decoding succeeds only on bytes that are the UTF-8 encoding of the text it returns; a failure names a position inside the input |
| Text.DecodeCharEncodes | scripts/memory/nvm.py:151-154 | each character the strict decoder reads is encoded back to exactly the bytes it was read from |
| Text.Utf8DecodeUnique | scripts/memory/nvm.py:151-154 | bytes that some text encodes to decode to that text |
| Text.Utf8EncodeAscii | scripts/memory/nvm.py:161 | ASCII text encodes to its character codes, one byte per character |
| Text.DecimalString | scripts/memory/nvm.py:278 | the text parses back as the integer, and starts with a minus sign exactly when the integer is negative |
| Text.NatDigitsValue | scripts/memory/nvm.py:278 | the decimal digits of a natural number have that number as their value |
| Bytes.U16RoundTrip | scripts/memory/nvm.py:38-39 | little-endian decoding of the two bytes of a 16-bit value gives the value back |
| Bytes.U16Injective | scripts/memory/nvm.py:38-39 | any two bytes are the little-endian encoding of the value they decode to |
| Bytes.U32RoundTrip | scripts/memory/nvm.py:246-265 | little-endian decoding of the four bytes of a 32-bit value gives the value back |
| Bytes.U32Injective | scripts/memory/nvm.py:246-265 | any four bytes are the little-endian encoding of the value they decode to |
| DeviceConfig.Encode | firmware/src/common/Config.c:89-95 | the record's memory image is the 30 bytes in front of the `crc` field followed by the CRC, little-endian |
| DeviceConfig.DecodeEncode | firmware/src/common/Config.c:89-116 | reading a written record gives the record back |
| DeviceConfig.EncodeDecode | firmware/src/common/Config.c:97-116 | writing a read record gives the 32 bytes back |
| DeviceConfig.Decode | firmware/src/common/Config.c:97-116 | the record read from 32 bytes has the first 30 as the image of its fields in front of the CRC and the last two as its CRC, little-endian |
| DeviceConfig.IsConfigValid | firmware/src/common/Config.c:168-173 | a config is valid exactly when the two bytes its image stores after the first 30 equal the CRC-16 of those 30 |
| DeviceConfig.AlteredRecordInvalid | firmware/src/common/Config.c:168-173 | a valid config whose EEPROM image has any one byte in front of the CRC altered no longer validates when read back |
| DeviceConfig.UpdateCrc | firmware/src/common/Config.c:175-180 | refreshing the CRC makes the config valid and changes no other field |
| DeviceConfig.Save | firmware/src/common/Config.c:89-95 | saving makes the active config valid, keeps its settings, and the EEPROM then holds exactly the active config |
| DeviceConfig.Load | firmware/src/common/Config.c:97-116 | loading succeeds exactly when the stored CRC matches; it then adopts the stored record, and otherwise leaves the active config unchanged; the EEPROM is not written |
| DeviceConfig.LoadAfterSave | firmware/src/common/Config.c:89-116 | loading what Save wrote succeeds and restores the saved config, whatever RAM held |
| DeviceConfig.SetNetworkId | firmware/src/common/Config.c:143-148 | exactly six bytes are copied and read back by the getter; nothing else changes |
| DeviceConfig.SetAesKey | firmware/src/common/Config.c:150-155 | exactly seventeen bytes are copied and read back by the getter; nothing else changes |
| DeviceConfig.SetReportInterval | firmware/src/common/Config.c:157-162 | a non-zero interval is stored and read back by the getter; nothing else changes |
| DeviceConfig.GetVersion | firmware/src/common/Config.c:118-121 | the version is the little-endian value of bytes 0 and 1 of the record image |
| DeviceConfig.GetNetworkId | firmware/src/common/Config.c:123-126 | the network id is bytes 2 to 7 of the record image |
| DeviceConfig.GetAesKey | firmware/src/common/Config.c:128-131 | the key is bytes 12 to 28 of the record image |
| DeviceConfig.GetReportInterval | firmware/src/common/Config.c:133-136 | the report interval is the little-endian value of bytes 8 to 11 of the record image |
| DeviceConfig.GetNodeId | firmware/src/common/Config.c:138-141 | the node id is byte 29 of the record image |
| DeviceConfig.SettingsSurviveRestart | firmware/src/common/Config.c:89-162 | settings changed and saved come back after a reload from EEPROM, the others unchanged |
| Bcd.BcdToDecimal | firmware/src/common/common.c:70-78 | a BCD byte converts to its two-digit value, tens from the high nibble and units from the low; any byte gives at most 165 |
| Bcd.DecimalToBcd | firmware/src/common/common.c:80-94 | each decimal digit goes into its own nibble, units lowest; 0 gives 0 and values below 100 give BCD bytes of at most 0x99 |
| Bcd.PlaceDigitsOfByte | firmware/src/common/common.c:85-91 | the digit loop stops after at most three digits, with the value of the three-nibble form |
| Bcd.DecimalBcdRoundTrip | firmware/src/common/common.c:70-94 | for values below 100, converting to BCD and back gives the value |
| Bcd.BcdDecimalRoundTrip | firmware/src/common/common.c:70-94 | for BCD bytes, converting to decimal and back gives the byte |
| Bcd.BcdByte | firmware/src/common/common.c:80-94 | a value below 100 converts to a BCD byte with its tens digit in the high nibble and units in the low one, and back to the value |
| Bcd.BcdByteOfDecimal | firmware/src/common/common.c:70-94 | every BCD byte is the BCD byte of the value it converts to |
| Bit.Get | firmware/src/utility/Bit/Bit.c:69-75 | the result is whether bit `index` is set; the index must be below 8 |
| Bit.Set | firmware/src/utility/Bit/Bit.c:54-67 | afterwards bit `index` reads back as the value set; the index must be below 8 |
| Bit.SetKeepsOthers | firmware/src/utility/Bit/Bit.c:59-66 | setting a bit changes no other bit |
| Bit.SetUnchanged | firmware/src/utility/Bit/Bit.c:59-66 | setting a bit to its current value leaves the byte alone |
| Bit.SetIdempotent | firmware/src/utility/Bit/Bit.c:59-66 | setting the same bit twice is setting it once |
| Bit.BitsDetermineByte | firmware/src/utility/Bit/Bit.c:69-75 | two bytes with the same eight bits are equal |
| Bit.GetAfterSet | firmware/src/utility/Bit/Bit.c:54-75 | after setting, the bit set reads back as the value given and every other bit as before |
| Fifo.NextSlot | firmware/src/utility/FIFO/FIFO.c:139-143 | inside a buffer of at most 256 bytes, NextPosition moves from slot `s` to slot `s + 1`, and from the last slot back to slot 0 |
| Fifo.NextPosition | firmware/src/utility/FIFO/FIFO.c:139-143 | inside a buffer of at most 256 bytes, from the start of slot `k` the next position is the start of slot `(k + 1) % size` |
| Fifo.New | firmware/src/utility/FIFO/FIFO.h:39 | a new FIFO holds the given buffer and sizes; over a buffer of `count * itemSize` bytes, at most 256, it is valid and empty |
| Fifo.IsEmpty | firmware/src/utility/FIFO/FIFO.c:119-124 | head equal to tail means exactly that no item is queued |
| Fifo.IsFull | firmware/src/utility/FIFO/FIFO.c:112-117 | the FIFO is full exactly when `size - 1` items are queued, so one slot always stays free |
| Fifo.Push | firmware/src/utility/FIFO/FIFO.c:55-73 | a push succeeds exactly when fewer than `size - 1` items are queued, and a failed push changes nothing; the result is valid with the same sizes and tail |
| Fifo.Pop | firmware/src/utility/FIFO/FIFO.c:75-93 | a pop gives nothing exactly when the FIFO is empty, and then changes nothing; otherwise it returns the oldest item and keeps the buffer and head |
| Fifo.Peek | firmware/src/utility/FIFO/FIFO.c:95-110 | peek gives nothing exactly when the FIFO is empty, and otherwise the oldest item |
| Fifo.Clear | firmware/src/utility/FIFO/FIFO.c:126-132 | clearing keeps the buffer and its sizes and leaves a valid FIFO empty |
| Fifo.Contents | firmware/src/utility/FIFO/FIFO.c:55-132 | the queued items, oldest first, number fewer than the slots and each has the item size |
| Fifo.WriteSlotEffect | firmware/src/utility/FIFO/FIFO.c:69-71 | the memcpy of a push sets the slot it writes and keeps every other slot |
| Fifo.PushMoves | firmware/src/utility/FIFO/FIFO.c:67-72 | a successful push moves head one slot on, keeps tail, writes the item at the new head and queues one more item |
| Fifo.PushEffect | firmware/src/utility/FIFO/FIFO.c:55-73 | a push fails exactly when the FIFO is full and then changes nothing; otherwise the item is appended after the queued ones |
| Fifo.PopMoves | firmware/src/utility/FIFO/FIFO.c:87-92 | a successful pop moves tail one slot on, keeps head and the buffer, and queues one item fewer |
| Fifo.PopEffect | firmware/src/utility/FIFO/FIFO.c:75-93 | a pop fails exactly when the FIFO is empty and then changes nothing; otherwise it returns the oldest item and drops it |
| Fifo.PeekIsPop | firmware/src/utility/FIFO/FIFO.c:95-110 | peek returns the item pop would return, or nothing when empty, and moves neither offset |
| Fifo.PushAllAppends | firmware/src/utility/FIFO/FIFO.c:55-73 | pushing items that fit appends them all, in order |
| Fifo.PopNDrains | firmware/src/utility/FIFO/FIFO.c:75-93 | popping as many times as items are queued returns them oldest first |
| Fifo.FirstInFirstOut | firmware/src/utility/FIFO/FIFO.c:55-93 | items pushed into an empty FIFO, fewer than its slots, come out in the order they went in |
| Fifo.NextPositionTruncates | firmware/src/utility/FIFO/FIFO.c:139-143 | as written, a FIFO of 90 three-byte items is never reported full before offset 255, and the next position after 255 is offset 2, inside a slot |
| Fifo.NextPositionWideCycles | firmware/src/utility/FIFO/FIFO.c:139-143 | with the offset kept wide, NextPosition moves from every slot to the next and from the last to the first, for any buffer size |
| Fifo.NextPositionAgrees | firmware/src/utility/FIFO/FIFO.c:139-143 | for buffers of at most 256 bytes the source's NextPosition is the wide one |
| Timer.TimeDifferenceAsWritten | firmware/src/common/timer/Timer.c:74-89 | as written, the difference is exact when the counter has not wrapped, and one short of the elapsed time when it has |
| Timer.TimeDifference | firmware/src/common/timer/Timer.c:74-89 | with the wrapped case counting the step from TIMERMAX to 0, the difference is the modular elapsed time |
| Timer.TimeDifferenceMeasures | firmware/src/common/timer/Timer.c:74-89 | the corrected difference returns every elapsed time below 2^32 ms, whatever the starting count; in particular a start equal to now gives 0 |
| Timer.TimeDifferenceAsWrittenMissesWrap | firmware/src/common/timer/Timer.c:80-83 | as written, one millisecond from TIMERMAX to 0 reads as 0, where it should read 1 |
| Timer.GetSeconds | firmware/src/common/timer/Timer.c:69-72 | the milliseconds rounded to the nearest second, half up, except in the last 500 ms before the 32-bit counter wraps, where the sum wraps first and the result is 0 |
| Timer.GetSecondsNearest | firmware/src/common/timer/Timer.c:69-72 | when the addition does not wrap, the result is the nearest whole second, halves rounding up |
| Time.MonthLength | firmware/src/common/time/Time.c:39-80 | every month has 28 to 31 days |
| Time.MonthsFillYear | firmware/src/common/time/Time.c:344-357 | the twelve month lengths add up to the length of the year |
| Time.IsLeapYear | firmware/src/common/time/Time.c:150-168 | for years 2000 to 2099 the 8-bit result of `year + 2000` is a leap year exactly when the Gregorian year is, that is when `year % 4 == 0` |
| Time.LeapOfField | firmware/src/common/time/Time.c:150-168 | both 2000 + `y` and its 8-bit remainder are leap years exactly when `y` is a multiple of four, for `y` up to 99 |
| Time.IsLeapYearWraps | firmware/src/common/time/Time.c:150-168 | beyond 2099 the 8-bit wrap shows: the year field 148 is not a leap year although 2148 is |
| Time.GetDaysInMonth | firmware/src/common/time/Time.c:344-357 | a month from 1 to 12 gives its length, 29 for February of a leap year; any other month fails |
| Time.GetDaysInMonthAsWritten | firmware/src/common/time/Time.c:344-357 | as written, the assertion rejects only months above 12, and month 0 reads before the table |
| Time.MonthZeroPassesAssertion | firmware/src/common/time/Time.c:347 | month 0 passes the assertion as written and is rejected by the corrected check |
| Time.Timestamp | firmware/src/common/time/Time.c:271-341 | whole days times 86400 plus `hour*3600 + minute*60 + second`, when that fits 32 bits |
| Time.ConvertToTimestamp | firmware/src/common/time/Time.c:257-342 | with January and February corrected, a valid time converts to its seconds since 2000-01-01 00:00:00 |
| Time.DayOfYearTable | firmware/src/common/time/Time.c:289-326 | the day-of-year arithmetic is the cumulative month lengths plus the leap day from March on |
| Time.DayOfYearAsWritten | firmware/src/common/time/Time.c:289-326 | as written, the day of the year is the corrected one plus the January/February error: 31 days in January, 59 or 60 in February, none from March on |
| Time.ConvertToTimestampAsWritten | firmware/src/common/time/Time.c:257-342 | as written, the conversion agrees with the corrected one from March on, and gives the seconds since the epoch for a valid time in those months |
| Time.TimestampCorrect | firmware/src/common/time/Time.c:271-341 | the 32-bit arithmetic never wraps for a valid time and gives its seconds since the epoch |
| Time.ConvertToTimestampAsWrittenError | firmware/src/common/time/Time.c:291-298 | as written, the conversion is exact from March on and ahead by whole days in January and February |
| Time.ConvertToTimestampJanFeb | firmware/src/common/time/Time.c:291-298 | as written, 2000-01-01 00:00:00 converts to 2678400 instead of 0, and 1 February 2000 converts to a later value than 1 March |
| Time.AddYears | firmware/src/common/time/Time.c:246-255 | adding years changes only the year, which saturates at 99 |
| Time.AddYearsWraps | firmware/src/common/time/Time.c:248-254 | the 8-bit sum wraps before it is clamped: 99 plus 200 years gives 43 |
| Time.AddMonthsAsWritten | firmware/src/common/time/Time.c:232-244 | as written, the month comes out below 12, as if 0-based; only year and month change |
| Time.AddDaysAsWritten | firmware/src/common/time/Time.c:212-230 | as written, the date comes out below the month length, as if 0-based; only year, month and date change |
| Time.AddHoursAsWritten | firmware/src/common/time/Time.c:198-210 | the hour stays below 24 on top of the as-written AddDays |
| Time.AddMinutesAsWritten | firmware/src/common/time/Time.c:184-196 | the minute stays below 60 and seconds are kept, carrying into the as-written AddHours |
| Time.AddSecondsAsWritten | firmware/src/common/time/Time.c:170-182 | the second stays below 60, carrying into the as-written AddMinutes |
| Time.AddAsWrittenZeroBased | firmware/src/common/time/Time.c:170-244 | as written, one day after 30 January lands on day 0 of February, and so does one second after 23:59:59 on 30 January; one month after November lands on month 0 of the next year; the corrected operations give 31 January and December |
| Time.AddMonths | firmware/src/common/time/Time.c:232-244 | with 1-based months, adding succeeds exactly for a month from 1 to 12 and changes only year and month |
| Time.AddDays | firmware/src/common/time/Time.c:212-230 | with 1-based dates, the result has a date from 1 to 31 and a month from 1 to 12, and changes only year, month and date |
| Time.AddHours | firmware/src/common/time/Time.c:198-210 | the hour becomes `(h + n) % 24`; minutes and seconds are kept; a day carry goes to the corrected AddDays (see the Time.c:212-244 finding) |
| Time.AddMinutes | firmware/src/common/time/Time.c:184-196 | the minute stays below 60; seconds are kept; a day carry goes to the corrected AddDays (see the Time.c:212-244 finding; AddMinutesAsWritten is the source's chain) |
| Time.AddSeconds | firmware/src/common/time/Time.c:170-182 | the second stays below 60; a day carry goes to the corrected AddDays (see the Time.c:212-244 finding; AddSecondsAsWritten is the source's chain) |
| Time.AddSecondsAgreeWithinDay | firmware/src/common/time/Time.c:170-210 | while the sum stays within the day, the as-written and the corrected AddSeconds agree and succeed |
| Time.AddDaysAdvances | firmware/src/common/time/Time.c:212-230 | adding up to 28 days to a valid time before the end of 2099 moves it exactly that many days on the calendar and keeps the time of day |
| Time.AddDaysIntoNextMonth | firmware/src/common/time/Time.c:218-224 | a carry out of a month before December moves to the next month of the same year |
| Time.AddDaysIntoNextYear | firmware/src/common/time/Time.c:212-244 | a carry out of December moves to January of the next year |
| Time.AddHoursAdvances | firmware/src/common/time/Time.c:198-210 | adding hours moves the seconds since the epoch by exactly that many hours |
| Time.AddMinutesAdvances | firmware/src/common/time/Time.c:184-196 | adding minutes moves the seconds since the epoch by exactly that many minutes |
| Time.AddSecondsAdvances | firmware/src/common/time/Time.c:170-182 | adding seconds moves the seconds since the epoch by exactly that many seconds |
| Time.HoursCarry | firmware/src/common/time/Time.c:203-209 | the hour kept below 24 plus the carried days is the time the added hours give |
| Time.MinutesCarry | firmware/src/common/time/Time.c:189-195 | the minute kept below 60 plus the carried hours is the time the added minutes give |
| Time.SecondsCarry | firmware/src/common/time/Time.c:175-181 | the second kept below 60 plus the carried minutes is the time the added seconds give |
| Time.AddMonthsAdvances | firmware/src/common/time/Time.c:232-244 | adding months steps the month count exactly, until the year saturates at 2099 |
| Time.CalculateDayOfWeek | firmware/src/common/time/Time.c:359-372 | a month from 1 to 12 gives a day of the week below 7; any other month reads outside the offset table |
| Time.SakamotoOffsetsMatch | firmware/src/common/time/Time.c:363 | each month's table offset is its cumulative day count moved to the weekday of the epoch, modulo 7 |
| Time.DayOfWeekCorrect | firmware/src/common/time/Time.c:359-372 | the day of the week is the days since 2000-01-01, a Saturday, modulo 7, with 0 for Sunday |
| Time.AdvanceWeeksClosed | firmware/src/common/time/Time.c:131-137 | the week loop ends on the day from the 24th to the 30th that is a whole number of weeks on from where it started |
| Time.IsDaylightSavingActiveAsWritten | firmware/src/common/time/Time.c:112-148 | summer time for April to September and winter time for November to February |
| Time.IsDaylightSavingActive | firmware/src/common/time/Time.c:112-148 | summer time from the last Sunday of March to the day before the last Sunday of October, by date |
| Time.LastSundayIsLast | firmware/src/common/time/Time.c:126-141 | the comparison day is a Sunday, and a week later falls past the 31st |
| Time.ComparisonSundayArith | firmware/src/common/time/Time.c:128-141 | the as-written computation finds the last Sunday of the month, except that a last Sunday on the 31st is only found from the 31st itself |
| Time.DaylightSavingAsWrittenDiffers | firmware/src/common/time/Time.c:143-145 | in March and October the as-written test differs from the intended one exactly on the last Sunday of March, and on the week before a last Sunday on the 31st |
| Time.DaylightSavingExamples | firmware/src/common/time/Time.c:112-148 | 25 March 2018 is summer time, which the as-written test misses; 24 March 2018 and 28 October 2018 are winter time; 30 March 2024 is winter time, which the as-written test gets wrong |
| ErrorHandler.Scan | firmware/src/common/ErrorHandler.c:91-114 | the scan stops at the first entry whose id does not exceed its predecessor's, returning that predecessor's id; when the ids increase to the end it returns index 0 and the last id |
| ErrorHandler.NextId | firmware/src/common/ErrorHandler.c:104-147 | incrementing a 32-bit id adds one and wraps to 0 after 0xFFFFFFFF |
| ErrorHandler.InitAsWritten | firmware/src/common/ErrorHandler.c:66-115 | as written, the id found is incremented and then stored in the 8-bit `current_id`, so it wraps at 256 |
| ErrorHandler.Init | firmware/src/common/ErrorHandler.c:87-115 | with a 32-bit `current_id`, the index is the first entry whose id does not exceed its predecessor's and the id is one past that predecessor's; when the ids increase across all 80 entries the index is 0 and the id one past the last |
| ErrorHandler.NextIndex | firmware/src/common/ErrorHandler.c:142-143 | the evidently intended index update: the next slot, wrapping from 79 to 0 |
| ErrorHandler.NextIndexAsWrittenStuck | firmware/src/common/ErrorHandler.c:143 | as written, `((i + 1) % 800) / 10` never exceeds 8, and from slots 0 to 8 it returns slot 0 |
| ErrorHandler.LogErrorAsWritten | firmware/src/common/ErrorHandler.c:125-149 | as written, logging succeeds exactly when the index is below 80 and the id is not 0; it writes the entry at the current index, the next index is never above 8 and is 0 from slots 0 to 8, and the id steps on, wrapping to 0 after 255 |
| ErrorHandler.LogError | firmware/src/common/ErrorHandler.c:125-149 | logging succeeds exactly when the index is below 80 and the id is not 0; it writes the entry with the current id at the current index, then moves to the next slot and the next id |
| ErrorHandler.LogErrorExtendsRun | firmware/src/common/ErrorHandler.c:125-149 | with the log holding ids 1..k round-robin, logging one more error keeps that shape for k + 1 |
| ErrorHandler.InitRecoversRun | firmware/src/common/ErrorHandler.c:87-115 | after a restart, Init finds the slot and id where a round-robin run of any length stopped |
| ErrorHandler.FirstDropIsUnique | firmware/src/common/ErrorHandler.c:94-109 | at most one entry is the first whose id does not exceed its predecessor's, and if there is one the ids do not increase across the log |
| ErrorHandler.InitOnErasedLog | firmware/src/common/ErrorHandler.c:87-115 | on an erased log Init starts at slot 0 with id 1 |
| ErrorHandler.LogErrorAsWrittenOverwrites | firmware/src/common/ErrorHandler.c:143 | as written, the second error after a fresh start overwrites the first in slot 0; corrected, they go to slots 0 and 1 |
| ErrorHandler.IdWrapsAsWritten | firmware/src/common/ErrorHandler.c:66-147 | as written, the 8-bit id wraps to 0 after 255 and the next error fails the assertion, also after a restart; with 32-bit ids logging goes on |
| ErrorHandler.EntryBytes | firmware/src/common/ErrorHandler.c:50-57 | an entry occupies 10 bytes of EEPROM |
| ErrorHandler.HostReadsEntry | scripts/memory/nvm.py:256-265 | the host tool reads an entry written by the firmware back field for field, and an erased entry as an unused slot |
| Power.Step | firmware/src/node/Power.c:125-207 | an update fails only from the initial state, the default branch; otherwise it ends in a monitored state and emits at most two events |
| Power.EventsAnnounceChanges | firmware/src/node/Power.c:125-207 | an update emits an event exactly when the state changes, and the last event names the state it ends in |
| Power.ChargingStartsFromAnyState | firmware/src/node/Power.c:129-199 | when charging, every battery state moves to Charging announcing CHARGING_STARTED; from Connected, an unplugged charger wins and gives Normal |
| Power.NotChargingOnlyWorsens | firmware/src/node/Power.c:137-171 | without charging Normal drops to Low exactly below 2200 mV, Low drops to Critical exactly below 1900 mV, Critical stays and emits nothing |
| Power.ChargerStates | firmware/src/node/Power.c:173-199 | Charging moves to Connected exactly when charging stops; Connected moves to Normal exactly when unplugged, and otherwise to Charging exactly when charging |
| Power.Run | firmware/src/node/Power.c:100-104 | a run of updates fails exactly when started from the initial state; no readings leave the state as it was |
| Power.RunFromInitNeverFails | firmware/src/node/Power.c:87-104 | after Power_Init no sequence of updates reaches the failing default branch |
| Power.RunWithoutChargingWorsens | firmware/src/node/Power.c:125-171 | over any run without charging the battery state never improves, and it is the state the last event announced |
| Sensor.ResetValues | firmware/src/main/sensor/Sensor.c:227-234 | a reset sensor keeps its id and has neither a valid value nor valid statistics |
| Sensor.SetSensorValues | firmware/src/main/sensor/Sensor.c:176-193 | the value is stored, the maximum becomes the larger and the minimum the smaller of the old one and the value, and the statistics become valid |
| Sensor.StatisticsBoundValues | firmware/src/main/sensor/Sensor.c:176-193 | from a reset, the statistics are valid exactly when a value was accepted, bound every accepted value, and are each attained by one |
| Sensor.GettersAfterValues | firmware/src/main/sensor/Sensor.c:123-148 | the getters, which read the fields they name, return after a reset and some accepted values the last value (with the validity the callback set) and the extremes, which bound every accepted value and are flagged valid |
| Sensor.Update | firmware/src/main/sensor/Sensor.c:89-104 | every registered sensor ends as `Accept` makes it from its own sample, and each sensor whose value was valid has its new statistics persisted so that reading them back gives them; the registry stays well-formed and keeps its size |
| Sensor.Seal | firmware/src/main/sensor/Sensor.c:195-206 | the record written is the packed maximum, minimum and valid flag followed by the CRC |
| Sensor.SealUnpack | firmware/src/main/sensor/Sensor.c:195-225 | a record just sealed passes the CRC check and unpacks to the statistics sealed |
| Sensor.Address | firmware/src/main/sensor/Sensor.c:197-210 | `7 * id` as an 8-bit address; the record of every id below 9 lies inside the region |
| Sensor.WriteValues | firmware/src/main/sensor/Sensor.c:195-206 | writing puts the sealed record at the sensor's address and keeps every other byte |
| Sensor.ReadValues | firmware/src/main/sensor/Sensor.c:208-225 | reading adopts the stored statistics when the CRC matches, and otherwise only marks the statistics invalid |
| Sensor.WriteThenRead | firmware/src/main/sensor/Sensor.c:195-225 | statistics written for a sensor read back unchanged, also after another sensor's record was written |
| Sensor.AsWrittenIgnoresMinAndValid | firmware/src/main/sensor/Sensor.c:236-250 | as written, the CRC covers `sizeof - offsetof(crc)` = 2 bytes, only the maximum: changing the minimum and the valid flag keeps the record valid |
| Sensor.CorruptValidFlag | firmware/src/main/sensor/Sensor.c:236-242 | a zeroed record whose valid byte was set passes the CRC test as written and fails the intended one |
| Sensor.IntendedDetectsByteChange | firmware/src/main/sensor/Sensor.c:236-250 | with the CRC over all bytes in front of it, every single-byte change of the statistics is caught |
| Sensor.Init | firmware/src/main/sensor/Sensor.c:82-87 | after Sensor_Init no sensor is registered |
| Sensor.Register | firmware/src/main/sensor/Sensor.c:106-121 | registering succeeds exactly when fewer than 9 sensors are registered, and adds one sensor after the others |
| Sensor.RegisterReadsRecord | firmware/src/main/sensor/Sensor.c:106-121 | the new sensor has id equal to its index, no valid value, and statistics valid exactly when its stored record checks and says so |
| Sensor.UpdateOne | firmware/src/main/sensor/Sensor.c:91-103 | sensor `i` ends as `Accept` makes it from the sample and no other sensor changes; an invalid value leaves the NVM untouched; a valid one persists the new statistics so that they read back, and every other sensor's record is kept |
| Sensor.UpdateFrom | firmware/src/main/sensor/Sensor.c:91-103 | the loop from index `i` leaves the sensors before `i` and their records alone, and every later sensor ends as `Accept` makes it, with its valid statistics persisted |
| Sensor.Accept | firmware/src/main/sensor/Sensor.c:91-103 | the callback, if any, sets the value and validity; a valid value widens the statistics exactly as SetSensorValues does, and an invalid one keeps them |
| Sensor.WriteKeepsOtherRecords | firmware/src/main/sensor/Sensor.c:195-206 | writing one sensor's record leaves every other sensor's record unchanged |
| Sensor.AcceptAllAccumulates | firmware/src/main/sensor/Sensor.c:89-104 | for a sensor with a callback, the statistics after a run of turns equal those of accepting exactly the valid values reported, in order |
| Sensor.UpdatesAcceptAll | firmware/src/main/sensor/Sensor.c:89-104 | across successive updates each sensor evolves by its own samples alone |
| Sensor.UpdatesBoundValues | firmware/src/main/sensor/Sensor.c:89-104 | after successive updates from reset statistics, a sensor's minimum and maximum bound every valid value its callback reported, and are valid exactly when it reported one |
| Sensor.Reset | firmware/src/main/sensor/Sensor.c:164-170 | a reset sensor has no valid value or statistics, and reading its record back gives the reset statistics |
| Bytes.I16RoundTrip | firmware/src/main/sensor/Sensor.c:53-59 | the two's complement bytes of a signed 16-bit statistic decode to the same value |
| Display.Blank | firmware/src/main/display/Display.c:106-109 | clearing zeroes every byte of the 4 by 128 buffer |
| Display.BlankIsDark | firmware/src/main/display/Display.c:106-109 | no pixel is lit in a cleared buffer |
| Display.Rotate | firmware/src/main/display/Display.c:165-169 | rotating stores the orientation and clears the buffer |
| Display.LocateOnScreen | firmware/src/main/display/Display.c:144-163 | in either orientation exactly the coordinates with `x < 128` and `y < 32` are drawn; mirrored off-screen coordinates wrap to values the range check rejects |
| Display.LocateUnrotated | firmware/src/main/display/Display.c:155-161 | unrotated, `(x, y)` is bit `y % 8` of column `x` in page `y / 8` |
| Display.LocateRotated | firmware/src/main/display/Display.c:149-153 | rotated, `(x, y)` is drawn where `(127 - x, 31 - y)` is drawn unrotated |
| Display.SetPixel | firmware/src/main/display/Display.c:144-163 | an off-screen pixel changes nothing, and the orientation is kept |
| Display.SetPixelSetsOneBit | firmware/src/main/display/Display.c:159-162 | after drawing, a bit is lit exactly when it was lit before or it is the bit of the drawn pixel |
| Display.SetPixelIdempotent | firmware/src/main/display/Display.c:161 | drawing the same pixel twice is drawing it once |
| Display.PagesFromOrder | firmware/src/main/display/Display.c:114-120 | the flush loop sends byte `c` of page `p` as byte `128 p + c` |
| Display.Flush | firmware/src/main/display/Display.c:111-124 | flushing sends 512 bytes, byte `i` being byte `i % 128` of page `i / 128`, so every byte of the buffer goes out once, in page order |
| Display.Clear | firmware/src/main/display/Display.c:100-104 | clearing blanks the buffer, keeps the orientation, and sends 512 zero bytes |
| Filter.Init | firmware/src/utility/Filter/Filter.c:54-60 | after Init the output is the initial value, and the filter counts as initialized exactly when alpha is not 0 |
| Filter.Output | firmware/src/utility/Filter/Filter.c:74-79 | the output is a fixed point of the filter: a sample equal to it leaves the filter as it is |
| Filter.IsInitialized | firmware/src/utility/Filter/Filter.c:81-86 | a filter that is not initialized ignores every sample |
| Filter.ProcessValue | firmware/src/utility/Filter/Filter.c:62-72 | through the 32-bit unsigned arithmetic and the cast, the new value is the weighted sum divided by 65536, rounded half up |
| Filter.Process | firmware/src/utility/Filter/Filter.c:62-72 | the new output lies between the old value and the sample, and alpha is kept |
| Filter.SumBounds | firmware/src/utility/Filter/Filter.c:66-68 | the weighted sum is 65536 times a value between sample and old value, so it fits a signed 32-bit integer |
| Filter.ScaledIsRounded | firmware/src/utility/Filter/Filter.c:67-71 | the unsigned wrap of a negative sum and the cast back cancel: the result is the sum rounded half up |
| Filter.ProcessFixedPoint | firmware/src/utility/Filter/Filter.c:62-72 | a sample equal to the current value leaves the filter unchanged, whatever alpha is |
| Filter.ZeroAlphaIgnoresSamples | firmware/src/utility/Filter/Filter.c:62-72 | an uninitialized filter, with alpha 0, ignores its samples |
| Mcp79510.Write | firmware/src/node/driver/MCP79510/driverMCP79510.c:608-627 | writing a register makes it read back as the value written and changes no other register |
| Mcp79510.GetDecimal | firmware/src/node/driver/MCP79510/driverMCP79510.c:44 | a register holding BCD reads as the value whose BCD byte it is |
| Mcp79510.SetDecimal | firmware/src/node/driver/MCP79510/driverMCP79510.c:45 | a register set to a two-digit value reads back as that value, and no other register changes |
| Mcp79510.SetField | firmware/src/node/driver/MCP79510/driverMCP79510.c:142-157 | `(reg & mask) \| BCD(value)` keeps the bits from position `n` up and puts the value below them |
| Mcp79510.SetFlag | firmware/src/node/driver/MCP79510/driverMCP79510.c:407-422 | Bit_Set of one register bit sets that bit and keeps every other bit and register |
| Mcp79510.SetHundredthSecond | firmware/src/node/driver/MCP79510/driverMCP79510.c:107-118 | a value is accepted exactly when below 100 and reads back through the getter; a refused value writes nothing |
| Mcp79510.GetHundredthSecond | firmware/src/node/driver/MCP79510/driverMCP79510.c:102-105 | a BCD hundredths register reads as the value whose BCD byte it holds |
| Mcp79510.SetAlarmHundredthSecond | firmware/src/node/driver/MCP79510/driverMCP79510.c:120-131 | a value is accepted exactly when below 100 and written to alarm 1's register only |
| Mcp79510.SetSecond | firmware/src/node/driver/MCP79510/driverMCP79510.c:142-157 | a value is accepted exactly when below 60, reads back through the getter that masks the ST bit, and keeps the ST bit |
| Mcp79510.GetSecond | firmware/src/node/driver/MCP79510/driverMCP79510.c:133-140 | with the ST bit masked off, a BCD seconds field reads as the value whose BCD byte it holds |
| Mcp79510.SetAlarmSeconds | firmware/src/node/driver/MCP79510/driverMCP79510.c:159-177 | a value is accepted exactly when below 60 and written to the chosen alarm's register; the alarm index must be 0 or 1 |
| Mcp79510.SetMinute | firmware/src/node/driver/MCP79510/driverMCP79510.c:184-195 | a value is accepted exactly when below 60 and reads back through the getter |
| Mcp79510.GetMinute | firmware/src/node/driver/MCP79510/driverMCP79510.c:179-182 | a BCD minutes register reads as the value whose BCD byte it holds |
| Mcp79510.SetAlarmMinute | firmware/src/node/driver/MCP79510/driverMCP79510.c:197-214 | a value is accepted exactly when below 60 and written to the chosen alarm's register |
| Mcp79510.WriteHour | firmware/src/node/driver/MCP79510/driverMCP79510.c:244-273 | the hour goes into the BCD bits of the hour format, keeping the 12/24 bit and the trimming sign |
| Mcp79510.GetHour | firmware/src/node/driver/MCP79510/driverMCP79510.c:216-232 | the hour digits below the format bits, six in 24-hour mode and five in 12-hour mode, read as the value whose BCD byte they hold |
| Mcp79510.SetHour | firmware/src/node/driver/MCP79510/driverMCP79510.c:234-252 | the hour is accepted exactly when it lies in 0..23 in 24-hour mode or 1..12 in 12-hour mode, reads back through the getter, and keeps the format and the trimming sign |
| Mcp79510.SetAlarmHour | firmware/src/node/driver/MCP79510/driverMCP79510.c:254-275 | the alarm hour follows the range and mask of the time-keeping hour format |
| Mcp79510.SetDay | firmware/src/node/driver/MCP79510/driverMCP79510.c:286-300 | a weekday is accepted exactly when in 1..7, reads back through the getter, and keeps the status and battery bits under mask 0xF8 |
| Mcp79510.GetDay | firmware/src/node/driver/MCP79510/driverMCP79510.c:277-284 | the three low bits of the weekday register read as the value whose BCD byte they hold |
| Mcp79510.SetDate | firmware/src/node/driver/MCP79510/driverMCP79510.c:307-318 | a date is accepted exactly when in 1..31 and reads back through the getter; the leap-year flag stays |
| Mcp79510.GetDate | firmware/src/node/driver/MCP79510/driverMCP79510.c:302-305 | a BCD date register reads as the value whose BCD byte it holds |
| Mcp79510.SetAlarmDate | firmware/src/node/driver/MCP79510/driverMCP79510.c:320-337 | an alarm date is accepted exactly when in 1..31 and written to the chosen alarm's register |
| Mcp79510.SetMonth | firmware/src/node/driver/MCP79510/driverMCP79510.c:348-362 | a month is accepted exactly when in 1..12, reads back through the getter, and keeps the leap-year bit under mask 0xE0 |
| Mcp79510.GetMonth | firmware/src/node/driver/MCP79510/driverMCP79510.c:339-346 | the five low bits of the month register, the leap-year bit masked off, read as the value whose BCD byte they hold |
| Mcp79510.SetYear | firmware/src/node/driver/MCP79510/driverMCP79510.c:369-380 | a year is accepted exactly when below 100 and reads back through the getter; the leap-year flag, which the clock keeps, is not touched |
| Mcp79510.GetYear | firmware/src/node/driver/MCP79510/driverMCP79510.c:364-367 | a BCD year register reads as the value whose BCD byte it holds |
| Mcp79510.Enable24HourMode | firmware/src/node/driver/MCP79510/driverMCP79510.c:382-405 | the 24-hour flag reads back as the value given, and the hour digits and trimming sign stay |
| Mcp79510.EnableOscillator | firmware/src/node/driver/MCP79510/driverMCP79510.c:407-422 | the ST bit reads back as the value given and the seconds stay |
| Mcp79510.EnableAlarm | firmware/src/node/driver/MCP79510/driverMCP79510.c:432-440 | one alarm's enable bit reads back as the value given; the other alarm and the square-wave output stay |
| Mcp79510.EnableSquareWave | firmware/src/node/driver/MCP79510/driverMCP79510.c:442-449 | the square-wave bit reads back as the value given; both alarm enables stay |
| Mcp79510.EnableExternalBattery | firmware/src/node/driver/MCP79510/driverMCP79510.c:472-486 | VBATEN reads back as the value given; weekday, PWRFAIL and OSCRUN stay |
| Mcp79510.ClearBatterySwitchFlag | firmware/src/node/driver/MCP79510/driverMCP79510.c:488-504 | PWRFAIL reads back as clear; weekday and the other status bits stay |
| Mcp79510.ClearAlarmFlag | firmware/src/node/driver/MCP79510/driverMCP79510.c:506-519 | the chosen alarm's interrupt flag is cleared and its weekday kept |
| Mcp79510.TrimValue | firmware/src/node/driver/MCP79510/driverMCP79510.c:461 | the intended magnitude of the trimming: `|t|`, saturated at 255 |
| Mcp79510.SetOscillatorTrimming | firmware/src/node/driver/MCP79510/driverMCP79510.c:459-470 | the saturated magnitude goes to OSCTRIM and the sign bit is set exactly for `t >= 0`; hour and format read as before and no other register changes |
| Mcp79510.TrimAsWrittenAtMinimum | firmware/src/node/driver/MCP79510/driverMCP79510.c:461 | the written magnitude agrees with the intended one on every value except -32768, whose 16-bit `abs` stays negative and is written as 0 instead of 255 |
| Mcp79510.Init | firmware/src/node/driver/MCP79510/driverMCP79510.c:78-99 | initialization turns the square wave off, the oscillator on and the trimming to 0, keeping alarms, seconds, hour and format |
| Mcp79510.WriteToSram | firmware/src/node/driver/MCP79510/driverMCP79510.c:521-540 | a write succeeds exactly when `address + length <= 64`, and then changes exactly the bytes written; otherwise nothing |
| Mcp79510.ReadFromSram | firmware/src/node/driver/MCP79510/driverMCP79510.c:542-562 | a read succeeds exactly when `address + length <= 64`, and returns the bytes of that range |
| Mcp79510.ReadAfterWrite | firmware/src/node/driver/MCP79510/driverMCP79510.c:521-562 | reading back a range just written returns the written bytes |
| Mcp79510.WriteKeepsOtherRanges | firmware/src/node/driver/MCP79510/driverMCP79510.c:521-562 | a write leaves every range it does not overlap as it was |
| Mcp79510.ClearSram | firmware/src/node/driver/MCP79510/driverMCP79510.c:564-568 | clearing zeroes all 64 SRAM bytes and touches no register |
| Mcp79510.ReadAfterClear | firmware/src/node/driver/MCP79510/driverMCP79510.c:542-568 | after clearing, every read that fits returns zeros |
| Mcp79510.GetEui | firmware/src/node/driver/MCP79510/driverMCP79510.c:570-583 | the last `length` bytes of the 8-byte EUI are returned, in order; the length must be at most 8 |
| Ds3234.Write | firmware/src/main/driver/DS3234/driverDS3234.c:393-399 | writing a register makes it read back as the value and changes no other register or SRAM byte; a write of the SRAM data register instead stores the value at the SRAM address, changes no other SRAM byte, and advances the address by one modulo 256 |
| Ds3234.ReadData | firmware/src/main/driver/DS3234/driverDS3234.c:401-410 | reading the SRAM data register gives the byte at the SRAM address and has the effect of writing the advanced address, modulo 256, to the address register |
| Ds3234.ReadDataAfterWrite | firmware/src/main/driver/DS3234/driverDS3234.c:393-410 | a byte written through the SRAM data register reads back through it once the SRAM address is set back, and the address ends where the write left it |
| Ds3234.Init | firmware/src/main/driver/DS3234/driverDS3234.c:78-91 | initialization writes 0x1C to the control register and nothing else |
| Ds3234.GetDecimal | firmware/src/main/driver/DS3234/driverDS3234.c:426-430 | a register holding BCD reads as the value whose BCD byte it is |
| Ds3234.SetDecimal | firmware/src/main/driver/DS3234/driverDS3234.c:432-439 | a register set to a value below 100 reads back as that value through BCDToDecimal, and no other register changes |
| Ds3234.GetYear | firmware/src/main/driver/DS3234/driverDS3234.c:107-110 | a BCD year register reads as the value whose BCD byte it holds |
| Ds3234.SetField | firmware/src/main/driver/DS3234/driverDS3234.c:132-146 | `(reg & mask) \| BCD(value)` keeps the bits from position `n` up and puts the value below them |
| Ds3234.SetYear | firmware/src/main/driver/DS3234/driverDS3234.c:112-124 | a year is accepted exactly when below 100 and reads back through the getter, and the century bit stays; a refused value writes nothing |
| Ds3234.GetMonth | firmware/src/main/driver/DS3234/driverDS3234.c:126-130 | with the century bit masked off, the month field reads as the value whose BCD byte it holds |
| Ds3234.SetMonth | firmware/src/main/driver/DS3234/driverDS3234.c:132-146 | a month is accepted exactly when in 1..12, reads back through the getter, and keeps the century bit |
| Ds3234.GetDate | firmware/src/main/driver/DS3234/driverDS3234.c:148-151 | a BCD date register reads as the value whose BCD byte it holds |
| Ds3234.SetDate | firmware/src/main/driver/DS3234/driverDS3234.c:153-164 | a date is accepted exactly when in 1..31 and reads back through the getter, and the century bit stays |
| Ds3234.GetDay | firmware/src/main/driver/DS3234/driverDS3234.c:166-169 | a BCD weekday register reads as the value whose BCD byte it holds |
| Ds3234.SetDay | firmware/src/main/driver/DS3234/driverDS3234.c:171-182 | a weekday is accepted exactly when in 1..7 and reads back through the getter |
| Ds3234.GetMinute | firmware/src/main/driver/DS3234/driverDS3234.c:205-208 | a BCD minutes register reads as the value whose BCD byte it holds |
| Ds3234.SetMinute | firmware/src/main/driver/DS3234/driverDS3234.c:210-222 | a minute is accepted exactly when at most 59 and reads back through the getter |
| Ds3234.GetSecond | firmware/src/main/driver/DS3234/driverDS3234.c:224-227 | a BCD seconds register reads as the value whose BCD byte it holds |
| Ds3234.SetSecond | firmware/src/main/driver/DS3234/driverDS3234.c:229-241 | a second is accepted exactly when at most 59 and reads back through the getter |
| Ds3234.Enable24HourMode | firmware/src/main/driver/DS3234/driverDS3234.c:249-259 | the clock is in 24-hour mode exactly when the mode bit is clear, and switching keeps the hour digits |
| Ds3234.GetHourAsWritten | firmware/src/main/driver/DS3234/driverDS3234.c:184-187 | as written, the whole hour register, format bits included, is read as BCD: a BCD register reads as the value whose BCD byte it is |
| Ds3234.SetHourAsWritten | firmware/src/main/driver/DS3234/driverDS3234.c:189-203 | as written, the hour is accepted exactly when it lies in 0..23 in 24-hour mode or 1..12 in 12-hour mode, and the plain BCD value replaces the whole register |
| Ds3234.SetHourAsWrittenLeaves12HourMode | firmware/src/main/driver/DS3234/driverDS3234.c:189-203 | as written, every accepted hour in 12-hour mode clears the mode bit, switching the clock to 24-hour mode; a 12-hour register 0x45 reads as 45 |
| Ds3234.GetHour | firmware/src/main/driver/DS3234/driverDS3234.c:184-187 | corrected, the hour digits below the format bits read as the value whose BCD byte they hold |
| Ds3234.SetHour | firmware/src/main/driver/DS3234/driverDS3234.c:189-203 | keeping the mode bits, the same hours are accepted, read back as written, and the format stays |
| Ds3234.SetHourAgreesIn24HourMode | firmware/src/main/driver/DS3234/driverDS3234.c:189-203 | in 24-hour mode the corrected and the as-written setter agree |
| Ds3234.EnableAlarm | firmware/src/main/driver/DS3234/driverDS3234.c:261-274 | the chosen alarm's enable bit reads back as the value given and the other alarm's stays; enabling also writes 0x80 to the alarm 1 day/date register |
| Ds3234.ClearAlarmFlag | firmware/src/main/driver/DS3234/driverDS3234.c:276-281 | the chosen alarm flag is cleared and the other kept |
| Ds3234.SetAlarmDate | firmware/src/main/driver/DS3234/driverDS3234.c:283-295 | an alarm date is accepted exactly when in 1..31 and written to the chosen alarm's register |
| Ds3234.SetAlarmHour | firmware/src/main/driver/DS3234/driverDS3234.c:297-311 | an alarm hour is accepted by the range of the time-keeping format and written as plain BCD |
| Ds3234.SetAlarmMinute | firmware/src/main/driver/DS3234/driverDS3234.c:313-325 | an alarm minute is accepted exactly when at most 59 and written to the chosen alarm's register |
| Ds3234.SetAlarmSecond | firmware/src/main/driver/DS3234/driverDS3234.c:327-338 | an alarm second is accepted exactly when at most 59 and written to alarm 1 |
| Ds3234.Temperature | firmware/src/main/driver/DS3234/driverDS3234.c:93-105 | the intended reading: the signed 10-bit count of quarter degrees, in hundredths of a degree |
| Ds3234.TemperatureAsWrittenMisreads | firmware/src/main/driver/DS3234/driverDS3234.c:93-105 | as written, `msb * 100 + (lsb >> 6)` agrees with the intended reading only for non-negative whole degrees; 25.5 degrees reads as 2502 and minus one degree as 25500 |
| Ds3234.SramCheckWrapsAsWritten | firmware/src/main/driver/DS3234/driverDS3234.c:441-444 | the range check agrees with the intended one when `address + length` does not wrap 16 bits, and accepts a range that does |
| Ds3234.WriteBytes | firmware/src/main/driver/DS3234/driverDS3234.c:347-351 | the transfer loop writes the bytes at consecutive SRAM addresses and leaves the address after the last |
| Ds3234.ReadBytes | firmware/src/main/driver/DS3234/driverDS3234.c:364-368 | the transfer loop reads the bytes at consecutive SRAM addresses and leaves the address after the last |
| Ds3234.WriteToSram | firmware/src/main/driver/DS3234/driverDS3234.c:340-355 | a write succeeds exactly when `address + length <= 256`, and then changes exactly the bytes written; otherwise nothing |
| Ds3234.ReadFromSram | firmware/src/main/driver/DS3234/driverDS3234.c:357-372 | a read succeeds exactly when `address + length <= 256`, and returns the bytes of that range |
| Ds3234.ReadAfterWrite | firmware/src/main/driver/DS3234/driverDS3234.c:340-372 | reading back a range just written returns the written bytes |
| Ds3234.ClearSram | firmware/src/main/driver/DS3234/driverDS3234.c:374-382 | clearing zeroes all 256 SRAM bytes, leaving the SRAM address at 0 |
| Dht22.AccumulateBits | firmware/src/node/driver/DHT22/driverDHT22.c:273-284 | the binary digit k places from the top of the accumulated number is the k-th bit given |
| Dht22.FrameBits | firmware/src/node/driver/DHT22/driverDHT22.c:265-284 | bit 7-k of byte j of the decoded frame is set exactly when edge 3+8j+k comes more than 100 ticks after the edge before it, with 16-bit timer wrap-around |
| Dht22.DecodeTimings | firmware/src/node/driver/DHT22/driverDHT22.c:265-284 | one pass over the 40 data edges, with the previous edge trailing one behind, produces the frame whose bits are the long pulses |
| Dht22.DecodeByte | firmware/src/node/driver/DHT22/driverDHT22.c:275-283 | the eight edges of one byte, starting from a zero byte, give the decoded byte and leave the previous-edge time at its last edge |
| Dht22.SetMsbBit | firmware/src/node/driver/DHT22/driverDHT22.c:280-282 | setting 1 << (7 - bit) sets that bit and leaves the other seven unchanged |
| Dht22.DecodedByte | firmware/src/node/driver/DHT22/driverDHT22.c:273-284 | a byte whose eight bits are the long pulses of a byte's edges is that decoded byte |
| Dht22.CapturedBit | firmware/src/node/driver/DHT22/driverDHT22.c:304-311 | an edge captured after a long or short data period decodes as that data bit |
| Dht22.FrameOfCapture | firmware/src/node/driver/DHT22/driverDHT22.c:265-311 | decoding the captured edges of any five bytes gives the five bytes back, wherever the capture timer started |
| Dht22.IsDataValid | firmware/src/node/driver/DHT22/driverDHT22.c:299-302 | a frame is valid exactly when its first four bytes minus the fifth add up to a multiple of 256 |
| Dht22.ChecksumDetectsOneByte | firmware/src/node/driver/DHT22/driverDHT22.c:299-302 | four bytes followed by their 8-bit sum form a valid frame, and changing any one byte of a valid frame makes it invalid |
| Dht22.ConvertToScaledInteger | firmware/src/node/driver/DHT22/driverDHT22.c:260-263 | the first byte is the high byte and the second the low byte of the 16-bit result |
| Dht22.ToI16 | firmware/src/node/driver/DHT22/driverDHT22.c:288-289 | storing a 16-bit value into an int16_t keeps its value modulo 2^16 |
| Dht22.Temperature | firmware/src/node/driver/DHT22/driverDHT22.c:289 | the sensor's temperature word is sign and magnitude: the magnitude is the low fifteen bits and the sign is the top bit |
| Dht22.TemperatureAsWritten | firmware/src/node/driver/DHT22/driverDHT22.c:289 | as written, the stored temperature is the 16-bit word read as two's complement: negative exactly when the top bit is set, and the sensor's value whenever it is not |
| Dht22.TemperatureAsWrittenBelowZero | firmware/src/node/driver/DHT22/driverDHT22.c:289 | reading the word as two's complement agrees with sign and magnitude exactly when the temperature is not negative or the word is 0xC000; 0x80 0x65 reads -32667 instead of -101 |
| Dht22.Init | firmware/src/node/driver/DHT22/driverDHT22.c:108-122 | a freshly initialized driver is powering up with no valid measurement |
| Dht22.Decoded | firmware/src/node/driver/DHT22/driverDHT22.c:286-296 | the measurement is valid exactly when the checksum matches; a valid frame stores the temperature of the chosen variant and the humidity, an invalid one keeps the old values |
| Dht22.ElapsedMs | firmware/src/common/timer/Timer.c:74-89 | corrected, the elapsed time is the modular difference; as written it is the same until the counter wraps and one millisecond short after |
| Dht22.StoredTemperature | firmware/src/node/driver/DHT22/driverDHT22.c:286-296 | as written the stored temperature is the word as two's complement, corrected it is sign and magnitude; the two agree from zero up |
| Dht22.DecodedVariants | firmware/src/node/driver/DHT22/driverDHT22.c:286-296 | both variants store the same measurement for every frame not below zero, and differ on a valid frame at minus 10.1 degrees |
| Dht22.StartMeasurement | firmware/src/node/driver/DHT22/driverDHT22.c:181-187 | only an idle driver starts reading; any other driver is unchanged, and nothing but the state changes |
| Dht22.ClearValidFlag | firmware/src/node/driver/DHT22/driverDHT22.c:171-174 | the valid flag is cleared and nothing else changes |
| Dht22.Interrupt | firmware/src/node/driver/DHT22/driverDHT22.c:304-311 | a captured time is stored at the next position while fewer than 43 have been stored; afterwards captures are ignored; nothing else changes |
| Dht22.ReadingStep | firmware/src/node/driver/DHT22/driverDHT22.c:200-258 | the capture starts with a zero pulse counter after the request wait; decoding follows only after all 43 edges, and the timeouts compare the elapsed time of the chosen timer variant |
| Dht22.ReadingTimeoutAtWrap | firmware/src/node/driver/DHT22/driverDHT22.c:238-250 | across the counter wrap the as-written timeout comes a millisecond late: 7 ms into a capture started at 0xFFFFFFFB the corrected driver gives up and the as-written one still waits |
| Dht22.Update | firmware/src/node/driver/DHT22/driverDHT22.c:124-154 | an idle driver is unchanged; a decoding driver stores the decoded measurement and becomes idle; a powering-up driver becomes idle exactly when more than the power-up delay has elapsed by the chosen timer variant; only decoding changes the measurement |
| Dht22.Interrupts | firmware/src/node/driver/DHT22/driverDHT22.c:304-311 | a sequence of captures changes only the pulse counter and the stored times |
| Dht22.InterruptsRecord | firmware/src/node/driver/DHT22/driverDHT22.c:304-311 | captures that fit are recorded in order after those already stored, which stay as they were |
| Dht22.MeasurementCycle | firmware/src/node/driver/DHT22/driverDHT22.c:124-311 | a measurement started while idle, with the sensor sending five bytes, ends idle with the measurement decoded from those bytes |
| LinkedList.New | firmware/src/utility/List/List.h:39 | a new list has the given type and is empty in every heap |
| LinkedList.ChainDistinct | firmware/src/utility/List/List.c:62-168 | a list reached through next pointers that ends in NULL has no node twice |
| LinkedList.ChainUnique | firmware/src/utility/List/List.c:62-168 | a root reaches exactly one list of nodes |
| LinkedList.GetLength | firmware/src/utility/List/List.c:129-144 | the count is the number of nodes in the list |
| LinkedList.Iterate | firmware/src/utility/List/List.c:153-168 | the callback is called once for each node, in list order, with the node's index |
| LinkedList.Append | firmware/src/utility/List/List.c:62-84 | a node not in the list ends up at its end and one already in the list cuts the list off after it; an empty list gets the node as its root; nodes outside the list are untouched |
| LinkedList.CutAfter | firmware/src/utility/List/List.c:74-83 | appending a node already in the list leaves the nodes up to it linked as before, ending at it |
| LinkedList.Extend | firmware/src/utility/List/List.c:74-83 | appending a node not in the list links it after the last node |
| LinkedList.Remove | firmware/src/utility/List/List.c:93-121 | the first occurrence of the node is unlinked and the rest keep their order; a node not in the list changes nothing; nodes outside the list keep their next pointers |
| LinkedList.UnlinkAfter | firmware/src/utility/List/List.c:104-116 | pointing the predecessor past a node unlinks exactly that node |
| LinkedList.RemoveRoot | firmware/src/utility/List/List.c:104-116 | pointing the root past the first node unlinks it |

## Left out

- I/O in `scripts/memory/nvm.py`: reading and writing Intel-HEX files and the `MemoryTool` programmer calls. The EEPROM image is an address-to-byte map (`HexImage`).
- The `crcmod` library is not part of this model. Its CRC-16 with polynomial 0x18005, no reflection and initial value 0 is modelled as the table-driven algorithm (`Crc16Table`), and proved equal to the bitwise firmware CRC.
- The `datetime` value of an error message and the formatting of its timestamp: the timestamp stays the 32-bit number stored in the slot.
- SPI transfers, chip selects and the SPI callbacks of both clock drivers: the register file is a map from register address to byte.
- The register headers of both clock chips are not part of this model. Register addresses and bit positions are the chips' datasheet values; the DS3234 hour-mode bit is bit 6 and its month mask 0x1F.
- Mcp79510.Init: the busy wait for the oscillator-running flag is left out, and so is the debug register dump of both drivers.
- Bitwise `|` of disjoint bit fields is modelled as addition, with the disjointness proved where it is used.
- LinkedList: the count of `List_GetLength` is 32 bits wide in C and unbounded here, since a list of 2^32 nodes cannot be built on the target. The nodes' data pointers are left out. The list contents are a ghost sequence argument tied to the heap by `Chain`, which proves that sequence unique.
- Dht22: the data pin and the input-capture unit are left out. The milliseconds of `Timer_GetMilliseconds` and the captured timer values are parameters. The float conversion of the readings is left out.
- Power: the charger's pins and the battery voltage are parameters. Power.c reads the charger anew at each test, while the model takes one consistent `Reading` per update, so a charger state that changes in the middle of an update can take paths through the source that the model does not. `Event_Trigger` becomes the list of emitted events. The debug output of `Power_WakeUp` is left out.
- Display: the writes to the display controller become the byte sequence sent, in order. Brightness control and the debug dump are left out.
- Sensor: the sample callbacks become the sampled values. The EEPROM holding the statistics is a byte map.
- ErrorHandler: `PointOfNoReturn` (the endless loop after a fatal error) and the log dump over the serial port are left out.
- Sensor.ResetValues: the contract states only the id and the two cleared validity flags; the neutral extremes it stores are shown through Sensor.StatisticsBoundValues.
- Time.AddDaysAdvances: proved for steps of up to 28 days, which take a date at most one month on.
- Text: Python strings may hold lone surrogates, which `str.encode` rejects with an error. A Dafny `char` is a Unicode scalar value, so that error path of the AES-key setter has no counterpart in the model.
- Fifo.Valid: requires the buffer to hold at most 256 bytes (`size * item_size <= 0x100`). Push, Pop, Peek and FirstInFirstOut are proved only for such buffers, the ones whose 8-bit offsets cannot wrap. The FIFO.c:139-143 finding row covers larger buffers.
- Time: calendar arithmetic is stated for the years 2000 to 2099, the range of the 8-bit year field used as the year after 2000.

## Findings

| source | as written | input that shows it | evidently intended | confidence | as-written member | corrected member |
|---|---|---|---|---|---|---|
| scripts/memory/nvm.py:181-213 | the address guards test `value == 0 and value > 255`, which no value meets | setting the address to 300 succeeds; packing the record then fails | reject 0 and values above 255 in the setter | not executed | NvmConfig.AddressSettersNeverRaise | NvmConfig.CheckedAddressPacks |
| firmware/src/utility/FIFO/FIFO.c:139-143 | the next position is returned as `uint8_t` | a FIFO of 90 three-byte items: the position after offset 255 is 2, inside the oldest item | offsets wrap at the capacity, in full width | not executed | Fifo.NextPositionTruncates | Fifo.NextPositionWideCycles |
| firmware/src/common/time/Time.c:291-298 | the day-of-year table is indexed as if months were 0-based | 2000-01-01 00:00:00 converts to 2678400 | 0, the epoch | not executed | Time.ConvertToTimestampJanFeb | Time.TimestampCorrect |
| firmware/src/common/time/Time.c:212-244 | dates and months are reduced modulo their count as if 0-based | one day after 30 January gives 0 February; one month after November gives month 0 | 31 January; December | not executed | Time.AddAsWrittenZeroBased | Time.AddDaysAdvances |
| firmware/src/common/time/Time.c:347 | the assertion checks only `month <= 12` before indexing with `month - 1` | month 0 passes the assertion and reads before the table | reject month 0 too | not executed | Time.MonthZeroPassesAssertion | Time.GetDaysInMonth |
| firmware/src/common/time/Time.c:143-145 | summer time in March starts after the last Sunday and the search can stop a week early | 2018-03-25, the last Sunday of March, is reported as winter time; in 2024, 30 March is reported as summer time | summer time from the last Sunday of March to the day before the last Sunday of October | not executed | Time.DaylightSavingAsWrittenDiffers | Time.LastSundayIsLast |
| firmware/src/common/timer/Timer.c:79-83 | across the wrap the difference is `(0xFFFFFFFF - start) + now` | from 0xFFFFFFFF to 0 reads 0 milliseconds | 1, the difference modulo 2^32 | not executed | Timer.TimeDifferenceAsWrittenMissesWrap | Timer.TimeDifferenceMeasures |
| firmware/src/common/ErrorHandler.c:143 | the next index is `((i + 1) % sizeof(log)) / sizeof(entry)` | from index 0 the next index is 0, so every error overwrites slot 0 | `(i + 1) % 80` | not executed | ErrorHandler.LogErrorAsWrittenOverwrites | ErrorHandler.InitRecoversRun |
| firmware/src/common/ErrorHandler.c:66-147 | the current id is `uint8_t` while stored ids are 32 bits | after id 255 the id wraps to 0 and the next error fails its assertion, also after a restart | a 32-bit id | not executed | ErrorHandler.IdWrapsAsWritten | ErrorHandler.LogError |
| firmware/src/main/sensor/Sensor.c:236-250 | the CRC covers `sizeof(record) - offsetof(crc)` bytes, only the maximum | a zeroed record with its valid byte set to 1 passes the CRC test and turns invalid statistics valid | the CRC covers every byte before it | not executed | Sensor.CorruptValidFlag | Sensor.IntendedDetectsByteChange |
| firmware/src/node/driver/MCP79510/driverMCP79510.c:461 | the magnitude is the 16-bit `abs` of the trim value | a trim of -32768 writes magnitude 0 | the largest magnitude, 255 | not executed | Mcp79510.TrimAsWrittenAtMinimum | Mcp79510.SetOscillatorTrimming |
| firmware/src/main/driver/DS3234/driverDS3234.c:189-203 | the hour is written as plain BCD in both modes | in 12-hour mode, setting 5 o'clock clears the mode bit and the clock runs in 24-hour mode | keep the 12-hour mode bit | not executed | Ds3234.SetHourAsWrittenLeaves12HourMode | Ds3234.SetHour |
| firmware/src/main/driver/DS3234/driverDS3234.c:93-105 | the reading is `msb * 100 + (lsb >> 6)` with an unsigned `msb` | 25.5 degrees reads 2502; minus one degree reads 25500 | a signed `msb` and quarter degrees: 2550 and -100 | not executed | Ds3234.TemperatureAsWrittenMisreads | Ds3234.Temperature |
| firmware/src/main/driver/DS3234/driverDS3234.c:441-444 | `address + length` is computed in the 16-bit `size_t` of the target | address 1 with length 0xFFFF wraps to 0 and is accepted | reject any range past the 256-byte SRAM | not executed | Ds3234.SramCheckWrapsAsWritten | Ds3234.WriteToSram |
| firmware/src/node/driver/DHT22/driverDHT22.c:289 | the temperature word is stored as a two's complement `int16_t` | minus 10.1 degrees, sent as 0x80 0x65, reads -32667 | the sensor's sign and magnitude: -101 | not executed; plausible but unverified, since the sensor's datasheet is not part of this model | Dht22.TemperatureAsWrittenBelowZero | Dht22.Decoded |

=== FILE: arith.dfy ===
/** Facts about multiplication, division and remainder that the solver
    does not find on its own once a modulus or factor is symbolic. Dafny's
    `/` and `%` are Euclidean; every use here has a positive divisor and
    a non-negative dividend, where they agree with C's unsigned operators. */
module Arith {

  lemma MulNonNeg(a: int, b: int)
    requires a >= 0 && b >= 0
    ensures a * b >= 0
  {
  }

  lemma MulAtLeast(d: int, m: int)
    requires d >= 1 && m > 0
    ensures d * m >= m
  {
    MulNonNeg(d - 1, m);
    assert d * m == (d - 1) * m + m;
  }

  lemma MulLeMono(a: int, b: int, c: int)
    requires a <= b && c >= 0
    ensures a * c <= b * c
  {
    MulNonNeg(b - a, c);
    assert b * c == a * c + (b - a) * c;
  }

  /** Slot `s` of `count` slots of `n` items each lies inside the
      buffer of `count * n` items. */
  lemma SlotFits(s: int, count: int, n: int)
    requires 0 <= s < count && n >= 0
    ensures 0 <= s * n && s * n + n <= count * n
  {
    MulNonNeg(s, n);
    MulLeMono(s + 1, count, n);
    assert (s + 1) * n == s * n + n;
  }

  lemma ZeroQuotient(m: int)
    requires m > 0
    ensures 0 / m == 0 && 0 % m == 0
  {
  }

  /** Quotient and remainder are the only pair that rebuilds the dividend
      with the remainder in range. */
  lemma ModUnique(x: int, m: int, q: int, r: int)
    requires m > 0 && 0 <= r < m && x == q * m + r
    ensures x % m == r && x / m == q
  {
    var q', r' := x / m, x % m;
    assert (q - q') * m == r' - r;
    if q > q' {
      MulAtLeast(q - q', m);
    } else if q < q' {
      MulAtLeast(q' - q, m);
    }
  }

  /** Scaling dividend and modulus by the same factor scales the
      remainder. */
  lemma ModScale(a: int, n: int, b: int)
    requires n > 0 && b > 0
    ensures (a * b) % (n * b) == (a % n) * b
  {
    var q, r := a / n, a % n;
    assert a * b == q * (n * b) + r * b;
    MulAtLeast(n - r, b);
    MulNonNeg(r, b);
    ModUnique(a * b, n * b, q, r * b);
  }

  /** Two values less than `n` apart that are not equal have different
      remainders. */
  lemma ModDistinct(a: int, b: int, n: int)
    requires n > 0 && 0 < b - a < n
    ensures a % n != b % n
  {
    var qa, qb := a / n, b / n;
    if a % n == b % n {
      assert b - a == (qb - qa) * n;
      if qb - qa >= 1 {
        MulAtLeast(qb - qa, n);
      } else {
        MulNonNeg(qa - qb, n);
      }
    }
  }

  /** Adding to a remainder is adding to the dividend. */
  lemma ModAddMod(a: int, b: int, n: int)
    requires n > 0
    ensures (a % n + b) % n == (a + b) % n
  {
    var q := a / n;
    assert a + b == (a % n + b) + q * n;
    ModShift(a % n + b, q, n);
  }

  /** Adding a multiple of the modulus leaves the remainder alone. */
  lemma ModShift(x: int, k: int, n: int)
    requires n > 0
    ensures (x + k * n) % n == x % n
  {
    ModUnique(x + k * n, n, x / n + k, x % n);
  }

  /** A positive factor cancels. */
  lemma MulCancel(a: int, b: int, n: int)
    requires n > 0
    ensures a * n == b * n <==> a == b
  {
    if a < b {
      MulLeMono(a + 1, b, n);
    } else if a > b {
      MulLeMono(b + 1, a, n);
    }
  }

  /** Distinct slots of `n` units do not overlap. */
  lemma SlotsDisjoint(s: int, t: int, n: int)
    requires n > 0 && s != t
    ensures t * n + n <= s * n || s * n + n <= t * n
  {
    if t < s {
      MulLeMono(t + 1, s, n);
    } else {
      MulLeMono(s + 1, t, n);
    }
  }

  /** The remainder of a value at most one modulus away from `[0, n)`. */
  lemma ModNear(x: int, n: int)
    requires n > 0 && -n <= x < 2 * n
    ensures x % n == if x < 0 then x + n else if x < n then x else x - n
  {
    if x < 0 {
      ModUnique(x, n, -1, x + n);
    } else if x < n {
      ModUnique(x, n, 0, x);
    } else {
      ModUnique(x, n, 1, x - n);
    }
  }

  /** A remainder is at most the (non-negative) dividend. */
  lemma ModLe(x: int, m: int)
    requires x >= 0 && m > 0
    ensures x % m <= x
  {
    MulNonNeg(x / m, m);
  }

  /** Quotient and remainder by `p` through those by `p * q`. */
  lemma DivOfProduct(x: int, p: int, q: int)
    requires x >= 0 && p > 0 && q > 0
    ensures p * q > 0
    ensures x / p == x / (p * q) * q + x % (p * q) / p
    ensures x % p == x % (p * q) % p
    ensures x % (p * q) / p < q
  {
    MulAtLeast(q, p);
    var a, m := x / (p * q), x % (p * q);
    assert x == a * q * p + m / p * p + m % p;
    ModUnique(x, p, a * q + m / p, m % p);
    if m / p >= q {
      MulLeMono(q, m / p, p);
    }
  }

  /** Dividing twice is dividing by the product. */
  lemma DivDiv(x: int, p: int, q: int)
    requires x >= 0 && p > 0 && q > 0
    ensures x / (p * q) == x / p / q
  {
    DivOfProduct(x, p, q);
    ModUnique(x / p, q, x / (p * q), x % (p * q) / p);
  }
}

=== FILE: bcd.dfy ===
/** Binary-coded decimal conversion (common.c), used for the calendar
    registers of the real-time clocks: the tens digit in the high nibble,
    the units digit in the low one. */
module Bcd {
  import opened Bytes
  import Arith

  /** Both nibbles are decimal digits. */
  predicate IsBcd(b: byte) {
    b / 16 <= 9 && b % 16 <= 9
  }

  /** BCDToDecimal: ten times the high nibble (`(b & 0xF0) >> 4`) plus the
      low nibble (`b & 0x0F`). A byte that is not BCD converts as well; the
      largest result, of 0xFF, is 165, so the 8-bit result never wraps. */
  function BcdToDecimal(bcd: byte): (r: byte)
    ensures r <= 165
    ensures IsBcd(bcd) ==> r < 100 && r / 10 == bcd / 16 && r % 10 == bcd % 16
  {
    bcd / 16 * 10 + bcd % 16
  }

  /** One pass of DecimalToBCD's do-while loop and the passes after it:
      the units digit of `rest` goes into the nibble `scale` marks, and
      the loop goes on while digits remain. Every digit placed so far lies
      below `scale`, so the source's `|=` adds. */
  function PlaceDigits(rest: nat, data: nat, scale: nat): nat
    decreases rest
  {
    var data' := data + rest % 10 * scale;
    if rest / 10 > 0 then PlaceDigits(rest / 10, data', scale * 16) else data'
  }

  /** DecimalToBCD: the decimal digits of the value in successive
      nibbles, units first; three digits need the 16-bit result. */
  function DecimalToBcd(decimal: byte): (r: u16)
    ensures r == decimal / 100 * 0x100 + decimal / 10 % 10 * 0x10 + decimal % 10
    ensures decimal < 100 ==> r <= 0x99 && IsBcd(r)
  {
    PlaceDigitsOfByte(decimal);
    PlaceDigits(decimal, 0, 1)
  }

  /** The loop runs once per decimal digit, three times at most. */
  lemma PlaceDigitsOfByte(decimal: byte)
    ensures PlaceDigits(decimal, 0, 1) == decimal / 100 * 0x100 + decimal / 10 % 10 * 0x10 + decimal % 10
  {
    var units, tens, hundreds := decimal % 10, decimal / 10 % 10, decimal / 100;
    if decimal >= 10 {
      assert PlaceDigits(decimal, 0, 1) == PlaceDigits(decimal / 10, units, 0x10);
      if decimal >= 100 {
        assert decimal / 10 / 10 == hundreds && hundreds / 10 == 0;
        assert PlaceDigits(decimal / 10, units, 0x10) == PlaceDigits(hundreds, units + tens * 0x10, 0x100);
      }
    }
  }

  /** Decimal to BCD and back is the identity on two-digit values. */
  lemma DecimalBcdRoundTrip(decimal: byte)
    requires decimal < 100
    ensures BcdToDecimal(DecimalToBcd(decimal)) == decimal
  {
    Arith.ModUnique(DecimalToBcd(decimal), 16, decimal / 10, decimal % 10);
  }

  /** BCD to decimal and back is the identity on BCD bytes. */
  lemma BcdDecimalRoundTrip(bcd: byte)
    requires IsBcd(bcd)
    ensures DecimalToBcd(BcdToDecimal(bcd)) == bcd
  {
    var r := BcdToDecimal(bcd);
    assert r / 100 == 0 && r / 10 % 10 == bcd / 16;
    assert bcd == bcd / 16 * 16 + bcd % 16;
  }

  /** DecimalToBCD of a two-digit value, as the byte the clock drivers
      write: the tens digit in the high nibble, the units in the low one. */
  function BcdByte(value: byte): (r: byte)
    requires value < 100
    ensures IsBcd(r) && BcdToDecimal(r) == value
    ensures r / 16 == value / 10 && r % 16 == value % 10
  {
    DecimalBcdRoundTrip(value);
    DecimalToBcd(value)
  }

  /** Every BCD byte is the BCD byte of the value it converts to, so a
      getter's result determines the register it read. */
  lemma BcdByteOfDecimal(b: byte)
    ensures IsBcd(b) ==> BcdToDecimal(b) < 100 && BcdByte(BcdToDecimal(b)) == b
  {
    if IsBcd(b) {
      BcdDecimalRoundTrip(b);
    }
  }
}

=== FILE: bit.dfy ===
/** Single-bit access to a byte (Bit.c). The byte and the bit index are
    8-bit values, as in the source. */
module Bit {

  /** The bit at `index` as a mask. */
  function Mask(index: bv8): (m: bv8)
    requires index < 8
  {
    1 << index
  }

  /** Bit_Get: whether bit `index` of `data` is set. Its assertions demand
      an index below 8 (and a non-null pointer, which a value cannot
      lack). */
  function Get(index: bv8, data: bv8): (r: bool)
    requires index < 8
    ensures r <==> (data >> index) & 1 == 1
  {
    data & Mask(index) != 0
  }

  /** Bit_Set: `data` with bit `index` set or cleared. */
  function Set(index: bv8, state: bool, data: bv8): (r: bv8)
    requires index < 8
    ensures Get(index, r) == state
  {
    if state then data | Mask(index) else data & !Mask(index)
  }

  /** Setting a bit leaves every other bit as it was. */
  lemma SetKeepsOthers(index: bv8, other: bv8, state: bool, data: bv8)
    requires index < 8 && other < 8 && other != index
    ensures Get(other, Set(index, state, data)) == Get(other, data)
  {
  }

  /** Setting a bit to the value it already has changes nothing. */
  lemma SetUnchanged(index: bv8, state: bool, data: bv8)
    requires index < 8 && Get(index, data) == state
    ensures Set(index, state, data) == data
  {
  }

  /** Setting a bit twice is setting it once. */
  lemma SetIdempotent(index: bv8, state: bool, data: bv8)
    requires index < 8
    ensures Set(index, state, Set(index, state, data)) == Set(index, state, data)
  {
    SetUnchanged(index, state, Set(index, state, data));
  }

  /** A byte is determined by its eight bits. */
  lemma BitsDetermineByte(x: bv8, y: bv8)
    requires forall i: bv8 :: i < 8 ==> Get(i, x) == Get(i, y)
    ensures x == y
  {
    assert Get(0, x) == Get(0, y) && Get(1, x) == Get(1, y);
    assert Get(2, x) == Get(2, y) && Get(3, x) == Get(3, y);
    assert Get(4, x) == Get(4, y) && Get(5, x) == Get(5, y);
    assert Get(6, x) == Get(6, y) && Get(7, x) == Get(7, y);
  }

  /** Reading back: Bit_Set followed by Bit_Get of the same bit gives the
      value set; of another bit, that bit of the original. */
  lemma GetAfterSet(index: bv8, other: bv8, state: bool, data: bv8)
    requires index < 8 && other < 8
    ensures Get(other, Set(index, state, data)) == if other == index then state else Get(other, data)
  {
    if other != index {
      SetKeepsOthers(index, other, state, data);
    }
  }
}

=== FILE: bytes.dfy ===
/** Bytes and the little-endian fixed-width integers the EEPROM image is
    built from. The host tool packs with Python's native byte order on a
    little-endian machine and the firmware runs on a little-endian AVR, so
    both sides agree on the layout defined here. */
module Bytes {

  /** An unsigned 8-bit value. */
  type byte = x: int | 0 <= x < 0x100

  const U16Limit: int := 0x1_0000
  const U32Limit: int := 0x1_0000_0000

  /** Unsigned 16- and 32-bit values, for the firmware's fixed-width fields. */
  type u16 = x: int | 0 <= x < 0x1_0000
  /** A signed 16-bit value. */
  type i16 = x: int | -0x8000 <= x < 0x8000
  type u32 = x: int | 0 <= x < 0x1_0000_0000

  predicate IsU8(x: int) { 0 <= x < 0x100 }
  predicate IsU16(x: int) { 0 <= x < U16Limit }
  predicate IsU32(x: int) { 0 <= x < U32Limit }

  /** `n` zero bytes, what a cleared memory region holds. */
  function Zeros(n: nat): (r: seq<byte>)
    ensures |r| == n
    ensures forall i :: 0 <= i < n ==> r[i] == 0
  {
    seq(n, _ => 0)
  }

  /** Little-endian encoding of a 16-bit value. */
  function U16Le(x: int): (r: seq<byte>)
    requires IsU16(x)
    ensures |r| == 2
  {
    [x % 0x100, x / 0x100]
  }

  /** Little-endian decoding of two bytes. */
  function ReadU16Le(s: seq<byte>): (x: int)
    requires |s| == 2
    ensures IsU16(x)
  {
    s[0] as int + 0x100 * s[1] as int
  }

  /** Little-endian encoding of a 32-bit value. */
  function U32Le(x: int): (r: seq<byte>)
    requires IsU32(x)
    ensures |r| == 4
  {
    U16Le(x % U16Limit) + U16Le(x / U16Limit)
  }

  /** Little-endian decoding of four bytes. */
  function ReadU32Le(s: seq<byte>): (x: int)
    requires |s| == 4
    ensures IsU32(x)
  {
    ReadU16Le(s[..2]) + U16Limit * ReadU16Le(s[2..])
  }

  lemma U16RoundTrip(x: int)
    requires IsU16(x)
    ensures ReadU16Le(U16Le(x)) == x
  {
  }

  lemma U16Injective(s: seq<byte>)
    requires |s| == 2
    ensures U16Le(ReadU16Le(s)) == s
  {
  }

  lemma U32RoundTrip(x: int)
    requires IsU32(x)
    ensures ReadU32Le(U32Le(x)) == x
  {
    var r := U32Le(x);
    assert r[..2] == U16Le(x % U16Limit);
    assert r[2..] == U16Le(x / U16Limit);
    U16RoundTrip(x % U16Limit);
    U16RoundTrip(x / U16Limit);
  }

  lemma U32Injective(s: seq<byte>)
    requires |s| == 4
    ensures U32Le(ReadU32Le(s)) == s
  {
    var lo, hi := ReadU16Le(s[..2]), ReadU16Le(s[2..]);
    var x := lo + U16Limit * hi;
    assert x % U16Limit == lo && x / U16Limit == hi;
    U16Injective(s[..2]);
    U16Injective(s[2..]);
    assert s == s[..2] + s[2..];
  }

  /** Little-endian two's complement encoding of a signed 16-bit value. */
  function I16Le(v: i16): (r: seq<byte>)
    ensures |r| == 2
  {
    U16Le(if v < 0 then v + U16Limit else v)
  }

  function ReadI16Le(b: seq<byte>): i16
    requires |b| == 2
  {
    var x := ReadU16Le(b);
    if x >= 0x8000 then x - U16Limit else x
  }

  lemma I16RoundTrip(v: i16)
    ensures ReadI16Le(I16Le(v)) == v
  {
    U16RoundTrip(if v < 0 then v + U16Limit else v);
  }
}

=== FILE: crc16.dfy ===
/** CRC-16 with polynomial 0x8005, initial register 0x0000, no input or
    output reflection and no final XOR (the CRC-16/BUYPASS entry of the
    Reveng catalogue). The firmware computes it bit by bit; the host tool
    asks a library for the CRC with the same parameters, which is this
    same function of the input. */
module Crc16 {
  import opened Bytes
  import RegisterBits

  /** X^16 + X^15 + X^2 + 1 without the implicit X^16 term. */
  const Poly: bv16 := 0x8005
  const InitValue: bv16 := 0x0000
  const BitsPerByte: nat := 8

  /** One iteration of the inner bit loop: shift left and, when the bit
      shifted out was set, XOR in the polynomial. */
  function ShiftBit(crc: bv16): bv16 {
    if crc & 0x8000 != 0 then (crc << 1) ^ Poly else crc << 1
  }

  /** `n` iterations of the inner bit loop. */
  function ShiftBits(crc: bv16, n: nat): bv16
    decreases n
  {
    if n == 0 then crc else ShiftBits(ShiftBit(crc), n - 1)
  }

  /** The work done for one input byte: XOR it into the high half of the
      register, then shift eight times. */
  function Step(crc: bv16, b: byte): bv16 {
    ShiftBits(Mix(crc, b), BitsPerByte)
  }

  /** XOR a byte into the high half of the register. */
  function Mix(crc: bv16, b: byte): bv16 {
    crc ^ (((b as bv8) as bv16) << 8)
  }

  /** Reference definition: the CRC is a left fold of `Step` over the
      input, starting from the initial value. */
  function Crc(data: seq<byte>): bv16
    decreases |data|
  {
    if |data| == 0 then InitValue
    else Step(Crc(data[..|data| - 1]), data[|data| - 1])
  }

  /** The CRC as the unsigned integer both the firmware and the host tool
      store in the record. */
  function CrcValue(data: seq<byte>): (r: int)
    ensures IsU16(r)
  {
    Crc(data) as int
  }

  /** The inner loop of CalculateCRC_16: eight conditional shifts. */
  method ShiftByte(start: bv16) returns (crc: bv16)
    ensures crc == ShiftBits(start, BitsPerByte)
  {
    crc := start;
    var bitIdx := 8;
    while bitIdx > 0
      invariant 0 <= bitIdx <= 8
      invariant ShiftBits(crc, bitIdx) == ShiftBits(start, BitsPerByte)
    {
      if crc & 0x8000 != 0 {
        crc := crc << 1;
        crc := crc ^ Poly;
      } else {
        crc := crc << 1;
      }
      bitIdx := bitIdx - 1;
    }
  }

  /** CalculateCRC_16: the firmware's loop over the bytes. */
  method CalculateCrc16(data: seq<byte>) returns (crc: bv16)
    ensures crc == Crc(data)
    ensures |data| == 0 ==> crc == 0
  {
    crc := InitValue;
    var byteIdx := 0;
    while byteIdx < |data|
      invariant 0 <= byteIdx <= |data|
      invariant crc == Crc(data[..byteIdx])
    {
      assert data[..byteIdx + 1] == data[..byteIdx] + [data[byteIdx]];
      CrcAppend(data[..byteIdx], data[byteIdx]);
      crc := ShiftByte(Mix(crc, data[byteIdx]));
      byteIdx := byteIdx + 1;
    }
    assert data[..|data|] == data;
  }

  /** Appending a byte applies one more step to the CRC of the prefix. */
  lemma CrcAppend(a: seq<byte>, b: byte)
    ensures Crc(a + [b]) == Step(Crc(a), b)
  {
    assert (a + [b])[..|a|] == a;
  }

  /** A zero register fed a zero byte stays zero. */
  lemma StepZero()
    ensures Step(0, 0) == 0
  {
  }

  /** The CRC of any run of zero bytes is zero, since the initial value
      is zero and there is no final XOR. */
  lemma {:induction false} CrcOfZeros(n: nat)
    ensures Crc(Zeros(n)) == 0
  {
    if n > 0 {
      assert Zeros(n)[..n - 1] == Zeros(n - 1);
      CrcOfZeros(n - 1);
      StepZero();
    }
  }

  /** The CRC of `data` is the last of `regs` when `regs` lists the
      register after every byte, starting from the initial value. */
  lemma {:induction false} CrcChain(data: seq<byte>, regs: seq<bv16>)
    requires |regs| == |data| + 1 && regs[0] == InitValue
    requires forall k :: 0 <= k < |data| ==> Step(regs[k], data[k]) == regs[k + 1]
    ensures Crc(data) == regs[|data|]
    decreases |data|
  {
    if |data| > 0 {
      var n := |data| - 1;
      CrcChain(data[..n], regs[..n + 1]);
    }
  }

  // ---------------------------------------------------------------------
  // Error detection

  /** A shift step loses no information: the polynomial's lowest bit is
      set, so the low bit of the result tells whether it was XORed in. */
  lemma ShiftBitInjective(a: bv16, b: bv16)
    requires a != b
    ensures ShiftBit(a) != ShiftBit(b)
  {
    if a & 0x8000 == 0 && b & 0x8000 == 0 {
      ShiftTopClear(a, b);
    } else if a & 0x8000 != 0 && b & 0x8000 != 0 {
      ShiftTopSet(a, b);
    } else if a & 0x8000 != 0 {
      ShiftTopDiffers(a, b);
    } else {
      ShiftTopDiffers(b, a);
    }
  }

  lemma ShiftTopClear(a: bv16, b: bv16)
    requires a != b && a & 0x8000 == 0 && b & 0x8000 == 0
    ensures a << 1 != b << 1
  {
  }

  lemma ShiftTopSet(a: bv16, b: bv16)
    requires a != b && a & 0x8000 != 0 && b & 0x8000 != 0
    ensures (a << 1) ^ Poly != (b << 1) ^ Poly
  {
  }

  /** The low bit of the result tells whether the polynomial was XORed
      in, since its own low bit is set. */
  lemma ShiftTopDiffers(a: bv16, b: bv16)
    requires a & 0x8000 != 0 && b & 0x8000 == 0
    ensures (a << 1) ^ Poly != b << 1
  {
  }

  lemma {:induction false} ShiftBitsInjective(a: bv16, b: bv16, n: nat)
    requires a != b
    ensures ShiftBits(a, n) != ShiftBits(b, n)
    decreases n
  {
    if n > 0 {
      ShiftBitInjective(a, b);
      ShiftBitsInjective(ShiftBit(a), ShiftBit(b), n - 1);
    }
  }

  /** Different registers stay different after the same byte, and the
      same register becomes different after different bytes. */
  lemma StepInjectiveInRegister(a: bv16, b: bv16, x: byte)
    requires a != b
    ensures Step(a, x) != Step(b, x)
  {
    MixInjectiveInRegister(a, b, x);
    ShiftBitsInjective(Mix(a, x), Mix(b, x), BitsPerByte);
  }

  lemma StepInjectiveInByte(a: bv16, x: byte, y: byte)
    requires x != y
    ensures Step(a, x) != Step(a, y)
  {
    MixInjectiveInByte(a, x, y);
    ShiftBitsInjective(Mix(a, x), Mix(a, y), BitsPerByte);
  }

  lemma MixInjectiveInRegister(a: bv16, b: bv16, x: byte)
    requires a != b
    ensures Mix(a, x) != Mix(b, x)
  {
    var sx := ((x as bv8) as bv16) << 8;
    assert (a ^ sx) ^ sx == a;
  }

  lemma ByteToBv8Injective(x: byte, y: byte)
    requires x != y
    ensures x as bv8 != y as bv8
  {
    Bv8RoundTrip(x);
    Bv8RoundTrip(y);
  }

  /** A byte read as eight bits and back is the same byte. */
  lemma Bv8RoundTrip(x: byte)
    ensures (x as bv8) as int == x
  {
    SameBitsSameByte((x as bv8) as int, x);
  }

  /** Two bytes with the same eight bits are equal. */
  lemma SameBitsSameByte(x: byte, y: byte)
    requires x as bv8 == y as bv8
    ensures x == y
  {
    RegisterBits.GetIsFlag(0, x); RegisterBits.GetIsFlag(0, y);
    RegisterBits.GetIsFlag(1, x); RegisterBits.GetIsFlag(1, y);
    RegisterBits.GetIsFlag(2, x); RegisterBits.GetIsFlag(2, y);
    RegisterBits.GetIsFlag(3, x); RegisterBits.GetIsFlag(3, y);
    RegisterBits.GetIsFlag(4, x); RegisterBits.GetIsFlag(4, y);
    RegisterBits.GetIsFlag(5, x); RegisterBits.GetIsFlag(5, y);
    RegisterBits.GetIsFlag(6, x); RegisterBits.GetIsFlag(6, y);
    RegisterBits.GetIsFlag(7, x); RegisterBits.GetIsFlag(7, y);
    RegisterBits.ByteFlagsDetermine(x, y);
  }

  lemma WidenShiftInjective(u: bv8, v: bv8)
    requires u != v
    ensures (u as bv16) << 8 != (v as bv16) << 8
  {
    assert ((u as bv16) << 8) >> 8 == u as bv16;
    assert ((v as bv16) << 8) >> 8 == v as bv16;
  }

  lemma MixInjectiveInByte(a: bv16, x: byte, y: byte)
    requires x != y
    ensures Mix(a, x) != Mix(a, y)
  {
    ByteToBv8Injective(x, y);
    WidenShiftInjective(x as bv8, y as bv8);
    var sx, sy := ((x as bv8) as bv16) << 8, ((y as bv8) as bv16) << 8;
    assert (a ^ sx) ^ (a ^ sy) == sx ^ sy;
  }

  /** Once two inputs have different CRCs, appending the same bytes to
      both keeps them different. */
  lemma {:induction false} CrcKeepsDifference(u: seq<byte>, v: seq<byte>, z: seq<byte>)
    requires Crc(u) != Crc(v)
    ensures Crc(u + z) != Crc(v + z)
    decreases |z|
  {
    if |z| > 0 {
      var n := |z| - 1;
      CrcKeepsDifference(u, v, z[..n]);
      CrcOfExtension(u, z);
      CrcOfExtension(v, z);
      StepInjectiveInRegister(Crc(u + z[..n]), Crc(v + z[..n]), z[n]);
    } else {
      AppendEmpty(u, z);
      AppendEmpty(v, z);
    }
  }

  lemma AppendEmpty(u: seq<byte>, z: seq<byte>)
    requires |z| == 0
    ensures u + z == u
  {
  }

  /** The CRC of an extension is one step past the CRC of the extension
      without its last byte. */
  lemma CrcOfExtension(u: seq<byte>, z: seq<byte>)
    requires |z| > 0
    ensures Crc(u + z) == Step(Crc(u + z[..|z| - 1]), z[|z| - 1])
  {
    SplitLast(u, z);
    CrcAppend(u + z[..|z| - 1], z[|z| - 1]);
  }

  lemma SplitLast(u: seq<byte>, z: seq<byte>)
    requires |z| > 0
    ensures u + z == (u + z[..|z| - 1]) + [z[|z| - 1]]
  {
  }

  lemma SplitAt(data: seq<byte>, i: nat, b: byte)
    requires i < |data|
    ensures data[i := b] == data[..i] + [b] + data[i + 1..]
    ensures data == data[..i] + [data[i]] + data[i + 1..]
  {
  }

  /** The CRC detects every change of a single byte. */
  lemma CrcDetectsByteChange(data: seq<byte>, i: nat, b: byte)
    requires i < |data| && data[i] != b
    ensures Crc(data[i := b]) != Crc(data)
  {
    var p, z := data[..i], data[i + 1..];
    CrcAppend(p, b);
    CrcAppend(p, data[i]);
    StepInjectiveInByte(Crc(p), b, data[i]);
    CrcKeepsDifference(p + [b], p + [data[i]], z);
    SplitAt(data, i, b);
  }

  /** The same for the stored integer value of the CRC. */
  lemma CrcValueDetectsByteChange(data: seq<byte>, i: nat, b: byte)
    requires i < |data| && data[i] != b
    ensures CrcValue(data[i := b]) != CrcValue(data)
  {
    CrcDetectsByteChange(data, i, b);
    Bv16RoundTrip(Crc(data[i := b]));
    Bv16RoundTrip(Crc(data));
  }

  lemma Bv16RoundTrip(v: bv16)
    ensures (v as int) as bv16 == v
  {
  }
}

=== FILE: crc16_table.dfy ===
/** The table-driven form of the CRC-16 in Crc16: one lookup in a
    256-entry table per input byte, as CRC libraries such as the one the
    host tool uses compute it for a non-reflected CRC. The lemmas show it
    is the firmware's bitwise CRC. */
module Crc16Table {
  import opened Bytes
  import opened Crc16


  /** `i << 8`: the low byte of `i` placed in the high half of the
      register. */
  function High(i: bv16): bv16 {
    i << 8
  }

  /** `crc & 0xFF`: the low half of the register. */
  function LowByte(crc: bv16): bv16 {
    crc & 0xFF
  }

  /** The table index for the next byte: the high half of the register
      XOR the byte. */
  function Index(crc: bv16, b: byte): bv16 {
    ((crc >> 8) ^ ((b as bv8) as bv16)) & 0xFF
  }

  /** Entry `i` of the 256-entry table: the register after eight shifts
      of `i` placed in the high byte. */
  function TableEntry(i: bv16): bv16 {
    ShiftBits(High(i), BitsPerByte)
  }

  /** One byte of the table-driven algorithm for a non-reflected 16-bit
      CRC: the table entry at the index, XOR the register shifted up a
      byte. */
  function TableStep(crc: bv16, b: byte): bv16 {
    TableEntry(Index(crc, b)) ^ High(crc)
  }

  function TableCrc(data: seq<byte>): bv16
    decreases |data|
  {
    if |data| == 0 then InitValue
    else TableStep(TableCrc(data[..|data| - 1]), data[|data| - 1])
  }

  /** A shift step is linear over XOR: the bit shifted out of `a ^ c` is
      the XOR of the bits shifted out of `a` and `c`, so the polynomial
      comes in once for `a ^ c` exactly when it comes in once for the
      two together. */
  lemma ShiftBitLinear(a: bv16, c: bv16)
    ensures ShiftBit(a ^ c) == ShiftBit(a) ^ ShiftBit(c)
  {
    XorShift(a, c);
    XorTop(a, c);
    ShiftBitCase(a);
    ShiftBitCase(c);
    ShiftBitCase(a ^ c);
    if a & 0x8000 != 0 && c & 0x8000 != 0 {
      XorCancel(a << 1, c << 1);
    } else if a & 0x8000 != 0 {
      XorMove(a << 1, c << 1);
    } else if c & 0x8000 != 0 {
      XorMove(c << 1, a << 1);
    }
  }

  /** The two branches of ShiftBit. */
  lemma ShiftBitCase(x: bv16)
    ensures x & 0x8000 != 0 ==> ShiftBit(x) == (x << 1) ^ Poly
    ensures x & 0x8000 == 0 ==> ShiftBit(x) == x << 1
  {
  }

  lemma XorShift(a: bv16, c: bv16)
    ensures (a ^ c) << 1 == (a << 1) ^ (c << 1)
  {
  }

  lemma XorTop(a: bv16, c: bv16)
    ensures (a ^ c) & 0x8000 != 0 <==> ((a & 0x8000 != 0) != (c & 0x8000 != 0))
  {
  }

  lemma XorCancel(x: bv16, y: bv16)
    ensures (x ^ Poly) ^ (y ^ Poly) == x ^ y
  {
  }

  lemma XorMove(x: bv16, y: bv16)
    ensures (x ^ Poly) ^ y == (x ^ y) ^ Poly
    ensures y ^ (x ^ Poly) == (x ^ y) ^ Poly
  {
  }

  lemma {:induction false} ShiftBitsLinear(a: bv16, c: bv16, n: nat)
    ensures ShiftBits(a ^ c, n) == ShiftBits(a, n) ^ ShiftBits(c, n)
    decreases n
  {
    if n > 0 {
      var a', c' := ShiftBit(a), ShiftBit(c);
      calc {
        ShiftBits(a ^ c, n);
        { ShiftBitsFirst(a ^ c, n); }
        ShiftBits(ShiftBit(a ^ c), n - 1);
        { ShiftBitLinear(a, c); }
        ShiftBits(a' ^ c', n - 1);
        { ShiftBitsLinear(a', c', n - 1); }
        ShiftBits(a', n - 1) ^ ShiftBits(c', n - 1);
        { ShiftBitsFirst(a, n); ShiftBitsFirst(c, n); }
        ShiftBits(a, n) ^ ShiftBits(c, n);
      }
    } else {
      assert ShiftBits(a ^ c, n) == a ^ c;
      assert ShiftBits(a, n) == a;
      assert ShiftBits(c, n) == c;
    }
  }

  lemma ShiftBitsFirst(x: bv16, n: nat)
    requires n > 0
    ensures ShiftBits(x, n) == ShiftBits(ShiftBit(x), n - 1)
  {
  }

  /** A low byte is shifted up into the high byte without ever pushing a
      set bit out, so the polynomial never comes in. */
  lemma LowByteShiftsUp(lo: bv16)
    requires lo < 0x100
    ensures ShiftBits(lo, BitsPerByte) == lo << 8
  {
    var x := lo;
    assert ShiftBit(x) == x << 1;
    assert ShiftBit(x << 1) == x << 2;
    assert ShiftBit(x << 2) == x << 3;
    assert ShiftBit(x << 3) == x << 4;
    assert ShiftBit(x << 4) == x << 5;
    assert ShiftBit(x << 5) == x << 6;
    assert ShiftBit(x << 6) == x << 7;
    assert ShiftBit(x << 7) == x << 8;
    assert ShiftBits(x << 8, 0) == x << 8;
  }

  /** The table step is the bitwise step. */
  lemma TableStepIsStep(crc: bv16, b: byte)
    ensures TableStep(crc, b) == Step(crc, b)
  {
    StepParts(crc, b);
  }

  /** The equations TableStepIsStep chains: both steps come to the table
      entry at the index XOR the register moved up a byte. */
  lemma StepParts(crc: bv16, b: byte)
    ensures TableStep(crc, b) == TableEntry(Index(crc, b)) ^ High(crc)
    ensures Step(crc, b) == ShiftBits(Mix(crc, b), BitsPerByte)
    ensures TableEntry(Index(crc, b)) == ShiftBits(High(Index(crc, b)), BitsPerByte)
    ensures ShiftBits(Mix(crc, b), BitsPerByte) == ShiftBits(High(Index(crc, b)), BitsPerByte) ^ High(crc)
  {
    MixShifts(crc, b);
  }

  /** Eight shifts of the mixed register: those of the index in the high
      byte, XOR the register moved up a byte. */
  lemma MixShifts(crc: bv16, b: byte)
    ensures ShiftBits(Mix(crc, b), BitsPerByte) == ShiftBits(High(Index(crc, b)), BitsPerByte) ^ High(crc)
  {
    MixSplits(crc, b);
    SplitShift(Mix(crc, b), High(Index(crc, b)), LowByte(crc));
  }

  /** Eight shifts of a register whose low byte is `lo`: the shifts of
      the rest, XOR `lo` moved up. */
  lemma SplitShift(m: bv16, x: bv16, lo: bv16)
    requires m == x ^ lo && lo < 0x100
    ensures ShiftBits(m, BitsPerByte) == ShiftBits(x, BitsPerByte) ^ High(lo)
  {
    ShiftBitsLinear(x, lo, BitsPerByte);
    LowByteShiftsUp(lo);
  }

  /** Mixing a byte into the register splits it into the table index,
      moved up, and the low byte, which the table step moves up. */
  lemma MixSplits(crc: bv16, b: byte)
    ensures Mix(crc, b) == High(Index(crc, b)) ^ LowByte(crc)
    ensures LowByte(crc) < 0x100 && High(LowByte(crc)) == High(crc)
  {
  }

  /** The host tool's table-driven CRC and the firmware's bitwise CRC
      agree on every input. */
  lemma {:induction false} TableCrcIsCrc(data: seq<byte>)
    ensures TableCrc(data) == Crc(data)
    decreases |data|
  {
    if |data| > 0 {
      TableCrcIsCrc(data[..|data| - 1]);
      TableStepIsStep(Crc(data[..|data| - 1]), data[|data| - 1]);
    }
  }

}

=== FILE: device_config.dfy ===
/** The firmware's configuration (Config.c): one `config_t` record kept in
    RAM as the active configuration and one copy in EEPROM. The record is
    packed (the AVR has no alignment padding) and its last field is a
    CRC-16 over every byte in front of it. */
module DeviceConfig {
  import opened Bytes
  import Crc16

  /** CONFIG_VERSION. */
  const CurrentVersion: u16 := 1
  const NetworkIdLength: nat := 6
  /** 16 key characters and the terminating NUL. */
  const AesKeyLength: nat := 17
  /** `offsetof(struct config_t, crc)`: how many bytes the CRC covers. */
  const CrcOffset: nat := 30
  /** `sizeof(struct config_t)`. */
  const RecordSize: nat := 32

  type NetworkId = s: seq<byte> | |s| == 6 witness [0, 0, 0, 0, 0, 0]
  type AesKey = s: seq<byte> | |s| == 17 witness Zeros(17)
  /** The EEPROM bytes of `nvm_config`. */
  type Block = s: seq<byte> | |s| == 32 witness Zeros(32)

  /** `struct config_t`. */
  datatype Record = Record(
    version: u16,
    networkId: NetworkId,
    reportInterval: u32,
    aesKey: AesKey,
    nodeId: byte,
    crc: u16)

  /** The firmware state this module owns: `active_config` in RAM and
      `nvm_config` in EEPROM. */
  datatype State = State(active: Record, nvm: Block)

  /** The record's bytes in front of the `crc` field, in memory order. */
  function Covered(c: Record): (r: seq<byte>)
    ensures |r| == CrcOffset
  {
    U16Le(c.version) + c.networkId + U32Le(c.reportInterval) + c.aesKey + [c.nodeId]
  }

  /** The record's memory image, as `eeprom_write_block` copies it. */
  function Encode(c: Record): (r: Block)
    ensures r[..CrcOffset] == Covered(c)
    ensures ReadU16Le(r[CrcOffset..]) == c.crc
  {
    U16RoundTrip(c.crc);
    Covered(c) + U16Le(c.crc)
  }

  /** The record `eeprom_read_block` fills in from 32 bytes: the first
      30 are the fields in front of the CRC, the last two the CRC. */
  function Decode(b: Block): (r: Record)
    ensures Covered(r) == b[..CrcOffset]
    ensures U16Le(r.crc) == b[CrcOffset..]
  {
    U16Injective(b[..2]);
    U32Injective(b[8..12]);
    U16Injective(b[30..]);
    assert b[..CrcOffset] == b[..2] + b[2..8] + b[8..12] + b[12..29] + [b[29]];
    Record(ReadU16Le(b[..2]), b[2..8], ReadU32Le(b[8..12]), b[12..29], b[29], ReadU16Le(b[30..]))
  }

  lemma DecodeEncode(c: Record)
    ensures Decode(Encode(c)) == c
  {
    var b := Encode(c);
    assert b[..2] == U16Le(c.version);
    assert b[8..12] == U32Le(c.reportInterval);
    U16RoundTrip(c.version);
    U32RoundTrip(c.reportInterval);
  }

  lemma EncodeDecode(b: Block)
    ensures Encode(Decode(b)) == b
  {
    assert b == b[..CrcOffset] + b[CrcOffset..];
  }

  /** IsConfigValid: a record is valid exactly when the two bytes its
      image stores after the first 30 are the CRC of those 30, read as a
      little-endian value. */
  function IsConfigValid(c: Record): (r: bool)
    ensures r <==> ReadU16Le(Encode(c)[CrcOffset..]) == Crc16.CrcValue(Encode(c)[..CrcOffset])
  {
    c.crc == Crc16.CrcValue(Covered(c))
  }

  /** UpdateCRC: the record made valid by changing its CRC field only. */
  function UpdateCrc(c: Record): (r: Record)
    ensures IsConfigValid(r)
    ensures Covered(r) == Covered(c)
    ensures r.version == c.version && r.networkId == c.networkId && r.reportInterval == c.reportInterval
    ensures r.aesKey == c.aesKey && r.nodeId == c.nodeId
  {
    c.(crc := Crc16.CrcValue(Covered(c)))
  }

  /** Config_Save: refresh the active record's CRC, then write it to
      EEPROM. */
  function Save(s: State): (r: State)
    ensures IsConfigValid(r.active)
    ensures Covered(r.active) == Covered(s.active)
    ensures Decode(r.nvm) == r.active
  {
    var active := UpdateCrc(s.active);
    DecodeEncode(active);
    State(active, Encode(active))
  }

  /** Config_Load: read the EEPROM record into a temporary and adopt it
      only when its CRC matches; the result tells whether it did. */
  function Load(s: State): (r: (State, bool))
    ensures r.1 <==> ReadU16Le(s.nvm[CrcOffset..]) == Crc16.CrcValue(s.nvm[..CrcOffset])
    ensures r.1 ==> r.0.active == Decode(s.nvm) && Encode(r.0.active) == s.nvm
    ensures !r.1 ==> r.0 == s
    ensures r.0.nvm == s.nvm
  {
    var candidate := Decode(s.nvm);
    EncodeDecode(s.nvm);
    if IsConfigValid(candidate) then (s.(active := candidate), true) else (s, false)
  }

  /** Whatever the RAM held before, loading what Save wrote succeeds and
      brings back the saved record, CRC included. */
  lemma LoadAfterSave(s: State, before: Record)
    ensures Load(State(before, Save(s).nvm)) == (State(Save(s).active, Save(s).nvm), true)
  {
    var saved := Save(s);
    EncodeDecode(saved.nvm);
  }

  /** A valid record whose EEPROM image has one byte in front of the CRC
      altered no longer passes IsConfigValid once it is read back. */
  lemma AlteredRecordInvalid(c: Record, i: nat, b: byte)
    requires IsConfigValid(c)
    requires i < CrcOffset && Encode(c)[i] != b
    ensures !IsConfigValid(Decode(Encode(c)[i := b]))
  {
    var altered := Encode(c)[i := b];
    var d := Decode(altered);
    assert Covered(d) == Covered(c)[i := b];
    assert d.crc == c.crc by {
      assert U16Le(d.crc) == U16Le(c.crc);
      U16RoundTrip(d.crc);
      U16RoundTrip(c.crc);
    }
    Crc16.CrcValueDetectsByteChange(Covered(c), i, b);
  }

  // ---------------------------------------------------------------------
  // Getters and setters of the active record

  // Each getter reads its field of the active record; the contracts say
  // where that field lies in the record's EEPROM image.

  function GetVersion(s: State): (r: u16)
    ensures U16Le(r) == Encode(s.active)[..2]
  {
    s.active.version
  }

  function GetNetworkId(s: State): (r: NetworkId)
    ensures r == Encode(s.active)[2..8]
  {
    s.active.networkId
  }

  function GetReportInterval(s: State): (r: u32)
    ensures U32Le(r) == Encode(s.active)[8..12]
  {
    s.active.reportInterval
  }

  function GetAesKey(s: State): (r: AesKey)
    ensures r == Encode(s.active)[12..29]
  {
    s.active.aesKey
  }

  function GetNodeId(s: State): (r: byte)
    ensures r == Encode(s.active)[29]
  {
    s.active.nodeId
  }

  /** Config_SetNetworkId: copy the first six bytes the caller points at.
      The pointer must be non-null and point at six readable bytes. */
  function SetNetworkId(s: State, source: seq<byte>): (r: State)
    requires |source| >= NetworkIdLength
    ensures GetNetworkId(r) == source[..NetworkIdLength]
    ensures GetVersion(r) == GetVersion(s) && GetAesKey(r) == GetAesKey(s)
    ensures GetReportInterval(r) == GetReportInterval(s) && GetNodeId(r) == GetNodeId(s)
    ensures r.nvm == s.nvm
  {
    s.(active := s.active.(networkId := source[..NetworkIdLength]))
  }

  /** Config_SetAESKey: copy the first seventeen bytes the caller points
      at, terminator included. */
  function SetAesKey(s: State, source: seq<byte>): (r: State)
    requires |source| >= AesKeyLength
    ensures GetAesKey(r) == source[..AesKeyLength]
    ensures GetVersion(r) == GetVersion(s) && GetNetworkId(r) == GetNetworkId(s)
    ensures GetReportInterval(r) == GetReportInterval(s) && GetNodeId(r) == GetNodeId(s)
    ensures r.nvm == s.nvm
  {
    s.(active := s.active.(aesKey := source[..AesKeyLength]))
  }

  /** Config_SetReportInterval; its assertion demands a non-zero value. */
  function SetReportInterval(s: State, interval: u32): (r: State)
    requires interval > 0
    ensures GetReportInterval(r) == interval
    ensures GetVersion(r) == GetVersion(s) && GetNetworkId(r) == GetNetworkId(s)
    ensures GetAesKey(r) == GetAesKey(s) && GetNodeId(r) == GetNodeId(s)
    ensures r.nvm == s.nvm
  {
    s.(active := s.active.(reportInterval := interval))
  }

  /** A setting changed in RAM and saved survives a reload from EEPROM,
      whatever RAM holds at the time of the reload. */
  lemma SettingsSurviveRestart(s: State, interval: u32, networkId: seq<byte>, before: Record)
    requires interval > 0 && |networkId| >= NetworkIdLength
    ensures var saved := Save(SetReportInterval(SetNetworkId(s, networkId), interval));
            var loaded := Load(State(before, saved.nvm));
            loaded.1 && GetReportInterval(loaded.0) == interval
            && GetNetworkId(loaded.0) == networkId[..NetworkIdLength]
            && GetVersion(loaded.0) == GetVersion(s) && GetAesKey(loaded.0) == GetAesKey(s)
  {
    LoadAfterSave(SetReportInterval(SetNetworkId(s, networkId), interval), before);
  }
}

=== FILE: dht22.dfy ===
/** The DHT22 humidity and temperature sensor driver (driverDHT22.c).
    The sensor answers a start request with 43 falling edges, whose
    times the input-capture interrupt records: three edges of preamble,
    then one per data bit, 40 bits in all, most significant bit of each
    byte first. A bit is one when its edge comes more than 100 timer
    ticks after the previous edge. The five bytes are the humidity, the
    temperature and a checksum. The clock, the pin and the capture unit
    are I/O: the current millisecond count and each captured time are
    parameters here. */
module Dht22 {
  import opened Bytes
  import opened RegisterBits
  import Arith
  import Timer

  /** EXPECTED_NR_PULSES. */
  const PulseCount: nat := 43
  /** TIMINGS_INDEX_OFFSET: the edge of the first data bit. */
  const TimingsOffset: nat := 3
  /** LOW_HIGH_LIMIT, in timer ticks. */
  const LowHighLimit: nat := 100
  const FrameSize: nat := 5
  const PowerupDelayMs: nat := 1000
  const RequestReadingTimeMs: nat := 2
  const ReadingTimeoutMs: nat := 6

  type Timings = s: seq<u16> | |s| == PulseCount witness seq(43, _ => 0)

  // ---------------------------------------------------------------------
  // Decoding

  /** The bit of the edge at `i`: `pulse_timings[i] - prev > 100`. Both
      operands are 16-bit unsigned and so is the AVR's `int`, so the
      difference is taken modulo 2^16 and a timer wrap between the two
      edges does not matter. */
  predicate LongPulse(t: Timings, i: nat)
    requires 1 <= i < PulseCount
  {
    (t[i] - t[i - 1]) % U16Limit > LowHighLimit
  }

  /** The eight bits of byte `j`, most significant first. */
  function Bits(t: Timings, j: nat): (r: seq<bool>)
    requires j < FrameSize
    ensures |r| == 8
  {
    seq(8, k requires 0 <= k < 8 => LongPulse(t, TimingsOffset + 8 * j + k))
  }

  function BitValue(b: bool): nat {
    if b then 1 else 0
  }

  /** The number whose binary digits, most significant first, are
      `bits`. */
  function Accumulate(bits: seq<bool>): (r: nat)
    ensures r < Pow2(|bits|)
  {
    if bits == [] then 0 else 2 * Accumulate(bits[..|bits| - 1]) + BitValue(bits[|bits| - 1])
  }

  /** The byte whose bits, most significant first, are `bits`. */
  function ByteOf(bits: seq<bool>): (r: byte)
    requires |bits| == 8
  {
    assert Pow2(8) == 0x100;
    Accumulate(bits)
  }

  /** Bit `k` counted from the most significant end of a byte. */
  predicate MsbBit(x: nat, k: nat)
    requires k < 8
  {
    Flag(x, 7 - k)
  }

  /** The binary digit `k` places from the top of Accumulate is the
      `k`-th bit given. */
  lemma {:induction false} AccumulateBits(bits: seq<bool>, k: nat)
    requires k < |bits|
    ensures Flag(Accumulate(bits), |bits| - 1 - k) == bits[k]
  {
    var n := |bits|;
    var a := Accumulate(bits[..n - 1]);
    var x := 2 * a + BitValue(bits[n - 1]);
    assert Accumulate(bits) == x;
    if k < n - 1 {
      FlagHalf(x, n - 2 - k);
      assert x / 2 == a;
      AccumulateBits(bits[..n - 1], k);
    }
  }

  lemma ByteOfBits(bits: seq<bool>, k: nat)
    requires |bits| == 8 && k < 8
    ensures MsbBit(ByteOf(bits), k) == bits[k]
  {
    AccumulateBits(bits, k);
  }

  /** The five bytes the edge times encode. */
  function Frame(t: Timings): (r: seq<byte>)
    ensures |r| == FrameSize
  {
    seq(FrameSize, j requires 0 <= j < FrameSize => ByteOf(Bits(t, j)))
  }

  /** Bit `7 - k` of byte `j` of the frame is set exactly when edge
      `3 + 8j + k` comes more than 100 ticks after the edge before it. */
  lemma FrameBits(t: Timings, j: nat, k: nat)
    requires j < FrameSize && k < 8
    ensures MsbBit(Frame(t)[j], k) <==> LongPulse(t, TimingsOffset + 8 * j + k)
  {
    ByteOfBits(Bits(t, j), k);
  }

  /** DecodeTimings: one pass over the 40 data edges, `prev` trailing one
      edge behind, setting `1 << (7 - bit)` of the current byte for each
      long pulse. */
  method DecodeTimings(t: Timings) returns (data: seq<byte>)
    ensures data == Frame(t)
    ensures forall j, k :: 0 <= j < FrameSize && 0 <= k < 8 ==>
              (MsbBit(data[j], k) <==> LongPulse(t, TimingsOffset + 8 * j + k))
  {
    data := [0, 0, 0, 0, 0];
    var prev := t[TimingsOffset - 1];
    var j := 0;
    while j < FrameSize
      invariant j <= FrameSize && |data| == FrameSize
      invariant prev == t[TimingsOffset + 8 * j - 1]
      invariant forall m :: 0 <= m < j ==> data[m] == Frame(t)[m]
    {
      var b;
      b, prev := DecodeByte(t, j, prev);
      data := data[j := b];
      j := j + 1;
    }
    assert data == Frame(t);
    forall j, k | 0 <= j < FrameSize && 0 <= k < 8
      ensures MsbBit(data[j], k) <==> LongPulse(t, TimingsOffset + 8 * j + k)
    {
      FrameBits(t, j, k);
    }
  }

  /** The inner loop of DecodeTimings: the eight edges of byte `j`, each
      setting its bit of a byte that starts at zero. */
  method DecodeByte(t: Timings, j: nat, prev0: u16) returns (b: byte, prev: u16)
    requires j < FrameSize && prev0 == t[TimingsOffset + 8 * j - 1]
    ensures b == Frame(t)[j]
    ensures prev == t[TimingsOffset + 8 * j + 7]
  {
    b := 0;
    prev := prev0;
    var k := 0;
    NoFlagOfZero();
    while k < 8
      invariant k <= 8
      invariant prev == t[TimingsOffset + 8 * j + k - 1]
      invariant forall m :: 0 <= m < k ==> MsbBit(b, m) == LongPulse(t, TimingsOffset + 8 * j + m)
      invariant forall i :: 0 <= i < 8 - k ==> !Flag(b, i)
    {
      var index := 8 * j + k + TimingsOffset;
      ghost var long := LongPulse(t, index);
      if (t[index] - prev) % U16Limit > LowHighLimit {
        b := SetMsbBit(b, k);
      }
      assert MsbBit(b, k) == long;
      prev := t[index];
      k := k + 1;
    }
    DecodedByte(t, j, b);
  }

  /** `data[byte] |= 1 << (7 - bit)`. */
  function SetMsbBit(x: byte, k: nat): (r: byte)
    requires k < 8
    ensures MsbBit(r, k)
    ensures forall m :: 0 <= m < 8 && m != k ==> MsbBit(r, m) == MsbBit(x, m)
    ensures forall i :: 0 <= i < 7 - k ==> Flag(r, i) == Flag(x, i)
  {
    WithFlagKeepsAll(x, 7 - k, true);
    WithFlag(x, 7 - k, true)
  }

  lemma NoFlagOfZero()
    ensures forall i :: 0 <= i ==> !Flag(0, i)
  {
  }

  /** A byte with the decoded bits is the decoded byte. */
  lemma DecodedByte(t: Timings, j: nat, x: byte)
    requires j < FrameSize
    requires forall m :: 0 <= m < 8 ==> MsbBit(x, m) == LongPulse(t, TimingsOffset + 8 * j + m)
    ensures x == Frame(t)[j]
  {
    var y := Frame(t)[j];
    forall i | 0 <= i < 8
      ensures Flag(x, i) == Flag(y, i)
    {
      FrameBits(t, j, 7 - i);
      assert MsbBit(x, 7 - i) == MsbBit(y, 7 - i);
    }
    assert Pow2(8) == 0x100;
    FlagsDetermine(x, y, 8);
  }

  // ---------------------------------------------------------------------
  // Encoding: the edges a sensor produces for a frame

  /** Edge-to-edge periods in ticks of 1 us: 50 us low and then 26-28 us
      high for a zero, 70 us high for a one. */
  const ZeroPeriod: nat := 78
  const OnePeriod: nat := 120

  /** Data bit `n` of a frame, most significant bit of byte 0 first. */
  predicate DataBit(data: seq<byte>, n: nat)
    requires |data| == FrameSize && n < 8 * FrameSize
  {
    MsbBit(data[n / 8], n % 8)
  }

  /** The time of edge `i` when the sensor sends `data`, the preamble
      ending at `start`, on the wrapping 16-bit capture timer. */
  function EdgeTime(data: seq<byte>, start: u16, i: nat): (r: u16)
    requires |data| == FrameSize && i < PulseCount
  {
    if i < TimingsOffset then start
    else (EdgeTime(data, start, i - 1) + if DataBit(data, i - TimingsOffset) then OnePeriod else ZeroPeriod) % U16Limit
  }

  function Capture(data: seq<byte>, start: u16): Timings
    requires |data| == FrameSize
  {
    seq(PulseCount, i requires 0 <= i < PulseCount => EdgeTime(data, start, i))
  }

  lemma CapturedBit(data: seq<byte>, start: u16, i: nat)
    requires |data| == FrameSize && TimingsOffset <= i < PulseCount
    ensures LongPulse(Capture(data, start), i) == DataBit(data, i - TimingsOffset)
  {
    var t := Capture(data, start);
    var a := EdgeTime(data, start, i - 1);
    var p := if DataBit(data, i - TimingsOffset) then OnePeriod else ZeroPeriod;
    assert t[i - 1] == a && t[i] == (a + p) % U16Limit;
    Arith.ModNear(a + p, U16Limit);
    Arith.ModNear((a + p) % U16Limit - a, U16Limit);
  }

  /** Decoding the edges of a frame gives the frame back, wherever the
      capture timer stood. */
  lemma FrameOfCapture(data: seq<byte>, start: u16)
    requires |data| == FrameSize
    ensures Frame(Capture(data, start)) == data
  {
    var t := Capture(data, start);
    forall j | 0 <= j < FrameSize
      ensures Frame(t)[j] == data[j]
    {
      forall m | 0 <= m < 8
        ensures MsbBit(data[j], m) == LongPulse(t, TimingsOffset + 8 * j + m)
      {
        CapturedBit(data, start, TimingsOffset + 8 * j + m);
        assert (8 * j + m) / 8 == j && (8 * j + m) % 8 == m;
      }
      DecodedByte(t, j, data[j]);
    }
  }

  // ---------------------------------------------------------------------
  // Checksum and values

  /** The low byte of the sum of the four data bytes. */
  function Checksum(data: seq<byte>): byte
    requires |data| >= 4
  {
    (data[0] as int + data[1] + data[2] + data[3]) % 0x100
  }

  /** IsDataValid: the fifth byte is the checksum of the first four,
      that is, all four minus the fifth add up to a multiple of 256. */
  function IsDataValid(data: seq<byte>): (r: bool)
    requires |data| == FrameSize
    ensures r <==> (data[0] as int + data[1] + data[2] + data[3] - data[4]) % 0x100 == 0
  {
    var s := data[0] as int + data[1] + data[2] + data[3];
    if s % 0x100 >= data[4] then
      Arith.ModUnique(s - data[4], 0x100, s / 0x100, s % 0x100 - data[4]);
      data[4] == Checksum(data)
    else
      Arith.ModUnique(s - data[4], 0x100, s / 0x100 - 1, s % 0x100 - data[4] + 0x100);
      data[4] == Checksum(data)
  }

  /** Four bytes with their checksum appended make a valid frame, and a
      valid frame with any one byte changed is not valid. */
  lemma ChecksumDetectsOneByte(data: seq<byte>, i: nat, b: byte)
    requires |data| == FrameSize && i < FrameSize && b != data[i]
    ensures IsDataValid(data[..4] + [Checksum(data)])
    ensures IsDataValid(data) ==> !IsDataValid(data[i := b])
  {
    if i < 4 {
      var e := data[i := b];
      var s, s' := data[0] as int + data[1] + data[2] + data[3], e[0] as int + e[1] + e[2] + e[3];
      assert s' - s == b as int - data[i];
      if s < s' {
        Arith.ModDistinct(s, s', 0x100);
      } else {
        Arith.ModDistinct(s', s, 0x100);
      }
    }
  }

  /** ConvertToScaledInteger: the two bytes as one 16-bit number, the
      first the high byte. The shift is done in the 16-bit `int`; the
      bits it produces are those of the unsigned result. */
  function ConvertToScaledInteger(integral: byte, fractional: byte): (r: u16)
    ensures r / 0x100 == integral && r % 0x100 == fractional
  {
    Arith.ModUnique(integral * 0x100 + fractional, 0x100, integral, fractional);
    integral * 0x100 + fractional
  }

  /** Storing a 16-bit value into an `int16_t`: two's complement. */
  function ToI16(x: u16): (r: i16)
    ensures r % U16Limit == x
  {
    if x >= 0x8000 then x - U16Limit else x
  }

  /** The measurement stored as written: both words through
      ConvertToScaledInteger into `int16_t`. */
  function HumidityOf(data: seq<byte>): i16
    requires |data| == FrameSize
  {
    ToI16(ConvertToScaledInteger(data[0], data[1]))
  }

  /** The temperature as written: the word read as two's complement,
      which is the sensor's reading only above zero. */
  function TemperatureAsWritten(data: seq<byte>): (r: i16)
    requires |data| == FrameSize
    ensures r % U16Limit == data[2] as int * 0x100 + data[3]
    ensures r < 0 <==> data[2] >= 0x80
    ensures data[2] < 0x80 ==> r == Temperature(data)
  {
    var word := ConvertToScaledInteger(data[2], data[3]);
    assert word == data[2] as int * 0x100 + data[3];
    if data[2] < 0x80 then
      TemperatureFromZero(data);
      ToI16(word)
    else
      ToI16(word)
  }

  /** From zero up the sign bit is clear and the magnitude is the whole
      word. */
  lemma TemperatureFromZero(data: seq<byte>)
    requires |data| == FrameSize && data[2] < 0x80
    ensures Temperature(data) == data[2] as int * 0x100 + data[3]
  {
    assert data[2] % 0x80 == data[2];
  }

  /** The temperature the sensor sends, in tenths of a degree: the top
      bit of the word is the sign and the other fifteen the magnitude. */
  function Temperature(data: seq<byte>): (r: i16)
    requires |data| == FrameSize
    ensures (if r < 0 then -(r as int) else r as int) == data[2] as int % 0x80 * 0x100 + data[3]
    ensures r < 0 ==> data[2] >= 0x80
    ensures data[2] >= 0x80 ==> r <= 0
  {
    var magnitude := ConvertToScaledInteger(data[2] % 0x80, data[3]);
    if data[2] >= 0x80 then -(magnitude as int) else magnitude
  }

  /** The two agree on every temperature from zero up; below zero the
      word as written reads as another number, minus 10.1 degrees, sent
      as 0x80 0x65, reading as -32667 instead of -101. The one word with
      the sign bit set that reads right is 0xC000, minus 1638.4 degrees,
      where the two's complement and the negated magnitude meet. */
  lemma TemperatureAsWrittenBelowZero(data: seq<byte>)
    requires |data| == FrameSize
    ensures TemperatureAsWritten(data) == Temperature(data) <==> data[2] < 0x80 || (data[2] == 0xC0 && data[3] == 0)
    ensures data[2] == 0x80 && data[3] == 0x65 ==> TemperatureAsWritten(data) == -32667 && Temperature(data) == -101
  {
  }

  // ---------------------------------------------------------------------
  // The driver as written and as corrected

  /** The driver runs either on the helpers as the firmware has them, the
      timer difference of Timer.c and the temperature stored as an
      `int16_t`, or on their corrected versions. */
  datatype Variant = AsWritten | Corrected

  /** The elapsed milliseconds the driver's timeouts compare. */
  function ElapsedMs(v: Variant, start: u32, now: u32): (r: u32)
    ensures v == Corrected ==> r == Timer.Elapsed(start, now)
    ensures v == AsWritten && start <= now ==> r == Timer.Elapsed(start, now)
    ensures v == AsWritten && start > now ==> r + 1 == Timer.Elapsed(start, now)
  {
    if v == AsWritten then Timer.TimeDifferenceAsWritten(start, now) else Timer.TimeDifference(start, now)
  }

  /** The temperature the driver stores for a frame: as written the word
      is kept as two's complement, corrected it is read as sign and
      magnitude; the two agree on every temperature from zero up. */
  function StoredTemperature(v: Variant, data: seq<byte>): (r: i16)
    requires |data| == FrameSize
    ensures v == AsWritten ==> r % U16Limit == ConvertToScaledInteger(data[2], data[3])
    ensures v == Corrected ==> (if r < 0 then -(r as int) else r as int) == data[2] as int % 0x80 * 0x100 + data[3]
    ensures data[2] < 0x80 ==> r == ConvertToScaledInteger(data[2], data[3])
  {
    TemperatureAsWrittenBelowZero(data);
    if v == AsWritten then TemperatureAsWritten(data) else Temperature(data)
  }

  // ---------------------------------------------------------------------
  // The driver state

  datatype State = Uninitialized | Idle | PowerUp | Reading | Decoding
  datatype ReadingState = Request | RequestWait | CaptureData

  datatype Measurement = Measurement(temperature: i16, humidity: i16, valid: bool)

  datatype Sensor = Sensor(
    state: State,
    measurement: Measurement,
    reading: ReadingState,
    readingTimer: u32,
    initializationTime: u32,
    pulseCounter: nat,
    pulseTimings: Timings)

  /** What every driver operation keeps: the driver is initialized and
      at most 43 edges are recorded. */
  predicate Good(d: Sensor) {
    d.state != Uninitialized && d.pulseCounter <= PulseCount
  }

  /** driverDHT22_Init: powering up since `now`, everything else zero. */
  function Init(now: u32): (r: Sensor)
    ensures Good(r) && r.state == PowerUp && !r.measurement.valid
  {
    Sensor(PowerUp, Measurement(0, 0, false), Request, 0, now, 0, seq(PulseCount, _ => 0))
  }

  /** The end of DecodeTimings: a valid frame sets the measurement, an
      invalid one only clears the valid flag. */
  function Decoded(v: Variant, m: Measurement, data: seq<byte>): (r: Measurement)
    requires |data| == FrameSize
    ensures r.valid == IsDataValid(data)
    ensures IsDataValid(data) ==> r.temperature == StoredTemperature(v, data) && r.humidity == HumidityOf(data)
    ensures !IsDataValid(data) ==> r.temperature == m.temperature && r.humidity == m.humidity
  {
    if IsDataValid(data) then Measurement(StoredTemperature(v, data), HumidityOf(data), true)
    else m.(valid := false)
  }

  /** The two drivers store the same measurement for every frame whose
      temperature is not below zero, and differ on a valid frame at minus
      10.1 degrees. */
  lemma DecodedVariants(m: Measurement, data: seq<byte>)
    requires |data| == FrameSize
    ensures data[2] < 0x80 ==> Decoded(AsWritten, m, data) == Decoded(Corrected, m, data)
    ensures data == [0, 0, 0x80, 0x65, 0xE5] ==>
              Decoded(AsWritten, m, data).temperature == -32667 && Decoded(Corrected, m, data).temperature == -101
  {
    TemperatureAsWrittenBelowZero(data);
  }

  predicate IsIdle(d: Sensor) {
    d.state == Idle
  }

  /** driverDHT22_StartMeasurement: only an idle driver starts reading. */
  function StartMeasurement(d: Sensor): (r: Sensor)
    ensures IsIdle(d) ==> r.state == Reading
    ensures r.(state := d.state) == d
    ensures !IsIdle(d) ==> r == d
    ensures Good(d) ==> Good(r)
  {
    if IsIdle(d) then d.(state := Reading) else d
  }

  /** driverDHT22_ClearValidFlag. */
  function ClearValidFlag(d: Sensor): (r: Sensor)
    ensures !r.measurement.valid
    ensures r.measurement.(valid := true) == d.measurement.(valid := true)
    ensures r.(measurement := d.measurement) == d
  {
    d.(measurement := d.measurement.(valid := false))
  }

  /** InterruptHandler: a captured time is stored while fewer than 43
      have been. */
  function Interrupt(d: Sensor, value: u16): (r: Sensor)
    ensures d.pulseCounter < PulseCount ==>
              r.pulseCounter == d.pulseCounter + 1 && r.pulseTimings[d.pulseCounter] == value
              && forall i :: 0 <= i < PulseCount && i != d.pulseCounter ==> r.pulseTimings[i] == d.pulseTimings[i]
    ensures d.pulseCounter >= PulseCount ==> r == d
    ensures r.(pulseCounter := d.pulseCounter, pulseTimings := d.pulseTimings) == d
    ensures Good(d) ==> Good(r)
  {
    if d.pulseCounter < PulseCount then
      d.(pulseTimings := d.pulseTimings[d.pulseCounter := value], pulseCounter := d.pulseCounter + 1)
    else d
  }

  /** ReadingStateMachine: the request pulse, the wait of at least 2 ms
      before capturing, then either all 43 edges or a timeout after more
      than 6 ms, which powers the sensor up again. */
  function ReadingStep(v: Variant, d: Sensor, now: u32): (r: Sensor)
    requires d.state == Reading
    ensures r.state == Decoding ==> d.reading == CaptureData && d.pulseCounter == PulseCount
    ensures r.state == PowerUp ==>
              d.reading == CaptureData && ElapsedMs(v, d.readingTimer, now) > ReadingTimeoutMs
              && r.initializationTime == now
    ensures r.state in {Reading, Decoding, PowerUp}
    ensures r.measurement == d.measurement
    ensures d.reading == RequestWait && r.reading == CaptureData ==> r.pulseCounter == 0
    ensures r.pulseCounter == d.pulseCounter || r.pulseCounter == 0
  {
    match d.reading
    case Request =>
      d.(readingTimer := now, reading := RequestWait)
    case RequestWait =>
      if ElapsedMs(v, d.readingTimer, now) >= RequestReadingTimeMs then
        d.(readingTimer := now, pulseCounter := 0, reading := CaptureData)
      else d
    case CaptureData =>
      if d.pulseCounter == PulseCount then
        d.(reading := Request, state := Decoding)
      else if ElapsedMs(v, d.readingTimer, now) > ReadingTimeoutMs then
        d.(reading := Request, initializationTime := now, state := PowerUp)
      else d
  }

  /** Across the wrap of the millisecond counter the timeout as written
      comes a millisecond late: 7 ms after a capture started at
      0xFFFFFFFB the corrected driver gives up, the driver as written
      still waits. */
  lemma ReadingTimeoutAtWrap(d: Sensor)
    requires d.state == Reading && d.reading == CaptureData && d.pulseCounter < PulseCount
    requires d.readingTimer == 0xFFFF_FFFB
    ensures ReadingStep(Corrected, d, 2).state == PowerUp
    ensures ReadingStep(AsWritten, d, 2) == d
  {
  }

  /** driverDHT22_Update; an uninitialized driver fails its assertion. */
  function Update(v: Variant, d: Sensor, now: u32): (r: Sensor)
    requires d.state != Uninitialized
    ensures Good(d) ==> Good(r)
    ensures d.state == Idle ==> r == d
    ensures d.state == Decoding ==>
              r.state == Idle && r.measurement == Decoded(v, d.measurement, Frame(d.pulseTimings))
              && r.initializationTime == now
    ensures d.state == PowerUp ==>
              r.state == (if ElapsedMs(v, d.initializationTime, now) > PowerupDelayMs then Idle else PowerUp)
    ensures d.state != Decoding ==> r.measurement == d.measurement
  {
    match d.state
    case PowerUp =>
      if ElapsedMs(v, d.initializationTime, now) > PowerupDelayMs then d.(state := Idle) else d
    case Idle => d
    case Reading => ReadingStep(v, d, now)
    case Decoding =>
      d.(measurement := Decoded(v, d.measurement, Frame(d.pulseTimings)), initializationTime := now, state := Idle)
  }

  /** Interrupts for each of `values`, in order. */
  function Interrupts(d: Sensor, values: seq<u16>): (r: Sensor)
    ensures r.(pulseCounter := d.pulseCounter, pulseTimings := d.pulseTimings) == d
    decreases |values|
  {
    if values == [] then d else Interrupts(Interrupt(d, values[0]), values[1..])
  }

  /** From an empty capture, `n` edges are recorded in order. */
  lemma {:induction false} InterruptsRecord(d: Sensor, values: seq<u16>)
    requires d.pulseCounter + |values| <= PulseCount
    ensures Interrupts(d, values).pulseCounter == d.pulseCounter + |values|
    ensures forall i :: 0 <= i < |values| ==> Interrupts(d, values).pulseTimings[d.pulseCounter + i] == values[i]
    ensures forall i :: 0 <= i < d.pulseCounter ==> Interrupts(d, values).pulseTimings[i] == d.pulseTimings[i]
    decreases |values|
  {
    if values != [] {
      var e := Interrupt(d, values[0]);
      InterruptsRecord(e, values[1..]);
      var r := Interrupts(d, values);
      forall i | 0 <= i < |values|
        ensures r.pulseTimings[d.pulseCounter + i] == values[i]
      {
        if i > 0 {
          assert values[1..][i - 1] == values[i];
        }
      }
    }
  }

  /** A whole measurement: started while idle, the request and the wait
      done, the sensor's 43 edges for `data` captured, then two updates
      decode them. The driver is idle again with the measurement decoded
      from `data`. */
  lemma MeasurementCycle(v: Variant, d: Sensor, data: seq<byte>, start: u16, t0: u32, t1: u32, t2: u32, t3: u32)
    requires Good(d) && IsIdle(d) && d.reading == Request && |data| == FrameSize
    requires ElapsedMs(v, t0, t1) >= RequestReadingTimeMs
    ensures var s1 := Update(v, StartMeasurement(d), t0);
            var s2 := Update(v, s1, t1);
            var s3 := Interrupts(s2, Capture(data, start));
            var s4 := Update(v, s3, t2);
            var s5 := Update(v, s4, t3);
            s5.state == Idle && s5.measurement == Decoded(v, d.measurement, data)
  {
    var s2 := Update(v, Update(v, StartMeasurement(d), t0), t1);
    assert s2.reading == CaptureData && s2.pulseCounter == 0 && s2.state == Reading;
    InterruptsRecord(s2, Capture(data, start));
    var s3 := Interrupts(s2, Capture(data, start));
    assert s3.pulseTimings == Capture(data, start);
    FrameOfCapture(data, start);
  }
}

=== FILE: display.dfy ===
/** The main unit's display buffer (display/Display.c): a 128x32
    monochrome screen held as four pages of 128 column bytes, each byte
    one column of eight pixels with the top pixel in bit 0. Drawing sets
    bits in RAM; flushing streams the buffer to the display controller,
    which is hardware and appears here as the byte sequence sent. */
module Display {
  import opened Wrappers
  import Bit
  import Arith

  /** NHD223_NUMBER_OF_PAGES and NHD223_NUMBER_OF_COLUMNS. */
  const PageCount: nat := 4
  const Columns: nat := 128
  /** DISPLAY_HEIGHT and DISPLAY_WIDTH. */
  const Height: nat := 32
  const Width: nat := 128
  const PageHeight: nat := 8
  /** VRAM_SIZE. */
  const VramSize: nat := 512

  type Vram = v: seq<seq<bv8>> | |v| == 4 && forall p :: 0 <= p < |v| ==> |v[p]| == 128
    witness seq(4, _ => seq(128, _ => 0))

  /** `module`: the buffer and whether drawing is turned by 180 degrees. */
  datatype Screen = Screen(vram: Vram, rotated: bool)

  /** A bit of the buffer: its page, its column, and its bit in the byte. */
  datatype Spot = Spot(page: nat, column: nat, bit: bv8)

  predicate ValidSpot(s: Spot) {
    s.page < PageCount && s.column < Columns && s.bit < 8
  }

  /** Whether the buffer has the bit at `s` set. */
  predicate Lit(v: Vram, s: Spot)
    requires ValidSpot(s)
  {
    Bit.Get(s.bit, v[s.page][s.column])
  }

  /** Display_ClearVRAM: every byte zero. */
  function Blank(): (v: Vram)
    ensures forall p, c :: 0 <= p < PageCount && 0 <= c < Columns ==> v[p][c] == 0
  {
    seq(4, _ => seq(128, _ => 0))
  }

  lemma BlankIsDark(s: Spot)
    requires ValidSpot(s)
    ensures !Lit(Blank(), s)
  {
  }

  /** Display_Init, without the controller set-up. */
  const Initial: Screen := Screen(Blank(), false)

  /** Display_Rotate: the new orientation, and a cleared buffer. */
  function Rotate(d: Screen, turned: bool): (r: Screen)
    ensures r.rotated == turned && r.vram == Blank()
  {
    Screen(Blank(), turned)
  }

  /** The buffer bit Display_SetPixel addresses for `(x, y)`, or None
      when the range check rejects it. Mirroring is computed in 8 bits,
      as the assignment back to the `uint8_t` parameters does. */
  function Locate(rotated: bool, x: nat, y: nat): (r: Option<Spot>)
    requires x < 0x100 && y < 0x100
    ensures r.Some? ==> ValidSpot(r.value)
  {
    var x' := if rotated then (Width - x - 1) % 0x100 else x;
    var y' := if rotated then (Height - y - 1) % 0x100 else y;
    var pageIndex := y' / PageHeight;
    var pageOffset := y' - pageIndex * PageHeight;
    if pageIndex < PageCount && x' < Columns then Some(Spot(pageIndex, x', pageOffset as bv8)) else None
  }

  /** In either orientation, exactly the on-screen coordinates are drawn:
      mirrored coordinates of off-screen points wrap around to values the
      range check rejects. */
  lemma LocateOnScreen(rotated: bool, x: nat, y: nat)
    requires x < 0x100 && y < 0x100
    ensures Locate(rotated, x, y).Some? <==> x < Width && y < Height
  {
  }

  /** Unrotated, `(x, y)` is bit `y % 8` of column `x` in page `y / 8`. */
  lemma LocateUnrotated(x: nat, y: nat)
    requires x < Width && y < Height
    ensures Locate(false, x, y) == Some(Spot(y / PageHeight, x, (y % PageHeight) as bv8))
  {
  }

  /** Rotated, `(x, y)` lands where `(127 - x, 31 - y)` lands unrotated. */
  lemma LocateRotated(x: nat, y: nat)
    requires x < Width && y < Height
    ensures Locate(true, x, y) == Locate(false, Width - 1 - x, Height - 1 - y)
  {
  }

  /** Display_SetPixel. */
  function SetPixel(d: Screen, x: nat, y: nat): (r: Screen)
    requires x < 0x100 && y < 0x100
    ensures r.rotated == d.rotated
    ensures Locate(d.rotated, x, y).None? ==> r == d
  {
    match Locate(d.rotated, x, y)
    case None => d
    case Some(s) =>
      var row := d.vram[s.page][s.column := Bit.Set(s.bit, true, d.vram[s.page][s.column])];
      Screen(d.vram[s.page := row], d.rotated)
  }

  /** Drawing a pixel sets its bit and changes no other bit of the
      buffer. */
  lemma SetPixelSetsOneBit(d: Screen, x: nat, y: nat, s: Spot)
    requires x < 0x100 && y < 0x100 && ValidSpot(s)
    ensures Lit(SetPixel(d, x, y).vram, s) <==> Lit(d.vram, s) || Locate(d.rotated, x, y) == Some(s)
  {
    match Locate(d.rotated, x, y)
    case None =>
    case Some(t) =>
      var before := d.vram[s.page][s.column];
      if s.page == t.page && s.column == t.column {
        Bit.GetAfterSet(t.bit, s.bit, true, before);
      }
  }

  /** Drawing the same pixel twice is drawing it once. */
  lemma SetPixelIdempotent(d: Screen, x: nat, y: nat)
    requires x < 0x100 && y < 0x100
    ensures SetPixel(SetPixel(d, x, y), x, y) == SetPixel(d, x, y)
  {
    match Locate(d.rotated, x, y)
    case None =>
    case Some(s) =>
      var once := SetPixel(d, x, y);
      Bit.SetUnchanged(s.bit, true, once.vram[s.page][s.column]);
      assert once.vram[s.page][s.column := once.vram[s.page][s.column]] == once.vram[s.page];
      assert once.vram[s.page := once.vram[s.page]] == once.vram;
  }

  // ---------------------------------------------------------------------
  // Flushing

  /** The first `n` pages, in the order Display_Flush sends them: page by
      page, and within a page column by column. */
  function PagesFrom(v: Vram, n: nat): (r: seq<bv8>)
    requires n <= PageCount
    ensures |r| == n * Columns
    decreases n
  {
    if n == 0 then [] else PagesFrom(v, n - 1) + v[n - 1]
  }

  /** Byte `c` of page `p` is sent as byte `p * 128 + c`. */
  lemma {:induction false} PagesFromOrder(v: Vram, n: nat, p: nat, c: nat)
    requires n <= PageCount && p < n && c < Columns
    ensures p * Columns + c < n * Columns
    ensures PagesFrom(v, n)[p * Columns + c] == v[p][c]
    decreases n
  {
    Arith.MulLeMono(p + 1, n, Columns);
    if p < n - 1 {
      PagesFromOrder(v, n - 1, p, c);
    }
  }

  /** Display_Flush: the 512 bytes sent to the controller, every byte of
      the buffer once, in page order. */
  function Flush(d: Screen): (r: seq<bv8>)
    ensures |r| == VramSize
    ensures forall i :: 0 <= i < VramSize ==> r[i] == d.vram[i / Columns][i % Columns]
  {
    var r := PagesFrom(d.vram, PageCount);
    assert forall i | 0 <= i < VramSize :: r[i] == d.vram[i / Columns][i % Columns] by {
      forall i | 0 <= i < VramSize
        ensures r[i] == d.vram[i / Columns][i % Columns]
      {
        Arith.ModUnique(i, Columns, i / Columns, i % Columns);
        PagesFromOrder(d.vram, PageCount, i / Columns, i % Columns);
      }
    }
    r
  }

  /** Display_Clear: clear the buffer, then flush it; every byte sent is
      zero. */
  function Clear(d: Screen): (r: (Screen, seq<bv8>))
    ensures r.0 == Screen(Blank(), d.rotated)
    ensures |r.1| == VramSize && forall i :: 0 <= i < |r.1| ==> r.1[i] == 0
  {
    var cleared := Screen(Blank(), d.rotated);
    (cleared, Flush(cleared))
  }
}

=== FILE: ds3234.dfy ===
/** The DS3234 real-time clock driver (driverDS3234.c) over the device's
    registers 0x00 to 0x19 and its 256 bytes of battery-backed SRAM.
    The SRAM is reached through two registers: one holds the SRAM
    address, and each access of the other reads or writes the byte there
    and moves the address on by one, wrapping at 256. The register
    addresses, the 12/24 bit position and the month mask (0x1F, the bits
    below the century bit) are those of the DS3234 register map. */
module Ds3234 {
  import opened Bytes
  import opened Wrappers
  import Bcd
  import opened RegisterBits
  import Arith

  /** Addresses 0x00 to REG_SRAM_DATA are valid. */
  const RegisterCount: nat := 0x1A
  /** SRAM_SIZE. */
  const SramSize: nat := 256

  const Seconds: nat := 0x00
  const Minutes: nat := 0x01
  const Hour: nat := 0x02
  const Day: nat := 0x03
  const Date: nat := 0x04
  const MonthCentury: nat := 0x05
  const Year: nat := 0x06
  const Alarm1Seconds: nat := 0x07
  const Alarm1Minutes: nat := 0x08
  const Alarm1Hours: nat := 0x09
  const Alarm1DayDate: nat := 0x0A
  const Alarm2Minutes: nat := 0x0B
  const Alarm2Hours: nat := 0x0C
  const Alarm2DayDate: nat := 0x0D
  const Control: nat := 0x0E
  const ControlStatus: nat := 0x0F
  const TempMsb: nat := 0x11
  const TempLsb: nat := 0x12
  const SramAddress: nat := 0x18
  const SramData: nat := 0x19

  /** The 12/24 bit of the hour registers: set selects 12-hour mode. */
  const ModeBit: nat := 6
  /** The century bit of the month register. */
  const CenturyBit: nat := 7
  /** The value written to control by Init: oscillator on with battery,
      no square wave, interrupt output selected (RS2, RS1, INTCN). */
  const InitialControl: byte := 0x1C

  type RegisterMap = s: seq<byte> | |s| == RegisterCount witness Zeros(RegisterCount)
  type Sram = s: seq<byte> | |s| == SramSize witness Zeros(SramSize)

  datatype Rtc = Rtc(registers: RegisterMap, sram: Sram)

  /** ReadRegister of a register other than the SRAM data register. */
  function Reg(d: Rtc, address: nat): byte
    requires address < RegisterCount
  {
    d.registers[address]
  }

  /** The SRAM address the next data access uses. */
  function Pointer(d: Rtc): byte {
    Reg(d, SramAddress)
  }

  /** Nothing but the register at `address` differs. */
  predicate Unchanged(d: Rtc, e: Rtc, address: nat) {
    e.sram == d.sram
    && forall a :: 0 <= a < RegisterCount && a != address ==> e.registers[a] == d.registers[a]
  }

  /** WriteRegister; its assertion demands a valid address. A written
      register reads back and no other register changes. A write of the
      data register stores the byte at the SRAM address, moves the address
      on by one, wrapping at 256, and changes no other SRAM byte. */
  function Write(d: Rtc, address: nat, value: byte): (r: Rtc)
    requires address < RegisterCount
    ensures address != SramData ==> Reg(r, address) == value && Unchanged(d, r, address)
    ensures address == SramData ==>
              r.sram[Pointer(d)] == value
              && (forall i :: 0 <= i < SramSize && i != Pointer(d) as int ==> r.sram[i] == d.sram[i])
              && Pointer(r) == (Pointer(d) + 1) % SramSize
              && forall a :: 0 <= a < RegisterCount && a != SramAddress ==> Reg(r, a) == Reg(d, a)
  {
    if address == SramData then
      Rtc(d.registers[SramAddress := (Pointer(d) + 1) % SramSize], d.sram[Pointer(d) := value])
    else d.(registers := d.registers[address := value])
  }

  /** ReadRegister of the data register: the byte at the SRAM address.
      The access moves the address on by one, as writing the address
      register would, and leaves the SRAM as it was. */
  function ReadData(d: Rtc): (r: (byte, Rtc))
    ensures r.0 == d.sram[Pointer(d)]
    ensures r.1 == Write(d, SramAddress, (Pointer(d) + 1) % SramSize)
    ensures Pointer(r.1) == (Pointer(d) + 1) % SramSize
  {
    (d.sram[Pointer(d)], d.(registers := d.registers[SramAddress := (Pointer(d) + 1) % SramSize]))
  }

  /** A byte written through the data register reads back through it once
      the SRAM address is set back, and the address ends where the write
      left it. */
  lemma ReadDataAfterWrite(d: Rtc, value: byte)
    ensures var w := Write(d, SramData, value);
            var r := ReadData(Write(w, SramAddress, Pointer(d)));
            r.0 == value && r.1 == w
  {
    var w := Write(d, SramData, value);
    assert Write(Write(w, SramAddress, Pointer(d)), SramAddress, (Pointer(d) + 1) % SramSize).registers == w.registers;
  }

  /** driverDS3234_Init: the control register reset. */
  function Init(d: Rtc): (r: Rtc)
    ensures Reg(r, Control) == InitialControl && Unchanged(d, r, Control)
  {
    Write(d, Control, InitialControl)
  }

  // ---------------------------------------------------------------------
  // Decimal registers

  /** GetDecimalRegisterValue. */
  function GetDecimal(d: Rtc, address: nat): (r: byte)
    requires address < RegisterCount
    ensures Bcd.IsBcd(Reg(d, address)) ==> r < 100 && Bcd.BcdByte(r) == Reg(d, address)
  {
    Bcd.BcdByteOfDecimal(Reg(d, address));
    Bcd.BcdToDecimal(Reg(d, address))
  }


  /** SetDecimalRegisterValue; its assertion demands a value below 100,
      the most two BCD digits hold. */
  function SetDecimal(d: Rtc, address: nat, value: byte): (r: Rtc)
    requires address < RegisterCount && address != SramData && value < 100
    ensures GetDecimal(r, address) == value
    ensures Reg(r, address) == value / 10 * 16 + value % 10
    ensures Unchanged(d, r, address)
  {
    Write(d, address, Bcd.BcdByte(value))
  }

  /** The bits of a register from position `n` up are kept and the
      two-digit value goes below them, as `(reg & mask) | BCD(value)`. */
  function SetField(d: Rtc, address: nat, n: nat, value: byte): (r: Rtc)
    requires address < RegisterCount && address != SramData && value < 100
    requires n <= 8 && Bcd.BcdByte(value) < Pow2(n)
    ensures Low(Reg(r, address), n) == Bcd.BcdByte(value)
    ensures Reg(r, address) / Pow2(n) == Reg(d, address) / Pow2(n)
    ensures Unchanged(d, r, address)
  {
    Write(d, address, Merge(Reg(d, address), n, Bcd.BcdByte(value)))
  }

  /** A field written below bit `m` reads back below any lower bit `n`
      its digits fit under. */
  lemma NarrowField(x: nat, n: nat, m: nat, v: nat)
    requires n <= m && Low(x, m) == v && v < Pow2(n)
    ensures Low(x, n) == v
  {
    LowOfLow(x, n, m);
    Arith.ModUnique(v, Pow2(n), 0, v);
  }

  /** driverDS3234_GetYear. */
  function GetYear(d: Rtc): (r: byte)
    ensures Bcd.IsBcd(Reg(d, Year)) ==> r < 100 && Bcd.BcdByte(r) == Reg(d, Year)
  {
    GetDecimal(d, Year)
  }

  /** driverDS3234_SetYear: accepts 0..99; the century bit, kept in the
      month register, stays. */
  function SetYear(d: Rtc, year: byte): (r: (Rtc, bool))
    ensures r.1 <==> year < 100
    ensures !r.1 ==> r.0 == d
    ensures r.1 ==> Unchanged(d, r.0, Year) && GetYear(r.0) == year
                    && Century(r.0) == Century(d)
  {
    if year < 100 then (SetDecimal(d, Year, year), true) else (d, false)
  }

  /** Whether the year has rolled over into the next century. */
  predicate Century(d: Rtc) {
    Flag(Reg(d, MonthCentury), CenturyBit)
  }

  /** driverDS3234_GetMonth: the century bit is masked off. */
  function GetMonth(d: Rtc): (r: byte)
    ensures var x := Low(Reg(d, MonthCentury), 5);
            Bcd.IsBcd(x) ==> r < 100 && Bcd.BcdByte(r) == x
  {
    var x := Low(Reg(d, MonthCentury), 5);
    Bcd.BcdByteOfDecimal(x);
    Bcd.BcdToDecimal(x)
  }

  /** driverDS3234_SetMonth: accepts 1..12 and keeps the century bit,
      `(reg & 0x80) | BCD(month)`. */
  function SetMonth(d: Rtc, month: byte): (r: (Rtc, bool))
    ensures r.1 <==> 1 <= month <= 12
    ensures !r.1 ==> r.0 == d
    ensures r.1 ==> Unchanged(d, r.0, MonthCentury) && GetMonth(r.0) == month
                    && Century(r.0) == Century(d)
  {
    assert Pow2(7) == 0x80 && Pow2(5) == 0x20;
    if 1 <= month <= 12 then
      var r := SetField(d, MonthCentury, CenturyBit, month);
      NarrowField(Reg(r, MonthCentury), 5, CenturyBit, Bcd.BcdByte(month));
      FlagAbove(Reg(r, MonthCentury), Reg(d, MonthCentury), CenturyBit, CenturyBit);
      (r, true)
    else (d, false)
  }

  /** driverDS3234_GetDate. */
  function GetDate(d: Rtc): (r: byte)
    ensures Bcd.IsBcd(Reg(d, Date)) ==> r < 100 && Bcd.BcdByte(r) == Reg(d, Date)
  {
    GetDecimal(d, Date)
  }

  /** driverDS3234_SetDate: accepts 1..31; the century bit stays. */
  function SetDate(d: Rtc, date: byte): (r: (Rtc, bool))
    ensures r.1 <==> 1 <= date <= 31
    ensures !r.1 ==> r.0 == d
    ensures r.1 ==> Unchanged(d, r.0, Date) && GetDate(r.0) == date
                    && Century(r.0) == Century(d)
  {
    if 1 <= date <= 31 then (SetDecimal(d, Date, date), true) else (d, false)
  }

  /** driverDS3234_GetDay. */
  function GetDay(d: Rtc): (r: byte)
    ensures Bcd.IsBcd(Reg(d, Day)) ==> r < 100 && Bcd.BcdByte(r) == Reg(d, Day)
  {
    GetDecimal(d, Day)
  }

  /** driverDS3234_SetDay: accepts 1..7. */
  function SetDay(d: Rtc, day: byte): (r: (Rtc, bool))
    ensures r.1 <==> 1 <= day <= 7
    ensures !r.1 ==> r.0 == d
    ensures r.1 ==> Unchanged(d, r.0, Day) && GetDay(r.0) == day
  {
    if 1 <= day <= 7 then (SetDecimal(d, Day, day), true) else (d, false)
  }

  /** driverDS3234_GetMinute. */
  function GetMinute(d: Rtc): (r: byte)
    ensures Bcd.IsBcd(Reg(d, Minutes)) ==> r < 100 && Bcd.BcdByte(r) == Reg(d, Minutes)
  {
    GetDecimal(d, Minutes)
  }

  /** driverDS3234_SetMinute: accepts 0..59. */
  function SetMinute(d: Rtc, minute: byte): (r: (Rtc, bool))
    ensures r.1 <==> minute <= 59
    ensures !r.1 ==> r.0 == d
    ensures r.1 ==> Unchanged(d, r.0, Minutes) && GetMinute(r.0) == minute
  {
    if minute <= 59 then (SetDecimal(d, Minutes, minute), true) else (d, false)
  }

  /** driverDS3234_GetSecond. */
  function GetSecond(d: Rtc): (r: byte)
    ensures Bcd.IsBcd(Reg(d, Seconds)) ==> r < 100 && Bcd.BcdByte(r) == Reg(d, Seconds)
  {
    GetDecimal(d, Seconds)
  }

  /** driverDS3234_SetSecond: accepts 0..59. */
  function SetSecond(d: Rtc, second: byte): (r: (Rtc, bool))
    ensures r.1 <==> second <= 59
    ensures !r.1 ==> r.0 == d
    ensures r.1 ==> Unchanged(d, r.0, Seconds) && GetSecond(r.0) == second
  {
    if second <= 59 then (SetDecimal(d, Seconds, second), true) else (d, false)
  }

  // ---------------------------------------------------------------------
  // Hour and its format

  /** driverDS3234_Is24HourMode: the 12/24 bit is clear. */
  predicate Is24HourMode(d: Rtc) {
    !Flag(Reg(d, Hour), ModeBit)
  }

  /** The hours the current format admits. */
  predicate HourInRange(is24: bool, hour: int) {
    if is24 then 0 <= hour <= 23 else 1 <= hour <= 12
  }

  /** driverDS3234_Enable24HourMode: ClearBit or SetBit of the 12/24 bit;
      the hour digits below it stay. */
  function Enable24HourMode(d: Rtc, enabled: bool): (r: Rtc)
    ensures Is24HourMode(r) == enabled
    ensures Low(Reg(r, Hour), ModeBit) == Low(Reg(d, Hour), ModeBit)
    ensures Unchanged(d, r, Hour)
  {
    Write(d, Hour, WithFlag(Reg(d, Hour), ModeBit, !enabled))
  }

  /** driverDS3234_GetHour as written: the whole register is decoded,
      the 12/24 and AM/PM bits included. */
  function GetHourAsWritten(d: Rtc): (r: byte)
    ensures Bcd.IsBcd(Reg(d, Hour)) ==> r < 100 && Bcd.BcdByte(r) == Reg(d, Hour)
  {
    GetDecimal(d, Hour)
  }

  /** driverDS3234_SetHour as written: the range follows the format, but
      the plain BCD value replaces the whole register. */
  function SetHourAsWritten(d: Rtc, hour: byte): (r: (Rtc, bool))
    ensures r.1 <==> HourInRange(Is24HourMode(d), hour)
    ensures !r.1 ==> r.0 == d
    ensures r.1 ==> Unchanged(d, r.0, Hour) && GetHourAsWritten(r.0) == hour
  {
    if HourInRange(Is24HourMode(d), hour) then (SetDecimal(d, Hour, hour), true) else (d, false)
  }

  /** In 12-hour mode every accepted hour switches the clock to 24-hour
      mode, and a 12-hour register reads back with the 12/24 bit as a
      tens digit of four: 5 o'clock, stored as 0x45, reads as 45. */
  lemma SetHourAsWrittenLeaves12HourMode(d: Rtc, hour: byte)
    requires !Is24HourMode(d) && HourInRange(false, hour)
    ensures SetHourAsWritten(d, hour).1 && Is24HourMode(SetHourAsWritten(d, hour).0)
    ensures Reg(d, Hour) == 0x45 ==> GetHourAsWritten(d) == 45
  {
    var x := Bcd.BcdByte(hour);
    assert x <= 0x12;
    assert Pow2(6) == 0x40;
    assert x / Pow2(ModeBit) == 0;
    assert Reg(SetHourAsWritten(d, hour).0, Hour) == x;
  }

  /** How many low bits hold the hour: six below the 12/24 bit in
      24-hour mode, five below the AM/PM bit in 12-hour mode. */
  function HourBits(is24: bool): nat {
    if is24 then 6 else 5
  }

  /** GetHour with the format bits masked off, as the MCP79510 driver
      does. */
  function GetHour(d: Rtc): (r: byte)
    ensures var x := Low(Reg(d, Hour), HourBits(Is24HourMode(d)));
            Bcd.IsBcd(x) ==> r < 100 && Bcd.BcdByte(r) == x
  {
    var x := Low(Reg(d, Hour), HourBits(Is24HourMode(d)));
    Bcd.BcdByteOfDecimal(x);
    Bcd.BcdToDecimal(x)
  }

  /** SetHour keeping the format bits: accepts the same hours and reads
      back as the hour written, in the format the clock was in. */
  function SetHour(d: Rtc, hour: byte): (r: (Rtc, bool))
    ensures r.1 <==> HourInRange(Is24HourMode(d), hour)
    ensures !r.1 ==> r.0 == d
    ensures r.1 ==> Unchanged(d, r.0, Hour) && GetHour(r.0) == hour
                    && Is24HourMode(r.0) == Is24HourMode(d)
  {
    assert Pow2(6) == 0x40 && Pow2(5) == 0x20;
    if HourInRange(Is24HourMode(d), hour) then
      var r := SetField(d, Hour, HourBits(Is24HourMode(d)), hour);
      FlagAbove(Reg(r, Hour), Reg(d, Hour), HourBits(Is24HourMode(d)), ModeBit);
      (r, true)
    else (d, false)
  }

  /** In 24-hour mode the two agree. */
  lemma SetHourAgreesIn24HourMode(d: Rtc, hour: byte)
    requires Is24HourMode(d) && Reg(d, Hour) < 0x40
    ensures SetHour(d, hour) == SetHourAsWritten(d, hour)
  {
    if HourInRange(true, hour) {
      assert Pow2(6) == 0x40;
      assert Merge(Reg(d, Hour), 6, Bcd.BcdByte(hour)) == Bcd.BcdByte(hour);
    }
  }

  // ---------------------------------------------------------------------
  // Alarms

  /** The register of alarm 1 (index 0) or alarm 2 (any other index). */
  function AlarmRegister(alarmIndex: byte, alarm1: nat, alarm2: nat): nat {
    if alarmIndex == 0 then alarm1 else alarm2
  }

  /** Whether an alarm's interrupt is enabled: A1IE and A2IE, bits 0
      and 1 of control. */
  predicate AlarmEnabled(d: Rtc, alarmIndex: nat)
    requires alarmIndex < 2
  {
    Flag(Reg(d, Control), alarmIndex)
  }

  /** driverDS3234_EnableAlarm: enabling first writes 0x80 to the alarm 1
      day/date register (whichever alarm is enabled), then sets the
      alarm's interrupt-enable bit; disabling clears the bit. */
  function EnableAlarm(d: Rtc, enable: bool, alarmIndex: nat): (r: Rtc)
    requires alarmIndex < 2
    ensures AlarmEnabled(r, alarmIndex) == enable
    ensures AlarmEnabled(r, 1 - alarmIndex) == AlarmEnabled(d, 1 - alarmIndex)
    ensures Reg(r, Alarm1DayDate) == if enable then 0x80 else Reg(d, Alarm1DayDate)
    ensures r.sram == d.sram
    ensures forall a :: 0 <= a < RegisterCount && a != Control && a != Alarm1DayDate ==>
              r.registers[a] == d.registers[a]
  {
    var marked := if enable then Write(d, Alarm1DayDate, 0x80) else d;
    WithFlagKeeps(Reg(marked, Control), alarmIndex, enable, 1 - alarmIndex);
    Write(marked, Control, WithFlag(Reg(marked, Control), alarmIndex, enable))
  }

  /** driverDS3234_ClearAlarmFlag: A1F or A2F of control/status. */
  function ClearAlarmFlag(d: Rtc, alarmIndex: nat): (r: Rtc)
    requires alarmIndex < 2
    ensures !Flag(Reg(r, ControlStatus), alarmIndex)
    ensures Flag(Reg(r, ControlStatus), 1 - alarmIndex) == Flag(Reg(d, ControlStatus), 1 - alarmIndex)
    ensures Unchanged(d, r, ControlStatus)
  {
    WithFlagKeeps(Reg(d, ControlStatus), alarmIndex, false, 1 - alarmIndex);
    Write(d, ControlStatus, WithFlag(Reg(d, ControlStatus), alarmIndex, false))
  }

  /** driverDS3234_SetAlarmDate: accepts 1..31. */
  function SetAlarmDate(d: Rtc, date: byte, alarmIndex: byte): (r: (Rtc, bool))
    ensures r.1 <==> 1 <= date <= 31
    ensures !r.1 ==> r.0 == d
    ensures r.1 ==> var a := AlarmRegister(alarmIndex, Alarm1DayDate, Alarm2DayDate);
                    Unchanged(d, r.0, a) && GetDecimal(r.0, a) == date
  {
    if 1 <= date <= 31 then (SetDecimal(d, AlarmRegister(alarmIndex, Alarm1DayDate, Alarm2DayDate), date), true)
    else (d, false)
  }

  /** driverDS3234_SetAlarmHour: the range follows the format of the
      time-keeping hour register; the value is written as plain BCD. */
  function SetAlarmHour(d: Rtc, hour: byte, alarmIndex: byte): (r: (Rtc, bool))
    ensures r.1 <==> HourInRange(Is24HourMode(d), hour)
    ensures !r.1 ==> r.0 == d
    ensures r.1 ==> var a := AlarmRegister(alarmIndex, Alarm1Hours, Alarm2Hours);
                    Unchanged(d, r.0, a) && GetDecimal(r.0, a) == hour
  {
    if HourInRange(Is24HourMode(d), hour) then
      (SetDecimal(d, AlarmRegister(alarmIndex, Alarm1Hours, Alarm2Hours), hour), true)
    else (d, false)
  }

  /** driverDS3234_SetAlarmMinute: accepts 0..59. */
  function SetAlarmMinute(d: Rtc, minute: byte, alarmIndex: byte): (r: (Rtc, bool))
    ensures r.1 <==> minute <= 59
    ensures !r.1 ==> r.0 == d
    ensures r.1 ==> var a := AlarmRegister(alarmIndex, Alarm1Minutes, Alarm2Minutes);
                    Unchanged(d, r.0, a) && GetDecimal(r.0, a) == minute
  {
    if minute <= 59 then (SetDecimal(d, AlarmRegister(alarmIndex, Alarm1Minutes, Alarm2Minutes), minute), true)
    else (d, false)
  }

  /** driverDS3234_SetAlarmSecond: only alarm 1 has seconds. */
  function SetAlarmSecond(d: Rtc, second: byte): (r: (Rtc, bool))
    ensures r.1 <==> second <= 59
    ensures !r.1 ==> r.0 == d
    ensures r.1 ==> Unchanged(d, r.0, Alarm1Seconds) && GetDecimal(r.0, Alarm1Seconds) == second
  {
    if second <= 59 then (SetDecimal(d, Alarm1Seconds, second), true) else (d, false)
  }

  // ---------------------------------------------------------------------
  // Temperature

  /** driverDS3234_GetTemperature as written: the MSB times 100 plus the
      two fraction bits of the LSB as a count, in 16 unsigned bits. */
  function TemperatureAsWritten(d: Rtc): u16 {
    (Reg(d, TempMsb) * 100 + Reg(d, TempLsb) / 64) % 0x1_0000
  }

  /** The reading as the device defines it: a 10-bit two's-complement
      count of quarter degrees, the MSB holding the upper eight bits. */
  function QuarterDegrees(d: Rtc): (r: int)
    ensures -512 <= r < 512
  {
    var raw := Reg(d, TempMsb) * 4 + Reg(d, TempLsb) / 64;
    if raw >= 512 then raw - 1024 else raw
  }

  /** The temperature in hundredths of a degree, as the header documents
      it (2550 is 25.5 degrees): the signed MSB in degrees and 25 per
      quarter degree. */
  function Temperature(d: Rtc): (r: int)
    ensures r == 25 * QuarterDegrees(d)
    ensures -12800 <= r <= 12775
  {
    var msb := Reg(d, TempMsb);
    (if msb >= 128 then msb - 256 else msb) * 100 + Reg(d, TempLsb) / 64 * 25
  }

  /** The two readings differ on every fraction and every temperature
      below zero: 25.5 degrees reads as 2502, minus one degree as 25500. */
  lemma TemperatureAsWrittenMisreads(d: Rtc)
    ensures TemperatureAsWritten(d) == Temperature(d) <==> Reg(d, TempMsb) < 128 && Reg(d, TempLsb) < 64
    ensures Reg(d, TempMsb) == 25 && Reg(d, TempLsb) == 0x80 ==> TemperatureAsWritten(d) == 2502 && Temperature(d) == 2550
    ensures Reg(d, TempMsb) == 0xFF && Reg(d, TempLsb) == 0 ==> TemperatureAsWritten(d) == 25500 && Temperature(d) == -100
  {
  }

  // ---------------------------------------------------------------------
  // SRAM

  /** IsSRAMParametersValid as written: the sum is a 16-bit `size_t` on
      the AVR, so it wraps for lengths near 65536. */
  predicate SramParametersValidAsWritten(address: byte, length: nat)
    requires length < 0x1_0000
  {
    (address + length) % 0x1_0000 <= SramSize
  }

  /** The range lies inside the SRAM. */
  predicate SramParametersValid(address: byte, length: nat) {
    address + length <= SramSize
  }

  /** The range test as written accepts a range that wraps the 16-bit sum,
      and agrees with the intended one whenever the sum does not wrap. */
  lemma SramCheckWrapsAsWritten(address: byte, length: nat)
    requires length < 0x1_0000
    ensures address + length < 0x1_0000 ==>
              (SramParametersValidAsWritten(address, length) <==> SramParametersValid(address, length))
    ensures SramParametersValidAsWritten(1, 0xFFFF) && !SramParametersValid(1, 0xFFFF)
  {
  }

  /** The transfer loop of driverDS3234_WriteToSRAM: each byte written
      to the data register, the address advancing after each. */
  function WriteBytes(d: Rtc, data: seq<byte>): (r: Rtc)
    requires Pointer(d) + |data| <= SramSize
    ensures r.registers == d.registers[SramAddress := (Pointer(d) + |data|) % SramSize]
    ensures forall i :: 0 <= i < SramSize ==>
              r.sram[i] == if Pointer(d) <= i < Pointer(d) + |data| then data[i - Pointer(d)] else d.sram[i]
    decreases |data|
  {
    if data == [] then d
    else
      var e := Write(d, SramData, data[0]);
      var rest := data[1..];
      assert Pointer(e) == Pointer(d) + 1 || rest == [];
      assert (Pointer(e) + |rest|) % SramSize == (Pointer(d) + |data|) % SramSize;
      assert forall i :: 1 <= i < |data| ==> data[i] == rest[i - 1];
      WriteBytes(e, rest)
  }

  /** The transfer loop of driverDS3234_ReadFromSRAM. */
  function ReadBytes(d: Rtc, length: nat): (r: (seq<byte>, Rtc))
    requires Pointer(d) + length <= SramSize
    ensures |r.0| == length
    ensures forall i :: 0 <= i < length ==> r.0[i] == d.sram[Pointer(d) + i]
    ensures r.1.sram == d.sram
    ensures r.1.registers == d.registers[SramAddress := (Pointer(d) + length) % SramSize]
    decreases length
  {
    if length == 0 then ([], d)
    else
      var (b, next) := ReadData(d);
      var (rest, last) := ReadBytes(next, length - 1);
      ([b] + rest, last)
  }

  /** driverDS3234_WriteToSRAM: the SRAM address register is set, then
      the bytes go out one by one. */
  function WriteToSram(d: Rtc, address: byte, data: seq<byte>): (r: (Rtc, bool))
    ensures r.1 <==> SramParametersValid(address, |data|)
    ensures !r.1 ==> r.0 == d
    ensures r.1 ==> forall i :: 0 <= i < SramSize ==>
                      r.0.sram[i] == if address <= i < address + |data| then data[i - address] else d.sram[i]
    ensures r.1 ==> r.0.registers == d.registers[SramAddress := (address + |data|) % SramSize]
  {
    if SramParametersValid(address, |data|) then (WriteBytes(Write(d, SramAddress, address), data), true)
    else (d, false)
  }

  /** driverDS3234_ReadFromSRAM: the bytes read, or nothing when the range
      does not fit. */
  function ReadFromSram(d: Rtc, address: byte, length: nat): (r: (Rtc, Option<seq<byte>>))
    ensures r.1.Some? <==> SramParametersValid(address, length)
    ensures r.1.None? ==> r.0 == d
    ensures r.1.Some? ==> |r.1.value| == length
                          && (forall i :: 0 <= i < length ==> r.1.value[i] == d.sram[address + i])
                          && r.0.sram == d.sram
                          && r.0.registers == d.registers[SramAddress := (address + length) % SramSize]
  {
    if SramParametersValid(address, length) then
      var (data, r) := ReadBytes(Write(d, SramAddress, address), length);
      (r, Some(data))
    else (d, None)
  }

  /** Reading back what was written returns it. */
  lemma ReadAfterWrite(d: Rtc, address: byte, data: seq<byte>)
    requires SramParametersValid(address, |data|)
    ensures ReadFromSram(WriteToSram(d, address, data).0, address, |data|).1 == Some(data)
  {
    var read := ReadFromSram(WriteToSram(d, address, data).0, address, |data|).1.value;
    assert read == data;
  }

  /** driverDS3234_ClearSRAM: 256 zero bytes written from address 0. */
  function ClearSram(d: Rtc): (r: Rtc)
    ensures forall i :: 0 <= i < SramSize ==> r.sram[i] == 0
    ensures r.registers == d.registers[SramAddress := 0]
  {
    WriteBytes(Write(d, SramAddress, 0), Zeros(SramSize))
  }
}

=== FILE: error_handler.dfy ===
/** The firmware's error log (ErrorHandler.c): 80 entries of 10 bytes in
    EEPROM, written round-robin. After a restart the position to write next
    is recovered from the ids alone: ids grow by one per entry, so the
    first entry whose id does not exceed its predecessor's is the oldest.

    The timestamp comes from the real-time clock, which is I/O; it is a
    parameter here. */
module ErrorHandler {
  import opened Bytes
  import opened Wrappers
  import NvmErrorLog
  import Arith

  /** ERROR_LOG_SIZE. */
  const LogSize: nat := 80
  /** `sizeof(error_message_type)`: two 32-bit and two 8-bit fields, packed. */
  const EntrySize: nat := 10
  /** `sizeof(error_log)`. */
  const LogBytes: nat := 800
  const IdLimitAsWritten: nat := 0x100

  /** `error_message_type`. */
  datatype Entry = Entry(id: u32, timestamp: u32, code: byte, information: byte)

  /** The log as the `{{0}}` initialiser leaves it. */
  const ErasedEntry: Entry := Entry(0, 0, 0, 0)

  type Log = s: seq<Entry> | |s| == LogSize witness seq(80, _ => Entry(0, 0, 0, 0))

  /** The EEPROM log and the two RAM variables that say where and with
      which id the next entry goes. */
  datatype Handler = Handler(log: Log, currentIndex: nat, currentId: nat)

  /** An `sc_assert` failed. */
  datatype HandlerError = AssertionFailed

  // ---------------------------------------------------------------------
  // Index recovery

  /** The id the scan compares entry `i` with: its predecessor's, or 0
      before the first entry. */
  function PreviousId(log: Log, i: nat): u32
    requires i <= LogSize
  {
    if i == 0 then 0 else log[i - 1].id
  }

  /** The ids of the first `n` entries each exceed the one before. */
  predicate IdsIncrease(log: Log, n: nat)
    requires n <= LogSize
  {
    forall j :: 0 <= j < n ==> PreviousId(log, j) < log[j].id
  }

  /** The loop of ErrorHandler_Init from entry `index` on, with
      `previousId` the id it last read: the index of the first entry whose
      id does not exceed its predecessor's, and that predecessor's id; or,
      when the ids increase to the end, index 0 and the last id. */
  function Scan(log: Log, index: nat, previousId: u32): (r: (nat, u32))
    requires index <= LogSize && IdsIncrease(log, index) && previousId == PreviousId(log, index)
    ensures r.0 < LogSize && IdsIncrease(log, r.0)
    ensures (log[r.0].id <= PreviousId(log, r.0) && r.1 == PreviousId(log, r.0))
            || (r.0 == 0 && IdsIncrease(log, LogSize) && r.1 == log[LogSize - 1].id)
    decreases LogSize - index
  {
    if index == LogSize then (0, previousId)
    else if log[index].id <= previousId then (index, previousId)
    else
      IncreaseExtend(log, index);
      Scan(log, index + 1, log[index].id)
  }

  lemma IncreaseExtend(log: Log, n: nat)
    requires n < LogSize && IdsIncrease(log, n) && PreviousId(log, n) < log[n].id
    ensures IdsIncrease(log, n + 1)
  {
  }

  /** `++prev_id` on the 32-bit previous id. */
  function NextId(previousId: u32): (r: u32)
    ensures previousId < U32Limit - 1 ==> r == previousId + 1
    ensures previousId == U32Limit - 1 ==> r == 0
  {
    (previousId + 1) % U32Limit
  }

  /** ErrorHandler_Init as written: the incremented id is stored into the
      8-bit `current_id`. */
  function InitAsWritten(log: Log): (h: Handler)
    ensures h.log == log && h.currentIndex < LogSize && h.currentId < IdLimitAsWritten
    ensures h.currentId == NextId(Scan(log, 0, 0).1) % IdLimitAsWritten
  {
    var (index, previousId) := Scan(log, 0, 0);
    Handler(log, index, NextId(previousId) % IdLimitAsWritten)
  }

  /** ErrorHandler_Init with a 32-bit `current_id`. */
  function Init(log: Log): (h: Handler)
    ensures h.log == log && h.currentIndex < LogSize && IdsIncrease(log, h.currentIndex)
    ensures (log[h.currentIndex].id <= PreviousId(log, h.currentIndex) && h.currentId == NextId(PreviousId(log, h.currentIndex)))
            || (h.currentIndex == 0 && IdsIncrease(log, LogSize) && h.currentId == NextId(log[LogSize - 1].id))
  {
    var (index, previousId) := Scan(log, 0, 0);
    Handler(log, index, NextId(previousId))
  }

  // ---------------------------------------------------------------------
  // Logging

  /** The index update of ErrorHandler_LogError as written: `%` and `/`
      bind left to right, so the incremented index is reduced modulo the
      log's size in bytes and then divided by the entry size. */
  function NextIndexAsWritten(index: nat): nat {
    (index + 1) % LogBytes / EntrySize
  }

  /** The index update evidently intended: the next slot, round-robin. */
  function NextIndex(index: nat): (r: nat)
    ensures r < LogSize
    ensures index < LogSize - 1 ==> r == index + 1
    ensures index == LogSize - 1 ==> r == 0
  {
    (index + 1) % LogSize
  }

  /** As written, the index never gets past slot 8, and from slot 0 it
      stays at slot 0: every error overwrites the previous one. */
  lemma NextIndexAsWrittenStuck(index: nat)
    requires index < LogSize
    ensures NextIndexAsWritten(index) <= 8
    ensures index < 9 ==> NextIndexAsWritten(index) == 0
  {
  }

  /** The entry ErrorHandler_LogError writes. */
  function NewEntry(h: Handler, code: byte, information: byte, timestamp: u32): Entry
    requires h.currentId < U32Limit
  {
    Entry(h.currentId, timestamp, code, information)
  }

  /** ErrorHandler_LogError as written, with the 8-bit id. */
  function LogErrorAsWritten(h: Handler, code: byte, information: byte, timestamp: u32): (r: Result<Handler, HandlerError>)
    ensures r.Ok? <==> h.currentIndex < LogSize && h.currentId != 0
    ensures r.Ok? && h.currentId < U32Limit ==>
      r.value.log == h.log[h.currentIndex := NewEntry(h, code, information, timestamp)]
    ensures r.Ok? ==> r.value.currentIndex == NextIndexAsWritten(h.currentIndex) <= 8
    ensures r.Ok? && h.currentIndex < 9 ==> r.value.currentIndex == 0
    ensures r.Ok? && h.currentId < IdLimitAsWritten - 1 ==> r.value.currentId == h.currentId + 1
    ensures r.Ok? && h.currentId == IdLimitAsWritten - 1 ==> r.value.currentId == 0
  {
    if h.currentIndex >= LogSize || h.currentId == 0 then Err(AssertionFailed)
    else
      var entry := Entry(h.currentId % U32Limit, timestamp, code, information);
      NextIndexAsWrittenStuck(h.currentIndex);
      Ok(Handler(h.log[h.currentIndex := entry], NextIndexAsWritten(h.currentIndex), (h.currentId + 1) % IdLimitAsWritten))
  }

  /** ErrorHandler_LogError with the round-robin index and a 32-bit id. */
  function LogError(h: Handler, code: byte, information: byte, timestamp: u32): (r: Result<Handler, HandlerError>)
    ensures r.Ok? <==> h.currentIndex < LogSize && h.currentId != 0
    ensures r.Ok? && h.currentId < U32Limit ==>
      r.value.log == h.log[h.currentIndex := NewEntry(h, code, information, timestamp)]
      && r.value.currentIndex == NextIndex(h.currentIndex) && r.value.currentId == NextId(h.currentId)
  {
    if h.currentIndex >= LogSize || h.currentId == 0 then Err(AssertionFailed)
    else
      var entry := Entry(h.currentId % U32Limit, timestamp, code, information);
      Ok(Handler(h.log[h.currentIndex := entry], NextIndex(h.currentIndex), (h.currentId + 1) % U32Limit))
  }

  // ---------------------------------------------------------------------
  // The corrected log recovers its position after a restart

  /** The id slot `j` holds once `k` entries with ids 1, 2, ..., k have
      been written round-robin from slot 0 into an erased log: the latest
      of those ids that landed in slot `j`, or 0 when none did. */
  function SlotId(k: nat, j: nat): nat
    requires j < LogSize
  {
    var full := k - k % LogSize;
    if j < k % LogSize then full + j + 1
    else if k >= LogSize then full - LogSize + j + 1
    else 0
  }

  /** The log holds exactly what `k` round-robin writes leave. */
  predicate HoldsRun(log: Log, k: nat) {
    forall j :: 0 <= j < LogSize ==> log[j].id == SlotId(k, j)
  }

  const ErasedLog: Log := seq(80, _ => ErasedEntry)

  lemma ErasedHoldsEmptyRun()
    ensures HoldsRun(ErasedLog, 0)
  {
  }

  /** Writing id `k + 1` into slot `k % 80` turns the run of `k` into the
      run of `k + 1`. */
  lemma SlotIdStep(k: nat, j: nat)
    requires j < LogSize
    ensures SlotId(k + 1, j) == if j == k % LogSize then k + 1 else SlotId(k, j)
  {
    var q, r := k / LogSize, k % LogSize;
    if r < LogSize - 1 {
      Arith.ModUnique(k + 1, LogSize, q, r + 1);
    } else {
      Arith.ModUnique(k + 1, LogSize, q + 1, 0);
    }
  }

  /** The invariant LogError keeps: with the log holding the run of `k`,
      the index at `k % 80` and the id at `k + 1`, logging one more error
      succeeds and leaves the run of `k + 1`, index and id advanced. */
  lemma LogErrorExtendsRun(h: Handler, k: nat, code: byte, information: byte, timestamp: u32)
    requires HoldsRun(h.log, k) && h.currentIndex == k % LogSize && h.currentId == k + 1
    requires k + 2 < U32Limit
    ensures LogError(h, code, information, timestamp).Ok?
    ensures var h' := LogError(h, code, information, timestamp).value;
            HoldsRun(h'.log, k + 1) && h'.currentIndex == (k + 1) % LogSize && h'.currentId == k + 2
  {
    var h' := LogError(h, code, information, timestamp).value;
    forall j | 0 <= j < LogSize
      ensures h'.log[j].id == SlotId(k + 1, j)
    {
      SlotIdStep(k, j);
    }
    Arith.ModAddMod(k, 1, LogSize);
  }

  /** Within the run of `k`, the ids increase up to slot `k % 80`. */
  lemma RunIncreasesToIndex(log: Log, k: nat)
    requires HoldsRun(log, k)
    ensures IdsIncrease(log, k % LogSize)
  {
    var r := k % LogSize;
    forall j | 0 <= j < r
      ensures PreviousId(log, j) < log[j].id
    {
      if j > 0 {
        assert log[j - 1].id == SlotId(k, j - 1);
      }
      assert log[j].id == SlotId(k, j);
    }
  }

  /** Unless a whole number of rounds is complete, slot `k % 80` holds the
      oldest id, which does not exceed its predecessor, `k`. */
  lemma RunDropsAtIndex(log: Log, k: nat)
    requires HoldsRun(log, k) && (k < LogSize || k % LogSize != 0)
    ensures log[k % LogSize].id <= PreviousId(log, k % LogSize) == k
  {
    var r := k % LogSize;
    if k < LogSize {
      Arith.ModUnique(k, LogSize, 0, k);
    }
    assert log[r].id == SlotId(k, r);
    if r > 0 {
      assert log[r - 1].id == SlotId(k, r - 1);
    }
  }

  /** After whole rounds, the ids increase across the log and end in `k`. */
  lemma RunIncreasesWhenRoundsComplete(log: Log, k: nat)
    requires HoldsRun(log, k) && k >= LogSize && k % LogSize == 0
    ensures IdsIncrease(log, LogSize) && log[LogSize - 1].id == k
  {
    forall j | 0 <= j < LogSize
      ensures PreviousId(log, j) < log[j].id
    {
      if j > 0 {
        assert log[j - 1].id == SlotId(k, j - 1);
      }
      assert log[j].id == SlotId(k, j);
    }
    assert log[LogSize - 1].id == SlotId(k, LogSize - 1);
  }

  /** After a restart, Init finds the slot the next entry of the run goes
      to and the id it gets. With the previous lemma: however many errors
      were logged since the log was erased, a restart continues the run
      where it stopped. */
  lemma InitRecoversRun(log: Log, k: nat)
    requires HoldsRun(log, k) && k + 1 < U32Limit
    ensures Init(log).currentIndex == k % LogSize && Init(log).currentId == k + 1
  {
    var h := Init(log);
    var r := k % LogSize;
    RunIncreasesToIndex(log, k);
    if k < LogSize || r != 0 {
      RunDropsAtIndex(log, k);
      FirstDropIsUnique(log, h.currentIndex, r);
      assert h.currentIndex == r && h.currentId == NextId(k);
    } else {
      RunIncreasesWhenRoundsComplete(log, k);
      NoDropWhenIncreasing(log, h.currentIndex);
      assert h.currentIndex == 0 && h.currentId == NextId(k);
    }
  }

  /** At most one entry is the first whose id does not exceed its
      predecessor's. */
  lemma FirstDropIsUnique(log: Log, i: nat, j: nat)
    requires i < LogSize && j < LogSize
    requires IdsIncrease(log, j) && log[j].id <= PreviousId(log, j)
    ensures IdsIncrease(log, i) && log[i].id <= PreviousId(log, i) ==> i == j
    ensures !IdsIncrease(log, LogSize)
  {
    if i < j {
      assert PreviousId(log, i) < log[i].id;
    }
  }

  lemma NoDropWhenIncreasing(log: Log, i: nat)
    requires i < LogSize && IdsIncrease(log, LogSize)
    ensures PreviousId(log, i) < log[i].id
  {
  }

  /** Started on an erased log, Init writes slot 0 first with id 1. */
  lemma InitOnErasedLog()
    ensures Init(ErasedLog).currentIndex == 0 && Init(ErasedLog).currentId == 1
  {
    ErasedHoldsEmptyRun();
    InitRecoversRun(ErasedLog, 0);
  }

  // ---------------------------------------------------------------------
  // What the code as written does instead

  /** As written, every error after a fresh start lands in slot 0: the
      second overwrites the first and slot 1 stays erased, where the
      corrected code keeps both. */
  lemma LogErrorAsWrittenOverwrites(code: byte, information: byte, timestamp: u32)
    ensures var h0 := InitAsWritten(ErasedLog);
            var h1 := LogErrorAsWritten(h0, code, information, timestamp);
            h1.Ok? && LogErrorAsWritten(h1.value, code, information, timestamp).Ok?
            && var h2 := LogErrorAsWritten(h1.value, code, information, timestamp).value;
            h2.log[0].id == 2 && h2.log[1] == ErasedEntry
    ensures var h0 := Init(ErasedLog);
            var h1 := LogError(h0, code, information, timestamp);
            h1.Ok? && LogError(h1.value, code, information, timestamp).Ok?
            && var h2 := LogError(h1.value, code, information, timestamp).value;
            h2.log[0].id == 1 && h2.log[1].id == 2
  {
    InitOnErasedLog();
    assert Scan(ErasedLog, 0, 0) == (0, 0);
  }

  /** As written, the 8-bit id wraps to 0 after id 255, and the next
      error fails the assertion that the id is not 0; a restart does not
      help, since Init computes the same 0. With 32-bit ids both go on. */
  lemma IdWrapsAsWritten(code: byte, information: byte, timestamp: u32)
    ensures var h1 := LogErrorAsWritten(Handler(ErasedLog, 0, 255), code, information, timestamp);
            h1.Ok? && h1.value.currentId == 0
            && LogErrorAsWritten(h1.value, code, information, timestamp) == Err(AssertionFailed)
            && InitAsWritten(h1.value.log).currentId == 0
    ensures var h1 := LogError(Handler(ErasedLog, 0, 255), code, information, timestamp);
            h1.Ok? && h1.value.currentId == 256
            && LogError(h1.value, code, information, timestamp).Ok?
            && Init(h1.value.log).currentId == 256
  {
    var log := LogErrorAsWritten(Handler(ErasedLog, 0, 255), code, information, timestamp).value.log;
    assert log[0].id == 255 && log[1].id == 0;
    assert Scan(log, 1, 255) == (1, 255);
    assert Scan(log, 0, 0) == (1, 255);
  }

  // ---------------------------------------------------------------------
  // The host reads what the firmware writes

  /** An entry's bytes as the packed struct lies in EEPROM. */
  function EntryBytes(e: Entry): (r: seq<byte>)
    ensures |r| == EntrySize
  {
    U32Le(e.id) + U32Le(e.timestamp) + [e.code, e.information]
  }

  /** The host's `ErrorMessage.from_bytes` reads a written entry back
      field for field, and reads an erased entry as an unused slot. */
  lemma HostReadsEntry(e: Entry)
    ensures NvmErrorLog.FromBytes(EntryBytes(e))
            == Ok(if e.id == 0 then None
                  else Some(NvmErrorLog.ErrorMessage(e.id, e.timestamp, e.code, e.information)))
  {
    var m := NvmErrorLog.ErrorMessage(e.id, e.timestamp, e.code, e.information);
    assert NvmErrorLog.ToBytes(m) == Ok(EntryBytes(e));
    NvmErrorLog.FromBytesToBytes(m);
  }
}

=== FILE: fifo.dfy ===
/** The ring-buffer FIFO of FIFO.c and FIFO.h. A `fifo_type` views a byte
    buffer as `size` slots of `itemSize` bytes. `head` is the byte offset
    of the newest item and `tail` the offset of the slot just before the
    oldest one, so one slot always stays unused and a FIFO of `size`
    slots holds at most `size - 1` items. Both offsets are 8-bit fields.

    The abstraction is `Contents`, the queued items oldest first; every
    operation is related to it by a lemma. */
module Fifo {
  import opened Bytes
  import opened Wrappers
  import Arith

  datatype Fifo = Fifo(data: seq<byte>, head: byte, tail: byte, size: byte, itemSize: byte)

  /** The buffer length in bytes, `size * item_size`. */
  function Capacity(f: Fifo): nat {
    f.size * f.itemSize
  }

  /** What every FIFO built by `FIFO_New` over a buffer of at most 256
      bytes satisfies, and every operation keeps: both offsets lie on a
      slot boundary inside the buffer. */
  predicate Valid(f: Fifo) {
    f.size >= 1 && f.itemSize >= 1 && Capacity(f) <= 0x100 && |f.data| == Capacity(f)
    && f.head % f.itemSize == 0 && f.head < Capacity(f)
    && f.tail % f.itemSize == 0 && f.tail < Capacity(f)
  }

  /** NextPosition: the offset one slot further, wrapping at the end of
      the buffer, cast back to the 8-bit offset type. The 16-bit casts in
      the source never change a value, since both operands stay below
      0x10000 for 8-bit fields. From a slot boundary inside a buffer of at
      most 256 bytes it lands on the boundary of the next slot, and on
      slot 0 after the last one. */
  function NextPosition(f: Fifo, p: byte): (r: byte)
    requires f.size >= 1 && f.itemSize >= 1
    ensures Capacity(f) <= 0x100 && p % f.itemSize == 0 && p < Capacity(f) ==>
      r % f.itemSize == 0 && r / f.itemSize == (p / f.itemSize + 1) % f.size
  {
    Arith.MulAtLeast(f.size, f.itemSize);
    var r := ((p + f.itemSize) % Capacity(f)) % 0x100;
    if Capacity(f) <= 0x100 && p % f.itemSize == 0 && p < Capacity(f) then
      NextOffset(p, f.size, f.itemSize);
      r
    else r
  }

  /** NextPosition's arithmetic on a slot boundary `p` of `n` slots of `k`
      bytes, at most 256 in all. */
  lemma NextOffset(p: nat, n: nat, k: nat)
    requires k >= 1 && n * k <= 0x100 && p % k == 0 && p < n * k
    ensures var r := ((p + k) % (n * k)) % 0x100;
            r % k == 0 && r / k == (p / k + 1) % n
  {
    var s := p / k;
    OffsetSlot(p, k, n);
    SlotStep(s, n, k);
    var q := (s + 1) % n;
    assert (p + k) % (n * k) == q * k;
    assert (q * k) % 0x100 == q * k;
    Arith.ModUnique(q * k, k, q, 0);
  }

  /** The arithmetic of one step: from slot `s` of `n` slots of `k` bytes
      to the start of slot `s + 1`, or of slot 0 after the last one. */
  lemma SlotStep(s: nat, n: nat, k: nat)
    requires k >= 1 && s < n && n * k <= 0x100
    ensures s * k + k <= n * k
    ensures (s * k + k) % (n * k) == ((s + 1) % n) * k < n * k
  {
    assert s * k + k <= n * k by {
      Arith.SlotFits(s, n, k);
    }
    var next := (s + 1) % n;
    assert (s * k + k) % (n * k) == next * k by {
      assert s * k + k == (s + 1) * k;
      Arith.ModScale(s + 1, n, k);
    }
    assert next * k < n * k by {
      Arith.MulLeMono(next + 1, n, k);
      assert (next + 1) * k == next * k + k;
    }
  }

  // ---------------------------------------------------------------------
  // The slot view

  function HeadSlot(f: Fifo): nat
    requires Valid(f)
  {
    f.head / f.itemSize
  }

  function TailSlot(f: Fifo): nat
    requires Valid(f)
  {
    f.tail / f.itemSize
  }

  /** Both offsets are slot numbers times the item size. */
  lemma SlotsInRange(f: Fifo)
    requires Valid(f)
    ensures HeadSlot(f) < f.size && HeadSlot(f) * f.itemSize == f.head
    ensures TailSlot(f) < f.size && TailSlot(f) * f.itemSize == f.tail
  {
    OffsetSlot(f.head, f.itemSize, f.size);
    OffsetSlot(f.tail, f.itemSize, f.size);
  }

  /** An offset on a slot boundary inside `n` slots of `k` bytes is its
      slot number times `k`. */
  lemma OffsetSlot(p: nat, k: nat, n: nat)
    requires k >= 1 && p % k == 0 && p < n * k
    ensures p / k < n && (p / k) * k == p
  {
    var q := p / k;
    Arith.ModUnique(p, k, q, 0);
    if q >= n {
      Arith.MulLeMono(n, q, k);
    }
  }

  /** Inside a valid buffer, NextPosition moves from slot `s` to slot
      `s + 1`, and from the last slot to slot 0. */
  lemma NextSlot(f: Fifo, s: nat)
    requires Valid(f) && s < f.size
    ensures s * f.itemSize < 0x100
    ensures NextPosition(f, s * f.itemSize) == ((s + 1) % f.size) * f.itemSize
  {
    SlotStep(s, f.size, f.itemSize);
    Arith.ModUnique(s * f.itemSize, f.itemSize, s, 0);
    var r := NextPosition(f, s * f.itemSize);
    Arith.ModUnique(r, f.itemSize, r / f.itemSize, 0);
  }

  /** The bytes of slot `s`. */
  function SlotBytes(f: Fifo, s: nat): (r: seq<byte>)
    requires Valid(f) && s < f.size
    ensures |r| == f.itemSize
  {
    Arith.SlotFits(s, f.size, f.itemSize);
    f.data[s * f.itemSize .. s * f.itemSize + f.itemSize]
  }

  /** The buffer with slot `s` overwritten by `item`: the memcpy of a
      push. */
  function WriteSlot(f: Fifo, s: nat, item: seq<byte>): (r: seq<byte>)
    requires Valid(f) && s < f.size && |item| == f.itemSize
    ensures |r| == |f.data|
  {
    Arith.SlotFits(s, f.size, f.itemSize);
    f.data[..s * f.itemSize] + item + f.data[s * f.itemSize + f.itemSize..]
  }

  /** Overwriting `[lo, lo + |item|)` puts `item` there. */
  lemma SpliceReads<T>(data: seq<T>, lo: int, item: seq<T>)
    requires 0 <= lo && lo + |item| <= |data|
    ensures (data[..lo] + item + data[lo + |item|..])[lo..lo + |item|] == item
  {
  }

  /** Overwriting `[lo, lo + |item|)` keeps every slice outside it. */
  lemma SpliceKeeps<T>(data: seq<T>, lo: int, item: seq<T>, a: int, b: int)
    requires 0 <= lo && lo + |item| <= |data| && 0 <= a <= b <= |data|
    requires b <= lo || lo + |item| <= a
    ensures (data[..lo] + item + data[lo + |item|..])[a..b] == data[a..b]
  {
    var r := data[..lo] + item + data[lo + |item|..];
    assert forall k :: a <= k < b ==> r[k] == data[k];
  }

  /** Writing a slot sets that slot and keeps every other one. */
  lemma WriteSlotEffect(f: Fifo, s: nat, item: seq<byte>)
    requires Valid(f) && s < f.size && |item| == f.itemSize
    ensures var g := f.(data := WriteSlot(f, s, item));
            Valid(g) && SlotBytes(g, s) == item
            && forall t :: 0 <= t < f.size && t != s ==> SlotBytes(g, t) == SlotBytes(f, t)
  {
    var g := f.(data := WriteSlot(f, s, item));
    WriteSlotSets(f, s, item);
    forall t | 0 <= t < f.size && t != s
      ensures SlotBytes(g, t) == SlotBytes(f, t)
    {
      WriteSlotKeeps(f, s, item, t);
    }
  }

  lemma WriteSlotSets(f: Fifo, s: nat, item: seq<byte>)
    requires Valid(f) && s < f.size && |item| == f.itemSize
    ensures Valid(f.(data := WriteSlot(f, s, item)))
    ensures SlotBytes(f.(data := WriteSlot(f, s, item)), s) == item
  {
    var n := f.itemSize;
    Arith.SlotFits(s, f.size, n);
    SpliceReads(f.data, s * n, item);
  }

  lemma WriteSlotKeeps(f: Fifo, s: nat, item: seq<byte>, t: nat)
    requires Valid(f) && s < f.size && |item| == f.itemSize && t < f.size && t != s
    ensures Valid(f.(data := WriteSlot(f, s, item)))
    ensures SlotBytes(f.(data := WriteSlot(f, s, item)), t) == SlotBytes(f, t)
  {
    var n := f.itemSize;
    Arith.SlotFits(s, f.size, n);
    Arith.SlotFits(t, f.size, n);
    Arith.SlotsDisjoint(s, t, n);
    SpliceKeeps(f.data, s * n, item, t * n, t * n + n);
  }

  /** How many items are queued. */
  function Count(f: Fifo): nat
    requires Valid(f)
  {
    (HeadSlot(f) - TailSlot(f)) % f.size
  }

  /** The slot of the `i`-th oldest item. */
  function SlotOf(f: Fifo, i: nat): (s: nat)
    requires Valid(f)
    ensures s < f.size
  {
    (TailSlot(f) + 1 + i) % f.size
  }

  /** The queued items, oldest first. */
  function Contents(f: Fifo): (r: seq<seq<byte>>)
    requires Valid(f)
    ensures |r| == Count(f) < f.size
    ensures forall i :: 0 <= i < |r| ==> |r[i]| == f.itemSize
  {
    seq(Count(f), i requires 0 <= i < Count(f) => SlotBytes(f, SlotOf(f, i)))
  }

  // ---------------------------------------------------------------------
  // The operations

  /** FIFO_IsEmpty: head meeting tail means that no item is queued. */
  function IsEmpty(f: Fifo): (r: bool)
    ensures Valid(f) ==> (r <==> |Contents(f)| == 0)
  {
    if Valid(f) then
      SlotsInRange(f);
      SlotDifference(HeadSlot(f), TailSlot(f), f.size);
      f.head == f.tail
    else f.head == f.tail
  }

  /** FIFO_IsFull: one more push would make head meet tail, which is the
      case exactly when `size - 1` items are queued: one slot always stays
      unused. */
  function IsFull(f: Fifo): (r: bool)
    requires f.size >= 1 && f.itemSize >= 1
    ensures Valid(f) ==> (r <==> |Contents(f)| == f.size - 1)
  {
    var r := NextPosition(f, f.head) == f.tail;
    if Valid(f) then
      var hs, ts, n := HeadSlot(f), TailSlot(f), f.size;
      var next := (hs + 1) % n;
      SlotsInRange(f);
      NextSlot(f, hs);
      Arith.MulCancel(next, ts, f.itemSize);
      assert r <==> next == ts;
      SlotDifference(hs, ts, n);
      Arith.ModNear(hs + 1, n);
      r
    else r
  }

  /** FIFO_Push: fails on a full FIFO and changes nothing; otherwise
      advances head one slot and copies the item there. Either way the
      FIFO stays valid and the tail stays put. */
  function Push(f: Fifo, item: seq<byte>): (r: (Fifo, bool))
    requires Valid(f) && |item| == f.itemSize
    ensures r.1 <==> |Contents(f)| < f.size - 1
    ensures !r.1 ==> r.0 == f
    ensures Valid(r.0) && r.0.size == f.size && r.0.itemSize == f.itemSize && r.0.tail == f.tail
  {
    if IsFull(f) then (f, false)
    else
      var head := NextPosition(f, f.head);
      SlotsInRange(f);
      NextSlot(f, HeadSlot(f));
      (f.(head := head, data := WriteSlot(f, (HeadSlot(f) + 1) % f.size, item)), true)
  }

  /** FIFO_Pop: fails on an empty FIFO and changes nothing; otherwise
      advances tail one slot and hands out the oldest item. The buffer and
      the head are never touched. */
  function Pop(f: Fifo): (r: (Fifo, Option<seq<byte>>))
    requires Valid(f)
    ensures r.1.None? <==> |Contents(f)| == 0
    ensures r.1.None? ==> r.0 == f
    ensures r.1.Some? ==> r.1.value == Contents(f)[0]
    ensures Valid(r.0) && r.0.data == f.data && r.0.head == f.head
    ensures r.0.size == f.size && r.0.itemSize == f.itemSize
  {
    if IsEmpty(f) then (f, None)
    else
      var tail := NextPosition(f, f.tail);
      SlotsInRange(f);
      NextSlot(f, TailSlot(f));
      (f.(tail := tail), Some(SlotBytes(f, (TailSlot(f) + 1) % f.size)))
  }

  /** FIFO_Peek: the oldest item, or nothing when the FIFO is empty. */
  function Peek(f: Fifo): (r: Option<seq<byte>>)
    requires Valid(f)
    ensures r.None? <==> |Contents(f)| == 0
    ensures r.Some? ==> r.value == Contents(f)[0]
  {
    if IsEmpty(f) then None
    else
      SlotsInRange(f);
      Some(SlotBytes(f, (TailSlot(f) + 1) % f.size))
  }

  /** FIFO_Clear: a valid FIFO comes out valid and empty, over the same
      buffer. */
  function Clear(f: Fifo): (r: Fifo)
    ensures r.data == f.data && r.size == f.size && r.itemSize == f.itemSize
    ensures Valid(f) ==> Valid(r) && Contents(r) == [] && IsEmpty(r)
  {
    var r := f.(head := 0, tail := 0);
    if Valid(f) then
      Arith.ZeroQuotient(f.itemSize);
      Arith.ZeroQuotient(f.size);
      assert Valid(r);
      assert Count(r) == 0;
      r
    else r
  }

  /** FIFO_New over an array of `count` items of `itemSize` bytes: over
      1 to 255 items of at least one byte, 256 bytes in all at most, the
      FIFO is valid and empty. */
  function New(buffer: seq<byte>, count: byte, itemSize: byte): (r: Fifo)
    ensures r.data == buffer && r.size == count && r.itemSize == itemSize
    ensures 1 <= count && 1 <= itemSize && |buffer| == count * itemSize <= 0x100 ==>
      Valid(r) && Contents(r) == []
  {
    Fifo(buffer, 0, 0, count, itemSize)
  }

  // ---------------------------------------------------------------------
  // Properties

  /** The remainder of the difference of two slot numbers. */
  lemma SlotDifference(a: int, b: int, n: int)
    requires 0 <= a < n && 0 <= b < n
    ensures (a - b) % n == if a >= b then a - b else a - b + n
  {
    Arith.ModNear(a - b, n);
  }

  /** The oldest item sits one slot past the tail, and the slot after the
      newest one is where the next push goes. */
  lemma SlotOfCount(f: Fifo)
    requires Valid(f)
    ensures SlotOf(f, Count(f)) == (HeadSlot(f) + 1) % f.size
  {
    SlotsInRange(f);
    SlotDifference(HeadSlot(f), TailSlot(f), f.size);
    if HeadSlot(f) < TailSlot(f) {
      Arith.ModShift(HeadSlot(f) + 1, 1, f.size);
    }
  }

  /** Where a successful push moves the offsets: head one slot on, tail
      kept, one more item queued. */
  lemma PushMoves(f: Fifo, item: seq<byte>)
    requires Valid(f) && |item| == f.itemSize && !IsFull(f)
    ensures var g := Push(f, item).0;
            Valid(g) && g.size == f.size && g.itemSize == f.itemSize
            && HeadSlot(g) == (HeadSlot(f) + 1) % f.size && TailSlot(g) == TailSlot(f)
            && Count(g) == Count(f) + 1
            && g.data == WriteSlot(f, (HeadSlot(f) + 1) % f.size, item)
  {
    var g := Push(f, item).0;
    PushHead(f, item);
        SlotsInRange(f);
    CountStep(HeadSlot(f), TailSlot(f), f.size);
  }

  /** A push moves head to the next slot and writes the item there. */
  lemma PushHead(f: Fifo, item: seq<byte>)
    requires Valid(f) && |item| == f.itemSize && !IsFull(f)
    ensures var g := Push(f, item).0;
            Valid(g) && g.size == f.size && g.itemSize == f.itemSize
            && HeadSlot(g) == (HeadSlot(f) + 1) % f.size && TailSlot(g) == TailSlot(f)
            && g.data == WriteSlot(f, (HeadSlot(f) + 1) % f.size, item)
  {
    var g := Push(f, item).0;
    var hs, n := HeadSlot(f), f.size;
    var s := (hs + 1) % n;
    SlotsInRange(f);
    NextSlot(f, hs);
    assert g.head == s * f.itemSize;
    Arith.ModUnique(g.head, f.itemSize, s, 0);
    Arith.SlotFits(s, n, f.itemSize);
  }

  /** Moving the head slot one further, short of the tail, adds one to
      the distance from the tail. */
  lemma CountStep(hs: int, ts: int, n: int)
    requires 0 <= hs < n && 0 <= ts < n && (hs - ts) % n < n - 1
    ensures ((hs + 1) % n - ts) % n == (hs - ts) % n + 1
  {
    Arith.ModNear(hs + 1, n);
    SlotDifference((hs + 1) % n, ts, n);
    SlotDifference(hs, ts, n);
  }

  /** A push onto a full FIFO fails and changes nothing; any other push
      appends the item and keeps the FIFO valid. */
  lemma PushEffect(f: Fifo, item: seq<byte>)
    requires Valid(f) && |item| == f.itemSize
    ensures var (g, ok) := Push(f, item);
            Valid(g) && g.size == f.size && g.itemSize == f.itemSize
            && (ok <==> |Contents(f)| < f.size - 1)
            && (!ok ==> g == f)
            && (ok ==> Contents(g) == Contents(f) + [item])
  {
        if !IsFull(f) {
      PushMoves(f, item);
      PushAppends(f, item);
    }
  }

  /** A push that succeeds keeps the queued items and adds the new one
      after them. */
  lemma PushAppends(f: Fifo, item: seq<byte>)
    requires Valid(f) && |item| == f.itemSize && !IsFull(f)
    ensures Valid(Push(f, item).0)
    ensures Contents(Push(f, item).0) == Contents(f) + [item]
  {
    var g := Push(f, item).0;
    var c := Count(f);
    var s := (HeadSlot(f) + 1) % f.size;
    PushMoves(f, item);
    WriteSlotEffect(f, s, item);
    SlotOfCount(f);
    assert SlotOf(g, c) == s;
    forall i | 0 <= i < c
      ensures Contents(g)[i] == Contents(f)[i]
    {
      PushKeeps(f, item, i);
    }
    assert Contents(g)[c] == item;
  }

  /** The `i`-th queued item lies in a slot other than the one a push
      writes. */
  lemma PushKeeps(f: Fifo, item: seq<byte>, i: nat)
    requires Valid(f) && |item| == f.itemSize && !IsFull(f) && i < Count(f)
    ensures Valid(Push(f, item).0)
    ensures SlotOf(Push(f, item).0, i) == SlotOf(f, i)
    ensures SlotOf(f, i) != (HeadSlot(f) + 1) % f.size
  {
    var ts, n, c := TailSlot(f), f.size, Count(f);
    PushMoves(f, item);
    SlotOfCount(f);
    Arith.ModDistinct(ts + 1 + i, ts + 1 + c, n);
  }

  /** Where a successful pop moves the offsets: tail one slot on, head
      kept, one item fewer queued. */
  lemma PopMoves(f: Fifo)
    requires Valid(f) && !IsEmpty(f)
    ensures var g := Pop(f).0;
            Valid(g) && g.size == f.size && g.itemSize == f.itemSize && g.data == f.data
            && TailSlot(g) == (TailSlot(f) + 1) % f.size && HeadSlot(g) == HeadSlot(f)
            && Count(g) == Count(f) - 1
  {
    var g := Pop(f).0;
    var hs, ts, n := HeadSlot(f), TailSlot(f), f.size;
    var s := (ts + 1) % n;
    SlotsInRange(f);
    NextSlot(f, ts);
    Arith.ModNear(ts + 1, n);
    assert g.tail == s * f.itemSize;
    Arith.ModUnique(g.tail, f.itemSize, s, 0);
    Arith.MulLeMono(s + 1, n, f.itemSize);
    Arith.MulCancel(hs, ts, f.itemSize);
    SlotDifference(hs, ts, n);
    SlotDifference(hs, s, n);
  }

  /** A pop from an empty FIFO fails and changes nothing; any other pop
      hands out the oldest item and drops it from the queue. */
  lemma PopEffect(f: Fifo)
    requires Valid(f)
    ensures var (g, item) := Pop(f);
            Valid(g) && g.size == f.size && g.itemSize == f.itemSize
            && (item.None? <==> |Contents(f)| == 0)
            && (item.None? ==> g == f)
            && (item.Some? ==> item.value == Contents(f)[0] && Contents(g) == Contents(f)[1..])
  {
        if !IsEmpty(f) {
      var g := Pop(f).0;
      PopMoves(f);
      forall i | 0 <= i < Count(g)
        ensures SlotOf(g, i) == SlotOf(f, i + 1)
      {
        Arith.ModAddMod(TailSlot(f) + 1, 1 + i, f.size);
      }
      assert Contents(g) == Contents(f)[1..];
    }
  }

  /** Peek hands out the item Pop would, and moves nothing. */
  lemma PeekIsPop(f: Fifo)
    requires Valid(f)
    ensures Peek(f) == Pop(f).1
    ensures Peek(f) == if |Contents(f)| == 0 then None else Some(Contents(f)[0])
  {
    PopEffect(f);
  }

  // ---------------------------------------------------------------------
  // First in, first out

  predicate ItemsFit(f: Fifo, items: seq<seq<byte>>) {
    forall i :: 0 <= i < |items| ==> |items[i]| == f.itemSize
  }

  /** Push each item in turn, ignoring the results. */
  function PushAll(f: Fifo, items: seq<seq<byte>>): (g: Fifo)
    requires Valid(f) && ItemsFit(f, items)
    ensures Valid(g) && g.size == f.size && g.itemSize == f.itemSize
    decreases |items|
  {
    if |items| == 0 then f
    else
      PushEffect(f, items[0]);
      PushAll(Push(f, items[0]).0, items[1..])
  }

  /** Pop `n` times and collect what comes out. */
  function PopN(f: Fifo, n: nat): (r: seq<seq<byte>>)
    requires Valid(f)
    decreases n
  {
    if n == 0 then []
    else
      PopEffect(f);
      var (g, item) := Pop(f);
      (if item.Some? then [item.value] else []) + PopN(g, n - 1)
  }

  /** Pushing items that fit appends them all. */
  lemma {:induction false} PushAllAppends(f: Fifo, items: seq<seq<byte>>)
    requires Valid(f) && ItemsFit(f, items)
    requires |Contents(f)| + |items| < f.size
    ensures Contents(PushAll(f, items)) == Contents(f) + items
    decreases |items|
  {
    if |items| > 0 {
      PushEffect(f, items[0]);
      var g := Push(f, items[0]).0;
      PushAllAppends(g, items[1..]);
      assert Contents(f) + items == Contents(g) + items[1..];
    }
  }

  /** Popping as many times as there are items yields the queue, oldest
      first. */
  lemma {:induction false} PopNDrains(f: Fifo)
    requires Valid(f)
    ensures PopN(f, |Contents(f)|) == Contents(f)
    decreases |Contents(f)|
  {
    if |Contents(f)| > 0 {
      PopEffect(f);
      var g := Pop(f).0;
      PopNDrains(g);
    }
  }

  /** Items come out of an empty FIFO in the order they went in, as long
      as they fit. */
  lemma FirstInFirstOut(f: Fifo, items: seq<seq<byte>>)
    requires Valid(f) && IsEmpty(f) && ItemsFit(f, items) && |items| < f.size
    ensures PopN(PushAll(f, items), |items|) == items
  {
        PushAllAppends(f, items);
    PopNDrains(PushAll(f, items));
  }

  // ---------------------------------------------------------------------
  // Buffers over 256 bytes

  /** A FIFO over 90 items of 3 bytes: a 270-byte buffer, which FIFO_New
      accepts since both counts fit their 8-bit fields. */
  const Wide: Fifo := Fifo(Zeros(270), 0, 0, 90, 3)

  /** As written, NextPosition loses the ninth bit of the offset. From the
      fresh FIFO the head moves slot by slot up to offset 255, so 85
      pushes succeed without the FIFO becoming full (the tail stays 0);
      the 86th lands at offset 2, off the slot grid and overlapping
      offsets 3 to 5, where the oldest queued item is stored. */
  lemma NextPositionTruncates()
    ensures forall k :: 0 <= k < 85 ==> NextPosition(Wide, 3 * k) == 3 * (k + 1) != Wide.tail
    ensures NextPosition(Wide, 255) == 2 && 2 % Wide.itemSize != 0
    ensures Capacity(Wide) == 270
  {
  }

  /** NextPosition as intended: the offset kept as wide as the 16-bit
      intermediate the source computes in. */
  function NextPositionWide(f: Fifo, p: nat): nat
    requires f.size >= 1 && f.itemSize >= 1
  {
    Arith.MulAtLeast(f.size, f.itemSize);
    (p + f.itemSize) % Capacity(f)
  }

  /** The intended NextPosition moves from any slot to the next one, and
      from the last slot to slot 0, whatever the buffer size. */
  lemma NextPositionWideCycles(f: Fifo, s: nat)
    requires f.size >= 1 && f.itemSize >= 1 && s < f.size
    ensures NextPositionWide(f, s * f.itemSize) == ((s + 1) % f.size) * f.itemSize
  {
    assert s * f.itemSize + f.itemSize == (s + 1) * f.itemSize;
    Arith.ModScale(s + 1, f.size, f.itemSize);
  }

  /** On the buffers of at most 256 bytes that `Valid` admits, the source's
      NextPosition is the intended one. */
  lemma NextPositionAgrees(f: Fifo, p: byte)
    requires Valid(f)
    ensures NextPosition(f, p) == NextPositionWide(f, p)
  {
  }
}

=== FILE: filter.dfy ===
/** The firmware's smoothing filter (Filter.c): an exponential moving
    average in fixed point. `alpha` is the weight of a new sample in units
    of 1/65536, so FILTER_ALPHA(1.0) = 65535 is just under one. */
module Filter {
  import opened Bytes
  import Arith

  const Scale: int := 0x1_0000
  const Half: int := 0x8000
  const I32Min: int := -0x8000_0000
  const I32Limit: int := 0x8000_0000

  /** `struct filter_t`. */
  datatype FilterState = FilterState(value: i16, alpha: u16)

  /** Filter_Init. */
  function Init(initialValue: i16, alpha: u16): (f: FilterState)
    ensures Output(f) == initialValue && (IsInitialized(f) <==> alpha != 0)
  {
    FilterState(initialValue, alpha)
  }

  /** Filter_Output: feeding the filter its own output leaves it as it
      is. */
  function Output(f: FilterState): (r: i16)
    ensures Process(f, r) == f
  {
    ProcessFixedPoint(f);
    f.value
  }

  /** Filter_IsInitialized: an alpha of zero marks a filter nobody set up
      (a zeroed struct). */
  function IsInitialized(f: FilterState): (r: bool)
    ensures !r ==> forall sample: i16 :: Process(f, sample) == f
  {
    assert f.alpha == 0 ==> forall sample: i16 :: Process(f, sample) == f by {
      if f.alpha == 0 {
        forall sample: i16 ensures Process(f, sample) == f {
          ZeroAlphaIgnoresSamples(f.value, sample);
        }
      }
    }
    f.alpha != 0
  }

  /** The weighted sum the code forms in 32 bits: the sample weighted by
      alpha, the old value by 65536 - alpha. */
  function WeightedSum(alpha: u16, value: i16, sample: i16): int {
    alpha * sample + (Scale - alpha) * value
  }

  /** A cast to `int16_t` of a value below 65536: the upper half wraps to
      the negative values. */
  function ToInt16(x: nat): (r: i16)
    requires x < Scale
    ensures r % Scale == x % Scale
  {
    if x >= Half then x - Scale else x
  }

  /** The new value as Filter_Process computes it: the sum is stored in a
      `uint32_t`, 32768 is added modulo 2^32, the result divided by 65536
      and cast to `int16_t`. */
  function ProcessValue(alpha: u16, value: i16, sample: i16): (r: i16)
    ensures r == (WeightedSum(alpha, value, sample) + Half) / Scale
  {
    var sum := WeightedSum(alpha, value, sample);
    SumBounds(alpha, value, sample);
    var tmp := sum % U32Limit;
    var scaled := (tmp + Half) % U32Limit / Scale;
    ScaledIsRounded(sum);
    ToInt16(scaled)
  }

  /** Filter_Process. */
  function Process(f: FilterState, sample: i16): (r: FilterState)
    ensures r.alpha == f.alpha
    ensures Low(f.value, sample) <= r.value <= High(f.value, sample)
  {
    RoundedStaysBetween(f.alpha, f.value, sample);
    FilterState(ProcessValue(f.alpha, f.value, sample), f.alpha)
  }

  function Low(a: int, b: int): int { if a <= b then a else b }
  function High(a: int, b: int): int { if a <= b then b else a }

  /** The weighted sum is 65536 times a value between the sample and the
      old value; in particular it fits a signed 32-bit integer, so the
      32-bit arithmetic of the source cannot overflow. */
  lemma SumBounds(alpha: u16, value: i16, sample: i16)
    ensures Scale * Low(value, sample) <= WeightedSum(alpha, value, sample) <= Scale * High(value, sample)
    ensures I32Min <= WeightedSum(alpha, value, sample) < I32Limit
  {
    var lo, hi := Low(value, sample), High(value, sample);
    Arith.MulLeMono(lo, sample, alpha);
    Arith.MulLeMono(lo, value, Scale - alpha);
    Arith.MulLeMono(sample, hi, alpha);
    Arith.MulLeMono(value, hi, Scale - alpha);
    assert Scale * lo == alpha * lo + (Scale - alpha) * lo;
    assert Scale * hi == alpha * hi + (Scale - alpha) * hi;
    Arith.MulLeMono(-0x8000, lo, Scale);
    Arith.MulLeMono(hi, 0x7FFF, Scale);
  }

  /** The unsigned wrap-arounds cancel: the result is the sum divided by
      65536 and rounded half up, for negative sums too. */
  lemma ScaledIsRounded(sum: int)
    requires -Half * Scale <= sum <= (Half - 1) * Scale
    ensures (sum % U32Limit + Half) % U32Limit / Scale < Scale
    ensures ToInt16((sum % U32Limit + Half) % U32Limit / Scale) == (sum + Half) / Scale
  {
    var q := (sum + Half) / Scale;
    var rem := (sum + Half) % Scale;
    assert sum + Half == q * Scale + rem;
    if sum >= 0 {
      Arith.ModUnique(sum, U32Limit, 0, sum);
      Arith.ModUnique(sum + Half, U32Limit, 0, sum + Half);
    } else if sum < -Half {
      Arith.ModUnique(sum, U32Limit, -1, sum + U32Limit);
      Arith.ModUnique(sum + U32Limit + Half, U32Limit, 0, sum + U32Limit + Half);
      Arith.ModUnique(sum + U32Limit + Half, Scale, q + Scale, rem);
    } else {
      Arith.ModUnique(sum, U32Limit, -1, sum + U32Limit);
      Arith.ModUnique(sum + U32Limit + Half, U32Limit, 1, sum + Half);
      Arith.ModUnique(sum + Half, Scale, 0, sum + Half);
    }
  }

  /** Rounding a value that lies between two integers keeps it between
      them. */
  lemma RoundedStaysBetween(alpha: u16, value: i16, sample: i16)
    ensures Low(value, sample) <= (WeightedSum(alpha, value, sample) + Half) / Scale <= High(value, sample)
  {
    var sum := WeightedSum(alpha, value, sample);
    SumBounds(alpha, value, sample);
    var lo, hi := Low(value, sample), High(value, sample);
    Arith.ModUnique(Scale * lo + Half, Scale, lo, Half);
    Arith.ModUnique(Scale * hi + Half, Scale, hi, Half);
    DivMono(Scale * lo + Half, sum + Half, Scale);
    DivMono(sum + Half, Scale * hi + Half, Scale);
  }

  lemma DivMono(a: int, b: int, n: int)
    requires n > 0 && a <= b
    ensures a / n <= b / n
  {
    if a / n > b / n {
      Arith.MulLeMono(b / n + 1, a / n, n);
    }
  }

  /** A sample equal to the current value leaves it unchanged, whatever
      alpha is. */
  lemma ProcessFixedPoint(f: FilterState)
    ensures Process(f, f.value) == f
  {
    assert WeightedSum(f.alpha, f.value, f.value) == Scale * f.value;
    Arith.ModUnique(Scale * f.value + Half, Scale, f.value, Half);
  }

  /** With alpha 0 the filter ignores its samples. */
  lemma ZeroAlphaIgnoresSamples(value: i16, sample: i16)
    ensures Process(FilterState(value, 0), sample) == FilterState(value, 0)
  {
    Arith.ModUnique(Scale * value + Half, Scale, value, Half);
  }
}

=== FILE: hex_image.dfy ===
/** An EEPROM image as the host tool sees it: a sparse map from address to
    byte, the view an Intel HEX file gives. Reading a range fails when any
    address in it holds no data; writing a range overwrites exactly those
    addresses. */
module HexImage {
  import opened Bytes
  import opened Wrappers

  type Image = map<int, byte>

  /** Why a read of the image failed. */
  datatype ReadError = NotEnoughData(addr: int)

  /** Every address of `[addr, addr + n)` holds data. */
  predicate Covers(img: Image, addr: int, n: nat) {
    forall a :: addr <= a < addr + n ==> a in img
  }

  /** The `n` bytes starting at `addr`, or the first address that holds
      no data. */
  function Gets(img: Image, addr: int, n: nat): (r: Result<seq<byte>, ReadError>)
    ensures r.Ok? <==> Covers(img, addr, n)
    ensures r.Ok? ==> |r.value| == n && forall i :: 0 <= i < n ==> r.value[i] == img[addr + i]
    ensures r.Err? ==> addr <= r.error.addr < addr + n && r.error.addr !in img
    // `img` is named so that a call with a constant count is not unfolded
    // to its full depth by the verifier.
    decreases n, img
  {
    if n == 0 then Ok([])
    else if addr !in img then Err(NotEnoughData(addr))
    else
      match Gets(img, addr + 1, n - 1)
      case Err(e) => Err(e)
      case Ok(rest) => Ok([img[addr]] + rest)
  }

  /** Write `data` starting at `addr`, keeping every other address. */
  function Puts(img: Image, addr: int, data: seq<byte>): (r: Image)
    ensures forall a :: addr <= a < addr + |data| ==> a in r && r[a] == data[a - addr]
    ensures forall a :: a in img && !(addr <= a < addr + |data|) ==> a in r && r[a] == img[a]
    ensures forall a :: a in r ==> a in img || addr <= a < addr + |data|
    decreases |data|
  {
    if |data| == 0 then img
    else
      var n := |data| - 1;
      var prev := Puts(img, addr, data[..n]);
      prev[addr + n := data[n]]
  }

  /** Reading back a range that was just written gives the written bytes. */
  lemma GetsPuts(img: Image, addr: int, data: seq<byte>)
    ensures Gets(Puts(img, addr, data), addr, |data|) == Ok(data)
  {
    var img' := Puts(img, addr, data);
    var r := Gets(img', addr, |data|);
    assert r.value == data;
  }

  /** Writing a range leaves reads of disjoint ranges alone. */
  lemma GetsPutsDisjoint(img: Image, addr: int, data: seq<byte>, other: int, n: nat)
    requires other + n <= addr || addr + |data| <= other
    ensures Gets(Puts(img, addr, data), other, n) == Gets(img, other, n)
    decreases n
  {
    if n > 0 {
      GetsPutsDisjoint(img, addr, data, other + 1, n - 1);
    }
  }
}

=== FILE: linked_list.dfy ===
/** The singly linked list of List.c. Nodes are identified by number and
    the `next` field of every node in memory is a heap map; a list is its
    type id and its root pointer. The nodes a root reaches, in order, are
    the list's contents, related to the heap by Chain. */
module LinkedList {
  import opened Wrappers
  import opened Bytes

  type Node = nat

  /** The `next` field of every node in memory. */
  type Heap = map<Node, Option<Node>>

  /** `struct list_t`. */
  datatype List = List(typeId: u32, root: Option<Node>)

  /** Following `next` from `root` visits the nodes of `s` in order and
      then reaches NULL. */
  predicate Chain(h: Heap, root: Option<Node>, s: seq<Node>) {
    (if s == [] then root == None else root == Some(s[0]))
    && (forall i :: 0 <= i < |s| ==> s[i] in h)
    && (forall i :: 0 <= i < |s| ==> h[s[i]] == if i + 1 < |s| then Some(s[i + 1]) else None)
  }

  predicate Distinct(s: seq<Node>) {
    forall i, j :: 0 <= i < j < |s| ==> s[i] != s[j]
  }

  /** The `next` field of the node at position `i` of a chain. */
  lemma Next(h: Heap, root: Option<Node>, s: seq<Node>, i: nat)
    requires Chain(h, root, s) && i < |s|
    ensures s[i] in h && h[s[i]] == if i + 1 < |s| then Some(s[i + 1]) else None
  {
  }

  /** The position of the first occurrence of `x`. */
  function IndexOf(s: seq<Node>, x: Node): (r: nat)
    requires x in s
    ensures r < |s| && s[r] == x && x !in s[..r]
  {
    if s[0] == x then 0
    else
      var r := 1 + IndexOf(s[1..], x);
      assert s[..r] == [s[0]] + s[1..][..r - 1];
      r
  }

  /** `s` without its element at `i`. */
  function Without(s: seq<Node>, i: nat): (r: seq<Node>)
    requires i < |s|
    ensures |r| == |s| - 1
    ensures forall k :: 0 <= k < |r| ==> r[k] == if k < i then s[k] else s[k + 1]
  {
    s[..i] + s[i + 1..]
  }

  /** List_New: an empty list of the given type. */
  function New(typeId: u32): (r: List)
    ensures r.typeId == typeId
    ensures forall h :: Chain(h, r.root, [])
  {
    List(typeId, None)
  }

  // ---------------------------------------------------------------------
  // The heap determines the list

  /** Two nodes of a chain that are the same node have the same
      successors. */
  lemma {:induction false} SameAfter(h: Heap, root: Option<Node>, s: seq<Node>, i: nat, j: nat, k: nat)
    requires Chain(h, root, s) && i < j && j + k < |s| && s[i] == s[j]
    ensures s[i + k] == s[j + k]
    decreases k
  {
    if k > 0 {
      SameAfter(h, root, s, i, j, k - 1);
      Next(h, root, s, i + k - 1);
      Next(h, root, s, j + k - 1);
    }
  }

  /** A list reached through `next` pointers that ends in NULL has no
      node twice. */
  lemma ChainDistinct(h: Heap, root: Option<Node>, s: seq<Node>)
    requires Chain(h, root, s)
    ensures Distinct(s)
  {
    forall i, j | 0 <= i < j < |s|
      ensures s[i] != s[j]
    {
      if s[i] == s[j] {
        var k := |s| - 1 - j;
        SameAfter(h, root, s, i, j, k);
        Next(h, root, s, i + k);
        Next(h, root, s, j + k);
      }
    }
  }

  /** A root reaches exactly one list. */
  lemma ChainUnique(h: Heap, root: Option<Node>, s: seq<Node>, t: seq<Node>)
    requires Chain(h, root, s) && Chain(h, root, t)
    ensures s == t
  {
    var n := if |s| <= |t| then |s| else |t|;
    forall k | 0 <= k < n
      ensures s[k] == t[k]
    {
      SamePrefix(h, root, s, t, k);
    }
    if |s| < |t| {
      SamePrefix(h, root, s, t, |s| - 1);
      Next(h, root, s, |s| - 1);
      Next(h, root, t, |s| - 1);
    } else if |t| < |s| {
      SamePrefix(h, root, s, t, |t| - 1);
      Next(h, root, s, |t| - 1);
      Next(h, root, t, |t| - 1);
    }
  }

  lemma {:induction false} SamePrefix(h: Heap, root: Option<Node>, s: seq<Node>, t: seq<Node>, k: nat)
    requires Chain(h, root, s) && Chain(h, root, t) && k < |s| && k < |t|
    ensures s[k] == t[k]
    decreases k
  {
    if k > 0 {
      SamePrefix(h, root, s, t, k - 1);
      Next(h, root, s, k - 1);
      Next(h, root, t, k - 1);
    }
  }

  // ---------------------------------------------------------------------
  // Operations

  /** List_GetLength: the nodes counted while walking from the root. The
      count is 32 bits wide; a list of 2^32 nodes does not fit in the
      memory this runs on. */
  method GetLength(h: Heap, list: List, ghost s: seq<Node>) returns (count: nat)
    requires Chain(h, list.root, s)
    ensures count == |s|
  {
    var p := list.root;
    count := 0;
    while p.Some?
      invariant count <= |s|
      invariant p == if count < |s| then Some(s[count]) else None
      decreases |s| - count
    {
      Next(h, list.root, s, count);
      p := h[p.value];
      count := count + 1;
    }
  }

  /** List_Iterate: the calls made, each node with its index. */
  method Iterate(h: Heap, list: List, ghost s: seq<Node>) returns (calls: seq<(Node, nat)>)
    requires Chain(h, list.root, s)
    ensures |calls| == |s|
    ensures forall i :: 0 <= i < |s| ==> calls[i] == (s[i], i)
  {
    var p := list.root;
    calls := [];
    while p.Some?
      invariant |calls| <= |s|
      invariant p == if |calls| < |s| then Some(s[|calls|]) else None
      invariant forall i :: 0 <= i < |calls| ==> calls[i] == (s[i], i)
      decreases |s| - |calls|
    {
      Next(h, list.root, s, |calls|);
      calls := calls + [(p.value, |calls|)];
      p := h[p.value];
    }
  }

  /** List_Append: the node becomes the root of an empty list, or the
      successor of the last node; its own `next` is set to NULL. A node
      not yet in the list ends up at its end. A node already in the list
      has its `next` cleared, so the list is cut off after it. */
  method Append(h: Heap, list: List, node: Node, ghost s: seq<Node>) returns (h': Heap, list': List)
    requires Chain(h, list.root, s) && node in h
    ensures list'.typeId == list.typeId
    ensures list'.root == if s == [] then Some(node) else list.root
    ensures h'.Keys == h.Keys
    ensures node !in s ==> Chain(h', list'.root, s + [node])
    ensures node in s ==> Chain(h', list'.root, s[..IndexOf(s, node) + 1])
    ensures forall n :: n in h && n !in s && n != node ==> h'[n] == h[n]
  {
    if list.root.None? {
      h' := h[node := None];
      list' := list.(root := Some(node));
    } else {
      var p := list.root.value;
      ghost var i := 0;
      while h[p].Some?
        invariant i < |s| && p == s[i]
        decreases |s| - i
      {
        Next(h, list.root, s, i);
        p := h[p].value;
        i := i + 1;
      }
      Next(h, list.root, s, i);
      h' := h[p := Some(node)][node := None];
      list' := list;
      ChainDistinct(h, list.root, s);
      if node in s {
        CutAfter(h, list.root, s, IndexOf(s, node));
      } else {
        Extend(h, list.root, s, node);
      }
    }
  }

  /** Appending a node already at position `k` leaves the first `k + 1`
      nodes linked as before and the node's `next` NULL. */
  lemma CutAfter(h: Heap, root: Option<Node>, s: seq<Node>, k: nat)
    requires Chain(h, root, s) && Distinct(s) && k < |s|
    ensures Chain(h[s[|s| - 1] := Some(s[k])][s[k] := None], root, s[..k + 1])
  {
    var t := s[..k + 1];
    var h' := h[s[|s| - 1] := Some(s[k])][s[k] := None];
    forall j | 0 <= j < |t|
      ensures t[j] in h' && h'[t[j]] == if j + 1 < |t| then Some(t[j + 1]) else None
    {
      Next(h, root, s, j);
    }
  }

  /** Appending a node not in the list links it after the last node. */
  lemma Extend(h: Heap, root: Option<Node>, s: seq<Node>, node: Node)
    requires Chain(h, root, s) && s != [] && node !in s && node in h
    ensures Chain(h[s[|s| - 1] := Some(node)][node := None], root, s + [node])
  {
    ChainDistinct(h, root, s);
    var t := s + [node];
    var h' := h[s[|s| - 1] := Some(node)][node := None];
    forall j | 0 <= j < |t|
      ensures t[j] in h' && h'[t[j]] == if j + 1 < |t| then Some(t[j + 1]) else None
    {
      if j < |s| {
        Next(h, root, s, j);
      }
    }
  }

  /** List_Remove: the first node equal to `node` is unlinked, through the
      root or through its predecessor's `next`; a node not in the list
      changes nothing. */
  method Remove(h: Heap, list: List, node: Node, ghost s: seq<Node>) returns (h': Heap, list': List)
    requires Chain(h, list.root, s)
    ensures list'.typeId == list.typeId
    ensures h'.Keys == h.Keys
    ensures node !in s ==> h' == h && list' == list
    ensures node in s ==> Chain(h', list'.root, Without(s, IndexOf(s, node)))
    ensures forall n :: n in h && n !in s ==> h'[n] == h[n]
  {
    var curr := list.root;
    var prev: Option<Node> := None;
    ghost var i := 0;
    while curr.Some?
      invariant i <= |s|
      invariant curr == if i < |s| then Some(s[i]) else None
      invariant prev == if i == 0 then None else Some(s[i - 1])
      invariant node !in s[..i]
      decreases |s| - i
    {
      Next(h, list.root, s, i);
      if curr.value == node && prev.Some? {
        ChainDistinct(h, list.root, s);
        UnlinkAfter(h, list.root, s, i);
        return h[prev.value := h[curr.value]], list;
      } else if curr.value == node && prev.None? {
        RemoveRoot(h, list.root, s);
        return h, list.(root := h[curr.value]);
      }
      prev := curr;
      curr := h[curr.value];
      i := i + 1;
    }
    assert s[..i] == s;
    return h, list;
  }

  /** Pointing the predecessor of position `i` past it unlinks exactly
      that node. */
  lemma UnlinkAfter(h: Heap, root: Option<Node>, s: seq<Node>, i: nat)
    requires Chain(h, root, s) && Distinct(s) && 0 < i < |s|
    ensures Chain(h[s[i - 1] := h[s[i]]], root, Without(s, i))
  {
    var t := Without(s, i);
    var h' := h[s[i - 1] := h[s[i]]];
    Next(h, root, s, i);
    forall j | 0 <= j < |t|
      ensures t[j] in h' && h'[t[j]] == if j + 1 < |t| then Some(t[j + 1]) else None
    {
      if j < i {
        Next(h, root, s, j);
      } else {
        Next(h, root, s, j + 1);
      }
    }
    assert Chain(h', root, t);
  }

  /** Pointing the root past the first node unlinks it. */
  lemma RemoveRoot(h: Heap, root: Option<Node>, s: seq<Node>)
    requires Chain(h, root, s) && s != []
    ensures Chain(h, h[s[0]], Without(s, 0))
  {
    var t := Without(s, 0);
    Next(h, root, s, 0);
    forall j | 0 <= j < |t|
      ensures t[j] in h && h[t[j]] == if j + 1 < |t| then Some(t[j + 1]) else None
    {
      Next(h, root, s, j + 1);
    }
    assert Chain(h, h[s[0]], t);
  }
}

=== FILE: mcp79510.dfy ===
/** The MCP79510 real-time clock driver (driverMCP79510.c) over the
    device's memory: 32 time, control and alarm registers, 64 bytes of
    battery-backed SRAM and the 8-byte EUI at the end of the protected
    ID area. Each SPI transaction becomes a read or a write of these
    bytes. Register addresses and bit positions are those of the
    MCP79510 register map. */
module Mcp79510 {
  import opened Bytes
  import opened Wrappers
  import Bcd
  import opened RegisterBits

  const RegisterCount: nat := 0x20
  /** SRAM_SIZE. */
  const SramSize: nat := 64
  /** EUI_MAX_SIZE. */
  const EuiMaxSize: nat := 8

  // Time-keeping registers
  const SecCent: nat := 0x00
  const Sec: nat := 0x01
  const Min: nat := 0x02
  const Hour: nat := 0x03
  const Day: nat := 0x04
  const Date: nat := 0x05
  const Month: nat := 0x06
  const Year: nat := 0x07
  const Control: nat := 0x08
  const OscTrim: nat := 0x09
  // Alarm registers
  const Alarm0Sec: nat := 0x0C
  const Alarm0Min: nat := 0x0D
  const Alarm0Hour: nat := 0x0E
  const Alarm0Day: nat := 0x0F
  const Alarm0Date: nat := 0x10
  const Alarm1SecCent: nat := 0x12
  const Alarm1Sec: nat := 0x13
  const Alarm1Min: nat := 0x14
  const Alarm1Hour: nat := 0x15
  const Alarm1Day: nat := 0x16
  const Alarm1Date: nat := 0x17

  /** ST: the oscillator start bit of the seconds register. */
  const OscBit: nat := 7
  /** 12/24: set selects the 12-hour format. */
  const ModeBit: nat := 6
  /** TRIMSIGN: set adds clock cycles, clear subtracts them. */
  const TrimSignBit: nat := 7
  /** OSCRUN, PWRFAIL and VBATEN of the day register. */
  const OscRunBit: nat := 5
  const PwrFailBit: nat := 4
  const VbatEnBit: nat := 3
  /** LPYR of the month register. */
  const LeapYearBit: nat := 5
  /** ALM0EN; ALM1EN is the next bit. */
  const Alarm0EnBit: nat := 4
  const SquareWaveBit: nat := 6
  /** ALMxIF of an alarm's day register. */
  const AlarmFlagBit: nat := 3

  type RegisterMap = s: seq<byte> | |s| == RegisterCount witness Zeros(RegisterCount)
  type Sram = s: seq<byte> | |s| == SramSize witness Zeros(SramSize)
  type Eui = s: seq<byte> | |s| == EuiMaxSize witness Zeros(EuiMaxSize)

  datatype Rtc = Rtc(registers: RegisterMap, sram: Sram, eui: Eui)

  /** ReadRegister; its assertion demands an address below 0x20. */
  function Read(d: Rtc, address: nat): byte
    requires address < RegisterCount
  {
    d.registers[address]
  }

  /** WriteRegister. */
  function Write(d: Rtc, address: nat, value: byte): (r: Rtc)
    requires address < RegisterCount
    ensures Read(r, address) == value
    ensures Unchanged(d, r, address)
  {
    d.(registers := d.registers[address := value])
  }

  /** Nothing but the register at `address` differs. */
  predicate Unchanged(d: Rtc, e: Rtc, address: nat) {
    e.sram == d.sram && e.eui == d.eui
    && forall a :: 0 <= a < RegisterCount && a != address ==> e.registers[a] == d.registers[a]
  }


  /** GetDecimalRegisterValue. */
  function GetDecimal(d: Rtc, address: nat): (r: byte)
    requires address < RegisterCount
    ensures Bcd.IsBcd(Read(d, address)) ==> r < 100 && Bcd.BcdByte(r) == Read(d, address)
  {
    Bcd.BcdByteOfDecimal(Read(d, address));
    Bcd.BcdToDecimal(Read(d, address))
  }

  /** SetDecimalRegisterValue: reading the register back as decimal
      gives the value written. */
  function SetDecimal(d: Rtc, address: nat, value: byte): (r: Rtc)
    requires address < RegisterCount && value < 100
    ensures GetDecimal(r, address) == value
    ensures Unchanged(d, r, address)
  {
    Write(d, address, Bcd.BcdByte(value))
  }

  /** The bits of a register from position `n` up are kept and the
      two-digit value goes below them, as `(reg & mask) | BCD(value)`. */
  function SetField(d: Rtc, address: nat, n: nat, value: byte): (r: Rtc)
    requires address < RegisterCount && value < 100 && n <= 8 && Bcd.BcdByte(value) < Pow2(n)
    ensures Low(Read(r, address), n) == Bcd.BcdByte(value)
    ensures Read(r, address) / Pow2(n) == Read(d, address) / Pow2(n)
    ensures Unchanged(d, r, address)
  {
    Write(d, address, Merge(Read(d, address), n, Bcd.BcdByte(value)))
  }

  /** Bit_Set of one bit of a register. */
  function SetFlag(d: Rtc, address: nat, k: nat, state: bool): (r: Rtc)
    requires address < RegisterCount && k < 8
    ensures Flag(Read(r, address), k) == state
    ensures forall j :: j != k ==> Flag(Read(r, address), j) == Flag(Read(d, address), j)
    ensures Low(Read(r, address), k) == Low(Read(d, address), k)
    ensures Unchanged(d, r, address)
  {
    WithFlagKeepsAll(Read(d, address), k, state);
    Write(d, address, WithFlag(Read(d, address), k, state))
  }

  // ---------------------------------------------------------------------
  // Time and date

  /** driverMCP79510_GetHundredthSecond. */
  function GetHundredthSecond(d: Rtc): (r: byte)
    ensures Bcd.IsBcd(Read(d, SecCent)) ==> r < 100 && Bcd.BcdByte(r) == Read(d, SecCent)
  {
    GetDecimal(d, SecCent)
  }

  /** driverMCP79510_SetHundredthSecond: accepts 0..99. */
  function SetHundredthSecond(d: Rtc, hsec: byte): (r: (Rtc, bool))
    ensures r.1 <==> hsec < 100
    ensures !r.1 ==> r.0 == d
    ensures r.1 ==> Unchanged(d, r.0, SecCent) && GetHundredthSecond(r.0) == hsec
  {
    if hsec < 100 then (SetDecimal(d, SecCent, hsec), true) else (d, false)
  }

  /** driverMCP79510_SetAlarmHundredthSecond: only alarm 1 has the
      register. */
  function SetAlarmHundredthSecond(d: Rtc, hsec: byte): (r: (Rtc, bool))
    ensures r.1 <==> hsec < 100
    ensures !r.1 ==> r.0 == d
    ensures r.1 ==> Unchanged(d, r.0, Alarm1SecCent) && GetDecimal(r.0, Alarm1SecCent) == hsec
  {
    if hsec < 100 then (SetDecimal(d, Alarm1SecCent, hsec), true) else (d, false)
  }

  /** Whether the oscillator is enabled: the ST bit. */
  predicate OscillatorEnabled(d: Rtc) {
    Flag(Read(d, Sec), OscBit)
  }

  /** driverMCP79510_GetSecond: the ST bit is masked off before the BCD
      conversion. */
  function GetSecond(d: Rtc): (r: byte)
    ensures var x := Low(Read(d, Sec), OscBit);
            Bcd.IsBcd(x) ==> r < 100 && Bcd.BcdByte(r) == x
  {
    var x := Low(Read(d, Sec), OscBit);
    Bcd.BcdByteOfDecimal(x);
    Bcd.BcdToDecimal(x)
  }

  /** driverMCP79510_SetSecond: accepts 0..59 and keeps the ST bit. */
  function SetSecond(d: Rtc, sec: byte): (r: (Rtc, bool))
    ensures r.1 <==> sec < 60
    ensures !r.1 ==> r.0 == d
    ensures r.1 ==> Unchanged(d, r.0, Sec) && GetSecond(r.0) == sec
                    && OscillatorEnabled(r.0) == OscillatorEnabled(d)
  {
    assert Pow2(7) == 0x80;
    if sec < 60 then (SetField(d, Sec, OscBit, sec), true) else (d, false)
  }

  /** The register of alarm 0 or of alarm 1. */
  function AlarmRegister(alarmIndex: nat, alarm0: nat, alarm1: nat): nat {
    if alarmIndex == 0 then alarm0 else alarm1
  }

  /** driverMCP79510_SetAlarmSeconds; its assertion demands alarm 0 or 1. */
  function SetAlarmSeconds(d: Rtc, sec: byte, alarmIndex: nat): (r: (Rtc, bool))
    requires alarmIndex < 2
    ensures r.1 <==> sec < 60
    ensures !r.1 ==> r.0 == d
    ensures r.1 ==> var a := AlarmRegister(alarmIndex, Alarm0Sec, Alarm1Sec);
                    Unchanged(d, r.0, a) && GetDecimal(r.0, a) == sec
  {
    if sec < 60 then (SetDecimal(d, AlarmRegister(alarmIndex, Alarm0Sec, Alarm1Sec), sec), true)
    else (d, false)
  }

  /** driverMCP79510_GetMinute. */
  function GetMinute(d: Rtc): (r: byte)
    ensures Bcd.IsBcd(Read(d, Min)) ==> r < 100 && Bcd.BcdByte(r) == Read(d, Min)
  {
    GetDecimal(d, Min)
  }

  /** driverMCP79510_SetMinute: accepts 0..59. */
  function SetMinute(d: Rtc, minute: byte): (r: (Rtc, bool))
    ensures r.1 <==> minute < 60
    ensures !r.1 ==> r.0 == d
    ensures r.1 ==> Unchanged(d, r.0, Min) && GetMinute(r.0) == minute
  {
    if minute < 60 then (SetDecimal(d, Min, minute), true) else (d, false)
  }

  /** driverMCP79510_SetAlarmMinute. */
  function SetAlarmMinute(d: Rtc, minute: byte, alarmIndex: nat): (r: (Rtc, bool))
    requires alarmIndex < 2
    ensures r.1 <==> minute < 60
    ensures !r.1 ==> r.0 == d
    ensures r.1 ==> var a := AlarmRegister(alarmIndex, Alarm0Min, Alarm1Min);
                    Unchanged(d, r.0, a) && GetDecimal(r.0, a) == minute
  {
    if minute < 60 then (SetDecimal(d, AlarmRegister(alarmIndex, Alarm0Min, Alarm1Min), minute), true)
    else (d, false)
  }

  /** driverMCP79510_Is24HourMode: the 12/24 bit is clear. */
  predicate Is24HourMode(d: Rtc) {
    !Flag(Read(d, Hour), ModeBit)
  }

  /** The sign of the oscillator trimming, kept in the hour register. */
  predicate TrimSign(d: Rtc) {
    Flag(Read(d, Hour), TrimSignBit)
  }

  /** The hours the current format admits. */
  predicate HourInRange(is24: bool, hour: int) {
    if is24 then 0 <= hour <= 23 else 1 <= hour <= 12
  }

  /** How many low bits hold the hour: six below the mode bit in 24-hour
      mode (mask 0x3F), five below the AM/PM bit in 12-hour mode (mask
      0x1F). The setters keep the bits from there up (0xC0 and 0xE0). */
  function HourBits(is24: bool): nat {
    if is24 then 6 else 5
  }

  /** driverMCP79510_GetHour. */
  function GetHour(d: Rtc): (r: byte)
    ensures var x := Low(Read(d, Hour), HourBits(Is24HourMode(d)));
            Bcd.IsBcd(x) ==> r < 100 && Bcd.BcdByte(r) == x
  {
    var x := Low(Read(d, Hour), HourBits(Is24HourMode(d)));
    Bcd.BcdByteOfDecimal(x);
    Bcd.BcdToDecimal(x)
  }

  /** The hour write both hour setters share: `(reg & clear_mask) |
      BCD(hour)`, which keeps the 12/24 and TRIMSIGN bits. */
  function WriteHour(d: Rtc, address: nat, hour: byte, is24: bool): (r: Rtc)
    requires address < RegisterCount && HourInRange(is24, hour)
    ensures Bcd.BcdToDecimal(Low(Read(r, address), HourBits(is24))) == hour
    ensures Flag(Read(r, address), ModeBit) == Flag(Read(d, address), ModeBit)
    ensures Flag(Read(r, address), TrimSignBit) == Flag(Read(d, address), TrimSignBit)
    ensures Unchanged(d, r, address)
  {
    assert Pow2(6) == 0x40 && Pow2(5) == 0x20;
    var r := SetField(d, address, HourBits(is24), hour);
    FlagAbove(Read(r, address), Read(d, address), HourBits(is24), ModeBit);
    FlagAbove(Read(r, address), Read(d, address), HourBits(is24), TrimSignBit);
    r
  }

  /** driverMCP79510_SetHour: accepts 0..23 in 24-hour mode and 1..12
      in 12-hour mode; the format and the trimming sign stay. */
  function SetHour(d: Rtc, hour: byte): (r: (Rtc, bool))
    ensures r.1 <==> HourInRange(Is24HourMode(d), hour)
    ensures !r.1 ==> r.0 == d
    ensures r.1 ==> Unchanged(d, r.0, Hour) && GetHour(r.0) == hour
                    && Is24HourMode(r.0) == Is24HourMode(d) && TrimSign(r.0) == TrimSign(d)
  {
    if HourInRange(Is24HourMode(d), hour) then (WriteHour(d, Hour, hour, Is24HourMode(d)), true)
    else (d, false)
  }

  /** driverMCP79510_SetAlarmHour: the range and the mask follow the
      format of the time-keeping hour register. */
  function SetAlarmHour(d: Rtc, hour: byte, alarmIndex: nat): (r: (Rtc, bool))
    requires alarmIndex < 2
    ensures r.1 <==> HourInRange(Is24HourMode(d), hour)
    ensures !r.1 ==> r.0 == d
    ensures r.1 ==> var a := AlarmRegister(alarmIndex, Alarm0Hour, Alarm1Hour);
                    Unchanged(d, r.0, a)
                    && Bcd.BcdToDecimal(Low(Read(r.0, a), HourBits(Is24HourMode(d)))) == hour
                    && Flag(Read(r.0, a), ModeBit) == Flag(Read(d, a), ModeBit)
  {
    if HourInRange(Is24HourMode(d), hour) then
      (WriteHour(d, AlarmRegister(alarmIndex, Alarm0Hour, Alarm1Hour), hour, Is24HourMode(d)), true)
    else (d, false)
  }

  /** driverMCP79510_IsOscillatorRunning: OSCRUN. */
  predicate IsOscillatorRunning(d: Rtc) {
    Flag(Read(d, Day), OscRunBit)
  }

  /** driverMCP79510_IsExternalBatteryEnabled: VBATEN. */
  predicate IsExternalBatteryEnabled(d: Rtc) {
    Flag(Read(d, Day), VbatEnBit)
  }

  /** driverMCP79510_GetBatterySwitchFlag: PWRFAIL. */
  predicate GetBatterySwitchFlag(d: Rtc) {
    Flag(Read(d, Day), PwrFailBit)
  }

  /** driverMCP79510_GetDay: the weekday in the three low bits. */
  function GetDay(d: Rtc): (r: byte)
    ensures var x := Low(Read(d, Day), 3);
            Bcd.IsBcd(x) ==> r < 100 && Bcd.BcdByte(r) == x
  {
    var x := Low(Read(d, Day), 3);
    Bcd.BcdByteOfDecimal(x);
    Bcd.BcdToDecimal(x)
  }

  /** driverMCP79510_SetDay: accepts 1..7 and keeps the bits under mask
      0xF8, the status and battery bits among them. */
  function SetDay(d: Rtc, day: byte): (r: (Rtc, bool))
    ensures r.1 <==> 1 <= day <= 7
    ensures !r.1 ==> r.0 == d
    ensures r.1 ==> Unchanged(d, r.0, Day) && GetDay(r.0) == day
                    && IsOscillatorRunning(r.0) == IsOscillatorRunning(d)
                    && IsExternalBatteryEnabled(r.0) == IsExternalBatteryEnabled(d)
                    && GetBatterySwitchFlag(r.0) == GetBatterySwitchFlag(d)
  {
    assert Pow2(3) == 8;
    if 1 <= day <= 7 then
      var r := SetField(d, Day, 3, day);
      FlagAbove(Read(r, Day), Read(d, Day), 3, OscRunBit);
      FlagAbove(Read(r, Day), Read(d, Day), 3, PwrFailBit);
      FlagAbove(Read(r, Day), Read(d, Day), 3, VbatEnBit);
      (r, true)
    else (d, false)
  }

  /** driverMCP79510_GetDate. */
  function GetDate(d: Rtc): (r: byte)
    ensures Bcd.IsBcd(Read(d, Date)) ==> r < 100 && Bcd.BcdByte(r) == Read(d, Date)
  {
    GetDecimal(d, Date)
  }

  /** driverMCP79510_SetDate: accepts 1..31, whatever the month; the
      leap-year flag stays. */
  function SetDate(d: Rtc, date: byte): (r: (Rtc, bool))
    ensures r.1 <==> 1 <= date <= 31
    ensures !r.1 ==> r.0 == d
    ensures r.1 ==> Unchanged(d, r.0, Date) && GetDate(r.0) == date
                    && IsLeapYear(r.0) == IsLeapYear(d)
  {
    if 1 <= date <= 31 then (SetDecimal(d, Date, date), true) else (d, false)
  }

  /** driverMCP79510_SetAlarmDate. */
  function SetAlarmDate(d: Rtc, date: byte, alarmIndex: nat): (r: (Rtc, bool))
    requires alarmIndex < 2
    ensures r.1 <==> 1 <= date <= 31
    ensures !r.1 ==> r.0 == d
    ensures r.1 ==> var a := AlarmRegister(alarmIndex, Alarm0Date, Alarm1Date);
                    Unchanged(d, r.0, a) && GetDecimal(r.0, a) == date
  {
    if 1 <= date <= 31 then (SetDecimal(d, AlarmRegister(alarmIndex, Alarm0Date, Alarm1Date), date), true)
    else (d, false)
  }

  /** driverMCP79510_IsLeapYear: LPYR. */
  predicate IsLeapYear(d: Rtc) {
    Flag(Read(d, Month), LeapYearBit)
  }

  /** driverMCP79510_GetMonth: the month in the five low bits. */
  function GetMonth(d: Rtc): (r: byte)
    ensures var x := Low(Read(d, Month), 5);
            Bcd.IsBcd(x) ==> r < 100 && Bcd.BcdByte(r) == x
  {
    var x := Low(Read(d, Month), 5);
    Bcd.BcdByteOfDecimal(x);
    Bcd.BcdToDecimal(x)
  }

  /** driverMCP79510_SetMonth: accepts 1..12 and keeps the bits under
      mask 0xE0, the leap-year bit among them. */
  function SetMonth(d: Rtc, month: byte): (r: (Rtc, bool))
    ensures r.1 <==> 1 <= month <= 12
    ensures !r.1 ==> r.0 == d
    ensures r.1 ==> Unchanged(d, r.0, Month) && GetMonth(r.0) == month
                    && IsLeapYear(r.0) == IsLeapYear(d)
  {
    assert Pow2(5) == 0x20;
    if 1 <= month <= 12 then (SetField(d, Month, 5, month), true) else (d, false)
  }

  /** driverMCP79510_GetYear. */
  function GetYear(d: Rtc): (r: byte)
    ensures Bcd.IsBcd(Read(d, Year)) ==> r < 100 && Bcd.BcdByte(r) == Read(d, Year)
  {
    GetDecimal(d, Year)
  }

  /** driverMCP79510_SetYear: accepts 0..99; the leap-year flag, which
      the clock maintains in the month register, is not touched. */
  function SetYear(d: Rtc, year: byte): (r: (Rtc, bool))
    ensures r.1 <==> year < 100
    ensures !r.1 ==> r.0 == d
    ensures r.1 ==> Unchanged(d, r.0, Year) && GetYear(r.0) == year
                    && IsLeapYear(r.0) == IsLeapYear(d)
  {
    if year < 100 then (SetDecimal(d, Year, year), true) else (d, false)
  }

  // ---------------------------------------------------------------------
  // Control and status bits

  /** driverMCP79510_Enable24HourMode: clears the 12/24 bit to enable the
      24-hour format, sets it otherwise. The stored digits are not
      converted. */
  function Enable24HourMode(d: Rtc, enabled: bool): (r: Rtc)
    ensures Is24HourMode(r) == enabled
    ensures TrimSign(r) == TrimSign(d)
    ensures Low(Read(r, Hour), ModeBit) == Low(Read(d, Hour), ModeBit)
    ensures Unchanged(d, r, Hour)
  {
    SetFlag(d, Hour, ModeBit, !enabled)
  }

  /** driverMCP79510_EnableOscillator: the ST bit; the seconds stay. */
  function EnableOscillator(d: Rtc, enabled: bool): (r: Rtc)
    ensures OscillatorEnabled(r) == enabled
    ensures GetSecond(r) == GetSecond(d)
    ensures Unchanged(d, r, Sec)
  {
    SetFlag(d, Sec, OscBit, enabled)
  }

  /** Whether alarm 0 or alarm 1 is enabled: ALM0EN and ALM1EN. */
  predicate AlarmEnabled(d: Rtc, alarmIndex: nat)
    requires alarmIndex < 2
  {
    Flag(Read(d, Control), Alarm0EnBit + alarmIndex)
  }

  /** Whether the square-wave output is enabled: SQWEN. */
  predicate SquareWaveEnabled(d: Rtc) {
    Flag(Read(d, Control), SquareWaveBit)
  }

  /** driverMCP79510_EnableAlarm: the enable bit of one alarm; the other
      alarm and the square-wave output stay as they were. */
  function EnableAlarm(d: Rtc, enable: bool, alarmIndex: nat): (r: Rtc)
    requires alarmIndex < 2
    ensures AlarmEnabled(r, alarmIndex) == enable
    ensures AlarmEnabled(r, 1 - alarmIndex) == AlarmEnabled(d, 1 - alarmIndex)
    ensures SquareWaveEnabled(r) == SquareWaveEnabled(d)
    ensures Unchanged(d, r, Control)
  {
    SetFlag(d, Control, Alarm0EnBit + alarmIndex, enable)
  }

  /** driverMCP79510_EnableSquareWave. */
  function EnableSquareWave(d: Rtc, enable: bool): (r: Rtc)
    ensures SquareWaveEnabled(r) == enable
    ensures AlarmEnabled(r, 0) == AlarmEnabled(d, 0) && AlarmEnabled(r, 1) == AlarmEnabled(d, 1)
    ensures Unchanged(d, r, Control)
  {
    SetFlag(d, Control, SquareWaveBit, enable)
  }

  /** driverMCP79510_EnableExternalBattery: VBATEN; the weekday and the
      status bits stay. */
  function EnableExternalBattery(d: Rtc, enable: bool): (r: Rtc)
    ensures IsExternalBatteryEnabled(r) == enable
    ensures GetDay(r) == GetDay(d)
    ensures GetBatterySwitchFlag(r) == GetBatterySwitchFlag(d)
    ensures IsOscillatorRunning(r) == IsOscillatorRunning(d)
    ensures Unchanged(d, r, Day)
  {
    SetFlag(d, Day, VbatEnBit, enable)
  }

  /** driverMCP79510_ClearBatterySwitchFlag: PWRFAIL cleared; the weekday
      and the other status bits stay. */
  function ClearBatterySwitchFlag(d: Rtc): (r: Rtc)
    ensures !GetBatterySwitchFlag(r)
    ensures GetDay(r) == GetDay(d)
    ensures IsExternalBatteryEnabled(r) == IsExternalBatteryEnabled(d)
    ensures IsOscillatorRunning(r) == IsOscillatorRunning(d)
    ensures Unchanged(d, r, Day)
  {
    var r := SetFlag(d, Day, PwrFailBit, false);
    LowOfLow(Read(r, Day), 3, 4);
    LowOfLow(Read(d, Day), 3, 4);
    r
  }

  /** Whether an alarm has matched: ALMxIF of its day register. */
  predicate AlarmFlag(d: Rtc, alarmIndex: nat)
    requires alarmIndex < 2
  {
    Flag(Read(d, AlarmRegister(alarmIndex, Alarm0Day, Alarm1Day)), AlarmFlagBit)
  }

  /** driverMCP79510_ClearAlarmFlag: the interrupt flag cleared; the
      alarm's weekday stays. */
  function ClearAlarmFlag(d: Rtc, alarmIndex: nat): (r: Rtc)
    requires alarmIndex < 2
    ensures !AlarmFlag(r, alarmIndex)
    ensures var a := AlarmRegister(alarmIndex, Alarm0Day, Alarm1Day);
            Low(Read(r, a), 3) == Low(Read(d, a), 3) && Unchanged(d, r, a)
  {
    SetFlag(d, AlarmRegister(alarmIndex, Alarm0Day, Alarm1Day), AlarmFlagBit, false)
  }

  // ---------------------------------------------------------------------
  // Oscillator trimming

  /** The magnitude of the trimming, saturated at 255. */
  function TrimValue(t: i16): (r: byte)
    ensures t >= 0 ==> r == if t <= 255 then t else 255
    ensures t < 0 ==> r == if t >= -255 then -t else 255
  {
    var magnitude := if t < 0 then -(t as int) else t as int;
    if magnitude > 255 then 255 else magnitude
  }

  /** driverMCP79510_SetOscillatorTrimming: the magnitude goes to OSCTRIM
      and the sign to TRIMSIGN, set for a non-negative value. Only those
      two registers change, and the hour and its format read as before. */
  function SetOscillatorTrimming(d: Rtc, t: i16): (r: Rtc)
    ensures Read(r, OscTrim) == if -255 <= t <= 255 then (if t < 0 then -t else t) else 255
    ensures TrimSign(r) == (t >= 0)
    ensures GetHour(r) == GetHour(d) && Is24HourMode(r) == Is24HourMode(d)
    ensures r.sram == d.sram && r.eui == d.eui
    ensures forall a :: 0 <= a < RegisterCount && a != OscTrim && a != Hour ==> r.registers[a] == d.registers[a]
  {
    var trimmed := Write(d, OscTrim, TrimValue(t));
    var r := SetFlag(trimmed, Hour, TrimSignBit, t >= 0);
    LowOfLow(Read(r, Hour), 6, 7);
    LowOfLow(Read(d, Hour), 6, 7);
    LowOfLow(Read(r, Hour), 5, 7);
    LowOfLow(Read(d, Hour), 5, 7);
    r
  }

  /** `abs` of an `int16_t` on a target whose `int` is 16 bits wide, as
      on the AVR: the magnitude of -32768 does not fit and comes back as
      -32768. */
  function Abs16(t: i16): int {
    if t == -0x8000 then -0x8000 else if t < 0 then -t else t
  }

  /** The trim byte as driverMCP79510.c computes it: the 16-bit `abs`
      compared with UINT8_MAX, then cast to `uint8_t`. */
  function TrimValueAsWritten(t: i16): byte {
    var magnitude := Abs16(t);
    if magnitude > 255 then 255 else magnitude % 0x100
  }

  /** The two agree on every value but the most negative one, which is
      written as no trimming at all instead of the largest. */
  lemma TrimAsWrittenAtMinimum(t: i16)
    ensures TrimValueAsWritten(t) == TrimValue(t) <==> t != -0x8000
    ensures TrimValueAsWritten(-0x8000) == 0 && TrimValue(-0x8000) == 255
  {
  }

  /** driverMCP79510_Init up to its wait for the oscillator to run:
      square-wave output off, oscillator on, no trimming. */
  function Init(d: Rtc): (r: Rtc)
    ensures !SquareWaveEnabled(r) && OscillatorEnabled(r)
    ensures Read(r, OscTrim) == 0 && TrimSign(r)
    ensures AlarmEnabled(r, 0) == AlarmEnabled(d, 0) && AlarmEnabled(r, 1) == AlarmEnabled(d, 1)
    ensures GetSecond(r) == GetSecond(d) && GetHour(r) == GetHour(d)
    ensures Is24HourMode(r) == Is24HourMode(d)
  {
    SetOscillatorTrimming(EnableOscillator(EnableSquareWave(d, false), true), 0)
  }

  // ---------------------------------------------------------------------
  // SRAM and EUI

  /** The address check of the SRAM transfers, done in 16 bits, where
      two 8-bit operands cannot overflow. */
  predicate SramRangeValid(address: byte, length: nat) {
    address + length <= SramSize
  }

  /** driverMCP79510_WriteToSRAM: `length` bytes from `address` on, when
      they fit. */
  function WriteToSram(d: Rtc, address: byte, data: seq<byte>): (r: (Rtc, bool))
    requires |data| < 0x100
    ensures r.1 <==> SramRangeValid(address, |data|)
    ensures !r.1 ==> r.0 == d
    ensures r.1 ==> r.0.registers == d.registers && r.0.eui == d.eui
    ensures r.1 ==> forall i :: 0 <= i < SramSize ==>
                      r.0.sram[i] == if address <= i < address + |data| then data[i - address] else d.sram[i]
  {
    if SramRangeValid(address, |data|) then
      (d.(sram := d.sram[..address] + data + d.sram[address + |data|..]), true)
    else (d, false)
  }

  /** driverMCP79510_ReadFromSRAM: the bytes read, or nothing when they
      do not fit. */
  function ReadFromSram(d: Rtc, address: byte, length: byte): (r: Option<seq<byte>>)
    ensures r.Some? <==> SramRangeValid(address, length)
    ensures r.Some? ==> |r.value| == length
    ensures r.Some? ==> forall i :: 0 <= i < length ==> r.value[i] == d.sram[address + i]
  {
    if SramRangeValid(address, length) then Some(d.sram[address..address + length]) else None
  }

  /** Reading back what was written returns it. */
  lemma ReadAfterWrite(d: Rtc, address: byte, data: seq<byte>)
    requires |data| < 0x100 && SramRangeValid(address, |data|)
    ensures ReadFromSram(WriteToSram(d, address, data).0, address, |data|) == Some(data)
  {
    var r := ReadFromSram(WriteToSram(d, address, data).0, address, |data|);
    assert r.value == data;
  }

  /** A write leaves every range it does not overlap as it was. */
  lemma WriteKeepsOtherRanges(d: Rtc, address: byte, data: seq<byte>, other: byte, length: byte)
    requires |data| < 0x100
    requires other + length <= address || address + |data| <= other
    ensures ReadFromSram(WriteToSram(d, address, data).0, other, length) == ReadFromSram(d, other, length)
  {
    var w := WriteToSram(d, address, data);
    if w.1 && SramRangeValid(other, length) {
      assert ReadFromSram(w.0, other, length).value == ReadFromSram(d, other, length).value;
    }
  }

  /** driverMCP79510_ClearSRAM. */
  function ClearSram(d: Rtc): (r: Rtc)
    ensures forall i :: 0 <= i < SramSize ==> r.sram[i] == 0
    ensures r.registers == d.registers && r.eui == d.eui
  {
    d.(sram := Zeros(SramSize))
  }

  /** After ClearSRAM every read that fits returns zeros. */
  lemma ReadAfterClear(d: Rtc, address: byte, length: byte)
    requires SramRangeValid(address, length)
    ensures ReadFromSram(ClearSram(d), address, length) == Some(Zeros(length))
  {
    assert ReadFromSram(ClearSram(d), address, length).value == Zeros(length);
  }

  /** driverMCP79510_GetEUI: `length` bytes read from ID address
      EUI_MAX_SIZE - length on, so the last `length` bytes of the EUI;
      its assertion demands at most EUI_MAX_SIZE. */
  method GetEui(d: Rtc, length: nat) returns (eui: seq<byte>)
    requires length <= EuiMaxSize
    ensures |eui| == length
    ensures forall i :: 0 <= i < length ==> eui[i] == d.eui[EuiMaxSize - length + i]
    ensures length == EuiMaxSize ==> eui == d.eui
  {
    var address := EuiMaxSize - length;
    eui := [];
    var i := 0;
    while i < length
      invariant 0 <= i <= length && address == EuiMaxSize - length + i
      invariant |eui| == i
      invariant forall j :: 0 <= j < i ==> eui[j] == d.eui[EuiMaxSize - length + j]
    {
      eui := eui + [d.eui[address]];
      address := address + 1;
      i := i + 1;
    }
  }
}

=== FILE: nvm_config.dfy ===
/** The host tool's view of the device configuration record in EEPROM
    (class `Config` of the memory script): seven fields packed with the
    struct format `H6sI17sBBB`, followed by a CRC-16 of those 32 bytes,
    34 bytes in all at address 0. */
module NvmConfig {
  import opened Bytes
  import opened Wrappers
  import opened HexImage
  import Crc16
  import Text

  const StartAddress: int := 0x00

  /** Python's native layout of `H6sI17sBBB` on a little-endian machine
      happens to need no padding: the 4-byte field already starts at
      offset 8. */
  const VersionOffset: nat := 0
  const NetworkIdOffset: nat := 2
  const ReportIntervalOffset: nat := 8
  const AesKeyOffset: nat := 12
  const MasterAddressOffset: nat := 29
  const AddressOffset: nat := 30
  const BroadcastAddressOffset: nat := 31
  const PayloadSize: nat := 32
  /** `Config.size()`: the payload and the 2-byte CRC behind it. */
  const Size: nat := 34

  const NetworkIdLength: nat := 6
  const AesKeyLength: nat := 17

  /** The attributes of a `Config` object. Python ints are unbounded and
      the constructor checks nothing, so neither does this datatype. */
  datatype Config = Config(
    version: int,
    networkId: seq<byte>,
    reportInterval: int,
    aesKey: seq<byte>,
    masterAddress: int,
    address: int,
    broadcastAddress: int)

  datatype Field = Version | ReportInterval | MasterAddress | Address | BroadcastAddress

  /** `struct.pack` raised `struct.error`: an integer field does not fit
      its format code. */
  datatype PackError = OutOfRange(field: Field)

  /** Why reading the record failed. */
  datatype LoadError =
    | ReadFailed(addr: int)                       // the image has no byte there
    | UnpackFailed                                // not exactly `Size` bytes
    | CrcMismatch(stored: int, calculated: int)   // ConfigCrcException

  /** The `Ns` format: truncate to `n` bytes or pad with zero bytes. */
  function FitBytes(s: seq<byte>, n: nat): (r: seq<byte>)
    ensures |r| == n
    ensures forall i :: 0 <= i < n ==> r[i] == (if i < |s| then s[i] else 0)
  {
    if |s| >= n then s[..n] else s + Zeros(n - |s|)
  }

  /** Every integer field fits its format code (`H`, `I`, `B`, `B`, `B`). */
  predicate Packable(c: Config) {
    IsU16(c.version) && IsU32(c.reportInterval)
    && IsU8(c.masterAddress) && IsU8(c.address) && IsU8(c.broadcastAddress)
  }

  /** The field `struct.pack` complains about: the first one, in argument
      order, that does not fit. */
  function FirstOutOfRange(c: Config): (f: Field)
    requires !Packable(c)
    ensures f == Version ==> !IsU16(c.version)
    ensures f == ReportInterval ==> !IsU32(c.reportInterval)
    ensures f == MasterAddress ==> !IsU8(c.masterAddress)
    ensures f == Address ==> !IsU8(c.address)
    ensures f == BroadcastAddress ==> !IsU8(c.broadcastAddress)
  {
    if !IsU16(c.version) then Version
    else if !IsU32(c.reportInterval) then ReportInterval
    else if !IsU8(c.masterAddress) then MasterAddress
    else if !IsU8(c.address) then Address
    else BroadcastAddress
  }

  /** The 32 bytes of `struct.pack('H6sI17sBBB', ...)`. */
  function Payload(c: Config): (r: seq<byte>)
    requires Packable(c)
    ensures |r| == PayloadSize
  {
    U16Le(c.version) + FitBytes(c.networkId, NetworkIdLength) + U32Le(c.reportInterval)
    + FitBytes(c.aesKey, AesKeyLength) + [c.masterAddress, c.address, c.broadcastAddress]
  }

  /** The seven fields of a 32-byte payload, as `struct.unpack` returns them. */
  function Unpack(p: seq<byte>): Config
    requires |p| == PayloadSize
  {
    Config(
      ReadU16Le(p[VersionOffset..NetworkIdOffset]),
      p[NetworkIdOffset..ReportIntervalOffset],
      ReadU32Le(p[ReportIntervalOffset..AesKeyOffset]),
      p[AesKeyOffset..MasterAddressOffset],
      p[MasterAddressOffset], p[AddressOffset], p[BroadcastAddressOffset])
  }

  /** What a packed and unpacked config holds: the byte strings fitted to
      their fixed widths, everything else as it was. */
  function Normalize(c: Config): (n: Config)
    ensures |n.networkId| == NetworkIdLength && |n.aesKey| == AesKeyLength
    ensures |c.networkId| == NetworkIdLength && |c.aesKey| == AesKeyLength ==> n == c
  {
    c.(networkId := FitBytes(c.networkId, NetworkIdLength), aesKey := FitBytes(c.aesKey, AesKeyLength))
  }

  /** `Config.crc`: the CRC of `to_bytes(crc=False)`. */
  function CrcOf(c: Config): (r: Result<int, PackError>)
    ensures r.Ok? <==> Packable(c)
    ensures r.Ok? ==> IsU16(r.value)
  {
    if Packable(c) then Ok(Crc16.CrcValue(Payload(c))) else Err(OutOfRange(FirstOutOfRange(c)))
  }

  /** `Config.to_bytes(crc)`: the packed fields, followed, when `withCrc`,
      by the CRC of those bytes. */
  function ToBytes(c: Config, withCrc: bool): (r: Result<seq<byte>, PackError>)
    ensures r.Ok? <==> Packable(c)
    ensures r.Err? ==> r.error == OutOfRange(FirstOutOfRange(c))
    ensures r.Ok? ==> |r.value| == (if withCrc then Size else PayloadSize)
    ensures r.Ok? && withCrc ==>
      ReadU16Le(r.value[PayloadSize..]) == Crc16.CrcValue(r.value[..PayloadSize])
  {
    match CrcOf(c)
    case Err(e) => Err(e)
    case Ok(crc) =>
      var p := Payload(c);
      if withCrc then Ok(p + U16Le(crc)) else Ok(p)
  }

  /** Unpacking and checking a 34-byte record (`from_eep_file` once the
      bytes have been read): a CRC mismatch raises, otherwise the seven
      fields come back. */
  function Decode(data: seq<byte>): (r: Result<Config, LoadError>)
    ensures r.Ok? <==>
      |data| == Size && ReadU16Le(data[PayloadSize..]) == Crc16.CrcValue(data[..PayloadSize])
    ensures r.Err? && r.error.CrcMismatch? <==>
      |data| == Size && ReadU16Le(data[PayloadSize..]) != Crc16.CrcValue(data[..PayloadSize])
    ensures r.Ok? ==> Packable(r.value)
  {
    if |data| != Size then Err(UnpackFailed)
    else
      var payload := data[..PayloadSize];
      var stored := ReadU16Le(data[PayloadSize..]);
      var calculated := Crc16.CrcValue(payload);
      if stored != calculated then Err(CrcMismatch(stored, calculated))
      else Ok(Unpack(payload))
  }

  /** `Config.from_eep_file`, with the file's contents given as an image:
      a read failure when the record's range holds no data somewhere, and
      otherwise the decode of the 34 bytes at address 0. */
  function FromEepImage(img: Image): (r: Result<Config, LoadError>)
    ensures !Covers(img, StartAddress, Size) ==>
      r.Err? && r.error.ReadFailed? && StartAddress <= r.error.addr < StartAddress + Size && r.error.addr !in img
    ensures Covers(img, StartAddress, Size) ==>
      r == Decode(seq(Size, i requires 0 <= i < Size => img[StartAddress + i]))
  {
    match Gets(img, StartAddress, Size)
    case Err(e) => Err(ReadFailed(e.addr))
    case Ok(data) =>
      assert data == seq(Size, i requires 0 <= i < Size => img[StartAddress + i]);
      Decode(data)
  }

  /** `Config.to_eep_file`: the record with its CRC written over address 0
      of an image, every other address kept. */
  function ToEepImage(c: Config, img: Image): (r: Result<Image, PackError>)
    ensures r.Ok? <==> Packable(c)
    ensures r.Ok? ==> forall a :: StartAddress <= a < StartAddress + Size ==>
      a in r.value && r.value[a] == ToBytes(c, true).value[a - StartAddress]
    ensures r.Ok? ==> forall a :: a in img && !(StartAddress <= a < StartAddress + Size) ==>
      a in r.value && r.value[a] == img[a]
    ensures r.Ok? ==> forall a :: a in r.value ==> a in img || StartAddress <= a < StartAddress + Size
  {
    match ToBytes(c, true)
    case Err(e) => Err(e)
    case Ok(data) => Ok(Puts(img, StartAddress, data))
  }

  // ---------------------------------------------------------------------
  // Layout and round trips

  /** Unpacking a packed payload gives back every field, the byte strings
      fitted to their widths. */
  lemma UnpackPayload(c: Config)
    requires Packable(c)
    ensures Unpack(Payload(c)) == Normalize(c)
  {
    var p := Payload(c);
    assert p[VersionOffset..NetworkIdOffset] == U16Le(c.version);
    assert p[NetworkIdOffset..ReportIntervalOffset] == FitBytes(c.networkId, NetworkIdLength);
    assert p[ReportIntervalOffset..AesKeyOffset] == U32Le(c.reportInterval);
    assert p[AesKeyOffset..MasterAddressOffset] == FitBytes(c.aesKey, AesKeyLength);
    U16RoundTrip(c.version);
    U32RoundTrip(c.reportInterval);
  }

  /** Packing the fields of any 32 bytes reproduces those bytes. */
  lemma PayloadUnpack(p: seq<byte>)
    requires |p| == PayloadSize
    ensures Packable(Unpack(p)) && Payload(Unpack(p)) == p
  {
    var c := Unpack(p);
    U16Injective(p[VersionOffset..NetworkIdOffset]);
    U32Injective(p[ReportIntervalOffset..AesKeyOffset]);
    assert Payload(c) == p[..2] + p[2..8] + p[8..12] + p[12..29] + p[29..32];
    assert p == p[..2] + p[2..8] + p[8..12] + p[12..29] + p[29..32];
  }

  /** Decoding what `to_bytes(crc=True)` produced succeeds and returns the
      same seven fields. */
  lemma DecodeToBytes(c: Config)
    requires Packable(c)
    ensures ToBytes(c, true).Ok? && Decode(ToBytes(c, true).value) == Ok(Normalize(c))
  {
    var data := ToBytes(c, true).value;
    assert data[..PayloadSize] == Payload(c);
    UnpackPayload(c);
  }

  /** A record that decodes is exactly what `to_bytes(crc=True)` writes for
      the decoded fields: nothing in the record is ignored. */
  lemma ToBytesDecode(data: seq<byte>)
    requires Decode(data).Ok?
    ensures ToBytes(Decode(data).value, true) == Ok(data)
  {
    var p := data[..PayloadSize];
    PayloadUnpack(p);
    var c := Decode(data).value;
    var crc := Crc16.CrcValue(p);
    U16Injective(data[PayloadSize..]);
    assert data == p + data[PayloadSize..];
    assert ToBytes(c, true).value == p + U16Le(crc);
  }

  /** `to_eep_file` followed by `from_eep_file` returns the saved fields,
      whatever the image held before. */
  lemma EepRoundTrip(c: Config, img: Image)
    requires Packable(c)
    ensures ToEepImage(c, img).Ok?
    ensures FromEepImage(ToEepImage(c, img).value) == Ok(Normalize(c))
  {
    var data := ToBytes(c, true).value;
    GetsPuts(img, StartAddress, data);
    DecodeToBytes(c);
  }

  // ---------------------------------------------------------------------
  // Setters

  datatype SetError =
    | InvalidVersion
    | InvalidNetworkId(hexError: Text.HexError)   // bytes.fromhex raised
    | InvalidNetworkIdLength
    | InvalidAesKeyLength
    | InvalidReportInterval
    | InvalidMasterAddress
    | InvalidAddress
    | InvalidBroadcastAddress

  /** The `version` setter: 0 and values above 0xffff are refused. A
      refused value raises, so the caller's config stays as it was. */
  function SetVersion(c: Config, version: int): (r: Result<Config, SetError>)
    ensures r.Ok? <==> version != 0 && version <= 0xffff
    ensures r.Ok? ==> r.value.version == version && r.value.(version := c.version) == c
  {
    if version == 0 || version > 0xffff then Err(InvalidVersion) else Ok(c.(version := version))
  }

  /** The `network_id` setter: the text must decode as hex to exactly six
      bytes. */
  function SetNetworkId(c: Config, text: string): (r: Result<Config, SetError>)
    ensures r.Ok? <==> Text.FromHex(text).Ok? && |Text.FromHex(text).value| == NetworkIdLength
    ensures r.Ok? ==>
      r.value.networkId == Text.FromHex(text).value && r.value.(networkId := c.networkId) == c
  {
    match Text.FromHex(text)
    case Err(e) => Err(InvalidNetworkId(e))
    case Ok(id) =>
      if |id| != NetworkIdLength then Err(InvalidNetworkIdLength) else Ok(c.(networkId := id))
  }

  /** The `aes_key` setter: exactly 16 characters, stored UTF-8 encoded. */
  function SetAesKey(c: Config, key: string): (r: Result<Config, SetError>)
    ensures r.Ok? <==> |key| == 16
    ensures r.Ok? ==> r.value.aesKey == Text.Utf8Encode(key) && r.value.(aesKey := c.aesKey) == c
  {
    if |key| != 16 then Err(InvalidAesKeyLength) else Ok(c.(aesKey := Text.Utf8Encode(key)))
  }

  /** The `aes_key` getter: the stored bytes, all of them, decoded as
      UTF-8; it fails exactly when no text encodes to them. */
  function AesKey(c: Config): (r: Result<string, Text.Utf8Error>)
    ensures r.Ok? ==> Text.Utf8Encode(r.value) == c.aesKey
    ensures forall s :: Text.Utf8Encode(s) == c.aesKey ==> r == Ok(s)
  {
    Text.Utf8DecodeUnique(c.aesKey);
    Text.Utf8Decode(c.aesKey)
  }

  /** The `report_interval` setter: below 10 seconds or above 0xffffffff
      is refused. */
  function SetReportInterval(c: Config, interval: int): (r: Result<Config, SetError>)
    ensures r.Ok? <==> 10 <= interval <= 0xffff_ffff
    ensures r.Ok? ==>
      r.value.reportInterval == interval && r.value.(reportInterval := c.reportInterval) == c
  {
    if interval < 10 || interval > 0xffff_ffff then Err(InvalidReportInterval)
    else Ok(c.(reportInterval := interval))
  }

  /** The guard the three address setters share, as written: a value
      equal to 0 AND above 255. */
  predicate AddressRejectedAsWritten(a: int) {
    a == 0 && a > 255
  }

  /** The `master_address` setter as written. */
  function SetMasterAddress(c: Config, a: int): (r: Result<Config, SetError>)
    ensures r.Ok? ==> r.value == c.(masterAddress := a)
  {
    if AddressRejectedAsWritten(a) then Err(InvalidMasterAddress) else Ok(c.(masterAddress := a))
  }

  /** The `address` setter as written. */
  function SetAddress(c: Config, a: int): (r: Result<Config, SetError>)
    ensures r.Ok? ==> r.value == c.(address := a)
  {
    if AddressRejectedAsWritten(a) then Err(InvalidAddress) else Ok(c.(address := a))
  }

  /** The `broadcast_address` setter as written. */
  function SetBroadcastAddress(c: Config, a: int): (r: Result<Config, SetError>)
    ensures r.Ok? ==> r.value == c.(broadcastAddress := a)
  {
    if AddressRejectedAsWritten(a) then Err(InvalidBroadcastAddress) else Ok(c.(broadcastAddress := a))
  }

  /** No value satisfies the guard, so the address setters never raise,
      and an address such as 300 is accepted and only fails later, when
      the record is packed. */
  lemma AddressSettersNeverRaise(c: Config, a: int)
    ensures SetMasterAddress(c, a).Ok? && SetAddress(c, a).Ok? && SetBroadcastAddress(c, a).Ok?
    ensures a > 255 ==> ToBytes(SetAddress(c, a).value, true).Err?
  {
  }

  /** The guard evidently meant: anything outside 1 to 255. */
  predicate AddressRejected(a: int) {
    a <= 0 || a > 255
  }

  /** The `address` setter with the guard it was evidently meant to have;
      the master and broadcast setters are the same up to the field. */
  function SetAddressChecked(c: Config, a: int): (r: Result<Config, SetError>)
    ensures r.Ok? <==> 1 <= a <= 255
    ensures r.Ok? ==> r.value == c.(address := a)
  {
    if AddressRejected(a) then Err(InvalidAddress) else Ok(c.(address := a))
  }

  /** With the corrected guard, an accepted address always fits its byte,
      so packing cannot fail on it. */
  lemma CheckedAddressPacks(c: Config, a: int)
    requires Packable(c) && SetAddressChecked(c, a).Ok?
    ensures ToBytes(SetAddressChecked(c, a).value, true).Ok?
  {
  }

  /** Setting a network id written by `bytes.hex()` stores those bytes. */
  lemma SetNetworkIdFromHex(c: Config, id: seq<byte>)
    requires |id| == NetworkIdLength
    ensures SetNetworkId(c, Text.ToHex(id)) == Ok(c.(networkId := id))
  {
    Text.HexRoundTrip(id);
  }

  /** The `aes_key` getter returns what the setter was given. */
  lemma AesKeyRoundTrip(c: Config, key: string)
    requires |key| == 16
    ensures AesKey(SetAesKey(c, key).value) == Ok(key)
  {
    Text.Utf8RoundTrip(key, 0);
  }

  /** A 16-character ASCII key fills the 17-byte field with its character
      codes and one zero byte, the terminator the firmware expects. */
  lemma AsciiAesKeyLayout(c: Config, key: string)
    requires |key| == 16 && forall i :: 0 <= i < 16 ==> key[i] as int < 0x80
    requires Packable(c)
    ensures var p := Payload(SetAesKey(c, key).value);
      (forall i :: 0 <= i < 16 ==> p[AesKeyOffset + i] == key[i] as int)
      && p[AesKeyOffset + 16] == 0
  {
    Text.Utf8EncodeAscii(key);
    var c' := SetAesKey(c, key).value;
    var p := Payload(c');
    assert p[AesKeyOffset..MasterAddressOffset] == FitBytes(c'.aesKey, AesKeyLength);
  }

  /** An ASCII key saved to an EEPROM image and loaded back reads with
      its zero terminator: the getter decodes all 17 stored bytes and does
      not stop at the first zero. */
  lemma LoadedAesKeyKeepsTerminator(c: Config, key: string, img: Image)
    requires |key| == 16 && forall i :: 0 <= i < 16 ==> key[i] as int < 0x80
    requires Packable(c)
    ensures var saved := SetAesKey(c, key).value;
            ToEepImage(saved, img).Ok?
            && FromEepImage(ToEepImage(saved, img).value).Ok?
            && AesKey(FromEepImage(ToEepImage(saved, img).value).value) == Ok(key + "\0")
  {
    var saved := SetAesKey(c, key).value;
    var written := ToEepImage(saved, img);
    assert written.Ok? && FromEepImage(written.value) == Ok(Normalize(saved)) by {
      EepRoundTrip(saved, img);
    }
    var withZero := key + "\0";
    assert Normalize(saved).aesKey == Text.Utf8Encode(withZero) by {
      AsciiKeyFitted(key);
    }
  }

  /** Fitting the encoding of a 16-character ASCII key to the 17-byte
      field appends exactly one zero byte, the encoding of NUL. */
  lemma AsciiKeyFitted(key: string)
    requires |key| == 16 && forall i :: 0 <= i < 16 ==> key[i] as int < 0x80
    ensures FitBytes(Text.Utf8Encode(key), AesKeyLength) == Text.Utf8Encode(key + "\0")
  {
    var withZero := key + "\0";
    Text.Utf8EncodeAscii(key);
    Text.Utf8EncodeAscii(withZero);
    assert forall i :: 0 <= i < AesKeyLength ==>
      FitBytes(Text.Utf8Encode(key), AesKeyLength)[i] == Text.Utf8Encode(withZero)[i];
  }
}

=== FILE: nvm_error_log.dfy ===
/** The host tool's view of the error log in EEPROM (classes `ErrorMessage`
    and `ErrorLog` of the memory script): 10-byte `IIBB` records read
    from address 0x22 upward while the address is below 0x340, where an
    index of 0 marks an unused slot. */
module NvmErrorLog {
  import opened Bytes
  import opened Wrappers
  import opened HexImage
  import Text

  /** `ErrorMessage.size()`: two 4-byte and two 1-byte fields, no padding. */
  const MessageSize: nat := 10
  const LogStart: int := 0x22
  const LogEnd: int := 0x340
  /** How many addresses `range(0x22, 0x340, 10)` yields. */
  const SlotCount: nat := 80

  datatype ErrorMessage = ErrorMessage(index: int, timestamp: int, code: int, information: int)

  /** `struct.pack` raised: a field does not fit its format code. */
  datatype PackError = FieldOutOfRange
  /** `struct.unpack` raised: the buffer is not 10 bytes long. */
  datatype UnpackError = WrongLength(length: nat)

  predicate Packable(m: ErrorMessage) {
    IsU32(m.index) && IsU32(m.timestamp) && IsU8(m.code) && IsU8(m.information)
  }

  /** `ErrorMessage.to_bytes`. */
  function ToBytes(m: ErrorMessage): (r: Result<seq<byte>, PackError>)
    ensures r.Ok? <==> Packable(m)
    ensures r.Ok? ==> |r.value| == MessageSize
  {
    if Packable(m) then Ok(U32Le(m.index) + U32Le(m.timestamp) + [m.code, m.information])
    else Err(FieldOutOfRange)
  }

  /** `ErrorMessage.from_bytes`: the unpacked message, or nothing for an
      unused slot. */
  function FromBytes(data: seq<byte>): (r: Result<Option<ErrorMessage>, UnpackError>)
    ensures r.Ok? <==> |data| == MessageSize
    ensures r.Ok? ==> (r.value.None? <==> ReadU32Le(data[..4]) == 0)
    ensures r.Ok? && r.value.Some? ==> Packable(r.value.value) && r.value.value.index != 0
  {
    if |data| != MessageSize then Err(WrongLength(|data|))
    else
      var index := ReadU32Le(data[..4]);
      if index == 0 then Ok(None)
      else Ok(Some(ErrorMessage(index, ReadU32Le(data[4..8]), data[8], data[9])))
  }

  /** Packing then unpacking gives the message back, or nothing when its
      index is the unused marker 0. */
  lemma FromBytesToBytes(m: ErrorMessage)
    requires Packable(m)
    ensures FromBytes(ToBytes(m).value) == Ok(if m.index == 0 then None else Some(m))
  {
    var d := ToBytes(m).value;
    assert d[..4] == U32Le(m.index);
    assert d[4..8] == U32Le(m.timestamp);
    U32RoundTrip(m.index);
    U32RoundTrip(m.timestamp);
  }

  /** Unpacking then packing gives the bytes back. */
  lemma ToBytesFromBytes(data: seq<byte>)
    requires FromBytes(data).Ok? && FromBytes(data).value.Some?
    ensures ToBytes(FromBytes(data).value.value) == Ok(data)
  {
    U32Injective(data[..4]);
    U32Injective(data[4..8]);
    assert data[8..] == [data[8], data[9]];
    assert data == data[..4] + data[4..8] + data[8..];
  }

  /** The descriptions of the known error codes. */
  const Descriptions: map<int, string> := map[
    1 := "POWERON",
    2 := "ASSFAIL",
    3 := "LOW_STACK",
    4 := "RTC_FAIL",
    5 := "CORRUPT_CONFIG"]

  /** `ErrorMessage.description`: codes 1 to 5 have a name; any other code
      is described as UNKNOWN with its decimal value in parentheses, which
      reads back as the code. */
  function Description(m: ErrorMessage): (r: string)
    ensures 1 <= m.code <= 5 <==> m.code in Descriptions
    ensures m.code in Descriptions ==> r == Descriptions[m.code]
    ensures !(1 <= m.code <= 5) ==>
      |r| > 9 && r[..8] == "UNKNOWN(" && r[|r| - 1] == ')'
      && Text.ParseDecimal(r[8..|r| - 1]) == Some(m.code)
  {
    if m.code in Descriptions then Descriptions[m.code]
    else
      var digits := Text.DecimalString(m.code);
      var d := "UNKNOWN(" + digits + ")";
      assert d[8..|d| - 1] == digits;
      d
  }

  // ---------------------------------------------------------------------
  // The log

  function SlotAddress(k: nat): int {
    LogStart + k * MessageSize
  }

  /** `range(0x22, 0x340, 10)` yields exactly the addresses of slots
      0..79: each lies in the range and slot 80 would not. The last slot
      reads two bytes at and past 0x340. */
  lemma SlotsOfRange()
    ensures forall k :: 0 <= k < SlotCount ==> LogStart <= SlotAddress(k) < LogEnd
    ensures SlotAddress(SlotCount) >= LogEnd
    ensures SlotAddress(SlotCount - 1) + MessageSize == LogEnd + 2
  {
  }

  predicate SlotReadable(img: Image, k: nat) {
    Covers(img, SlotAddress(k), MessageSize)
  }

  /** The message in slot `k`, or nothing for an unused slot. */
  function SlotMessage(img: Image, k: nat): Option<ErrorMessage>
    requires SlotReadable(img, k)
  {
    FromBytes(Gets(img, SlotAddress(k), MessageSize).value).value
  }

  /** One iteration of the scan: `hex_file.gets` of slot `k` followed by
      `ErrorMessage.from_bytes`. */
  function ReadSlot(img: Image, k: nat): (r: Result<Option<ErrorMessage>, ReadError>)
    ensures r.Ok? <==> SlotReadable(img, k)
    ensures r.Ok? ==> r.value == SlotMessage(img, k)
    ensures r.Err? ==> SlotAddress(k) <= r.error.addr < SlotAddress(k) + MessageSize
  {
    match Gets(img, SlotAddress(k), MessageSize)
    case Err(e) => Err(e)
    case Ok(data) => Ok(FromBytes(data).value)
  }

  /** The used slots among the first `n`, in address order. */
  function UsedSlots(img: Image, n: nat): (r: seq<ErrorMessage>)
    requires forall k :: 0 <= k < n ==> SlotReadable(img, k)
    ensures |r| <= n
    ensures forall i :: 0 <= i < |r| ==> r[i].index != 0 && Packable(r[i])
    // `img` is named so that a call with a constant count is not unfolded
    // to its full depth by the verifier.
    decreases n, img
  {
    if n == 0 then []
    else
      var m := SlotMessage(img, n - 1);
      UsedSlots(img, n - 1) + (if m.Some? then [m.value] else [])
  }

  /** Reading one more slot appends its message, if it has one. */
  lemma UsedSlotsNext(img: Image, k: nat)
    requires forall j :: 0 <= j <= k ==> SlotReadable(img, j)
    ensures UsedSlots(img, k + 1) == UsedSlots(img, k)
              + (if SlotMessage(img, k).Some? then [SlotMessage(img, k).value] else [])
  {
  }

  /** The image holds every byte of the first `n` slots. */
  predicate SlotsReadable(img: Image, n: nat) {
    forall k :: 0 <= k < n ==> SlotReadable(img, k)
  }

  /** `addr` lies in the first slot of the log that the image does not
      fully hold. */
  predicate InFirstUnreadableSlot(img: Image, addr: int) {
    exists k :: 0 <= k < SlotCount && SlotsReadable(img, k) && !SlotReadable(img, k)
                && SlotAddress(k) <= addr < SlotAddress(k) + MessageSize
  }

  /** `ErrorLog.from_eep_file`: read every slot in address order, keep the
      used ones; a slot the image does not fully hold raises. */
  method ReadErrorLog(img: Image) returns (r: Result<seq<ErrorMessage>, ReadError>)
    ensures r.Ok? <==> SlotsReadable(img, SlotCount)
    ensures r.Ok? ==> r.value == UsedSlots(img, SlotCount)
    ensures r.Err? ==> InFirstUnreadableSlot(img, r.error.addr)
  {
    var log: seq<ErrorMessage> := [];
    var addr := LogStart;
    var k: nat := 0;
    SlotsOfRange();
    while addr < LogEnd
      invariant k <= SlotCount && addr == SlotAddress(k)
      invariant addr < LogEnd <==> k < SlotCount
      invariant SlotsReadable(img, k)
      invariant log == UsedSlots(img, k)
      decreases LogEnd - addr
    {
      var slot := ReadSlot(img, k);
      if slot.Err? {
        assert 0 <= k < SlotCount && SlotsReadable(img, k) && !SlotReadable(img, k)
          && SlotAddress(k) <= slot.error.addr < SlotAddress(k) + MessageSize;
        return Err(slot.error);
      }
      var message := slot.value;
      UsedSlotsNext(img, k);
      if message.Some? {
        log := log + [message.value];
      }
      addr := addr + MessageSize;
      k := k + 1;
    }
    assert k == SlotCount;
    return Ok(log);
  }
}

=== FILE: power.dfy ===
/** The node's battery monitor (Power.c): a state machine stepped once per
    update, reading the charger and announcing each change of state with
    an event. The charger readings are hardware input and enter as a
    parameter; triggering an event is modelled as returning it. */
module Power {
  import opened Wrappers

  /** LOW_VOLTAGE_MV and CRITICAL_VOLTAGE_MV. */
  const LowVoltage: nat := 2200
  const CriticalVoltage: nat := 1900

  /** `power_state_type`; PowerInit is the zero value nothing assigns. */
  datatype PowerState = PowerInit | Normal | Low | Critical | Charging | Connected

  /** The events the monitor triggers. */
  datatype PowerEvent = ChargingStarted | BatteryLow | BatteryCritical | ChargingStopped | ChargerDisconnected

  /** What driverCharger reports during one update. The code reads the
      charger anew at each test; the model takes one consistent sample. */
  datatype Reading = Reading(charging: bool, connected: bool, voltage: nat)

  /** `sc_assert_fail` in the default branch. */
  datatype PowerError = AssertionFailed

  datatype Outcome = Outcome(state: PowerState, events: seq<PowerEvent>)

  /** Power_Init. */
  const InitialState: PowerState := Normal

  /** The state an event announces. */
  function Announced(e: PowerEvent): PowerState {
    match e
    case ChargingStarted => Charging
    case BatteryLow => Low
    case BatteryCritical => Critical
    case ChargingStopped => Connected
    case ChargerDisconnected => Normal
  }

  /** BatteryMonitoringSM, one update. */
  function Step(s: PowerState, r: Reading): (o: Result<Outcome, PowerError>)
    ensures o.Err? <==> s == PowerInit
    ensures o.Ok? ==> o.value.state != PowerInit && |o.value.events| <= 2
  {
    match s
    case PowerInit => Err(AssertionFailed)
    case Normal =>
      if r.charging then Ok(Outcome(Charging, [ChargingStarted]))
      else if r.voltage < LowVoltage then Ok(Outcome(Low, [BatteryLow]))
      else Ok(Outcome(Normal, []))
    case Low =>
      if r.charging then Ok(Outcome(Charging, [ChargingStarted]))
      else if r.voltage < CriticalVoltage then Ok(Outcome(Critical, [BatteryCritical]))
      else Ok(Outcome(Low, []))
    case Critical =>
      if r.charging then Ok(Outcome(Charging, [ChargingStarted]))
      else Ok(Outcome(Critical, []))
    case Charging =>
      if !r.charging then Ok(Outcome(Connected, [ChargingStopped]))
      else Ok(Outcome(Charging, []))
    case Connected =>
      var started := if r.charging then [ChargingStarted] else [];
      if !r.connected then Ok(Outcome(Normal, started + [ChargerDisconnected]))
      else if r.charging then Ok(Outcome(Charging, started))
      else Ok(Outcome(Connected, []))
  }

  /** Every change of state is announced, nothing else is, and the last
      event announces the state the update ends in. */
  lemma EventsAnnounceChanges(s: PowerState, r: Reading)
    requires s != PowerInit
    ensures var o := Step(s, r).value;
            (o.events == [] <==> o.state == s)
            && (o.events != [] ==> Announced(o.events[|o.events| - 1]) == o.state)
  {
  }

  /** Charging starts from every battery state, and from a connected
      charger unless it has also been unplugged, which takes precedence. */
  lemma ChargingStartsFromAnyState(s: PowerState, r: Reading)
    requires s in {Normal, Low, Critical, Connected} && r.charging
    ensures Step(s, r).value.events[0] == ChargingStarted
    ensures Step(s, r).value.state == if s == Connected && !r.connected then Normal else Charging
  {
  }

  /** Without charging, the battery states only get worse: Normal drops to
      Low below 2200 mV, Low drops to Critical below 1900 mV, and nothing
      but charging leaves Critical. */
  lemma NotChargingOnlyWorsens(s: PowerState, r: Reading)
    requires s in {Normal, Low, Critical} && !r.charging
    ensures var t := Step(s, r).value.state;
            Severity(t) == Severity(s) || Severity(t) == Severity(s) + 1
    ensures s == Normal ==> (Step(s, r).value.state == Low <==> r.voltage < LowVoltage)
    ensures s == Low ==> (Step(s, r).value.state == Critical <==> r.voltage < CriticalVoltage)
    ensures s == Critical ==> Step(s, r).value == Outcome(Critical, [])
  {
  }

  /** How far the battery has run down: 0 for Normal, 1 for Low, 2 for
      Critical and for the charger states, which the battery states never
      reach without charging. */
  function Severity(s: PowerState): nat {
    match s
    case Normal => 0
    case Low => 1
    case _ => 2
  }

  /** Charging stops into Connected; from Connected, unplugging returns to
      Normal and a restart of charging to Charging. */
  lemma ChargerStates(s: PowerState, r: Reading)
    requires s in {Charging, Connected}
    ensures s == Charging ==> (Step(s, r).value.state == Connected <==> !r.charging)
    ensures s == Connected ==> (Step(s, r).value.state == Normal <==> !r.connected)
    ensures s == Connected && r.connected ==> (Step(s, r).value.state == Charging <==> r.charging)
  {
  }

  /** Power_Update applied to each reading in turn, collecting the events. */
  function Run(s: PowerState, readings: seq<Reading>): (o: Result<Outcome, PowerError>)
    ensures o.Err? <==> s == PowerInit
    ensures o.Ok? ==> o.value.state != PowerInit
    ensures readings == [] && o.Ok? ==> o.value == Outcome(s, [])
    decreases |readings|
  {
    if readings == [] then (if s == PowerInit then Err(AssertionFailed) else Ok(Outcome(s, [])))
    else
      var first :- Step(s, readings[0]);
      var rest := Run(first.state, readings[1..]).value;
      Ok(Outcome(rest.state, first.events + rest.events))
  }

  /** After Power_Init, no sequence of updates reaches the failing default
      branch. */
  lemma RunFromInitNeverFails(readings: seq<Reading>)
    ensures Run(InitialState, readings).Ok?
  {
  }

  /** Over any run without charging the battery state never improves, and
      the state reached is the one the last event announced. */
  lemma {:induction false} RunWithoutChargingWorsens(s: PowerState, readings: seq<Reading>)
    requires s in {Normal, Low, Critical}
    requires forall i :: 0 <= i < |readings| ==> !readings[i].charging
    ensures var o := Run(s, readings).value;
            o.state in {Normal, Low, Critical} && Severity(o.state) >= Severity(s)
            && (o.events == [] ==> o.state == s)
            && (o.events != [] ==> Announced(o.events[|o.events| - 1]) == o.state)
    decreases |readings|
  {
    if readings != [] {
      var first := Step(s, readings[0]).value;
      NotChargingOnlyWorsens(s, readings[0]);
      EventsAnnounceChanges(s, readings[0]);
      RunWithoutChargingWorsens(first.state, readings[1..]);
      var rest := Run(first.state, readings[1..]).value;
      assert Run(s, readings).value == Outcome(rest.state, first.events + rest.events);
      if rest.events == [] {
        assert first.events + rest.events == first.events;
      } else {
        assert (first.events + rest.events)[|first.events + rest.events| - 1] == rest.events[|rest.events| - 1];
      }
    }
  }
}

=== FILE: register_bits.dfy ===
/** The bit-field operations the real-time clock drivers apply to their
    8-bit registers, on the register read as a number: one bit
    (Bit_Get / Bit_Set, or `|=` and `&= ~` of `1 << k`), the bits below a
    position (`x & 0x1F`) and the bits from a position up (`x & 0xE0`).
    Working on numbers keeps these next to the BCD conversions; the
    lemmas at the end show they agree with the byte-level Bit module. */
module RegisterBits {
  import opened Bytes
  import Bit
  import Arith

  function Pow2(k: nat): (r: nat)
    ensures r >= 1
  {
    if k == 0 then 1 else 2 * Pow2(k - 1)
  }

  lemma {:induction false} Pow2Add(a: nat, b: nat)
    ensures Pow2(a + b) == Pow2(a) * Pow2(b)
    decreases b
  {
    if b > 0 {
      Pow2Add(a, b - 1);
      assert Pow2(a + b) == 2 * Pow2(a + b - 1);
    }
  }

  /** Bit `k` of `x`. */
  predicate Flag(x: nat, k: nat) {
    x / Pow2(k) % 2 == 1
  }

  /** `x & ((1 << n) - 1)`: the bits below position `n`. */
  function Low(x: nat, n: nat): (r: nat)
    ensures r < Pow2(n) && r <= x
  {
    Arith.ModLe(x, Pow2(n));
    x % Pow2(n)
  }

  /** `(x & ~((1 << n) - 1)) | v` for a `v` below `1 << n`: the bits of
      `x` from position `n` up, and `v` below. The two operands share no
      bit, so the OR is their sum. */
  function Merge(x: nat, n: nat, v: nat): (r: nat)
    requires v < Pow2(n)
    ensures Low(r, n) == v
    ensures r / Pow2(n) == x / Pow2(n)
    ensures x < 0x100 && n <= 8 ==> r < 0x100
  {
    MergeParts(x, n, v);
    x - Low(x, n) + v
  }

  lemma MergeParts(x: nat, n: nat, v: nat)
    requires v < Pow2(n)
    ensures x - x % Pow2(n) + v >= 0
    ensures (x - x % Pow2(n) + v) % Pow2(n) == v
    ensures (x - x % Pow2(n) + v) / Pow2(n) == x / Pow2(n)
    ensures x < 0x100 && n <= 8 ==> x - x % Pow2(n) + v < 0x100
  {
    var p := Pow2(n);
    var q := x / p;
    Arith.ModLe(x, p);
    ModUniqueAt(x - x % p + v, p, q, v, x);
    if x < 0x100 && n <= 8 {
      StaysByte(x - x % p + v, x, n);
    }
  }

  /** ModUnique for a value that differs from `x` only below `p`. */
  lemma ModUniqueAt(r: int, p: int, q: int, v: int, x: int)
    requires p > 0 && 0 <= v < p && q == x / p && r == x - x % p + v
    ensures r % p == v && r / p == q
  {
    Arith.ModUnique(r, p, q, v);
  }

  /** Bit_Set on a register read as a number: setting a clear bit adds
      its weight, clearing a set bit subtracts it, and a bit that already
      has the wanted value leaves the register as it is. */
  function WithFlag(x: nat, k: nat, state: bool): (r: nat)
    ensures Flag(r, k) == state
    ensures Low(r, k) == Low(x, k)
    ensures r / Pow2(k + 1) == x / Pow2(k + 1)
    ensures x < 0x100 && k < 8 ==> r < 0x100
  {
    if Flag(x, k) == state then x
    else
      FlipParts(x, k);
      if state then x + Pow2(k) else x - Pow2(k)
  }

  /** Flipping bit `k` of `x`, as a sum: its value changes, the bits
      below and above stay. */
  lemma FlipParts(x: nat, k: nat)
    ensures var p := Pow2(k);
            var r := if Flag(x, k) then x - p else x + p;
            r >= 0 && Flag(r, k) != Flag(x, k) && r % p == x % p
            && r / (2 * p) == x / (2 * p)
            && (x < 0x100 && k < 8 ==> r < 0x100)
  {
    var p := Pow2(k);
    var m := x % (2 * p);
    BitOfRemainder(x, p);
    Arith.ModLe(x, 2 * p);
    var r, m' := if Flag(x, k) then x - p else x + p, if Flag(x, k) then m - p else m + p;
    ModUniqueAt(r, 2 * p, x / (2 * p), m', x);
    BitOfRemainder(r, p);
    Arith.ModShift(if Flag(x, k) then m' else m, 1, p);
    assert Pow2(k + 1) == 2 * p;
    if x < 0x100 && k < 8 {
      StaysByte(r, x, k + 1);
    }
  }

  /** Bit `k` of `x` is whether its remainder by `2 << k` reaches
      `1 << k`; the bits below `k` are those of that remainder. */
  lemma BitOfRemainder(x: nat, p: nat)
    requires p >= 1
    ensures x / p % 2 == x % (2 * p) / p
    ensures x % p == x % (2 * p) % p
    ensures x % (2 * p) / p == if x % (2 * p) < p then 0 else 1
  {
    Arith.DivOfProduct(x, p, 2);
    assert p * 2 == 2 * p;
    Arith.ModUnique(x / p, 2, x / (2 * p), x % (2 * p) / p);
    var m := x % (2 * p);
    if m < p {
      Arith.ModUnique(m, p, 0, m);
    } else {
      Arith.ModUnique(m, p, 1, m - p);
    }
  }

  /** A number with the same quotient by `1 << n` as a byte is a byte,
      when `n` is at most 8. */
  lemma StaysByte(r: nat, x: nat, n: nat)
    requires n <= 8 && x < 0x100 && r / Pow2(n) == x / Pow2(n)
    ensures r < 0x100
  {
    Pow2Add(n, 8 - n);
    assert Pow2(8) == 0x100;
    SameQuotientBelow(r, x, Pow2(n), Pow2(8 - n));
  }

  /** Two numbers with the same quotient by `m` lie below the same
      multiple of `m`. */
  lemma SameQuotientBelow(r: nat, x: nat, m: nat, q: nat)
    requires m >= 1 && r / m == x / m && x < m * q
    ensures r < m * q
  {
    if x / m >= q {
      Arith.MulLeMono(q, x / m, m);
    }
    Arith.MulLeMono(r / m, q - 1, m);
  }

  /** A bit from position `n` up depends only on the quotient by
      `1 << n`. */
  lemma FlagAbove(x: nat, y: nat, n: nat, k: nat)
    requires n <= k && x / Pow2(n) == y / Pow2(n)
    ensures Flag(x, k) == Flag(y, k)
  {
    Pow2Add(n, k - n);
    Arith.DivDiv(x, Pow2(n), Pow2(k - n));
    Arith.DivDiv(y, Pow2(n), Pow2(k - n));
  }

  /** A bit below position `n` depends only on the bits below `n`. */
  lemma FlagOfLow(x: nat, n: nat, k: nat)
    requires k < n
    ensures Flag(x, k) == Flag(Low(x, n), k)
  {
    var p, q, h := Pow2(k), Pow2(n - k), Pow2(n - k - 1);
    Pow2Add(k, n - k);
    Arith.DivOfProduct(x, p, q);
    assert q == 2 * h;
    var a, m := x / (p * q), x % (p * q);
    assert x / p == m / p + a * h * 2;
    Arith.ModShift(m / p, a * h, 2);
  }

  lemma FlagBelow(x: nat, y: nat, n: nat, k: nat)
    requires k < n && Low(x, n) == Low(y, n)
    ensures Flag(x, k) == Flag(y, k)
  {
    FlagOfLow(x, n, k);
    FlagOfLow(y, n, k);
  }

  /** The bits below `n` of a number are the bits below `n` of its bits
      below any higher position. */
  lemma LowOfLow(x: nat, n: nat, m: nat)
    requires n <= m
    ensures Low(Low(x, m), n) == Low(x, n)
  {
    Pow2Add(n, m - n);
    Arith.DivOfProduct(x, Pow2(n), Pow2(m - n));
  }

  /** Every bit but `k` of WithFlag is the bit of the original. */
  lemma WithFlagKeeps(x: nat, k: nat, state: bool, j: nat)
    requires j != k
    ensures Flag(WithFlag(x, k, state), j) == Flag(x, j)
  {
    if j < k {
      FlagBelow(WithFlag(x, k, state), x, k, j);
    } else {
      FlagAbove(WithFlag(x, k, state), x, k + 1, j);
    }
  }

  lemma WithFlagKeepsAll(x: nat, k: nat, state: bool)
    ensures forall j :: j != k ==> Flag(WithFlag(x, k, state), j) == Flag(x, j)
  {
    forall j | j != k
      ensures Flag(WithFlag(x, k, state), j) == Flag(x, j)
    {
      WithFlagKeeps(x, k, state, j);
    }
  }

  // ---------------------------------------------------------------------
  // Agreement with the Bit module

  lemma {:induction false} Pow2Small(i: nat)
    requires i < 8
    ensures Pow2(i) == [1, 2, 4, 8, 16, 32, 64, 128][i]
  {
    if i > 0 {
      Pow2Small(i - 1);
    }
  }

  /** Bit_Get of the byte is Flag of its value. */
  lemma GetIsFlag(i: bv8, x: byte)
    requires i < 8
    ensures Bit.Get(i, x as bv8) <==> Flag(x, i as int)
  {
    Pow2Small(i as int);
    if i == 0 {
    } else if i == 1 {
    } else if i == 2 {
    } else if i == 3 {
    } else if i == 4 {
    } else if i == 5 {
    } else if i == 6 {
    } else {
    }
  }

  /** WithFlag is Bit_Set: the two bytes agree on every bit. */
  lemma WithFlagIsSet(x: byte, k: bv8, state: bool)
    requires k < 8
    ensures WithFlag(x, k as int, state) < 0x100
    ensures WithFlag(x, k as int, state) as bv8 == Bit.Set(k, state, x as bv8)
  {
    var r: byte := WithFlag(x, k as int, state);
    var s := Bit.Set(k, state, x as bv8);
    assert forall j: bv8 :: j < 8 ==> Bit.Get(j, r as bv8) == Bit.Get(j, s) by {
      forall j: bv8 | j < 8
        ensures Bit.Get(j, r as bv8) == Bit.Get(j, s)
      {
        SameBit(x, k, state, j);
      }
    }
    Bit.BitsDetermineByte(r as bv8, s);
  }

  lemma SameBit(x: byte, k: bv8, state: bool, j: bv8)
    requires k < 8 && j < 8
    ensures WithFlag(x, k as int, state) < 0x100
    ensures var r: byte := WithFlag(x, k as int, state);
            Bit.Get(j, r as bv8) == Bit.Get(j, Bit.Set(k, state, x as bv8))
  {
    var r: byte := WithFlag(x, k as int, state);
    GetIsFlag(j, r);
    GetIsFlag(j, x);
    Bit.GetAfterSet(k, j, state, x as bv8);
    if j != k {
      WithFlagKeeps(x, k as int, state, j as int);
    }
  }

  /** Two numbers below `1 << n` with the same `n` low bits are equal. */
  lemma {:induction false} FlagsDetermine(x: nat, y: nat, n: nat)
    requires x < Pow2(n) && y < Pow2(n)
    requires forall i :: 0 <= i < n ==> Flag(x, i) == Flag(y, i)
    ensures x == y
    decreases n
  {
    if n > 0 {
      forall i | 0 <= i < n - 1
        ensures Flag(x / 2, i) == Flag(y / 2, i)
      {
        FlagHalf(x, i);
        FlagHalf(y, i);
      }
      assert Flag(x, 0) == Flag(y, 0);
      FlagsDetermine(x / 2, y / 2, n - 1);
    }
  }

  /** Two bytes that agree on bits 0 to 7 are equal. */
  lemma ByteFlagsDetermine(x: byte, y: byte)
    requires Flag(x, 0) == Flag(y, 0) && Flag(x, 1) == Flag(y, 1)
    requires Flag(x, 2) == Flag(y, 2) && Flag(x, 3) == Flag(y, 3)
    requires Flag(x, 4) == Flag(y, 4) && Flag(x, 5) == Flag(y, 5)
    requires Flag(x, 6) == Flag(y, 6) && Flag(x, 7) == Flag(y, 7)
    ensures x == y
  {
    assert Pow2(8) == 0x100;
    assert forall i :: 0 <= i < 8 ==> Flag(x, i) == Flag(y, i) by {
      forall i | 0 <= i < 8
        ensures Flag(x, i) == Flag(y, i)
      {
        assert i == 0 || i == 1 || i == 2 || i == 3 || i == 4 || i == 5 || i == 6 || i == 7;
      }
    }
    FlagsDetermine(x, y, 8);
  }

  /** Bit `i` of `x / 2` is bit `i + 1` of `x`. */
  lemma FlagHalf(x: nat, i: nat)
    ensures Flag(x / 2, i) == Flag(x, i + 1)
  {
    Arith.DivDiv(x, 2, Pow2(i));
  }
}

=== FILE: sensor.dfy ===
/** The main unit's sensor registry (sensor/Sensor.c): up to nine sensors,
    each with its latest value and running minimum and maximum. The
    statistics survive restarts in non-volatile memory as a packed 7-byte
    record per sensor, guarded by a CRC-16.

    A sensor's Update callback reads hardware; its outcome enters as a
    parameter. The NVM driver is modelled as the 63 bytes this module
    uses, starting at address 0. */
module Sensor {
  import opened Bytes
  import opened Wrappers
  import Crc16
  import Arith

  const Int16Min: i16 := -0x8000
  const Int16Max: i16 := 0x7FFF

  /** MAX_NUMBER_OF_SENSORS. */
  const MaxSensors: nat := 9
  /** `sizeof(struct sensor_statistics_t)`: two int16, a bool and a
      uint16, packed. */
  const RecordSize: nat := 7
  /** `offsetof(struct sensor_statistics_t, crc)`. */
  const CrcOffset: nat := 5
  const RegionSize: nat := 63

  type Region = s: seq<byte> | |s| == RegionSize witness Zeros(63)

  datatype Statistics = Statistics(max: i16, min: i16, valid: bool)

  /** The fields of `struct sensor_t` this module uses. */
  datatype Sensor = Sensor(id: nat, value: i16, valid: bool, statistics: Statistics)

  /** `module` and the NVM bytes it owns. Sensors are held by value and
      referred to by their index. */
  datatype Registry = Registry(sensors: seq<Sensor>, nvm: Region)

  /** An `sc_assert` failed. */
  datatype SensorError = AssertionFailed

  /** What a sensor's Update callback left in it; NoCallback when the
      callback pointer is NULL. */
  datatype Sample = NoCallback | Measured(value: i16, valid: bool)

  // ---------------------------------------------------------------------
  // Statistics

  /** ResetValues: the statistics start at the opposite extremes so the
      first accepted value becomes both minimum and maximum. */
  const ResetStatistics: Statistics := Statistics(Int16Min, Int16Max, false)

  function ResetValues(s: Sensor): (r: Sensor)
    ensures r.id == s.id && !r.valid && !r.statistics.valid
  {
    Sensor(s.id, 0, false, ResetStatistics)
  }

  /** SetSensorValues. */
  function SetSensorValues(s: Sensor, value: i16): (r: Sensor)
    ensures r.id == s.id && r.valid == s.valid && r.value == value && r.statistics.valid
    ensures r.statistics.max >= value && r.statistics.max >= s.statistics.max
    ensures r.statistics.max == value || r.statistics.max == s.statistics.max
    ensures r.statistics.min <= value && r.statistics.min <= s.statistics.min
    ensures r.statistics.min == value || r.statistics.min == s.statistics.min
  {
    var max := if value > s.statistics.max then value else s.statistics.max;
    var min := if value < s.statistics.min then value else s.statistics.min;
    Sensor(s.id, value, s.valid, Statistics(max, min, true))
  }

  /** The statistics after accepting each of `values` in turn. */
  function Accumulate(s: Sensor, values: seq<i16>): Sensor
    decreases |values|
  {
    if values == [] then s else SetSensorValues(Accumulate(s, values[..|values| - 1]), values[|values| - 1])
  }

  /** From a reset, the statistics are valid once a value was accepted,
      and then bound every accepted value and are attained by one. */
  lemma {:induction false} StatisticsBoundValues(s: Sensor, values: seq<i16>)
    ensures var st := Accumulate(ResetValues(s), values).statistics;
            (st.valid <==> values != [])
            && (forall i :: 0 <= i < |values| ==> st.min <= values[i] <= st.max)
            && (values != [] ==> st.min in values && st.max in values)
    decreases |values|
  {
    if values != [] {
      var n := |values| - 1;
      var prefix := values[..n];
      StatisticsBoundValues(s, prefix);
      var before := Accumulate(ResetValues(s), prefix).statistics;
      var st := Accumulate(ResetValues(s), values).statistics;
      forall i | 0 <= i < |values|
        ensures st.min <= values[i] <= st.max
      {
        if i < n {
          assert values[i] == prefix[i];
        }
      }
      if prefix == [] {
        assert before == ResetStatistics;
      } else {
        assert before.min in prefix && before.max in prefix;
      }
    }
  }

  // ---------------------------------------------------------------------
  // Getters

  /** Sensor_GetValue: the value and whether it is valid. */
  function GetValue(s: Sensor): (int, bool) { (s.value, s.valid) }
  /** Sensor_GetMaxValue. */
  function GetMaxValue(s: Sensor): (int, bool) { (s.statistics.max, s.statistics.valid) }
  /** Sensor_GetMinValue. */
  function GetMinValue(s: Sensor): (int, bool) { (s.statistics.min, s.statistics.valid) }

  /** After a reset and some accepted values, the getters report the last
      value and the extremes, valid exactly when a value was accepted. */
  lemma GettersAfterValues(s: Sensor, values: seq<i16>)
    requires values != []
    ensures var t := Accumulate(ResetValues(s), values);
            GetValue(t) == (values[|values| - 1], false)
            && GetMaxValue(t).1 && GetMinValue(t).1
            && (forall i :: 0 <= i < |values| ==> GetMinValue(t).0 <= values[i] <= GetMaxValue(t).0)
  {
    StatisticsBoundValues(s, values);
  }

  // ---------------------------------------------------------------------
  // The NVM record

  /** The record's bytes in front of the CRC. */
  function Payload(st: Statistics): (r: seq<byte>)
    ensures |r| == CrcOffset
  {
    I16Le(st.max) + I16Le(st.min) + [if st.valid then 1 else 0]
  }

  /** How many bytes the CRC covers as written:
      `sizeof(*statistics) - offsetof(..., crc)`, the size of the CRC
      field itself. */
  const CoveredAsWritten: nat := RecordSize - CrcOffset
  /** How many it evidently should cover: everything in front of it. */
  const CoveredIntended: nat := CrcOffset

  /** UpdateCRC followed by the packed record's bytes. */
  function Seal(st: Statistics, covered: nat): (r: seq<byte>)
    requires covered <= CrcOffset
    ensures |r| == RecordSize && r[..CrcOffset] == Payload(st)
  {
    var p := Payload(st);
    p + U16Le(Crc16.CrcValue(p[..covered]))
  }

  /** IsCRCValid over the first `covered` bytes. */
  predicate CrcValid(record: seq<byte>, covered: nat)
    requires |record| == RecordSize && covered <= CrcOffset
  {
    ReadU16Le(record[CrcOffset..]) == Crc16.CrcValue(record[..covered])
  }

  /** The statistics a record holds; a non-zero byte reads as true. */
  function Unpack(record: seq<byte>): Statistics
    requires |record| == RecordSize
  {
    Statistics(ReadI16Le(record[..2]), ReadI16Le(record[2..4]), record[4] != 0)
  }

  /** A sealed record checks and unpacks to what was sealed. */
  lemma SealUnpack(st: Statistics, covered: nat)
    requires covered <= CrcOffset
    ensures CrcValid(Seal(st, covered), covered)
    ensures Unpack(Seal(st, covered)) == st
  {
    var r := Seal(st, covered);
    assert r[..2] == I16Le(st.max);
    assert r[2..4] == I16Le(st.min);
    assert r[CrcOffset..] == U16Le(Crc16.CrcValue(Payload(st)[..covered]));
    assert r[..covered] == Payload(st)[..covered];
    I16RoundTrip(st.max);
    I16RoundTrip(st.min);
    U16RoundTrip(Crc16.CrcValue(Payload(st)[..covered]));
  }

  /** `sizeof(struct sensor_statistics_t) * self->id`, as an 8-bit
      address; it fits for every id below MaxSensors. */
  function Address(id: nat): (r: nat)
    requires id < MaxSensors
    ensures r + RecordSize <= RegionSize
  {
    RecordSize * id
  }

  function RecordAt(nvm: Region, id: nat): (r: seq<byte>)
    requires id < MaxSensors
    ensures |r| == RecordSize
  {
    nvm[Address(id)..Address(id) + RecordSize]
  }

  /** WriteValuesToNVM. */
  function WriteValues(nvm: Region, s: Sensor, covered: nat): (r: Region)
    requires s.id < MaxSensors && covered <= CrcOffset
    ensures RecordAt(r, s.id) == Seal(s.statistics, covered)
    ensures forall a :: 0 <= a < RegionSize && !(Address(s.id) <= a < Address(s.id) + RecordSize) ==> r[a] == nvm[a]
  {
    var at := Address(s.id);
    var r: Region := nvm[..at] + Seal(s.statistics, covered) + nvm[at + RecordSize..];
    assert r[at..at + RecordSize] == Seal(s.statistics, covered);
    r
  }

  /** ReadValuesFromNVM: adopt the stored statistics when the CRC matches,
      otherwise only mark them invalid. */
  function ReadValues(s: Sensor, nvm: Region, covered: nat): (r: Sensor)
    requires s.id < MaxSensors && covered <= CrcOffset
    ensures r.id == s.id && r.value == s.value && r.valid == s.valid
    ensures CrcValid(RecordAt(nvm, s.id), covered) ==> r.statistics == Unpack(RecordAt(nvm, s.id))
    ensures !CrcValid(RecordAt(nvm, s.id), covered) ==>
      r.statistics == s.statistics.(valid := false)
  {
    var record := RecordAt(nvm, s.id);
    if CrcValid(record, covered) then s.(statistics := Unpack(record))
    else s.(statistics := s.statistics.(valid := false))
  }

  /** Statistics written for a sensor are read back unchanged, whichever
      sensor's record was written afterwards. */
  lemma WriteThenRead(nvm: Region, s: Sensor, other: Sensor, covered: nat)
    requires s.id < MaxSensors && other.id < MaxSensors && other.id != s.id && covered <= CrcOffset
    ensures ReadValues(s, WriteValues(nvm, s, covered), covered).statistics == s.statistics
    ensures var after := WriteValues(WriteValues(nvm, s, covered), other, covered);
            ReadValues(s, after, covered).statistics == s.statistics
  {
    SealUnpack(s.statistics, covered);
    var first := WriteValues(nvm, s, covered);
    var after := WriteValues(first, other, covered);
    Arith.SlotsDisjoint(s.id, other.id, RecordSize);
    assert RecordAt(after, s.id) == RecordAt(first, s.id);
  }

  // ---------------------------------------------------------------------
  // What the CRC as written leaves unchecked

  /** As written, the CRC covers the maximum only: a record whose minimum
      and valid flag were altered still passes. */
  lemma AsWrittenIgnoresMinAndValid(record: seq<byte>, lo: byte, hi: byte, flag: byte)
    requires |record| == RecordSize && CrcValid(record, CoveredAsWritten)
    ensures CrcValid(record[2 := lo][3 := hi][4 := flag], CoveredAsWritten)
  {
    assert record[2 := lo][3 := hi][4 := flag][..2] == record[..2];
  }

  /** A zeroed record passes both checks. Setting its valid byte turns
      invalid statistics into valid ones: the CRC test as written accepts
      the altered record, the intended one rejects it. */
  lemma CorruptValidFlag()
    ensures CrcValid(Zeros(7), CoveredAsWritten) && CrcValid(Zeros(7), CoveredIntended)
    ensures !Unpack(Zeros(7)).valid && Unpack(Zeros(7)[4 := 1]).valid
    ensures CrcValid(Zeros(7)[4 := 1], CoveredAsWritten)
    ensures !CrcValid(Zeros(7)[4 := 1], CoveredIntended)
  {
    Crc16.CrcOfZeros(2);
    Crc16.CrcOfZeros(4);
    Crc16.CrcOfZeros(5);
    assert Zeros(7)[..2] == Zeros(2);
    assert Zeros(7)[..5] == Zeros(5);
    var altered := Zeros(7)[4 := 1];
    assert altered[..2] == Zeros(2);
    assert altered[..5][..4] == Zeros(4);
    assert Crc16.Crc(altered[..5]) == Crc16.Step(0, 1);
    assert Crc16.Step(0, 1) == 0x8005;
  }

  /** With the CRC over everything in front of it, every change of a
      single byte of the statistics is caught. */
  lemma IntendedDetectsByteChange(record: seq<byte>, i: nat, b: byte)
    requires |record| == RecordSize && CrcValid(record, CoveredIntended)
    requires i < CrcOffset && b != record[i]
    ensures !CrcValid(record[i := b], CoveredIntended)
  {
    var altered := record[i := b];
    assert altered[..CrcOffset] == record[..CrcOffset][i := b];
    assert altered[CrcOffset..] == record[CrcOffset..];
    Crc16.CrcValueDetectsByteChange(record[..CrcOffset], i, b);
  }

  // ---------------------------------------------------------------------
  // The registry

  /** Sensor `i` sits at index `i`, and there are at most nine. */
  predicate WellFormed(m: Registry) {
    |m.sensors| <= MaxSensors && forall i :: 0 <= i < |m.sensors| ==> m.sensors[i].id == i
  }

  /** Sensor_Init. */
  function Init(nvm: Region): (m: Registry)
    ensures WellFormed(m) && m.sensors == []
  {
    Registry([], nvm)
  }

  /** Sensor_Register: the new sensor gets the next index as its id, is
      reset, and picks up its statistics from NVM when they check. */
  function Register(m: Registry, covered: nat): (r: Result<Registry, SensorError>)
    requires WellFormed(m) && covered <= CrcOffset
    ensures r.Ok? <==> |m.sensors| < MaxSensors
    ensures r.Ok? ==> (WellFormed(r.value) && r.value.nvm == m.nvm
                       && |r.value.sensors| == |m.sensors| + 1 && r.value.sensors[..|m.sensors|] == m.sensors)
  {
    if |m.sensors| >= MaxSensors then Err(AssertionFailed)
    else
      var blank := ResetValues(Sensor(|m.sensors|, 0, false, ResetStatistics));
      var s := ReadValues(blank, m.nvm, covered);
      Ok(m.(sensors := m.sensors + [s]))
  }

  /** A registered sensor starts with no valid value, and with statistics
      that are valid only when its NVM record checks and says so. */
  lemma RegisterReadsRecord(m: Registry, covered: nat)
    requires WellFormed(m) && covered <= CrcOffset && |m.sensors| < MaxSensors
    ensures var s := Register(m, covered).value.sensors[|m.sensors|];
            var record := RecordAt(m.nvm, |m.sensors|);
            !s.valid && s.value == 0
            && (s.statistics.valid <==> CrcValid(record, covered) && record[4] != 0)
            && (CrcValid(record, covered) ==> s.statistics == Unpack(record))
  {
  }

  /** What one turn of Sensor_Update makes of a sensor: the callback, if
      any, sets its value and validity, and a valid value is then folded
      into the statistics. */
  function Accept(s: Sensor, sample: Sample): (r: Sensor)
    ensures r.id == s.id
    ensures sample.Measured? ==> r.value == sample.value && r.valid == sample.valid
    ensures sample.NoCallback? ==> r.value == s.value && r.valid == s.valid
    ensures r.valid ==> r.statistics == SetSensorValues(s, r.value).statistics
    ensures !r.valid ==> r.statistics == s.statistics
  {
    var measured := if sample.Measured? then s.(value := sample.value, valid := sample.valid) else s;
    if measured.valid then SetSensorValues(measured, measured.value) else measured
  }

  /** Writing one sensor's record leaves every other sensor's record as
      it was. */
  lemma WriteKeepsOtherRecords(nvm: Region, s: Sensor, j: nat, covered: nat)
    requires s.id < MaxSensors && j < MaxSensors && j != s.id && covered <= CrcOffset
    ensures RecordAt(WriteValues(nvm, s, covered), j) == RecordAt(nvm, j)
  {
    Arith.SlotsDisjoint(s.id, j, RecordSize);
  }

  /** One sensor's turn in Sensor_Update: run its callback, and when the
      value is valid fold it into the statistics and persist them. */
  function UpdateOne(m: Registry, i: nat, sample: Sample, covered: nat): (r: Registry)
    requires WellFormed(m) && i < |m.sensors| && covered <= CrcOffset
    ensures WellFormed(r) && |r.sensors| == |m.sensors|
    ensures r.sensors[i] == Accept(m.sensors[i], sample)
    ensures forall j :: 0 <= j < |m.sensors| && j != i ==> r.sensors[j] == m.sensors[j]
    ensures !r.sensors[i].valid ==> r.nvm == m.nvm
    ensures r.sensors[i].valid ==>
      ReadValues(r.sensors[i], r.nvm, covered).statistics == r.sensors[i].statistics
    ensures forall j :: 0 <= j < MaxSensors && j != i ==> RecordAt(r.nvm, j) == RecordAt(m.nvm, j)
  {
    var s := m.sensors[i];
    var measured := if sample.Measured? then s.(value := sample.value, valid := sample.valid) else s;
    if measured.valid then
      var updated := SetSensorValues(measured, measured.value);
      SealUnpack(updated.statistics, covered);
      assert forall j :: 0 <= j < MaxSensors && j != i ==>
        RecordAt(WriteValues(m.nvm, updated, covered), j) == RecordAt(m.nvm, j) by {
        forall j | 0 <= j < MaxSensors && j != i {
          WriteKeepsOtherRecords(m.nvm, updated, j, covered);
        }
      }
      Registry(m.sensors[i := updated], WriteValues(m.nvm, updated, covered))
    else
      var r := Registry(m.sensors[i := measured], m.nvm);
      r
  }

  /** Sensor_Update: every registered sensor takes its turn, in index
      order. Each ends as Accept makes it from its sample, and a sensor
      whose value was valid has its new statistics persisted. */
  function Update(m: Registry, samples: seq<Sample>, covered: nat): (r: Registry)
    requires WellFormed(m) && |samples| == |m.sensors| && covered <= CrcOffset
    ensures WellFormed(r) && |r.sensors| == |m.sensors|
    ensures forall j :: 0 <= j < |m.sensors| ==> r.sensors[j] == Accept(m.sensors[j], samples[j])
    ensures forall j :: 0 <= j < |m.sensors| && r.sensors[j].valid ==>
      ReadValues(r.sensors[j], r.nvm, covered).statistics == r.sensors[j].statistics
  {
    UpdateFrom(m, samples, 0, covered)
  }

  /** The loop of Sensor_Update from index `i` on. */
  function UpdateFrom(m: Registry, samples: seq<Sample>, i: nat, covered: nat): (r: Registry)
    requires WellFormed(m) && |samples| == |m.sensors| && i <= |m.sensors| && covered <= CrcOffset
    ensures WellFormed(r) && |r.sensors| == |m.sensors|
    ensures forall j :: 0 <= j < i ==> r.sensors[j] == m.sensors[j]
    ensures forall j :: 0 <= j < i ==> RecordAt(r.nvm, j) == RecordAt(m.nvm, j)
    ensures forall j :: i <= j < |m.sensors| ==> r.sensors[j] == Accept(m.sensors[j], samples[j])
    ensures forall j :: i <= j < |m.sensors| && r.sensors[j].valid ==>
      ReadValues(r.sensors[j], r.nvm, covered).statistics == r.sensors[j].statistics
    decreases |m.sensors| - i
  {
    if i == |m.sensors| then m
    else
      var next := UpdateOne(m, i, samples[i], covered);
      var r := UpdateFrom(next, samples, i + 1, covered);
      assert RecordAt(r.nvm, i) == RecordAt(next.nvm, i);
      r
  }

  // ---------------------------------------------------------------------
  // Repeated updates

  /** The turns of one sensor across successive updates. */
  function AcceptAll(s: Sensor, samples: seq<Sample>): Sensor
    decreases |samples|
  {
    if samples == [] then s else Accept(AcceptAll(s, samples[..|samples| - 1]), samples[|samples| - 1])
  }

  /** The values a run of samples hands to SetSensorValues: those of the
      callbacks that reported a valid value, in order. */
  function AcceptedValues(samples: seq<Sample>): seq<i16>
    decreases |samples|
  {
    if samples == [] then []
    else
      var last := samples[|samples| - 1];
      AcceptedValues(samples[..|samples| - 1]) + (if last.Measured? && last.valid then [last.value] else [])
  }

  /** For a sensor with a callback, its statistics after a run of turns
      are those of accepting exactly the valid values, whatever its value
      and validity were before. */
  lemma {:induction false} AcceptAllAccumulates(s: Sensor, t: Sensor, samples: seq<Sample>)
    requires s.statistics == t.statistics
    requires forall k :: 0 <= k < |samples| ==> samples[k].Measured?
    ensures AcceptAll(s, samples).statistics == Accumulate(t, AcceptedValues(samples)).statistics
    decreases |samples|
  {
    if samples != [] {
      var n := |samples| - 1;
      var prefix := samples[..n];
      AcceptAllAccumulates(s, t, prefix);
      var before := AcceptAll(s, prefix);
      var last := samples[n];
      if last.valid {
        var values := AcceptedValues(prefix) + [last.value];
        assert values[..|values| - 1] == AcceptedValues(prefix);
        assert Accumulate(t, values) == SetSensorValues(Accumulate(t, AcceptedValues(prefix)), last.value);
      } else {
        assert AcceptedValues(samples) == AcceptedValues(prefix);
      }
    }
  }

  /** Successive calls of Sensor_Update, one sample per sensor each. */
  function Updates(m: Registry, rounds: seq<seq<Sample>>, covered: nat): (r: Registry)
    requires WellFormed(m) && covered <= CrcOffset
    requires forall k :: 0 <= k < |rounds| ==> |rounds[k]| == |m.sensors|
    ensures WellFormed(r) && |r.sensors| == |m.sensors|
    decreases |rounds|
  {
    if rounds == [] then m
    else Update(Updates(m, rounds[..|rounds| - 1], covered), rounds[|rounds| - 1], covered)
  }

  /** The samples sensor `i` received across the rounds. */
  function Column(rounds: seq<seq<Sample>>, i: nat): (r: seq<Sample>)
    requires forall k :: 0 <= k < |rounds| ==> i < |rounds[k]|
    ensures |r| == |rounds|
  {
    seq(|rounds|, k requires 0 <= k < |rounds| => rounds[k][i])
  }

  /** Across successive updates each sensor evolves on its own, by its
      own samples. */
  lemma {:induction false} UpdatesAcceptAll(m: Registry, rounds: seq<seq<Sample>>, i: nat, covered: nat)
    requires WellFormed(m) && covered <= CrcOffset && i < |m.sensors|
    requires forall k :: 0 <= k < |rounds| ==> |rounds[k]| == |m.sensors|
    ensures Updates(m, rounds, covered).sensors[i] == AcceptAll(m.sensors[i], Column(rounds, i))
    decreases |rounds|
  {
    if rounds != [] {
      var n := |rounds| - 1;
      UpdatesAcceptAll(m, rounds[..n], i, covered);
      assert Column(rounds, i)[..n] == Column(rounds[..n], i);
    }
  }

  /** After successive updates from a reset, the minimum and maximum of
      a sensor with a callback bound every valid value it reported, and
      are valid exactly when it reported one. */
  lemma UpdatesBoundValues(m: Registry, rounds: seq<seq<Sample>>, i: nat, covered: nat)
    requires WellFormed(m) && covered <= CrcOffset && i < |m.sensors|
    requires m.sensors[i].statistics == ResetStatistics
    requires forall k :: 0 <= k < |rounds| ==> |rounds[k]| == |m.sensors| && rounds[k][i].Measured?
    ensures var st := Updates(m, rounds, covered).sensors[i].statistics;
            var values := AcceptedValues(Column(rounds, i));
            (st.valid <==> values != [])
            && forall k :: 0 <= k < |values| ==> st.min <= values[k] <= st.max
  {
    var column := Column(rounds, i);
    UpdatesAcceptAll(m, rounds, i, covered);
    AcceptAllAccumulates(m.sensors[i], ResetValues(m.sensors[i]), column);
    StatisticsBoundValues(m.sensors[i], AcceptedValues(column));
  }

  /** Sensor_Reset: reset the sensor and persist the reset statistics. */
  function Reset(m: Registry, i: nat, covered: nat): (r: Registry)
    requires WellFormed(m) && i < |m.sensors| && covered <= CrcOffset
    ensures WellFormed(r) && |r.sensors| == |m.sensors|
    ensures !r.sensors[i].valid && !r.sensors[i].statistics.valid
    ensures ReadValues(r.sensors[i], r.nvm, covered).statistics == ResetStatistics
  {
    var s := ResetValues(m.sensors[i]);
    SealUnpack(s.statistics, covered);
    Registry(m.sensors[i := s], WriteValues(m.nvm, s, covered))
  }
}

=== FILE: text.dfy ===
/** The pieces of Python's text handling the host tool relies on:
    `bytes.fromhex` for network ids, `str.encode` / `bytes.decode` (UTF-8,
    strict) for AES keys, and `str(int)` for the text of unknown error
    codes. Each is given with its inverse and a round-trip lemma. */
module Text {
  import opened Bytes
  import opened Wrappers
  import Arith

  // ---------------------------------------------------------------------
  // Hexadecimal

  /** The characters `bytes.fromhex` skips before each byte: ASCII space,
      tab, line feed, vertical tab, form feed and carriage return. */
  predicate IsSpace(c: char) {
    c == ' ' || c == '\t' || c == '\n' || c == '\U{B}' || c == '\U{C}' || c == '\r'
  }

  predicate IsHexDigit(c: char) {
    ('0' <= c <= '9') || ('a' <= c <= 'f') || ('A' <= c <= 'F')
  }

  function HexValue(c: char): (v: nat)
    requires IsHexDigit(c)
    ensures v < 16
  {
    if '0' <= c <= '9' then c as int - '0' as int
    else if 'a' <= c <= 'f' then c as int - 'a' as int + 10
    else c as int - 'A' as int + 10
  }

  /** The lower-case digit for a value below 16. */
  function HexDigit(v: nat): (c: char)
    requires v < 16
    ensures IsHexDigit(c) && HexValue(c) == v
  {
    if v < 10 then ('0' as int + v) as char else ('a' as int + v - 10) as char
  }

  /** `bytes.fromhex` raised ValueError: a character other than a hex
      digit where a digit was due, or a lone digit at the end. */
  datatype HexError = NonHexadecimalNumber

  /** The text with its whitespace taken out. */
  function Digits(s: string): (d: string)
    ensures |d| <= |s|
  {
    if |s| == 0 then "" else (if IsSpace(s[0]) then "" else [s[0]]) + Digits(s[1..])
  }

  /** Every character is whitespace or a hex digit. */
  predicate HexText(s: string) {
    forall i :: 0 <= i < |s| ==> IsSpace(s[i]) || IsHexDigit(s[i])
  }

  /** Every character is a hex digit. */
  predicate AllHexDigits(s: string) {
    forall i :: 0 <= i < |s| ==> IsHexDigit(s[i])
  }

  /** Both predicates hold of a text exactly when they hold of its first
      `k` characters and of the rest. */
  lemma SplitText(s: string, k: nat)
    requires k <= |s|
    ensures HexText(s) <==> (forall i :: 0 <= i < k ==> IsSpace(s[i]) || IsHexDigit(s[i])) && HexText(s[k..])
    ensures AllHexDigits(s) <==> (forall i :: 0 <= i < k ==> IsHexDigit(s[i])) && AllHexDigits(s[k..])
  {
    assert forall i :: k <= i < |s| ==> s[i] == s[k..][i - k];
  }

  /** `d` is the big-endian hex text of `v`: two digits per byte, the high
      nibble first. */
  predicate HexPairs(d: string, v: seq<byte>)
    decreases |v|
  {
    |d| == 2 * |v| &&
    (|v| == 0 ||
     (IsHexDigit(d[0]) && IsHexDigit(d[1]) && v[0] == 16 * HexValue(d[0]) + HexValue(d[1])
      && HexPairs(d[2..], v[1..])))
  }

  /** One more pair of digits in front puts one more byte in front. */
  lemma HexPairsCons(x: char, y: char, d: string, rest: seq<byte>)
    requires IsHexDigit(x) && IsHexDigit(y) && HexPairs(d, rest)
    ensures HexPairs([x, y] + d, [16 * HexValue(x) + HexValue(y)] + rest)
  {
    assert ([x, y] + d)[2..] == d;
    assert ([16 * HexValue(x) + HexValue(y)] + rest)[1..] == rest;
  }

  /** `bytes.fromhex(s)`: whitespace is skipped before each byte, and each
      byte is exactly two hex digits, upper or lower case. */
  function FromHex(s: string): (r: Result<seq<byte>, HexError>)
    ensures r.Ok? ==> 2 * |r.value| <= |s|
    decreases |s|
  {
    if |s| == 0 then Ok([])
    else if IsSpace(s[0]) then FromHex(s[1..])
    else if |s| >= 2 && IsHexDigit(s[0]) && IsHexDigit(s[1]) then
      match FromHex(s[2..])
      case Err(e) => Err(e)
      case Ok(rest) => Ok([16 * HexValue(s[0]) + HexValue(s[1])] + rest)
    else Err(NonHexadecimalNumber)
  }

  /** A text `bytes.fromhex` accepts holds only whitespace and hex
      digits. */
  lemma {:induction false} FromHexText(s: string)
    requires FromHex(s).Ok?
    ensures HexText(s)
    decreases |s|
  {
    if |s| == 0 {
    } else if IsSpace(s[0]) {
      assert FromHex(s) == FromHex(s[1..]);
      FromHexText(s[1..]);
      HexTextCons(s);
    } else {
      assert |s| >= 2 && IsHexDigit(s[0]) && IsHexDigit(s[1]);
      var t := s[2..];
      assert FromHex(t).Ok?;
      FromHexText(t);
      assert s[1..][1..] == t;
      HexTextCons(s[1..]);
      HexTextCons(s);
    }
  }

  /** The bytes `bytes.fromhex` yields are the value of the text's digits
      read in pairs. */
  lemma {:induction false} FromHexReadsPairs(s: string)
    requires FromHex(s).Ok?
    ensures HexPairs(Digits(s), FromHex(s).value)
    decreases |s|
  {
    if |s| == 0 {
    } else if IsSpace(s[0]) {
      assert FromHex(s) == FromHex(s[1..]);
      DigitsSpace(s);
      FromHexReadsPairs(s[1..]);
    } else {
      assert |s| >= 2 && IsHexDigit(s[0]) && IsHexDigit(s[1]);
      assert FromHex(s[2..]).Ok?;
      FromHexReadsPairs(s[2..]);
      ReadsPairsStep(s);
    }
  }

  /** The step of FromHexReadsPairs over a leading pair of digits. */
  lemma ReadsPairsStep(s: string)
    requires |s| >= 2 && IsHexDigit(s[0]) && IsHexDigit(s[1])
    requires FromHex(s[2..]).Ok? && HexPairs(Digits(s[2..]), FromHex(s[2..]).value)
    ensures FromHex(s).Ok? && HexPairs(Digits(s), FromHex(s).value)
  {
    var t := s[2..];
    FromHexPair(s);
    DigitsPair(s);
    HexPairsCons(s[0], s[1], Digits(t), FromHex(t).value);
  }

  /** Two hex digits in front put their byte in front of the rest. */
  lemma FromHexPair(s: string)
    requires |s| >= 2 && IsHexDigit(s[0]) && IsHexDigit(s[1]) && FromHex(s[2..]).Ok?
    ensures FromHex(s) == Ok([16 * HexValue(s[0]) + HexValue(s[1])] + FromHex(s[2..]).value)
  {
  }

  lemma HexTextCons(s: string)
    requires |s| > 0 && (IsSpace(s[0]) || IsHexDigit(s[0])) && HexText(s[1..])
    ensures HexText(s)
  {
    assert forall i :: 1 <= i < |s| ==> s[i] == s[1..][i - 1];
  }

  lemma DigitsSpace(s: string)
    requires |s| > 0 && IsSpace(s[0])
    ensures Digits(s) == Digits(s[1..])
  {
  }

  lemma DigitsPair(s: string)
    requires |s| >= 2 && IsHexDigit(s[0]) && IsHexDigit(s[1])
    ensures Digits(s) == [s[0], s[1]] + Digits(s[2..])
  {
    var t := s[1..];
    assert t[0] == s[1] && t[1..] == s[2..];
    DigitKept(t);
    DigitKept(s);
  }

  /** A hex digit is kept by Digits. */
  lemma DigitKept(s: string)
    requires |s| >= 1 && IsHexDigit(s[0])
    ensures Digits(s) == [s[0]] + Digits(s[1..])
  {
    assert !IsSpace(s[0]);
  }

  /** An odd number of hex digits is an error. */
  lemma {:induction false} FromHexOddDigits(s: string)
    requires |Digits(s)| % 2 == 1
    ensures FromHex(s).Err?
    decreases |s|
  {
    if IsSpace(s[0]) {
      assert FromHex(s) == FromHex(s[1..]);
      DigitsSpace(s);
      FromHexOddDigits(s[1..]);
    } else if |s| >= 2 && IsHexDigit(s[0]) && IsHexDigit(s[1]) {
      var t := s[2..];
      DigitsPair(s);
      Arith.ModShift(|Digits(t)|, 1, 2);
      FromHexOddDigits(t);
    }
  }

  /** Text of hex digits alone, of even length, always decodes. */
  lemma {:induction false} FromHexEvenDigits(s: string)
    requires AllHexDigits(s) && |s| % 2 == 0
    ensures FromHex(s).Ok?
    decreases |s|
  {
    if |s| > 0 {
      assert IsHexDigit(s[0]) && IsHexDigit(s[1]);
      SplitText(s, 2);
      FromHexEvenDigits(s[2..]);
    }
  }

  /** Whitespace is allowed only between bytes: a space between the two
      digits of one byte is an error. */
  lemma FromHexSpaceInsideByte(x: char, y: char)
    requires IsHexDigit(x) && IsHexDigit(y)
    ensures FromHex([x, ' ', y]).Err?
  {
    var bad := [x, ' ', y];
    assert !IsSpace(bad[0]) && !IsHexDigit(bad[1]);
  }

  /** `bytes.hex()`: two lower-case digits per byte, no separators. */
  function ToHex(b: seq<byte>): (s: string)
    ensures |s| == 2 * |b|
    ensures forall i :: 0 <= i < |s| ==> IsHexDigit(s[i])
  {
    if |b| == 0 then "" else [HexDigit(b[0] / 16), HexDigit(b[0] % 16)] + ToHex(b[1..])
  }

  lemma {:induction false} HexRoundTrip(b: seq<byte>)
    ensures FromHex(ToHex(b)) == Ok(b)
  {
    if |b| > 0 {
      var s := ToHex(b);
      assert s[2..] == ToHex(b[1..]);
      HexRoundTrip(b[1..]);
      assert b == [b[0]] + b[1..];
    }
  }

  /** Whitespace in front of the text does not change what it decodes to. */
  lemma {:induction false} FromHexSkipsLeadingSpace(pad: string, s: string)
    requires forall i :: 0 <= i < |pad| ==> IsSpace(pad[i])
    ensures FromHex(pad + s) == FromHex(s)
    decreases |pad|
  {
    if |pad| > 0 {
      assert (pad + s)[0] == pad[0];
      assert (pad + s)[1..] == pad[1..] + s;
      FromHexSkipsLeadingSpace(pad[1..], s);
    } else {
      assert pad + s == s;
    }
  }

  // ---------------------------------------------------------------------
  // UTF-8

  /** A Dafny `char` is a Unicode scalar value, so it can always be encoded
      (Python strings may also hold lone surrogates, which `encode` rejects;
      those have no counterpart here). */
  function EncodeChar(c: char): (r: seq<byte>)
    ensures 1 <= |r| <= 4
    ensures c as int < 0x80 ==> r == [c as int]
  {
    var cp := c as int;
    if cp < 0x80 then [cp]
    else if cp < 0x800 then [0xC0 + cp / 0x40, 0x80 + cp % 0x40]
    else if cp < 0x1_0000 then [0xE0 + cp / 0x1000, 0x80 + cp / 0x40 % 0x40, 0x80 + cp % 0x40]
    else [0xF0 + cp / 0x4_0000, 0x80 + cp / 0x1000 % 0x40, 0x80 + cp / 0x40 % 0x40, 0x80 + cp % 0x40]
  }

  /** `str.encode()`: UTF-8, one to four bytes per character. */
  function Utf8Encode(s: string): (r: seq<byte>)
    ensures |s| <= |r| <= 4 * |s|
    decreases |s|
  {
    if |s| == 0 then [] else EncodeChar(s[0]) + Utf8Encode(s[1..])
  }

  /** `bytes.decode()` raised UnicodeDecodeError. */
  datatype Utf8Error = InvalidUtf8(position: nat)

  predicate IsContinuation(b: byte) { 0x80 <= b < 0xC0 }

  /** The length of the sequence a lead byte announces, 0 for a byte that
      cannot start one. */
  function SequenceLength(b: byte): nat {
    if b < 0x80 then 1
    else if 0xC0 <= b < 0xE0 then 2
    else if 0xE0 <= b < 0xF0 then 3
    else if 0xF0 <= b < 0xF8 then 4
    else 0
  }

  /** The smallest code point a sequence of `n` bytes may carry; anything
      smaller is an overlong form, which a strict decoder rejects. */
  function MinCodePoint(n: nat): nat {
    if n <= 1 then 0 else if n == 2 then 0x80 else if n == 3 then 0x800 else 0x1_0000
  }

  predicate IsScalarValue(cp: int) {
    (0 <= cp < 0xD800) || (0xE000 <= cp < 0x11_0000)
  }

  /** The six payload bits of continuation byte `i`, 0 past the end. */
  function Payload(s: seq<byte>, i: nat): int {
    if i < |s| then s[i] as int - 0x80 else 0
  }

  /** The code point carried by a lead byte and its continuation bytes. */
  function Assemble(s: seq<byte>): int
    requires 1 <= |s| <= 4
  {
    var b0, b1, b2, b3 := s[0] as int, Payload(s, 1), Payload(s, 2), Payload(s, 3);
    if |s| == 1 then b0
    else if |s| == 2 then (b0 - 0xC0) * 0x40 + b1
    else if |s| == 3 then ((b0 - 0xE0) * 0x40 + b1) * 0x40 + b2
    else (((b0 - 0xF0) * 0x40 + b1) * 0x40 + b2) * 0x40 + b3
  }

  /** Decode one character at the front of `b`, with its length. */
  function DecodeChar(b: seq<byte>): Option<(char, nat)>
    requires |b| > 0
  {
    var n := SequenceLength(b[0]);
    if n == 0 || |b| < n then None
    else if exists i :: 1 <= i < n && !IsContinuation(b[i]) then None
    else
      var cp := Assemble(b[..n]);
      if cp < MinCodePoint(n) || !IsScalarValue(cp) then None
      else Some((cp as char, n))
  }

  /** `bytes.decode()` with the strict UTF-8 codec: overlong forms,
      surrogates and code points above U+10FFFF are errors. */
  function Utf8Decode(b: seq<byte>, offset: nat := 0): (r: Result<string, Utf8Error>)
    ensures r.Ok? ==> |r.value| <= |b|
    ensures r.Ok? ==> Utf8Encode(r.value) == b
    ensures r.Err? ==> offset <= r.error.position < offset + |b|
    decreases |b|
  {
    if |b| == 0 then Ok("")
    else
      match DecodeChar(b)
      case None => Err(InvalidUtf8(offset))
      case Some((c, n)) =>
        DecodeCharEncodes(b);
        match Utf8Decode(b[n..], offset + n)
        case Err(e) => Err(e)
        case Ok(rest) =>
          DecodeStep(b, c, n, rest);
          Ok([c] + rest)
  }

  /** A character read from the front, followed by the decode of the
      rest, encodes back to the whole input. */
  lemma DecodeStep(b: seq<byte>, c: char, n: nat, rest: string)
    requires 1 <= n <= |b| && EncodeChar(c) == b[..n] && Utf8Encode(rest) == b[n..]
    ensures Utf8Encode([c] + rest) == b
  {
    assert ([c] + rest)[0] == c && ([c] + rest)[1..] == rest;
    assert b == b[..n] + b[n..];
  }

  /** The strict decoder admits one form per character: a character it
      reads is encoded back to exactly the bytes it was read from. */
  lemma DecodeCharEncodes(b: seq<byte>)
    requires |b| > 0 && DecodeChar(b).Some?
    ensures 1 <= DecodeChar(b).value.1 <= |b|
    ensures EncodeChar(DecodeChar(b).value.0) == b[..DecodeChar(b).value.1]
  {
    var n := SequenceLength(b[0]);
    var cp := Assemble(b[..n]);
    assert forall i :: 1 <= i < n ==> IsContinuation(b[i]);
    var b0, p1, p2, p3 := b[0] as int, Payload(b[..n], 1), Payload(b[..n], 2), Payload(b[..n], 3);
    if n == 2 {
      Arith.ModUnique(cp, 0x40, b0 - 0xC0, p1);
    } else if n == 3 {
      Arith.ModUnique(cp, 0x40, (b0 - 0xE0) * 0x40 + p1, p2);
      Arith.ModUnique(cp / 0x40, 0x40, b0 - 0xE0, p1);
      Arith.ModUnique(cp, 0x1000, b0 - 0xE0, p1 * 0x40 + p2);
    } else if n == 4 {
      Arith.ModUnique(cp, 0x40, ((b0 - 0xF0) * 0x40 + p1) * 0x40 + p2, p3);
      Arith.ModUnique(cp / 0x40, 0x40, (b0 - 0xF0) * 0x40 + p1, p2);
      Arith.ModUnique(cp, 0x1000, (b0 - 0xF0) * 0x40 + p1, p2 * 0x40 + p3);
      Arith.ModUnique(cp / 0x1000, 0x40, b0 - 0xF0, p1);
      Arith.ModUnique(cp, 0x4_0000, b0 - 0xF0, (p1 * 0x40 + p2) * 0x40 + p3);
    }
  }

  lemma EncodeTwo(cp: int)
    requires 0x80 <= cp < 0x800
    ensures var e := [0xC0 + cp / 0x40, 0x80 + cp % 0x40];
      SequenceLength(e[0]) == 2 && IsContinuation(e[1]) && Assemble(e) == cp
  {
  }

  lemma EncodeThree(cp: int)
    requires 0x800 <= cp < 0x1_0000
    ensures var e := [0xE0 + cp / 0x1000, 0x80 + cp / 0x40 % 0x40, 0x80 + cp % 0x40];
      SequenceLength(e[0]) == 3 && IsContinuation(e[1]) && IsContinuation(e[2]) && Assemble(e) == cp
  {
    var hi, mid, lo := cp / 0x1000, cp / 0x40 % 0x40, cp % 0x40;
    assert cp / 0x40 == hi * 0x40 + mid;
    assert cp == (cp / 0x40) * 0x40 + lo;
  }

  lemma EncodeFour(cp: int)
    requires 0x1_0000 <= cp < 0x11_0000
    ensures var e := [0xF0 + cp / 0x4_0000, 0x80 + cp / 0x1000 % 0x40, 0x80 + cp / 0x40 % 0x40, 0x80 + cp % 0x40];
      SequenceLength(e[0]) == 4 && IsContinuation(e[1]) && IsContinuation(e[2]) && IsContinuation(e[3])
      && Assemble(e) == cp
  {
    var top, hi, mid, lo := cp / 0x4_0000, cp / 0x1000 % 0x40, cp / 0x40 % 0x40, cp % 0x40;
    assert cp / 0x1000 == top * 0x40 + hi;
    assert cp / 0x40 == (cp / 0x1000) * 0x40 + mid;
    assert cp == (cp / 0x40) * 0x40 + lo;
  }

  /** The encoder's lead byte announces the encoder's length, its other
      bytes are continuation bytes, and together they carry the code point. */
  lemma EncodeCharWellFormed(c: char)
    ensures var e := EncodeChar(c);
      SequenceLength(e[0]) == |e| && Assemble(e) == c as int
      && (forall i :: 1 <= i < |e| ==> IsContinuation(e[i]))
      && c as int >= MinCodePoint(|e|)
  {
    var cp := c as int;
    if cp < 0x80 {
    } else if cp < 0x800 {
      EncodeTwo(cp);
    } else if cp < 0x1_0000 {
      EncodeThree(cp);
    } else {
      EncodeFour(cp);
    }
  }

  lemma EncodeCharDecodes(c: char, tail: seq<byte>)
    ensures DecodeChar(EncodeChar(c) + tail) == Some((c, |EncodeChar(c)|))
  {
    var e := EncodeChar(c);
    var b := e + tail;
    var n := |e|;
    EncodeCharWellFormed(c);
    assert b[..n] == e;
    assert b[0] == e[0];
    assert forall i :: 1 <= i < n ==> b[i] == e[i];
  }

  lemma {:induction false} Utf8RoundTrip(s: string, offset: nat)
    ensures Utf8Decode(Utf8Encode(s), offset) == Ok(s)
    decreases |s|
  {
    if |s| > 0 {
      Utf8RoundTrip(s[1..], offset + |EncodeChar(s[0])|);
      DecodeAppend(s[0], Utf8Encode(s[1..]), s[1..], offset);
      assert s == [s[0]] + s[1..];
    }
  }

  /** An encoded character followed by bytes that decode to `text`
      decodes to the character followed by `text`. */
  lemma DecodeAppend(c: char, rest: seq<byte>, text: string, offset: nat)
    requires Utf8Decode(rest, offset + |EncodeChar(c)|) == Ok(text)
    ensures Utf8Decode(EncodeChar(c) + rest, offset) == Ok([c] + text)
  {
    var e := EncodeChar(c);
    EncodeCharDecodes(c, rest);
    assert (e + rest)[|e|..] == rest;
  }

  /** Decoding has no choice to make: bytes that some text encodes to
      decode to that text and no other. */
  lemma Utf8DecodeUnique(b: seq<byte>)
    ensures forall s :: Utf8Encode(s) == b ==> Utf8Decode(b) == Ok(s)
  {
    forall s | Utf8Encode(s) == b
      ensures Utf8Decode(b) == Ok(s)
    {
      Utf8RoundTrip(s, 0);
    }
  }

  /** ASCII text encodes to its character codes, one byte each. */
  lemma {:induction false} Utf8EncodeAscii(s: string)
    requires forall i :: 0 <= i < |s| ==> s[i] as int < 0x80
    ensures |Utf8Encode(s)| == |s|
    ensures forall i :: 0 <= i < |s| ==> Utf8Encode(s)[i] == s[i] as int
    decreases |s|
  {
    if |s| > 0 {
      Utf8EncodeAscii(s[1..]);
    }
  }

  // ---------------------------------------------------------------------
  // Decimal

  function DigitChar(d: nat): (c: char)
    requires d < 10
    ensures '0' <= c <= '9'
  {
    ('0' as int + d) as char
  }

  /** The digits of a natural number, most significant first, no leading
      zeros except for zero itself. */
  function NatDigits(n: nat): (s: string)
    ensures |s| >= 1
    ensures forall i :: 0 <= i < |s| ==> '0' <= s[i] <= '9'
    decreases n
  {
    if n < 10 then [DigitChar(n)] else NatDigits(n / 10) + [DigitChar(n % 10)]
  }

  /** `str(n)` for a Python int: text that `int` parses back to `n`,
      starting with a minus sign exactly when `n` is negative. */
  function DecimalString(n: int): (s: string)
    ensures ParseDecimal(s) == Some(n)
    ensures |s| > 0 && (s[0] == '-' <==> n < 0)
  {
    if n < 0 then
      NegativeRoundTrip(-n);
      "-" + NatDigits(-n)
    else
      NatRoundTrip(n);
      NatDigits(n)
  }

  /** The value of a string of decimal digits. */
  function DigitsValue(s: string): nat
    requires forall i :: 0 <= i < |s| ==> '0' <= s[i] <= '9'
    decreases |s|
  {
    if |s| == 0 then 0
    else 10 * DigitsValue(s[..|s| - 1]) + (s[|s| - 1] as int - '0' as int)
  }

  /** `int(s)` for the strings `str` produces. */
  function ParseDecimal(s: string): Option<int> {
    if |s| > 0 && s[0] == '-' && |s| > 1 && forall i :: 1 <= i < |s| ==> '0' <= s[i] <= '9' then
      var v: int := DigitsValue(s[1..]);
      Some(-v)
    else if |s| > 0 && forall i :: 0 <= i < |s| ==> '0' <= s[i] <= '9' then
      Some(DigitsValue(s))
    else None
  }

  lemma {:induction false} NatDigitsValue(n: nat)
    ensures DigitsValue(NatDigits(n)) == n
    decreases n
  {
    if n >= 10 {
      var s := NatDigits(n);
      assert s[..|s| - 1] == NatDigits(n / 10);
      NatDigitsValue(n / 10);
    }
  }

  lemma {:induction false} NegativeRoundTrip(m: nat)
    ensures ParseDecimal("-" + NatDigits(m)) == Some(-(m as int))
  {
    var d := NatDigits(m);
    assert DigitsValue(d) == m by {
      NatDigitsValue(m);
    }
    assert ParseDecimal("-" + d) == Some(-(DigitsValue(d) as int)) by {
      ParseNegative(d);
    }
  }

  lemma {:induction false} NatRoundTrip(m: nat)
    ensures ParseDecimal(NatDigits(m)) == Some(m)
  {
    ParseDigits(NatDigits(m));
    NatDigitsValue(m);
  }

  lemma ParseNegative(d: string)
    requires |d| >= 1 && forall i :: 0 <= i < |d| ==> '0' <= d[i] <= '9'
    ensures ParseDecimal("-" + d) == Some(-(DigitsValue(d) as int))
  {
    var s := "-" + d;
    assert s[1..] == d;
    assert forall i :: 1 <= i < |s| ==> s[i] == d[i - 1];
  }

  lemma ParseDigits(d: string)
    requires |d| >= 1 && forall i :: 0 <= i < |d| ==> '0' <= d[i] <= '9'
    ensures ParseDecimal(d) == Some(DigitsValue(d))
  {
    assert d[0] != '-';
  }
}

=== FILE: time.dfy ===
/** Calendar arithmetic on the firmware's broken-down time (Time.c). A
    `time_t` holds the year as an offset from 2000 and 1-based months and
    dates, each in an 8-bit field.

    The reference the operations are checked against is the count of days
    and seconds since 2000-01-01 00:00:00, built from month lengths and
    the Gregorian leap rule (`SecondsSinceEpoch`). */
module Time {
  import opened Bytes
  import opened Wrappers
  import Arith

  /** `struct time_t`. */
  datatype TimeT = TimeT(year: byte, month: byte, date: byte, hour: byte, minute: byte, second: byte)

  /** Why an operation has no defined result: an `sc_assert` failed, or
      the source would read a table outside its bounds. */
  datatype TimeError = AssertionFailed | OutOfBoundsRead

  const January: nat := 1
  const February: nat := 2
  const March: nat := 3
  const July: nat := 7
  const October: nat := 10
  const DaysInWeek: nat := 7
  const DaysInMarchOctober: nat := 31
  const OneMinute: nat := 60
  const OneHour: nat := 3600
  const OneDay: nat := 86400

  /** `days_in_months`, January first. */
  const DaysInMonths: seq<nat> := [31, 28, 31, 30, 31, 30, 31, 31, 30, 31, 30, 31]

  // ---------------------------------------------------------------------
  // The reference calendar

  predicate GregorianLeap(y: int) {
    y % 4 == 0 && (y % 100 != 0 || y % 400 == 0)
  }

  /** The length of month `m` of year 2000 + `y`. */
  function MonthLength(y: nat, m: nat): (r: nat)
    requires 1 <= m <= 12
    ensures 28 <= r <= 31
  {
    if m == February && GregorianLeap(2000 + y) then 29 else DaysInMonths[m - 1]
  }

  function DaysInYear(y: nat): nat {
    if GregorianLeap(2000 + y) then 366 else 365
  }

  /** Days from 2000-01-01 to the first of January of 2000 + `y`. */
  function DaysBeforeYear(y: nat): nat {
    if y == 0 then 0 else DaysBeforeYear(y - 1) + DaysInYear(y - 1)
  }

  /** Days from the first of January to the first of month `m`; month 13
      stands for the next first of January. */
  function DaysBeforeMonth(y: nat, m: nat): nat
    requires 1 <= m <= 13
  {
    if m == 1 then 0 else DaysBeforeMonth(y, m - 1) + MonthLength(y, m - 1)
  }

  /** A calendar time the firmware can represent: 2000 to 2099, real
      months and dates, a 24-hour clock. */
  predicate ValidTime(t: TimeT) {
    t.year <= 99 && 1 <= t.month <= 12 && 1 <= t.date <= MonthLength(t.year, t.month)
    && t.hour < 24 && t.minute < 60 && t.second < 60
  }

  function DaysSinceEpoch(t: TimeT): nat
    requires 1 <= t.month <= 12 && t.date >= 1
  {
    DaysBeforeYear(t.year) + DaysBeforeMonth(t.year, t.month) + t.date - 1
  }

  /** Seconds since 2000-01-01 00:00:00. */
  function SecondsSinceEpoch(t: TimeT): nat
    requires 1 <= t.month <= 12 && t.date >= 1
  {
    DaysSinceEpoch(t) * OneDay + t.hour * OneHour + t.minute * OneMinute + t.second
  }

  /** Up to 2100 the leap years are those divisible by four, 2000
      included. */
  lemma {:induction false} DaysBeforeYearClosed(y: nat)
    requires y <= 100
    ensures DaysBeforeYear(y) == 365 * y + (y + 3) / 4
  {
    if y > 0 {
      DaysBeforeYearClosed(y - 1);
    }
  }

  /** The days before each month: the cumulative table, plus one from
      March on in a leap year. */
  const CumulativeDays: seq<nat> := [0, 31, 59, 90, 120, 151, 181, 212, 243, 273, 304, 334, 365]

  lemma {:induction false} DaysBeforeMonthClosed(y: nat, m: nat)
    requires 1 <= m <= 13
    ensures DaysBeforeMonth(y, m) == CumulativeDays[m - 1] + if m > February && GregorianLeap(2000 + y) then 1 else 0
  {
    if m > 1 {
      DaysBeforeMonthClosed(y, m - 1);
    }
  }

  /** The months of a year add up to its length. */
  lemma MonthsFillYear(y: nat)
    ensures DaysBeforeMonth(y, 13) == DaysInYear(y)
  {
    DaysBeforeMonthClosed(y, 13);
  }

  // ---------------------------------------------------------------------
  // Leap years and month lengths

  /** Time_IsLeapYear: the Gregorian rule applied to `year + 2000` after
      it is stored back into the 8-bit year field. */
  function IsLeapYear(t: TimeT): (r: bool)
    ensures t.year <= 99 ==> (r <==> GregorianLeap(2000 + t.year))
    ensures t.year <= 99 ==> (r <==> t.year % 4 == 0)
  {
    var year := (t.year + 2000) % 0x100;
    if t.year <= 99 then LeapOfField(t.year); GregorianLeap(year) else GregorianLeap(year)
  }

  /** Up to 2099, both 2000 + `y` and its 8-bit remainder are leap years
      exactly when `y` is a multiple of four. */
  lemma LeapOfField(y: int)
    requires 0 <= y <= 99
    ensures GregorianLeap((y + 2000) % 0x100) <==> y % 4 == 0
    ensures GregorianLeap(2000 + y) <==> y % 4 == 0
  {
    if y < 48 {
      assert (y + 2000) % 0x100 == y + 208;
    } else {
      assert (y + 2000) % 0x100 == y - 48;
    }
  }

  /** Beyond the representable range the 8-bit wrap shows: 2148 is a
      leap year, but its field value 148 wraps to 100, which is not. */
  lemma IsLeapYearWraps()
    ensures GregorianLeap(2148) && !IsLeapYear(TimeT(148, 1, 1, 0, 0, 0))
    ensures IsLeapYear(TimeT(252, 1, 1, 0, 0, 0)) && !IsLeapYear(TimeT(255, 1, 1, 0, 0, 0))
  {
  }

  /** Time_GetDaysInMonth with the assertion the caller is meant to meet:
      a month from 1 to 12. */
  function GetDaysInMonth(t: TimeT): (r: Result<nat, TimeError>)
    ensures r.Ok? <==> 1 <= t.month <= 12
    ensures r.Ok? && t.year <= 99 ==> r.value == MonthLength(t.year, t.month)
    ensures r.Ok? ==> 28 <= r.value <= 31
  {
    if t.month < 1 || t.month > 12 then Err(AssertionFailed)
    else if t.month == February && IsLeapYear(t) then Ok(DaysInMonths[t.month - 1] + 1)
    else Ok(DaysInMonths[t.month - 1])
  }

  /** Time_GetDaysInMonth as written: its assertion only bounds the month
      from above, so month 0 passes it and the table is read at index -1,
      before its first element. */
  function GetDaysInMonthAsWritten(t: TimeT): (r: Result<nat, TimeError>)
    ensures r == Err(AssertionFailed) <==> t.month > 12
    ensures r == Err(OutOfBoundsRead) <==> t.month == 0
    ensures 1 <= t.month <= 12 ==> r == GetDaysInMonth(t)
  {
    if t.month > 12 then Err(AssertionFailed)
    else if t.month == 0 then Err(OutOfBoundsRead)
    else GetDaysInMonth(t)
  }

  /** Month 0 gets past the assertion, which the corrected check rejects. */
  lemma MonthZeroPassesAssertion()
    ensures GetDaysInMonthAsWritten(TimeT(18, 0, 1, 0, 0, 0)) == Err(OutOfBoundsRead)
    ensures GetDaysInMonth(TimeT(18, 0, 1, 0, 0, 0)) == Err(AssertionFailed)
  {
  }

  // ---------------------------------------------------------------------
  // Timestamps

  /** Seconds from 2000-01-01 to 2100-01-01: every representable time lies
      before it. */
  const EndOfRange: nat := 36525

  /** The integer division and remainder of C, which truncate toward zero. */
  function TruncDiv(a: int, b: int): int
    requires b > 0
  {
    if a >= 0 then a / b else -((-a) / b)
  }

  function TruncMod(a: int, b: int): int
    requires b > 0
  {
    a - b * TruncDiv(a, b)
  }

  /** The leap days the source counts before the first of January of
      2000 + `year`: one for 2000 itself, then one every fourth year except
      the centuries. */
  function LeapDaysBefore(year: byte): nat {
    if year == 0 then 0 else (year - 1) / 4 - (year - 1) / 100 + 1
  }

  /** The day of the year (0-based) as Time_ConvertToTimestamp derives it
      from the month and date. March to December follow the pattern of
      61-day month pairs from March on with a phase change after July;
      January and February take the special case. */
  function DayOfYearAsWritten(t: TimeT): (r: int)
    ensures r == DayOfYear(t) + JanFebError(t)
  {
    var d := t.date - 1;
    if t.month < 2 then
      if t.month != 0 then d + 31 else d
    else
      var n := t.month - March;
      var phase := if n > July - March then 153 else 0;
      var pair := TruncMod(n, 5);
      var leap := if IsLeapYear(t) then 1 else 0;
      d + 59 + leap + phase + TruncDiv(pair, 2) * 61 + (if pair % 2 == 1 then 31 else 0)
  }

  /** The day of the year with the special case for the first two months
      reading `month < 3`: January adds nothing, February one January. */
  function DayOfYear(t: TimeT): int {
    var d := t.date - 1;
    if t.month < March then
      if t.month == February then d + 31 else d
    else
      var n := t.month - March;
      var phase := if n > July - March then 153 else 0;
      var pair := n % 5;
      var leap := if IsLeapYear(t) then 1 else 0;
      d + 59 + leap + phase + (pair / 2) * 61 + (if pair % 2 == 1 then 31 else 0)
  }

  /** The 32-bit arithmetic that turns elapsed years and a day of the year
      into seconds. */
  function Timestamp(t: TimeT, dayOfYear: int): (r: u32)
    ensures var days := 365 * t.year + LeapDaysBefore(t.year) + dayOfYear;
            var seconds := days * OneDay + t.hour * OneHour + t.minute * OneMinute + t.second;
            0 <= days && seconds < U32Limit ==> r == seconds
  {
    var days := (365 * t.year + LeapDaysBefore(t.year) + dayOfYear) % U32Limit;
    var whole := (days * OneDay) % U32Limit;
    var fraction := t.hour * OneHour + t.minute * OneMinute + t.second;
    (whole + fraction) % U32Limit
  }

  /** Time_ConvertToTimestamp as written: exact from March on. */
  function ConvertToTimestampAsWritten(t: TimeT): (r: u32)
    ensures t.month >= March ==> r == ConvertToTimestamp(t)
    ensures ValidTime(t) && t.month >= March ==> r == SecondsSinceEpoch(t)
  {
    Timestamp(t, DayOfYearAsWritten(t))
  }

  /** Time_ConvertToTimestamp with the January/February case corrected. */
  function ConvertToTimestamp(t: TimeT): (r: u32)
    ensures ValidTime(t) ==> r == SecondsSinceEpoch(t)
  {
    var r := Timestamp(t, DayOfYear(t));
    if ValidTime(t) then TimestampCorrect(t); r else r
  }

  lemma LeapDaysBeforeClosed(year: byte)
    requires year <= 100
    ensures LeapDaysBefore(year) == (year + 3) / 4
  {
  }

  /** The day of the year month by month: the cumulative month lengths,
      plus the leap day from March on. */
  lemma DayOfYearTable(t: TimeT)
    requires 1 <= t.month <= 12
    ensures DayOfYear(t) == t.date - 1 + CumulativeDays[t.month - 1] + if t.month > February && IsLeapYear(t) then 1 else 0
  {
    var m := t.month;
    if m == 1 {
    } else if m == 2 {
    } else if m == 3 {
    } else if m == 4 {
    } else if m == 5 {
    } else if m == 6 {
    } else if m == 7 {
    } else if m == 8 {
    } else if m == 9 {
    } else if m == 10 {
    } else if m == 11 {
    } else {
    }
  }

  lemma DayOfYearCorrect(t: TimeT)
    requires t.year <= 99 && 1 <= t.month <= 12
    ensures DayOfYear(t) == DaysBeforeMonth(t.year, t.month) + t.date - 1
  {
    DayOfYearTable(t);
    DaysBeforeMonthClosed(t.year, t.month);
  }

  /** Every representable time falls before 2100. */
  lemma DaysSinceEpochBound(t: TimeT)
    requires ValidTime(t)
    ensures DaysSinceEpoch(t) < EndOfRange
  {
    DaysBeforeMonthClosed(t.year, t.month);
    DaysBeforeYearClosed(t.year);
  }

  lemma TimestampCorrect(t: TimeT)
    requires ValidTime(t)
    ensures Timestamp(t, DayOfYear(t)) == SecondsSinceEpoch(t)
  {
    DayOfYearCorrect(t);
    DaysBeforeYearClosed(t.year);
    LeapDaysBeforeClosed(t.year);
    DaysSinceEpochBound(t);
    var days := 365 * t.year + LeapDaysBefore(t.year) + DayOfYear(t);
    assert days == DaysSinceEpoch(t);
    assert days * OneDay + t.hour * OneHour + t.minute * OneMinute + t.second < U32Limit;
  }

  /** How far the as-written conversion is off, in days: January is
      counted as if it followed a full January, February as if it
      followed March and April. */
  function JanFebError(t: TimeT): nat {
    if t.month == January then 31
    else if t.month == February then 59 + (if IsLeapYear(t) then 1 else 0)
    else 0
  }

  /** From March on the as-written conversion is exact; in January and
      February it is ahead by `JanFebError` whole days. */
  lemma ConvertToTimestampAsWrittenError(t: TimeT)
    requires ValidTime(t)
    ensures ConvertToTimestampAsWritten(t) == SecondsSinceEpoch(t) + JanFebError(t) * OneDay
    ensures t.month >= March ==> ConvertToTimestampAsWritten(t) == ConvertToTimestamp(t)
  {
    DayOfYearTable(t);
    TimestampCorrect(t);
    DayOfYearCorrect(t);
    DaysBeforeYearClosed(t.year);
    DaysSinceEpochBound(t);
  }

  /** The first second of 2000 is stamped as the first second of
      February, and the first of February 2000 comes out later than the
      first of March. */
  lemma ConvertToTimestampJanFeb()
    ensures ConvertToTimestampAsWritten(TimeT(0, 1, 1, 0, 0, 0)) == 2678400
    ensures ConvertToTimestamp(TimeT(0, 1, 1, 0, 0, 0)) == 0
    ensures ConvertToTimestampAsWritten(TimeT(0, 2, 1, 0, 0, 0)) > ConvertToTimestampAsWritten(TimeT(0, 3, 1, 0, 0, 0))
  {
    NewYearAsWritten();
    FebruaryAfterMarch();
  }

  lemma NewYearAsWritten()
    ensures ConvertToTimestampAsWritten(TimeT(0, 1, 1, 0, 0, 0)) == 2678400
    ensures ConvertToTimestamp(TimeT(0, 1, 1, 0, 0, 0)) == 0
  {
    ConvertToTimestampAsWrittenError(TimeT(0, 1, 1, 0, 0, 0));
  }

  lemma FebruaryAfterMarch()
    ensures ConvertToTimestampAsWritten(TimeT(0, 2, 1, 0, 0, 0)) > ConvertToTimestampAsWritten(TimeT(0, 3, 1, 0, 0, 0))
  {
    ConvertToTimestampAsWrittenError(TimeT(0, 2, 1, 0, 0, 0));
    ConvertToTimestampAsWrittenError(TimeT(0, 3, 1, 0, 0, 0));
  }

  // ---------------------------------------------------------------------
  // Adding to a time

  /** Time_AddYears: add in the 8-bit year field, then clamp to 2099. */
  function AddYears(t: TimeT, years: byte): (r: TimeT)
    ensures r == t.(year := r.year) && r.year <= 99
    ensures t.year + years <= 99 ==> r.year == t.year + years
    ensures 99 < t.year + years < 0x100 ==> r.year == 99
  {
    var year := (t.year + years) % 0x100;
    t.(year := if year > 99 then 99 else year)
  }

  /** Past 255 the sum wraps before it is clamped: 2099 plus 200 years
      is 2043. The carries of the `Add` chain stay below 43, so only a
      direct call reaches this. */
  lemma AddYearsWraps()
    ensures AddYears(TimeT(99, 1, 1, 0, 0, 0), 200).year == 43
  {
  }

  /** Time_AddMonths as written: the month is reduced modulo 12 as if it
      were 0-based, so adding to November yields month 0. */
  function AddMonthsAsWritten(t: TimeT, months: byte): (r: TimeT)
    ensures r.month < 12
    ensures r == t.(year := r.year, month := r.month)
  {
    var sum := t.month + months;
    var carry := sum / 12;
    var t' := t.(month := sum % 12);
    if carry > 0 then AddYears(t', carry) else t'
  }

  /** Time_AddDays as written: the date is reduced modulo the month length
      as if it were 0-based, and a carry of two months fails the assertion. */
  function AddDaysAsWritten(t: TimeT, days: byte): (r: Result<TimeT, TimeError>)
    ensures r.Ok? ==> 1 <= t.month <= 12 && r.value.date < GetDaysInMonth(t).value
    ensures r.Ok? ==> r.value == t.(year := r.value.year, month := r.value.month, date := r.value.date)
  {
    var daysInMonth :- GetDaysInMonthAsWritten(t);
    var sum := t.date + days;
    var carry := sum / daysInMonth;
    var t' := t.(date := sum % daysInMonth);
    if carry >= 2 then Err(AssertionFailed)
    else if carry > 0 then Ok(AddMonthsAsWritten(t', carry))
    else Ok(t')
  }

  /** Time_AddHours as written, on top of the as-written AddDays. */
  function AddHoursAsWritten(t: TimeT, hours: byte): (r: Result<TimeT, TimeError>)
    ensures r.Ok? ==> r.value.hour < 24
  {
    var sum := t.hour + hours;
    var carry := sum / 24;
    var t' := t.(hour := sum % 24);
    if carry > 0 then AddDaysAsWritten(t', carry) else Ok(t')
  }

  /** Time_AddMinutes as written, carrying into the as-written AddHours. */
  function AddMinutesAsWritten(t: TimeT, minutes: byte): (r: Result<TimeT, TimeError>)
    ensures r.Ok? ==> r.value.minute < 60 && r.value.second == t.second
  {
    var sum := t.minute + minutes;
    var carry := sum / 60;
    var t' := t.(minute := sum % 60);
    if carry > 0 then AddHoursAsWritten(t', carry) else Ok(t')
  }

  /** Time_AddSeconds as written, carrying into the as-written AddMinutes. */
  function AddSecondsAsWritten(t: TimeT, seconds: byte): (r: Result<TimeT, TimeError>)
    ensures r.Ok? ==> r.value.second < 60
  {
    var sum := t.second + seconds;
    var carry := sum / 60;
    var t' := t.(second := sum % 60);
    if carry > 0 then AddMinutesAsWritten(t', carry) else Ok(t')
  }

  /** Stepping past the end of a month lands on day 0 of the next, and
      stepping past November lands on month 0 of the next year. */
  lemma AddAsWrittenZeroBased()
    ensures AddDaysAsWritten(TimeT(18, 1, 30, 0, 0, 0), 1) == Ok(TimeT(18, 2, 0, 0, 0, 0))
    ensures AddHoursAsWritten(TimeT(18, 1, 30, 23, 0, 0), 1) == Ok(TimeT(18, 2, 0, 0, 0, 0))
    ensures AddSecondsAsWritten(TimeT(18, 1, 30, 23, 59, 59), 1) == Ok(TimeT(18, 2, 0, 0, 0, 0))
    ensures AddSeconds(TimeT(18, 1, 30, 23, 59, 59), 1) == Ok(TimeT(18, 1, 31, 0, 0, 0))
    ensures AddMonthsAsWritten(TimeT(18, 11, 1, 0, 0, 0), 1) == TimeT(19, 0, 1, 0, 0, 0)
    ensures AddDays(TimeT(18, 1, 30, 0, 0, 0), 1) == Ok(TimeT(18, 1, 31, 0, 0, 0))
    ensures AddMonths(TimeT(18, 11, 1, 0, 0, 0), 1) == Ok(TimeT(18, 12, 1, 0, 0, 0))
  {
  }

  /** Time_AddMonths with 1-based months; it asserts the month it indexes
      by is a real one. */
  function AddMonths(t: TimeT, months: byte): (r: Result<TimeT, TimeError>)
    ensures r.Ok? <==> 1 <= t.month <= 12
    ensures r.Ok? ==> 1 <= r.value.month <= 12 && r.value == t.(year := r.value.year, month := r.value.month)
  {
    if t.month < 1 || t.month > 12 then Err(AssertionFailed)
    else
      var index := t.month - 1 + months;
      var carry := index / 12;
      var t' := t.(month := index % 12 + 1);
      Ok(if carry > 0 then AddYears(t', carry) else t')
  }

  /** Time_AddDays with 1-based dates. */
  function AddDays(t: TimeT, days: byte): (r: Result<TimeT, TimeError>)
    ensures r.Ok? ==> 1 <= r.value.date <= 31 && 1 <= r.value.month <= 12
    ensures r.Ok? ==> r.value == t.(year := r.value.year, month := r.value.month, date := r.value.date)
  {
    var daysInMonth :- GetDaysInMonth(t);
    if t.date < 1 then Err(AssertionFailed)
    else
      var index := t.date - 1 + days;
      var carry := index / daysInMonth;
      var t' := t.(date := index % daysInMonth + 1);
      if carry >= 2 then Err(AssertionFailed)
      else if carry > 0 then AddMonths(t', carry)
      else Ok(t')
  }

  /** Time_AddHours, carrying into the corrected AddDays rather than
      Time.c's as-written one, so a carry across a month end differs from
      the source as the AddDaysAsWritten finding describes. */
  function AddHours(t: TimeT, hours: byte): (r: Result<TimeT, TimeError>)
    ensures r.Ok? ==> r.value.hour < 24 && r.value.minute == t.minute && r.value.second == t.second
  {
    var sum := t.hour + hours;
    var carry := sum / 24;
    var t' := t.(hour := sum % 24);
    if carry > 0 then AddDays(t', carry) else Ok(t')
  }

  /** Time_AddMinutes, carrying into the corrected AddDays rather than
      Time.c's as-written one, so a carry across a month end differs from
      the source as the AddDaysAsWritten finding describes. */
  function AddMinutes(t: TimeT, minutes: byte): (r: Result<TimeT, TimeError>)
    ensures r.Ok? ==> r.value.minute < 60 && r.value.second == t.second
  {
    var sum := t.minute + minutes;
    var carry := sum / 60;
    var t' := t.(minute := sum % 60);
    if carry > 0 then AddHours(t', carry) else Ok(t')
  }

  /** Time_AddSeconds, carrying into the corrected AddDays rather than
      Time.c's as-written one, so a carry across a month end differs from
      the source as the AddDaysAsWritten finding describes. */
  function AddSeconds(t: TimeT, seconds: byte): (r: Result<TimeT, TimeError>)
    ensures r.Ok? ==> r.value.second < 60
  {
    var sum := t.second + seconds;
    var carry := sum / 60;
    var t' := t.(second := sum % 60);
    if carry > 0 then AddMinutes(t', carry) else Ok(t')
  }

  /** Within one day the as-written and the corrected additions agree:
      they differ only once a carry reaches the date. */
  lemma AddSecondsAgreeWithinDay(t: TimeT, seconds: byte)
    requires t.hour < 24 && t.minute < 60 && t.second < 60
    requires t.hour * 3600 + t.minute * 60 + t.second + seconds < 86400
    ensures AddSecondsAsWritten(t, seconds) == AddSeconds(t, seconds)
    ensures AddSeconds(t, seconds).Ok?
  {
  }

  /** The last day of December ends the year. */
  lemma YearEnds(y: nat)
    ensures DaysBeforeYear(y + 1) == DaysBeforeYear(y) + DaysBeforeMonth(y, 12) + MonthLength(y, 12)
  {
    MonthsFillYear(y);
  }

  /** 2100-01-01 is `EndOfRange` days after the epoch. */
  lemma EndOfRangeIs2100()
    ensures DaysBeforeYear(100) == EndOfRange
  {
    DaysBeforeYearClosed(100);
  }

  /** Adding up to 28 days (all the month carry can absorb) to a valid
      time before the end of 2099 moves it that many days on the calendar
      and leaves the time of day alone. */
  lemma AddDaysAdvances(t: TimeT, n: byte)
    requires ValidTime(t) && n <= 28 && DaysSinceEpoch(t) + n < EndOfRange
    ensures AddDays(t, n).Ok?
    ensures var r := AddDays(t, n).value;
            ValidTime(r) && DaysSinceEpoch(r) == DaysSinceEpoch(t) + n
            && r.hour == t.hour && r.minute == t.minute && r.second == t.second
  {
    var dim := MonthLength(t.year, t.month);
    var index := t.date - 1 + n;
    if index < dim {
      Arith.ModUnique(index, dim, 0, index);
    } else if t.month < 12 {
      AddDaysIntoNextMonth(t, n);
    } else {
      AddDaysIntoNextYear(t, n);
    }
  }

  lemma AddDaysIntoNextMonth(t: TimeT, n: byte)
    requires ValidTime(t) && n <= 28 && t.month < 12
    requires t.date - 1 + n >= MonthLength(t.year, t.month)
    ensures AddDays(t, n).Ok?
    ensures var r := AddDays(t, n).value;
            ValidTime(r) && DaysSinceEpoch(r) == DaysSinceEpoch(t) + n && r == t.(month := t.month + 1, date := r.date)
  {
    var dim := MonthLength(t.year, t.month);
    var r := t.(month := t.month + 1, date := t.date - 1 + n - dim + 1);
    AddDaysWrapsMonth(t, n, r);
    assert DaysBeforeMonth(t.year, t.month + 1) == DaysBeforeMonth(t.year, t.month) + dim;
  }

  /** The carry out of a month before December moves to the next month. */
  lemma AddDaysWrapsMonth(t: TimeT, n: byte, r: TimeT)
    requires ValidTime(t) && n <= 28 && t.month < 12
    requires t.date - 1 + n >= MonthLength(t.year, t.month)
    requires r == t.(month := t.month + 1, date := t.date - 1 + n - MonthLength(t.year, t.month) + 1)
    ensures AddDays(t, n) == Ok(r)
  {
    var dim := MonthLength(t.year, t.month);
    var index := t.date - 1 + n;
    Arith.ModUnique(index, dim, 1, index - dim);
    assert AddDays(t, n) == AddMonths(t.(date := index - dim + 1), 1);
  }

  lemma AddDaysIntoNextYear(t: TimeT, n: byte)
    requires ValidTime(t) && n <= 28 && t.month == 12 && DaysSinceEpoch(t) + n < EndOfRange
    requires t.date - 1 + n >= MonthLength(t.year, t.month)
    ensures AddDays(t, n).Ok?
    ensures var r := AddDays(t, n).value;
            ValidTime(r) && DaysSinceEpoch(r) == DaysSinceEpoch(t) + n && r == t.(year := t.year + 1, month := 1, date := r.date)
  {
    var dim := MonthLength(t.year, t.month);
    var index := t.date - 1 + n;
    YearEnds(t.year);
    EndOfRangeIs2100();
    assert t.year < 99;
    var r := t.(year := t.year + 1, month := 1, date := index - dim + 1);
    AddDaysWrapsYear(t, n, r);
    assert DaysSinceEpoch(r) == DaysSinceEpoch(t) + n;
  }

  /** The carry out of December moves to January of the next year. */
  lemma AddDaysWrapsYear(t: TimeT, n: byte, r: TimeT)
    requires ValidTime(t) && n <= 28 && t.month == 12 && t.year < 99
    requires t.date - 1 + n >= MonthLength(t.year, t.month)
    requires r == t.(year := t.year + 1, month := 1, date := t.date - 1 + n - MonthLength(t.year, t.month) + 1)
    ensures AddDays(t, n) == Ok(r)
  {
    var dim := MonthLength(t.year, t.month);
    var index := t.date - 1 + n;
    Arith.ModUnique(index, dim, 1, index - dim);
    assert AddDays(t, n) == AddMonths(t.(date := index - dim + 1), 1);
  }

  /** The first second after the representable range. */
  function EndOfRangeSeconds(): nat {
    EndOfRange * OneDay
  }

  /** Adding hours to a valid time that stays before 2100 moves its
      timestamp by that many hours. */
  lemma AddHoursAdvances(t: TimeT, n: byte)
    requires ValidTime(t) && SecondsSinceEpoch(t) + n * OneHour < EndOfRangeSeconds()
    ensures AddHours(t, n).Ok?
    ensures var r := AddHours(t, n).value;
            ValidTime(r) && SecondsSinceEpoch(r) == SecondsSinceEpoch(t) + n * OneHour
  {
    var sum := t.hour + n;
    var t', carry := t.(hour := sum % 24), sum / 24;
    HoursCarry(t, n, t', carry);
    if carry > 0 {
      AddDaysAdvances(t', carry);
    }
  }

  /** Adding minutes moves the timestamp by that many minutes. */
  lemma AddMinutesAdvances(t: TimeT, n: byte)
    requires ValidTime(t) && SecondsSinceEpoch(t) + n * OneMinute < EndOfRangeSeconds()
    ensures AddMinutes(t, n).Ok?
    ensures var r := AddMinutes(t, n).value;
            ValidTime(r) && SecondsSinceEpoch(r) == SecondsSinceEpoch(t) + n * OneMinute
  {
    var sum := t.minute + n;
    var t', carry := t.(minute := sum % 60), sum / 60;
    MinutesCarry(t, n, t', carry);
    if carry > 0 {
      AddHoursAdvances(t', carry);
    }
  }

  /** Adding seconds moves the timestamp by that many seconds. */
  lemma AddSecondsAdvances(t: TimeT, n: byte)
    requires ValidTime(t) && SecondsSinceEpoch(t) + n < EndOfRangeSeconds()
    ensures AddSeconds(t, n).Ok?
    ensures var r := AddSeconds(t, n).value;
            ValidTime(r) && SecondsSinceEpoch(r) == SecondsSinceEpoch(t) + n
  {
    var sum := t.second + n;
    var t', carry := t.(second := sum % 60), sum / 60;
    SecondsCarry(t, n, t', carry);
    if carry > 0 {
      AddMinutesAdvances(t', carry);
    }
  }

  /** Keeping the hour below 24 and carrying whole days leaves the
      timestamp where the added hours put it. */
  lemma HoursCarry(t: TimeT, n: byte, t': TimeT, carry: byte)
    requires ValidTime(t) && t' == t.(hour := (t.hour + n) % 24) && carry == (t.hour + n) / 24
    ensures ValidTime(t') && SecondsSinceEpoch(t) + n * OneHour == SecondsSinceEpoch(t') + carry * OneDay
    ensures AddHours(t, n) == if carry > 0 then AddDays(t', carry) else Ok(t')
  {
    assert DaysSinceEpoch(t') == DaysSinceEpoch(t);
    assert t.hour + n == carry * 24 + t'.hour;
  }

  /** The same for minutes carried into hours. */
  lemma MinutesCarry(t: TimeT, n: byte, t': TimeT, carry: byte)
    requires ValidTime(t) && t' == t.(minute := (t.minute + n) % 60) && carry == (t.minute + n) / 60
    ensures ValidTime(t') && SecondsSinceEpoch(t) + n * OneMinute == SecondsSinceEpoch(t') + carry * OneHour
    ensures AddMinutes(t, n) == if carry > 0 then AddHours(t', carry) else Ok(t')
  {
    assert DaysSinceEpoch(t') == DaysSinceEpoch(t);
    assert t.minute + n == carry * 60 + t'.minute;
  }

  /** The same for seconds carried into minutes. */
  lemma SecondsCarry(t: TimeT, n: byte, t': TimeT, carry: byte)
    requires ValidTime(t) && t' == t.(second := (t.second + n) % 60) && carry == (t.second + n) / 60
    ensures ValidTime(t') && SecondsSinceEpoch(t) + n == SecondsSinceEpoch(t') + carry * OneMinute
    ensures AddSeconds(t, n) == if carry > 0 then AddMinutes(t', carry) else Ok(t')
  {
    assert DaysSinceEpoch(t') == DaysSinceEpoch(t);
    assert t.second + n == carry * 60 + t'.second;
  }

  /** The months since January 2000. */
  function MonthIndex(t: TimeT): int {
    t.year * 12 + t.month - 1
  }

  /** Adding months steps the month index, until the year clamps at 2099,
      which keeps the month the step lands on. */
  lemma AddMonthsAdvances(t: TimeT, n: byte)
    requires t.year <= 99 && 1 <= t.month <= 12
    ensures AddMonths(t, n).Ok?
    ensures MonthIndex(t) + n < 1200 ==> MonthIndex(AddMonths(t, n).value) == MonthIndex(t) + n
    ensures MonthIndex(t) + n >= 1200 ==>
      AddMonths(t, n).value.year == 99 && MonthIndex(AddMonths(t, n).value) % 12 == (MonthIndex(t) + n) % 12
  {
  }

  // ---------------------------------------------------------------------
  // Day of the week and daylight saving time

  /** The month offsets of Sakamoto's day-of-week method. */
  const SakamotoOffsets: seq<nat> := [0, 3, 2, 5, 0, 3, 5, 1, 4, 6, 2, 4]

  /** Time_CalculateDayOfWeek: 0 is Sunday. The month indexes the offset
      table unchecked, so a month outside 1 to 12 reads out of bounds. */
  function CalculateDayOfWeek(t: TimeT): (r: Result<nat, TimeError>)
    ensures r.Ok? <==> 1 <= t.month <= 12
    ensures r.Ok? ==> r.value < DaysInWeek
  {
    if t.month < 1 || t.month > 12 then Err(OutOfBoundsRead)
    else
      var year := t.year + 2000 - (if t.month < March then 1 else 0);
      var adjustment := year / 4 - year / 100 + year / 400;
      Ok((year + adjustment + SakamotoOffsets[t.month - 1] + t.date) % DaysInWeek)
  }

  /** Each month's offset is its cumulative day count moved to the
      Saturday epoch; January and February count from the year before. */
  lemma SakamotoOffsetsMatch(m: nat)
    requires 1 <= m <= 12
    ensures (CumulativeDays[m - 1] + (if m < March then 0 else 6) - SakamotoOffsets[m - 1]) % 7 == 0
  {
  }

  /** The leap-year corrections of Sakamoto's method for the years of
      the representable range, counting January and February with the
      year before. */
  lemma SakamotoLeapTerm(y: int, year: int)
    requires 0 <= y <= 99 && (year == 2000 + y || year == 1999 + y)
    ensures year == 2000 + y ==> year / 4 - year / 100 + year / 400 == 485 + y / 4
    ensures year == 1999 + y ==> year / 4 - year / 100 + year / 400 == 484 + (y + 3) / 4
  {
    if year >= 2000 {
      assert year / 400 == 5 && year / 100 == 20;
    } else {
      assert year / 400 == 4 && year / 100 == 19;
    }
    if year == 2000 + y {
      assert year / 4 == 500 + y / 4;
    } else {
      assert year / 4 == 499 + (y + 3) / 4;
    }
  }

  /** Counting from March, the leap day of the current year joins the
      ones before it. */
  lemma LeapDayCount(y: int)
    requires 0 <= y
    ensures (y + 3) / 4 + (if y % 4 == 0 then 1 else 0) == y / 4 + 1
  {
  }

  lemma DaysSinceEpochClosed(t: TimeT)
    requires ValidTime(t)
    ensures DaysSinceEpoch(t) == 365 * t.year + (t.year + 3) / 4 + CumulativeDays[t.month - 1]
                                 + (if t.month > February && t.year % 4 == 0 then 1 else 0) + t.date - 1
  {
    DaysBeforeYearClosed(t.year);
    DaysBeforeMonthClosed(t.year, t.month);
    assert GregorianLeap(2000 + t.year) <==> IsLeapYear(t);
  }

  /** The day of the week counts days from the epoch, 2000-01-01 being a
      Saturday. */
  lemma DayOfWeekCorrect(t: TimeT)
    requires ValidTime(t)
    ensures CalculateDayOfWeek(t) == Ok((DaysSinceEpoch(t) + 6) % DaysInWeek)
  {
    var y: int := t.year;
    var cum: int := CumulativeDays[t.month - 1];
    var offset: int := SakamotoOffsets[t.month - 1];
    var year := t.year + 2000 - (if t.month < March then 1 else 0);
    var term := year / 4 - year / 100 + year / 400;
    var sum := year + term + offset + t.date;
    var days := DaysSinceEpoch(t);
    assert CalculateDayOfWeek(t) == Ok(sum % DaysInWeek);
    DaysSinceEpochClosed(t);
    SakamotoLeapTerm(y, year);
    SakamotoOffsetsMatch(t.month);
    var shift := if t.month < March then cum - offset else cum + 6 - offset;
    var k := shift / 7;
    assert shift == 7 * k;
    var q := 52 * y + k - if t.month < March then 354 else 355;
    if t.month >= March {
      LeapDayCount(y);
    }
    assert days + 6 == sum + q * 7;
    Arith.ModShift(sum, q, 7);
  }

  /** The part of Sakamoto's sum that does not depend on the date. */
  function WeekdayBase(t: TimeT): int
    requires 1 <= t.month <= 12
  {
    var year := t.year + 2000 - (if t.month < March then 1 else 0);
    year + (year / 4 - year / 100 + year / 400) + SakamotoOffsets[t.month - 1]
  }

  lemma DayOfWeekOfDate(t: TimeT, d: byte)
    requires 1 <= t.month <= 12
    ensures CalculateDayOfWeek(t.(date := d)) == Ok((WeekdayBase(t) + d) % DaysInWeek)
  {
  }

  /** The loop of Time_IsDaylightSavingActive that moves a Sunday forward
      a week at a time while the next one is still before the 31st. */
  function AdvanceWeeks(sunday: int): (r: int)
    requires sunday < DaysInMarchOctober
    decreases DaysInMarchOctober - sunday
  {
    if sunday + DaysInWeek < DaysInMarchOctober then AdvanceWeeks(sunday + DaysInWeek) else sunday
  }

  /** The loop ends on the one day from the 24th to the 30th that is a
      whole number of weeks on from where it started. */
  lemma {:induction false} AdvanceWeeksClosed(sunday: int)
    requires sunday < DaysInMarchOctober
    ensures AdvanceWeeks(sunday) == sunday + DaysInWeek * ((30 - sunday) / DaysInWeek)
    ensures 24 <= AdvanceWeeks(sunday) <= 30
    decreases DaysInMarchOctober - sunday
  {
    if sunday + DaysInWeek < DaysInMarchOctober {
      AdvanceWeeksClosed(sunday + DaysInWeek);
    }
  }

  /** The Sunday Time_IsDaylightSavingActive compares the date with, in
      March and October: the next Sunday after the date (a week on when
      the date is a Sunday), moved into the days 24 to 30 or, from the
      31st or later, a week back. */
  function ComparisonSunday(date: byte, dayOfWeek: nat): int
    requires dayOfWeek < DaysInWeek
  {
    var next := (date + (DaysInWeek - dayOfWeek)) % 0x100;
    if next < DaysInMarchOctober then AdvanceWeeks(next) else (next - DaysInWeek) % 0x100
  }

  /** Time_IsDaylightSavingActive as written: the months from April to
      September are summer time, November to February winter time, and in
      March and October the date is compared with `ComparisonSunday`. */
  function IsDaylightSavingActiveAsWritten(t: TimeT): (r: bool)
    ensures March < t.month < October ==> r
    ensures t.month < March || t.month > October ==> !r
  {
    if March < t.month < October then true
    else if t.month < March || t.month > October then false
    else
      var sunday := ComparisonSunday(t.date, CalculateDayOfWeek(t).value);
      (t.month == March && t.date > sunday) || (t.month == October && t.date < sunday)
  }

  /** The last Sunday of a 31-day month: the 31st less its day of the
      week. */
  function LastSunday(t: TimeT): (r: int)
    requires 1 <= t.month <= 12
    ensures 25 <= r <= 31
  {
    31 - CalculateDayOfWeek(t.(date := 31)).value
  }

  /** Summer time runs from the last Sunday of March to the day before the
      last Sunday of October, by date. */
  function IsDaylightSavingActive(t: TimeT): (r: bool)
    ensures March < t.month < October ==> r
    ensures t.month < March || t.month > October ==> !r
  {
    if March < t.month < October then true
    else if t.month < March || t.month > October then false
    else
      var last := LastSunday(t);
      (t.month == March && t.date >= last) || (t.month == October && t.date < last)
  }

  /** Week arithmetic behind `LastSunday`, for any value `base` of the
      date-independent part of the day-of-week sum. */
  lemma LastSundayArith(base: int)
    ensures var last := 31 - (base + 31) % DaysInWeek;
            (base + last) % DaysInWeek == 0 && 25 <= last <= 31
  {
    var q := (base + 31) / DaysInWeek;
    assert base + 31 - (base + 31) % DaysInWeek == q * DaysInWeek;
    Arith.ModUnique(q * DaysInWeek, DaysInWeek, q, 0);
  }

  /** Week arithmetic behind `ComparisonSunday`: stepping from `date` to
      the next Sunday and then into the last week lands on the last Sunday
      of the month, except that a last Sunday on the 31st is only reached
      from the 31st itself. */
  lemma ComparisonSundayArith(base: int, date: byte)
    requires 1 <= date <= 31
    ensures var last := 31 - (base + 31) % DaysInWeek;
            ComparisonSunday(date, (base + date) % DaysInWeek) == if last == 31 && date < 31 then 24 else last
  {
    var last := 31 - (base + 31) % DaysInWeek;
    var next := date + (DaysInWeek - (base + date) % DaysInWeek);
    var q1, q2 := (base + date) / DaysInWeek, (base + 31) / DaysInWeek;
    assert next - last == (1 + q1 - q2) * DaysInWeek;
    assert (date + (DaysInWeek - (base + date) % DaysInWeek)) % 0x100 == next;
    if next < DaysInMarchOctober {
      LoopLandsOnLast(next, last, 1 + q1 - q2);
    }
  }

  /** Started on a day a whole number of weeks from `last`, the loop of
      ComparisonSunday stops on `last`, or a week earlier when `last` is
      the 31st. */
  lemma LoopLandsOnLast(next: int, last: int, k: int)
    requires 1 <= next < DaysInMarchOctober && 25 <= last <= 31 && next - last == k * DaysInWeek
    ensures AdvanceWeeks(next) == if last == 31 then 24 else last
  {
    AdvanceWeeksClosed(next);
    var r := AdvanceWeeks(next);
    assert r - last == (k + (30 - next) / DaysInWeek) * DaysInWeek;
  }

  /** `LastSunday` is a Sunday, and the last one of its month: a week
      later is past the 31st. */
  lemma LastSundayIsLast(t: TimeT)
    requires 1 <= t.month <= 12
    ensures CalculateDayOfWeek(t.(date := LastSunday(t) as byte)) == Ok(0)
    ensures LastSunday(t) + DaysInWeek > 31
  {
    var base := WeekdayBase(t);
    DayOfWeekOfDate(t, 31);
    DayOfWeekOfDate(t, LastSunday(t) as byte);
    LastSundayArith(base);
  }

  /** Where the as-written test goes wrong, for a valid date in March or
      October: the last Sunday of March itself, and, when the 31st is a
      Sunday, the Sunday a week before it is taken for the last one. */
  lemma DaylightSavingAsWrittenDiffers(t: TimeT)
    requires ValidTime(t) && (t.month == March || t.month == October)
    ensures var last := LastSunday(t);
            IsDaylightSavingActiveAsWritten(t) != IsDaylightSavingActive(t) <==>
              (t.month == March && (t.date == last || (last == 31 && 25 <= t.date <= 30)))
              || (t.month == October && last == 31 && 24 <= t.date <= 30)
  {
    ComparisonSundayIs(t);
  }

  lemma ComparisonSundayIs(t: TimeT)
    requires ValidTime(t) && (t.month == March || t.month == October)
    ensures ComparisonSunday(t.date, CalculateDayOfWeek(t).value) == if LastSunday(t) == 31 && t.date < 31 then 24 else LastSunday(t)
  {
    var base := WeekdayBase(t);
    DayOfWeekOfDate(t, 31);
    DayOfWeekOfDate(t, t.date);
    assert t.(date := t.date) == t;
    ComparisonSundayArith(base, t.date);
  }

  /** The 2018 dates the firmware's own tests check, plus one case of
      2024. 2018-03-25 is the last Sunday of March and already summer
      time, which the as-written test misses. In 2024 the 31st of March is
      a Sunday, so the 30th is still winter time, although the as-written
      test already reports summer time. */
  lemma DaylightSavingExamples()
    ensures !IsDaylightSavingActiveAsWritten(TimeT(18, 3, 25, 0, 0, 0)) && IsDaylightSavingActive(TimeT(18, 3, 25, 0, 0, 0))
    ensures !IsDaylightSavingActive(TimeT(18, 3, 24, 0, 0, 0))
    ensures IsDaylightSavingActive(TimeT(18, 10, 27, 0, 0, 0)) && !IsDaylightSavingActive(TimeT(18, 10, 28, 0, 0, 0))
    ensures IsDaylightSavingActiveAsWritten(TimeT(24, 3, 30, 0, 0, 0)) && !IsDaylightSavingActive(TimeT(24, 3, 30, 0, 0, 0))
  {
    assert CalculateDayOfWeek(TimeT(18, 3, 31, 0, 0, 0)) == Ok(6);
    assert CalculateDayOfWeek(TimeT(18, 3, 25, 0, 0, 0)) == Ok(0);
    assert CalculateDayOfWeek(TimeT(18, 10, 31, 0, 0, 0)) == Ok(3);
    assert CalculateDayOfWeek(TimeT(24, 3, 31, 0, 0, 0)) == Ok(0);
    assert CalculateDayOfWeek(TimeT(24, 3, 30, 0, 0, 0)) == Ok(6);
  }
}

=== FILE: timer.dfy ===
/** Elapsed-time arithmetic on the free-running millisecond counter
    (Timer.c). The counter is 32 bits wide and wraps; reading it is I/O,
    so the current count is a parameter here. */
module Timer {
  import opened Bytes

  /** TIMERMAX. */
  const TimerMax: u32 := 0xFFFF_FFFF
  const MillisecondsPerSecond: nat := 1000

  /** The true elapsed time on a wrapping 32-bit counter: the difference
      taken modulo 2^32. */
  function Elapsed(start: u32, now: u32): u32 {
    (now - start) % U32Limit
  }

  /** Timer_TimeDifference as written: when the counter has wrapped since
      `timeMs` it counts from `timeMs` up to TIMERMAX and then on to `now`,
      which misses the step from TIMERMAX to 0. */
  function TimeDifferenceAsWritten(timeMs: u32, now: u32): (r: u32)
    ensures timeMs <= now ==> r == Elapsed(timeMs, now)
    ensures timeMs > now ==> r + 1 == Elapsed(timeMs, now)
  {
    if timeMs > now then (TimerMax - timeMs) + now else now - timeMs
  }

  /** Timer_TimeDifference with the wrapped case counting the step to 0:
      plain 32-bit subtraction. */
  function TimeDifference(timeMs: u32, now: u32): (r: u32)
    ensures timeMs <= now ==> r == now - timeMs
    ensures timeMs > now ==> r == U32Limit - timeMs + now
  {
    (now - timeMs) % U32Limit
  }

  /** Whatever the counter read at the start, `TimeDifference` gives back
      any elapsed time below 2^32 ms, across a wrap or not. */
  lemma TimeDifferenceMeasures(start: u32, elapsed: u32)
    ensures TimeDifference(start, (start + elapsed) % U32Limit) == elapsed
  {
  }

  /** One millisecond across the wrap reads as none, as written. */
  lemma TimeDifferenceAsWrittenMissesWrap()
    ensures TimeDifferenceAsWritten(TimerMax, 0) == 0 && TimeDifference(TimerMax, 0) == 1
    ensures TimeDifferenceAsWritten(5, 5) == 0
  {
  }

  /** Timer_GetSeconds: milliseconds rounded half up to seconds. The
      addition is 32-bit, so in the last 500 ms before the counter wraps
      it wraps first and the result is 0. */
  function GetSeconds(milliseconds: u32): (r: u32)
    ensures milliseconds + 500 < U32Limit ==>
      r * MillisecondsPerSecond <= milliseconds + 500 < (r + 1) * MillisecondsPerSecond
    ensures milliseconds + 500 >= U32Limit ==> r == 0
  {
    ((milliseconds + 500) % U32Limit) / MillisecondsPerSecond
  }

  /** The rounding is to the nearest second, a half rounding up. */
  lemma GetSecondsNearest(milliseconds: u32)
    requires milliseconds + 500 < U32Limit
    ensures -500 <= milliseconds - GetSeconds(milliseconds) * MillisecondsPerSecond < 500
  {
  }
}

=== FILE: wrappers.dfy ===
/** Failure-carrying result types used by every module that models an
    operation which can raise, assert or return an error status. */
module Wrappers {

  /** A value or nothing. */
  datatype Option<+T> = None | Some(value: T)

  /** A value or an error. */
  datatype Result<+T, +E> = Ok(value: T) | Err(error: E) {
    predicate IsFailure() {
      Err?
    }

    function PropagateFailure<U>(): Result<U, E>
      requires Err?
    {
      Err(error)
    }

    function Extract(): T
      requires Ok?
    {
      value
    }
  }
}
